=== FILE: README.md ===
# dfs3 node: a Dafny model of the server side

dfs3 is a distributed file system. Each node has an Ed25519 identity. The
node's private key is protected by a passphrase. Nodes announce themselves
and their activity as signed events. An event is posted to an IOTA ledger
as hex-framed TaggedData, and other nodes are told of the block id over
MQTT.

Users log in with a challenge/response over HTTP:
- the node hands out a random challenge;
- the user signs it with their Ed25519 key;
- the node answers with a session token.

Encrypted files are uploaded with JSON metadata. The node checks that the
file id is the SHA-256 of the uploaded bytes.

This project models that server side as pure functions over immutable data:

- **Identity** (`Crypto`, `Nodes`):
  - Argon2id key derivation, the SecretBox-sealed signing key, and the node
    id as the SHA-256 hex of the public key;
  - the load and create paths of the node configuration and the tag prompt.
- **Signed events** (`Json*`, `Events`, `Iota`, `EventHandler`, `Listener`):
  - a JSON value type with a parser and a serialiser that follow Python's
    `json`, and the canonical text that is signed;
  - the two event builders and the publish step;
  - hex framing on the ledger;
  - the notification validator, the event validator and the dispatcher;
  - the `events` table that the dispatcher's rows go to, and the tables
    `create_db` makes (`DbInit`).
- **Login and sessions** (`Auth`, `Users`, `AuthRoutes`):
  - the challenge and session caches, and the user table with its
    read-through cache;
  - the three `/auth` routes as a state machine whose answers are HTTP
    statuses.
- **Request schemas and upload** (`Schema`, `Requests`, `FileRequests`,
  `Records`, `Validators`, `FileRoutes`):
  - pydantic (version 1) field coercion and `extra = "forbid"`;
  - every request and record model;
  - the upload acceptance rule.
- **Converters** (`Time`, `Db`): `iso_to_epoch` for texts with an offset,
  and `row_to_dict`.
- **Library behaviour the above depends on**:
  - `Base64`: standard and strict decoding;
  - `Bytes`: hex and UTF-8;
  - `Python`: `strip`, `split`, `join` and `int()`;
  - `Regex`: `re.match` of the anchored patterns.

The cryptographic primitives are function values in a `Crypto.Suite`. The
suite's type carries only the laws the code relies on:
- opening a box under the key that sealed it gives the plaintext back;
- a signature made with a seed verifies under that seed's public key;
- signing is deterministic;
- a digest is 32 bytes.

Randomness (salts, nonces, challenge and token bytes), the clock, the host
probes and the ledger's HTTP answers are explicit parameters.

Several modules import names that the module they import from does not
define. As written, the importing modules raise ImportError when loaded;
the model treats the names as if they existed:
- the `RE_*` patterns other than RE_USER_ID and RE_ALIAS, ALLOWED_MIMETYPES
  and MAX_FILE_SIZE, which core/constants.py does not define;
- `build_user_registered_event`, `build_user_joined_node_event` and
  `build_file_created_event`, which core/events.py does not define;
- `epoch_now`, imported by core/auth.py, which utils/time.py does not define;
- META_DIR and STORAGE_DIR, imported by api/routes/files.py, and META_DIR and
  USERS_DIR, imported by core/files.py, none of which config/settings.py
  defines;
- FileEntry and UploadFileResponse, imported by api/routes/files.py, and
  FileEntry, imported by core/files.py, which api/models/files.py does not
  define.

core/event_handler.py imports core/files.py, so it fails to load as well.

The undefined constants are the fields of `Schema.Env`. The undefined
builders are `build` parameters of the routes. The storage directory is the
`Storage` map, and the `UploadFileResponse(status="stored")` answer is the
JSON object `{"status": "stored"}` (`FileRoutes.STORED`). The clock is the `now`
parameter.

## Model

| member | source | states |
|---|---|---|
| Constants.ValidEventTypes | core/constants.py:47-80 | there are exactly eleven valid event types, and the names the source has commented out are not among them |
| Constants.Sha256HexMatch | core/constants.py:87 | SHA256_HEX_PATTERN under `re.match` accepts exactly "0x" plus 64 hex digits of either case, optionally followed by one "\n" |
| Constants.Sha256HexTrailingNewline | core/constants.py:87 | "0x", 64 digits and one newline is accepted; with two newlines it is refused |
| Constants.UserIdMatch | core/constants.py:90 | RE_USER_ID accepts exactly 64 lowercase hex digits with no prefix, optionally followed by one "\n" |
| Constants.HexDigestIsUserId | core/constants.py:90 | the hex form of any 32-byte digest is a valid user id |
| Constants.AliasMatch | core/constants.py:91 | RE_ALIAS accepts exactly 3 to 20 characters from a-z, 0-9, "_" and "-", optionally followed by one "\n" |
| Validators.ValidateBase64 | core/validators.py:37-47 | succeeds exactly on strict base64 and then returns its input unchanged; any failure is a ValueError whose message names the field |
| Validators.ValidateEncoded | core/validators.py:42 | the standard encoding of every byte string is accepted |
| Validators.ValidateEmpty | core/validators.py:42 | the empty string is accepted |
| Validators.ValidateRejectsForeign | core/validators.py:42-45 | a character outside the alphabet and "=" is refused wherever it stands |
| Validators.ValidateRejectsUnpadded | core/validators.py:42 | "abc" is refused and "abc=" accepted: a final group needs its padding |
| Validators.ValidateRejectsExtraPadding | core/validators.py:42 | more padding than needed is refused |
| Base64.DecodeStrictEncode | core/validators.py:42 | strict decoding undoes standard encoding |
| Base64.LenientAgreesOnStrict | utils/crypto.py:63-64 | the non-validating `b64decode` gives the same bytes as strict decoding on every strict input |
| Base64.DecodeLenientEncode | utils/crypto.py:63-64 | the non-validating decoding undoes standard encoding |
| Base64.ScanStrict | core/validators.py:42 | the binascii strict-mode loop succeeds exactly on strict base64 and then gives the decoded bytes |
| Base64.ScanPadding | core/validators.py:42 | from the first "=" on, the loop succeeds exactly when the whole text is strict base64, and then gives the decoded bytes |
| Bytes.FromHexToHex | iota/client.py:45-84 | `bytes.fromhex` undoes `.hex()` |
| Bytes.OddHexFails | iota/client.py:84 | an odd number of hex digits cannot be decoded |
| Bytes.Utf8RoundTrip | iota/client.py:45-85 | UTF-8 decoding undoes UTF-8 encoding |
| JsonRoundTrip.LoadsDumps | iota/client.py:45-87 | `json.loads` of `json.dumps` gives the value back, or its key-sorted normal form when `sort_keys` is set |
| JsonRoundTrip.LoadsCanon | utils/crypto.py:96 | the canonical signed text reads back as the normal form of the event |
| JsonRoundTrip.CanonInjective | utils/crypto.py:96 | two values have the same canonical text exactly when they have the same normal form |
| JsonRoundTrip.CanonIgnoresOrder | utils/crypto.py:96 | the canonical text of a dict does not depend on the order in which its keys were inserted |
| JsonOrder.SortedUnique | utils/crypto.py:96 | two strictly sorted member lists with the same members are equal, so `sort_keys` has one result |
| JsonRead.Loads | mqtt/listener.py:133 | every parsed value is well formed (string keys, no duplicate keys), and a leading byte-order mark is a JSONDecodeError |
| JsonWrite.Canon | utils/crypto.py:96 | the canonical text is pure ASCII, as `ensure_ascii` makes it |
| Crypto.Kdf | utils/crypto.py:66-72 | the derivation succeeds exactly for a 16-byte salt and gives a 32-byte key |
| Crypto.BoxDecrypt | utils/crypto.py:74-76 | input shorter than the nonce is a ValueError; a failed authentication check is a CryptoError |
| Crypto.BoxRoundTrip | utils/crypto.py:74-76 | a box opens under the key that sealed it and gives the plaintext back |
| Crypto.DecryptPrivateKey | utils/crypto.py:45-76 | the only failures are KeyError, TypeError, ValueError and CryptoError |
| Crypto.DecryptReadsOnly | utils/crypto.py:60-72 | the result depends on `keys.salt_encryption` and `keys.private_key_encrypted` only, never on `salt_private_key` |
| Crypto.DecryptRejects | utils/crypto.py:56-76 | when the box does not open under the derived key (a wrong passphrase or corrupted ciphertext) the result is a CryptoError, never bytes |
| Crypto.OpenSealedRoundTrip | utils/crypto.py:60-76 | opening what was sealed under the same passphrase and salt gives the plaintext |
| Crypto.SignEvent | utils/crypto.py:79-99 | succeeds exactly for a 32-byte seed; the base64 text decodes to the Ed25519 signature of the UTF-8 canonical JSON |
| Crypto.VerifySignature | utils/crypto.py:102-110 | a bool in every case; true exactly when both texts decode, the key has 32 bytes, the signature 64, and the Ed25519 check accepts the signature over the UTF-8 bytes of the text |
| Crypto.SignThenVerify | utils/crypto.py:96-110 | a `sign_event` signature verifies under the seed's base64 public key against the event's canonical text |
| Crypto.SignIgnoresOrder | utils/crypto.py:95-99 | the signature of a dict does not depend on key insertion order |
| Crypto.SignNormal | utils/crypto.py:95-99 | events with the same normal form have the same signature |
| Crypto.HexDigest | core/nodes.py:80 | a SHA-256 hex digest is 64 lowercase hex characters |
| Nodes.DeriveKey | core/nodes.py:54-68 | gives a 32-byte key together with the salt it was derived from, and re-deriving from that salt gives the key again |
| Nodes.GenerateNodeIdentity | core/nodes.py:71-103 | the returned key is a 32-byte seed and is the Argon2id output for `salt_private_key` |
| Nodes.GeneratedFields | core/nodes.py:77-101 | node_id is the SHA-256 hex of the raw public key; `keys` records the base64 public key, both salts and the sealed key; alias and port are as given |
| Nodes.GeneratedKeyDecrypts | core/nodes.py:83-103 | `decrypt_private_key` on a generated config with the same passphrase gives exactly the returned private key |
| Nodes.GeneratedRederives | core/nodes.py:76-98 | the seed can be re-derived from the passphrase and the recorded salt; the recorded public key decodes to the seed's key; "0x" plus the node id matches SHA256_HEX_PATTERN |
| Nodes.ParseTags | core/nodes.py:143-144 | the parsed tags are non-empty, trimmed and free of commas |
| Nodes.ParseJoinedTags | core/nodes.py:144 | tags joined with commas are parsed back unchanged, in order |
| Nodes.ParseTagsBlank | core/nodes.py:143-144 | blank input gives no tags |
| Nodes.LoadNodeAsWritten | core/nodes.py:115-127 | the load path as written: it succeeds exactly when decryption does, and otherwise fails with an UnboundLocalError |
| Nodes.LoadNode | core/nodes.py:115-127 | the corrected load path: the loaded config, not new, or the decryption error itself |
| Nodes.WrongPassphraseOnLoad | core/nodes.py:121-127 | a wrong passphrase surfaces as UnboundLocalError as written and as CryptoError when corrected |
| Nodes.InitOrLoadNode | core/nodes.py:106-152 | without a stored config a new identity with a 32-byte key is made and reported as new; with one, the corrected load path decides, which agrees with the code as written whenever decryption succeeds |
| Nodes.InitThenLoad | core/nodes.py:106-152 | loading a created config with the same passphrase gives back the same private key |
| Nodes.GetNodePublicKey | core/nodes.py:267-289 | None exactly for an unknown node id, otherwise the stored key |
| Events.AttachSignature | core/events.py:104-105 | removing "signature" gives back exactly the dict that was signed, the key is appended last, and the value is the signature of that dict |
| Events.SignedEventVerifies | core/events.py:96-105 | a built event without its signature is the envelope, and its canonical text verifies under the node's public key |
| Events.SignedFields | core/events.py:96-102 | the signed event carries the given type, timestamp, node id, PROTOCOL and payload |
| Events.BuildNodeRegistered | core/events.py:74-108 | needs a 32-byte key and a configured node id; the event has the envelope keys and then "signature" |
| Events.BuildNodeStatus | core/events.py:111-138 | the same for the status event |
| Events.RegisteredEventFields | core/events.py:96-102 | the registration event has type node_registered, the configured node id, PROTOCOL and its payload |
| Events.StatusEventFields | core/events.py:126-132 | the status event has type node_status, the configured node id, PROTOCOL and its payload |
| Events.RegisteredPayload | core/events.py:82-94 | a non-dict config is an AttributeError; the payload has exactly the eleven keys in order |
| Events.RegisteredPayloadFields | core/events.py:83-92 | alias comes from the config or is "unnamed-node"; public_key is the config's `keys.public_key`; port is `int` of the configured or default port |
| Events.RegisteredAliasDefault | core/events.py:83 | without an alias in the config the payload says "unnamed-node" |
| Events.StatusPayload | core/events.py:119-124 | the status payload has exactly ip, port, uptime and total_space |
| Events.PortOfText | core/events.py:92 | a port given as decimal text converts back to the number |
| Events.PublishEvent | core/events.py:51-71 | nothing is posted without an event type; the posted block is the hex-framed event; a notification is sent only after the ledger accepts with 201 or 202 |
| Events.PublishNotifies | core/events.py:62-68 | once the ledger accepts, a notification is sent that reads back as the block id and the event's type, timestamp and node id |
| Iota.HexText | iota/client.py:44-45 | "0x" followed by lowercase hex |
| Iota.PublishBlock | iota/client.py:47-54 | the block has protocolVersion and payload, in that order |
| Iota.PublishResult | iota/client.py:58-64 | any status other than 201 or 202 is a RuntimeError; a success is the body's blockId |
| Iota.FetchEvent | iota/client.py:67-90 | any status other than 200 is a RuntimeError; a fetched event is well formed |
| Iota.DecodeData | iota/client.py:82-90 | a decoding failure is a RuntimeError; a non-string data field fails |
| Iota.DecodePublishedData | iota/client.py:45-87 | the data written for an event decodes back to it, with or without the "0x" prefix |
| Iota.FetchPublished | iota/client.py:40-90 | fetching the block that publishing posted gives back the event |
| Iota.FetchRejectsOtherPayloads | iota/client.py:79-80 | a payload whose type is not 5 is refused with a RuntimeError |
| Iota.OddHexData | iota/client.py:82-90 | odd-length hex data surfaces as a RuntimeError |
| EventHandler.KeyText | core/event_handler.py:81-85 | node_registered uses the key in its own payload; any other type uses the stored key of its node, or None |
| EventHandler.VerifyEvent | core/event_handler.py:76-99 | true exactly when the key and signature decode with the right lengths and the signature checks against the canonical JSON of the event minus "signature"; otherwise KeyError, ValueError, TypeError or BadSignatureError |
| EventHandler.ValidateEvent | core/event_handler.py:102-126 | false for a non-dict or a missing field; true only for a structured event with a matching node id and a valid signature; only a TypeError escapes |
| EventHandler.RegisteredIgnoresTable | core/event_handler.py:81-82 | a node_registered event is checked without the node table |
| EventHandler.OthersUseStoredKey | core/event_handler.py:83-85 | other types depend on the stored key of their own node only |
| EventHandler.UnknownNodeEscapes | core/event_handler.py:85-126 | an event of another type from an unknown node raises a TypeError that `validate_event` does not catch |
| EventHandler.MissingPayloadKeyIsInvalid | core/event_handler.py:82-126 | a registration without a public key in its payload is false, not an error |
| EventHandler.UnknownTypeIsInvalid | core/event_handler.py:110-117 | an unknown type is false whatever the table and signature: structural checks come first |
| EventHandler.HandledTypes | core/event_handler.py:185-192 | five valid types have a handler, and the six file types other than file_created have none |
| EventHandler.ProcessEvent | core/event_handler.py:195-216 | an invalid event does nothing; a dispatched one was valid, ran its handler exactly when one exists, and hands save_event_to_db a row with its block id, type and node id; a valid event fails only through the node or user handlers or a timestamp the model cannot convert |
| EventHandler.RaisingAreHandled | core/event_handler.py:158-192 | the handlers that can raise are exactly the handled types other than user_joined_node, whose handler is `pass`, and file_created, whose `create` catches every Exception |
| EventHandler.JoinedNodeAlwaysRecorded | core/event_handler.py:158-164 | a valid user_joined_node event always reaches save_event_to_db with its row, because its handler does nothing |
| EventHandler.FileCreatedAlwaysRecorded | core/files.py:43-70 | a valid file_created event always reaches save_event_to_db with its row, because `create` catches every Exception |
| EventHandler.UnhandledIsRecorded | core/event_handler.py:207-216 | a valid event with no handler still reaches save_event_to_db, with the converted timestamp |
| EventHandler.FailingHandlerSkipsRecord | core/event_handler.py:209-216 | a node or user handler that raises stops process_event before save_event_to_db is called |
| EventHandler.SaveEvent | core/event_handler.py:48-73 | the row is appended to `events` when that table exists; otherwise the OperationalError is swallowed and the database is unchanged |
| EventHandler.SaveAllAppends | core/event_handler.py:48-73 | with an `events` table, rows saved one after another are all stored, in order |
| EventHandler.SaveAllDrops | core/event_handler.py:48-73 | without an `events` table nothing saved ever changes the database |
| DbInit.CreateDbAsWritten | core/db_init.py:41-133 | an existing database is left as it is; a new one gets exactly users, nodes, files and entries, with no `events` table |
| DbInit.CreateDb | core/db_init.py:41-133 | the corrected `create_db`: a new database also gets the `events` table |
| EventHandler.StartupSchemaDropsEvents | core/db_init.py:63-123 | as written, no event row is ever stored in a database that `create_db` made |
| EventHandler.IntendedSchemaKeepsEvents | core/event_handler.py:48-73 | with the corrected schema every row process_event hands over is stored, in the order of the events |
| Listener.ValidateNotification | mqtt/listener.py:70-99 | false for a non-dict or a missing field; true exactly when the type is valid, block_id matches as it stands and "0x" plus node_id matches; only a TypeError escapes |
| Listener.PrefixedNodeIdRefused | mqtt/listener.py:96-97 | a node id that carries its own "0x" is refused |
| Listener.OnMessage | mqtt/listener.py:117-142 | a block is fetched only for a notification that decodes, parses and validates, and it is the block it names; every exception is swallowed |
| Listener.InvalidNotFetched | mqtt/listener.py:133-136 | an invalid notification is ignored and the ledger is never asked |
| Auth.BigEndianRoundTrip | core/auth.py:50 | reading the eight big-endian bytes gives the clock value back |
| Auth.Stamp | core/auth.py:50 | a clock value outside 0..2^64-1 is an OverflowError; otherwise eight bytes that read back as it |
| Auth.GenerateChallenge | core/auth.py:46-53 | a 44-character base64 text of the 24 random bytes followed by the clock; stored under the user id, replacing any earlier one; sessions untouched |
| Auth.GetChallenge | core/auth.py:56-60 | the stored challenge or None; nothing changes |
| Auth.ChallengeThenGet | core/auth.py:52-60 | after generating, `get_challenge` returns that challenge, and other users' challenges are unchanged |
| Auth.RegenerateReplaces | core/auth.py:52 | generating again replaces the earlier challenge |
| Auth.CreateSessionToken | core/auth.py:63-69 | the token is the 32-character base64 of the random bytes and is mapped to the user; challenges untouched |
| Auth.VerifyMatchesBearer | core/auth.py:72-93 | `verify_session_token` holds for a non-empty user id exactly when "Bearer " plus the token passes `require_auth` as that user |
| Auth.SessionBelongsToCreator | core/auth.py:67-76 | a new token verifies for its user and for no other |
| Auth.SessionsAccumulate | core/auth.py:68 | creating a token leaves every other live token valid |
| Auth.RequireAuth | core/auth.py:79-93 | succeeds exactly when the header starts with "Bearer " and the stripped rest is a token mapped to a non-empty user id, which it returns; every refusal is a 401 |
| Auth.BearerOfNewToken | core/auth.py:84-93 | "Bearer " plus a fresh token authenticates its user |
| Auth.SchemeIsExact | core/auth.py:84-85 | "bearer " and a bare "Bearer" are refused |
| Auth.ExpireChallenge | core/auth.py:42 | the expiry of one challenge removes it and changes no other lookup |
| Auth.ExpireSession | core/auth.py:43 | the expiry of one token removes it and changes no other verification |
| Users.GetUser | core/users.py:76-96 | a cached record is returned as it is; on a miss a stored row is turned into a dict, cached and returned; a missing row gives None and caches nothing |
| Users.GetReadsThrough | core/users.py:76-96 | on a coherent store `get` answers exactly what the table holds and keeps the cache coherent |
| Users.CachedIgnoresTable | core/users.py:81-82 | a cached record is returned whatever the table holds |
| Users.UserExists | core/users.py:99-103 | true exactly when `get` is not None, with the same caching |
| Users.ExistsIffStored | core/users.py:103 | on a coherent store, `exists` is membership in the table |
| Users.GetPublicKey | core/users.py:106-110 | an unknown user is an AttributeError, not None; otherwise the record's public_key or None |
| Users.PublicKeyOfStored | core/users.py:106-110 | a stored user gives the key in the table; an unknown one raises |
| Users.EvictUser | core/users.py:43 | eviction removes one cached record and nothing else |
| Users.EvictKeepsCoherent | core/users.py:43 | eviction keeps the cache coherent |
| Users.BindText | core/users.py:67-70 | a string or None is bound as it is, a bound value is always text or NULL, and a list or dict cannot be bound |
| Users.Insert | core/users.py:65-70 | a stored user id is an IntegrityError; a success adds the new row under the id and leaves the cache, the other rows and the store's invariants as they were |
| Users.RegisterUser | core/users.py:46-73 | registration only adds rows, never changes the cache, and keeps the store coherent |
| Users.RegisterStoresDefaults | core/users.py:55-70 | a new user is stored with its id, alias and key, "" for name and email, and the table defaults for tags and version |
| Users.DuplicateIsIntegrityError | core/users.py:65-73 | registering a stored user id fails with an uncaught IntegrityError |
| Db.Zip | utils/db.py:16 | pairing stops at the shorter of the column list and the row |
| Db.RowToDict | utils/db.py:1-16 | a missing or empty row gives {}; the result has distinct keys |
| Db.KeysArePairedColumns | utils/db.py:15-16 | a key is present exactly when it names one of the paired columns |
| Db.LaterColumnWins | utils/db.py:16 | when two paired columns share a name, the later value wins |
| Db.DistinctColumnsInOrder | utils/db.py:15-16 | distinct columns with one value each give the columns in order with their values |
| Time.IsoToEpoch | utils/time.py:44-64 | a non-string gives 0 |
| Time.ZIsUtc | utils/time.py:55-56 | a trailing "Z" reads as "+00:00" |
| Time.EveryZRewritten | utils/time.py:55-56 | every "Z" of such a text is rewritten before parsing, not only the last |
| Time.TwoZRewritten | utils/time.py:56 | a "Z" used as the date-time separator is rewritten too |
| Time.ShiftHour | utils/time.py:59-61 | the same instant written with another offset gives the same seconds |
| Time.ShiftAcrossMidnight | utils/time.py:59-61 | 23:xx at +00:00 and 00:xx of the next day at +01:00 give the same seconds |
| Time.TruncatesTowardZero | utils/time.py:61 | half a second before the epoch is 0, not -1: near the epoch fractional seconds are cut toward zero |
| Time.ExactNearEpoch | utils/time.py:61 | within 2^34 seconds of the epoch the double nearest to the exact seconds has the same integer part, so `int(dt.timestamp())` is the exact quotient cut toward zero |
| Time.EpochNearEpoch | utils/time.py:61 | for a stamp within 2^34 seconds of the epoch the converted seconds are its microseconds divided by a million, cut toward zero |
| Time.RoundsUpInYear9999 | utils/time.py:61 | 9999-12-31T23:59:59.999999+00:00 gives 253402300800: the seconds are rounded to a double before `int()` cuts them, so the result is one more than the exact quotient 253402300799 |
| Time.RoundsUpInYearOne | utils/time.py:61 | 0001-01-01T00:00:00.000001+00:00 gives -62135596800, one below the exact quotient cut toward zero |
| Time.OneAndHalfBeforeEpoch | utils/time.py:61 | one and a half seconds before the epoch is -1, not -2 |
| Time.HalfAfterEpoch | utils/time.py:61 | half a second after the epoch is 0 |
| Time.OffsetKept | utils/time.py:55-60 | a text not ending in "Z" reaches `fromisoformat` unchanged |
| Time.ExampleUtc | utils/time.py:47-64 | "2025-05-01T12:34:56Z" converts to 1746102896 |
| Time.FailureIsZero | utils/time.py:63-64 | a non-string or an empty text gives 0, the same as the epoch itself |
| Time.ExampleStamp | utils/time.py:47-52 | 2025-05-01T12:34:56 UTC is 1746102896 seconds, written with any of three offsets |
| Time.NextDay | utils/time.py:59 | the calendar day after a date has the next ordinal |
| Schema.AsStr | api/models/auth.py:44-48 | a str is kept, an int becomes its decimal text, and None, a list or a dict is refused |
| Schema.AsInt | api/models/files.py:76 | an int is kept; None, a list, a dict and a str longer than 4300 characters are refused |
| Schema.ConStr | api/models/auth.py:44-48 | accepted exactly when the coerced text meets the length bounds and the pattern |
| Schema.ConInt | api/models/files.py:76 | accepted exactly when the coerced integer lies in the bounds |
| Schema.AsDict | api/routes/files.py:67 | a dict is used as it is; None, a bool and an int are refused; a str only when empty; a list of pairs gives distinct keys |
| Schema.Extras | models/base.py:50-55 | the unknown fields are exactly the keys outside the declared fields |
| Requests.PublicKeyField | api/models/auth.py:48-55 | for a str, accepted exactly when 44 to 512 characters long, matching RE_BASE64 and strict base64 |
| Requests.SignatureField | api/models/auth.py:87-94 | for a str, accepted exactly when it matches RE_BASE64 and is strict base64 |
| Requests.AliasField | api/models/auth.py:45 | for a str, accepted exactly when RE_ALIAS matches |
| Requests.ParseRegister | api/models/auth.py:40-55 | an accepted request has no unknown field, a valid user id, alias and public key; a refusal names every unknown field |
| Requests.ParseChallenge | api/models/auth.py:65-72 | an accepted request has only user_id, which matches RE_USER_ID; a refusal names every unknown field |
| Requests.ParseVerify | api/models/auth.py:82-94 | an accepted request has a valid user id and a RE_BASE64, strict-base64 signature; a refusal names every unknown field |
| Requests.UserIdIsHex | api/models/auth.py:44 | an accepted user id is 64 lowercase hex digits, possibly followed by one newline |
| Requests.UnknownFieldRefused | api/models/auth.py:50-90 | all three requests refuse an unknown field and name it |
| Requests.RegisterAccepts | api/models/auth.py:40-55 | a well-formed registration is accepted as it is, with name and email None |
| Requests.ShortPublicKeyRefused | api/models/auth.py:48 | a public key shorter than 44 characters is refused at "public_key" |
| Requests.VerifyDictRoundTrip | api/models/auth.py:82-94 | what `.dict()` writes validates back to the same request |
| Requests.ChallengeDictRoundTrip | api/models/auth.py:65-72 | the same for the challenge request |
| FileRequests.ParseEntry | api/models/files.py:51-66 | an accepted entry has no unknown field, a user id matching RE_FILE_ID, and a key and IV that match RE_BASE64 and are strict base64 |
| FileRequests.EntriesField | api/models/files.py:81 | a list is accepted exactly when every element is an accepted entry, and then element by element |
| FileRequests.CheckDuplicateUserIds | api/models/files.py:99-105 | the list is returned unchanged exactly when the user ids are distinct; otherwise the error holds each repeated id once |
| FileRequests.DuplicatesOf | api/models/files.py:101-104 | the repeated ids are exactly those at two positions, and there are none exactly when the ids are distinct |
| FileRequests.UploadEntriesField | api/models/files.py:99-105 | the upload's list is accepted exactly when its entries are accepted and their ids are distinct |
| FileRequests.MimetypeField | api/models/files.py:83-87 | for a str, accepted exactly when RE_MIMETYPE matches and it is in ALLOWED_MIMETYPES |
| FileRequests.TagList | api/models/files.py:93-97 | every accepted tag fully matches RE_TAG, and a list of such tags is kept as it is |
| FileRequests.TagsField | api/models/files.py:80 | a missing `tags` is [], a null is None |
| FileRequests.ParseMetadataFrom | api/models/files.py:69-105 | accepted metadata has no unknown field and satisfies every field rule; a refusal names at least one location |
| FileRequests.ParseMetadata | api/models/files.py:69-105 | accepted metadata comes from a dict-convertible value and satisfies every field rule |
| FileRequests.DuplicateEntriesRefused | api/models/files.py:99-105 | accepted entries that repeat a user id make the upload metadata fail at "authorized_users" |
| FileRequests.ShareKeepsDuplicates | api/models/files.py:115-120 | a share request keeps any list of accepted entries as it is, repeated ids included |
| FileRequests.ParseShare | api/models/files.py:115-120 | an accepted share request has a RE_FILENAME name and accepted entries, and no unknown field |
| FileRequests.ParseRename | api/models/files.py:123-127 | an accepted rename has a RE_FILENAME name and no unknown field |
| FileRequests.TagsDefaultEmpty | api/models/files.py:80 | metadata without tags gets the empty list |
| FileRequests.MimetypeNotAllowed | api/models/files.py:83-87 | a mimetype outside ALLOWED_MIMETYPES is refused at "mimetype" |
| Records.SizeField | models/base.py:61 | an accepted size lies in 0..MAX_FILE_SIZE, and an int is accepted exactly then |
| Records.EventTypeField | models/base.py:92 | accepted exactly for a str among VALID_EVENT_TYPES, with no coercion |
| Records.ParseFileEntry | models/base.py:58-63 | an accepted FileEntry has no unknown field, a size in range, and a file id, name and mimetype that match their patterns |
| Records.ParseUserEntry | models/base.py:66-73 | an accepted UserEntry has a valid user id, alias and public key |
| Records.ParseNodeEntry | models/base.py:76-83 | an accepted NodeEntry has a RE_NODE_ID id, a valid alias and public key |
| Records.ParseEventEntry | models/base.py:86-93 | an accepted EventEntry has a valid event type, block id, node id and timestamp |
| Records.StrictRefusesUnknown | models/base.py:50-55 | every record refuses an unknown field and names it |
| Records.SizeOutOfRangeRefused | models/base.py:61 | a size outside 0..MAX_FILE_SIZE is refused at "size" |
| Records.UnknownEventTypeRefused | models/base.py:92 | an event type outside VALID_EVENT_TYPES is refused at "event_type" |
| Records.CreationDateUnconstrained | models/base.py:63 | any text may replace creation_date in an accepted record |
| AuthRoutes.RequestChallenge | api/routes/auth.py:46-47 | an invalid body is a 422 that changes nothing; a valid one is handled |
| AuthRoutes.Challenge | api/routes/auth.py:47-57 | nothing is published and the table is untouched; a refusal changes nothing; a 200 names a stored user and answers with the challenge now held for it |
| AuthRoutes.ChallengeOnlyForStored | api/routes/auth.py:51-55 | a challenge is issued exactly to a stored user (when the clock fits); an unknown user gets 404 and nothing is stored |
| AuthRoutes.Register | api/routes/auth.py:60-61 | an invalid body is a 422 that changes nothing; a valid one is handled |
| AuthRoutes.RegisterNew | api/routes/auth.py:61-72 | never writes the caches or the table; publishes exactly on success; a 201 answers with the submitted id and publishes the event built from the request |
| AuthRoutes.RegisterConflict | api/routes/auth.py:65-66 | 409 exactly for a stored user id, 201 for any other |
| AuthRoutes.Verify | api/routes/auth.py:75-76 | an invalid body is a 422 that changes nothing; a valid one is handled |
| AuthRoutes.Login | api/routes/auth.py:76-106 | the challenge is never removed; a refusal changes nothing; a 200 needs the stored challenge and key and a valid signature, and issues a fresh token mapped to the user |
| AuthRoutes.AuditPayload | api/routes/auth.py:98-100 | the audit payload is the request's fields followed by the challenge and the public key |
| AuthRoutes.VerifyCheckOrder | api/routes/auth.py:81-92 | the challenge check (400), then the key lookup (500 if it raises, 404 if empty), then the signature (401); the first failing check decides |
| AuthRoutes.TokenNeedsSignature | api/routes/auth.py:90-95 | a token is issued only when the Ed25519 check accepts the signature over the UTF-8 bytes of the stored challenge under the stored 32-byte key |
| AuthRoutes.VerifyNeverCrashes | api/routes/auth.py:81-88 | on a reachable node the unknown-user crash cannot happen |
| AuthRoutes.ChallengeKeepsInvariant | api/routes/auth.py:47-57 | request_challenge keeps the node invariant |
| AuthRoutes.RegisterKeepsInvariant | api/routes/auth.py:61-72 | register keeps the node invariant |
| AuthRoutes.LoginKeepsInvariant | api/routes/auth.py:76-106 | verify keeps the node invariant |
| AuthRoutes.BackgroundKeepsInvariant | core/auth.py:42-43 | expiry, eviction and storing a registered user keep the invariant |
| AuthRoutes.ReplayGivesAnotherToken | api/routes/auth.py:81-106 | replaying a successful login yields another token, and both stay valid |
| AuthRoutes.SignedChallengeLogsIn | api/routes/auth.py:46-106 | a stored user who signs the issued challenge with the seed of the stored key logs in |
| FileRoutes.ParseRaw | api/routes/files.py:66-70 | succeeds exactly when the text is JSON and the metadata validates; non-JSON is a ValidationError; only a non-string key escapes, as a TypeError; a text holding a JSON number the model does not read (a float) is undecided, never a ValidationError |
| FileRoutes.UploadFile | api/routes/files.py:60-98 | no header is a 422 and a refused one a 401, neither writing anything; an authenticated request missing the `data` part, or with the `metadata` field missing or empty, is a 422 naming exactly those parts; a success needs the header and both parts |
| FileRoutes.EmptyMetadataIsMissing | api/routes/files.py:60-64 | metadata sent as "" is a 422 naming only "metadata", not the route's 400 |
| FileRoutes.Store | api/routes/files.py:66-70 | invalid metadata is 400 "Invalid metadata JSON" and an escaped exception a 500, both with no write; valid metadata goes on to the acceptance checks; only float metadata is undecided |
| FileRoutes.Accept | api/routes/files.py:73-98 | stored exactly when the size fits and the file id is the digest; 413 or 400 otherwise with nothing written or published; on success only `<file_id>.dat` is written, the event published and "stored" answered |
| FileRoutes.StoredIffChecksPass | api/routes/files.py:60-98 | stored exactly when the caller is authenticated, both parts are present and non-empty, the metadata validates, the size fits and the digest matches |
| FileRoutes.SizeBeforeDigest | api/routes/files.py:83-88 | oversized bytes get 413 whatever the digest |
| FileRoutes.DeclaredFieldsIgnored | api/routes/files.py:72-91 | the declared size and sha256 change neither the decision nor the storage |
| FileRoutes.OwnerNotChecked | api/routes/files.py:62-98 | any two authenticated callers get the same outcome for the same upload |
| FileRoutes.StoredIsAddressed | api/routes/files.py:77-91 | the only file an upload writes is named by the SHA-256 hex of its bytes plus ".dat" |
| FileRoutes.MalformedMetadata | api/routes/files.py:66-70 | non-JSON metadata is a 400, float metadata is undecided rather than a 400, and a pair list keyed by a number is a 500 |
| FileRoutes.FloatUndecided | api/routes/files.py:66-70 | the metadata text "1.0" is not answered with a 400: the model leaves it undecided |
| JsonRead.FloatIsUnmodelled | mqtt/listener.py:133 | `json.loads` of "1.0" is outside the model's number reading rather than a decoding error |

## Left out

- Client-side envelope encryption (per-file keys, key wrapping, encryption of file bodies) is not part of this model. It runs in the browser client, and the server sees only its base64 results.
- The primitives (Argon2id, XSalsa20-Poly1305, Ed25519, SHA-256) are function values constrained only by the laws listed above. Their internals are not modelled.
- Randomness and the clock are parameters (the `Randomness` inputs, `random`, `now`). The host probes `platform.platform()`, uptime, disk space and IP address are a `Probe` parameter.
- The TTL and capacity eviction of the caches (cachetools) are not modelled. Only the explicit removal of one entry is: `ExpireChallenge`, `ExpireSession`, `EvictUser`.
- I/O is not modelled:
  - MQTT connection and delivery (mqtt/client.py, except the message format);
  - HTTP to the ledger, reduced to a status code and a JSON body;
  - SQLite and the DDL, reduced to maps; of core/db_init.py only the names of the tables `create_db` makes are modelled (`DbInit`);
  - the filesystem, reduced to a map from file name to bytes;
  - the passphrase and alias prompts and the passphrase-confirmation loop;
  - logging, settings, and server startup.
- save_node, update_node, register and create_file (SQL and file writes) are left out, The row process_event hands to save_event_to_db is modelled, and so is whether save_event_to_db can store it (`EventHandler.SaveEvent`). The node and user handlers are reduced to the exception they may raise: save_node and update_node only from reading the payload before their `try`, register also from the database. create_file catches every Exception, so file_created never raises.
- models/events.py does not parse, so it has no behaviour to model.
- The routes in api/routes/users.py, nodes.py and events.py, and get_files in api/routes/files.py, are not part of this model. They wrap functions that are not present.
- utils/cache.py is not part of this model.
- The names the source imports from modules that do not define them are modelled as if they existed (see above). The undefined constants are `Schema.Env` fields, and the undefined builders are `build` parameters.
- EmailStr and pydantic's datetime parsing are `Schema.Env` functions.
- JSON numbers are integers only. A float, NaN or Infinity is outside the model's value domain and gives `OutOfModel`.
- FileRoutes.ParseRaw: metadata holding a float (which pydantic's int coercion would accept when it is whole) gives `Unmodelled`, and FileRoutes.UploadFile then gives `OutOfModel`; the model promises neither a 400 nor a stored file for it.
- JsonRead.ParseUnsigned: reads integers of any length. Python 3.11 and later refuse to convert a decimal text of more than 4300 digits, so there `json.loads` raises ValueError; that limit is not modelled.
- Python.IntOfString: reads ASCII digits only. Python's `int()` also accepts other Unicode decimal digits (Arabic-Indic, full-width and so on), which the model refuses with ValueError; the 4300-digit conversion limit is not modelled either.
- Time.IsoToEpoch: texts without an offset (local time), basic and week formats, reduced precision and hour 24 give `OutOfModel`, and so does every other text not of the modelled shape ("abc", "2025-05-01"), which Python answers with 0. Only texts with a `+HH:MM` or `-HH:MM` offset are converted; the empty text and a text of that shape with a field out of range give 0.
- Schema: a validation failure is the set of failed top-level field locations. The messages, the nested locations and the order of pydantic's error list are not modelled.
- FastAPI's request handling is reduced to one rule: a missing header or form field (a form field sent as "" counts as missing), or an invalid body, gives 422. Response-model validation of the answers is not modelled.
- Crypto.DecryptPrivateKey: its contract lists the possible exceptions, and the success case is stated by Nodes.GeneratedKeyDecrypts and Crypto.OpenSealedRoundTrip.
- Time.IsoToEpoch: its contract states only the non-string case; the conversion itself is stated by the Time lemmas (ZIsUtc, EveryZRewritten, ShiftHour, TruncatesTowardZero, EpochNearEpoch, RoundsUpInYear9999, FailureIsZero, ExampleStamp). `dt.timestamp()` is modelled as the double nearest to the exact seconds, cut toward zero by `int()`; the double's value is computed only as far as its integer part.
- Users.RegisterUser: its contract states only what every successful registration keeps; the row it writes is stated by Users.RegisterStoresDefaults for events without name, email or tags.
- Nodes.InitOrLoadNode: with a stored config it composes the corrected load path Nodes.LoadNode, so a wrong passphrase gives the CryptoError rather than the UnboundLocalError of the code as written (see Findings); the two agree whenever decryption succeeds.
- Listener.OnMessage: its contract states only when a block is fetched; what processing gives is stated by EventHandler.ProcessEvent.

## Findings

| source | as written | input that shows it | evidently intended | confidence | as-written member | corrected member |
|---|---|---|---|---|---|---|
| core/nodes.py:121-127 | a decryption failure is logged and swallowed, then `return config, private_key, False` reads the unbound `private_key` | an existing config and a wrong passphrase | the decryption error (CryptoError) reaches the caller | not executed | Nodes.LoadNodeAsWritten (shown by Nodes.WrongPassphraseOnLoad) | Nodes.LoadNode |
| core/event_handler.py:48-73 | `save_event_to_db` inserts into `events`, but `create_db` (core/db_init.py:63-123) creates only users, nodes, files and entries, and no other code creates a table; the INSERT raises OperationalError, which is logged and swallowed | any valid event on a database `create_db` made | the event row is stored, as the docstring of save_event_to_db and the comment in handle_user_joined_node say | not executed | DbInit.CreateDbAsWritten with EventHandler.SaveEvent (shown by EventHandler.StartupSchemaDropsEvents) | DbInit.CreateDb (proved by EventHandler.IntendedSchemaKeepsEvents) |

=== FILE: auth.dfy ===
/** core/auth.py: login challenges and session tokens. The two TTL caches
    are maps (user id to challenge, token to user id); the random bytes and
    the clock are inputs, and expiry and capacity eviction appear only as
    the explicit removals `ExpireChallenge` and `ExpireSession`. */
module Auth {
  import opened Wrappers
  import opened Bytes
  import opened Base64
  import opened Python

  /** The bytes of randomness in a challenge and in a session token. */
  const RANDOM_SIZE := 24
  /** The width of the timestamp appended to a challenge. */
  const STAMP_SIZE := 8

  datatype AuthState = AuthState(challenges: map<string, string>, sessions: map<string, string>)

  /** A FastAPI `HTTPException`: the status code and its detail text. */
  datatype HttpError = HttpError(status: int, detail: string)

  function Pow256(n: nat): (p: nat)
    ensures p >= 1
  {
    if n == 0 then 1 else 256 * Pow256(n - 1)
  }

  /** `n.to_bytes(width, byteorder="big")` for an `n` that fits. */
  function BigEndian(n: nat, width: nat): (b: Bytes)
    requires n < Pow256(width)
    ensures |b| == width
  {
    if width == 0 then []
    else BigEndian(n / 256, width - 1) + [n % 256]
  }

  /** `int.from_bytes(b, byteorder="big")`: the reading a client would
      apply to the last eight bytes of a decoded challenge. */
  function FromBigEndian(b: Bytes): (n: nat)
    ensures n < Pow256(|b|)
  {
    if |b| == 0 then 0
    else FromBigEndian(b[..|b| - 1]) * 256 + b[|b| - 1]
  }

  lemma {:induction false} BigEndianRoundTrip(n: nat, width: nat)
    requires n < Pow256(width)
    ensures FromBigEndian(BigEndian(n, width)) == n
  {
    if width > 0 {
      var b := BigEndian(n, width);
      assert b[..width - 1] == BigEndian(n / 256, width - 1);
      BigEndianRoundTrip(n / 256, width - 1);
    }
  }

  /** `to_bytes(8, "big")`: a negative or too large value has no unsigned
      eight-byte form and is an OverflowError. */
  function Stamp(now: int): (r: Result<Bytes, PyError>)
    ensures r.Success? <==> 0 <= now < Pow256(STAMP_SIZE)
    ensures r.Failure? ==> r.error == OverflowError
    ensures r.Success? ==> |r.value| == STAMP_SIZE && FromBigEndian(r.value) == now
  {
    if 0 <= now < Pow256(STAMP_SIZE) then
      BigEndianRoundTrip(now, STAMP_SIZE);
      Success(BigEndian(now, STAMP_SIZE))
    else Failure(OverflowError)
  }

  /** `generate_challenge(user_id)`: 24 random bytes and the clock,
      base64-encoded, stored under the user id (replacing any earlier
      challenge) and returned. */
  function GenerateChallenge(st: AuthState, userId: string, random: Bytes, now: int): (r: Result<(string, AuthState), PyError>)
    requires |random| == RANDOM_SIZE
    ensures r.Success? <==> 0 <= now < Pow256(STAMP_SIZE)
    ensures r.Failure? ==> r.error == OverflowError
    ensures r.Success? ==>
      var (challenge, st') := r.value;
      && |challenge| == 44
      && DecodeStrict(challenge).Success?
      && |DecodeStrict(challenge).value| == RANDOM_SIZE + STAMP_SIZE
      && DecodeStrict(challenge).value[..RANDOM_SIZE] == random
      && FromBigEndian(DecodeStrict(challenge).value[RANDOM_SIZE..]) == now
      && st'.sessions == st.sessions
      && st'.challenges == st.challenges[userId := challenge]
  {
    var stamp :- Stamp(now);
    var raw := random + stamp;
    var challenge := Encode(raw);
    DecodeStrictEncode(raw);
    assert raw[RANDOM_SIZE..] == stamp;
    Success((challenge, st.(challenges := st.challenges[userId := challenge])))
  }

  /** `get_challenge(user_id)`: a read of the cache; the state is not
      changed. */
  function GetChallenge(st: AuthState, userId: string): (r: Option<string>)
    ensures r.Some? <==> userId in st.challenges
    ensures r.Some? ==> r.value == st.challenges[userId]
  {
    if userId in st.challenges then Some(st.challenges[userId]) else None
  }

  /** `create_session_token(user_id)`: the base64 of 24 random bytes,
      mapped to the user id. */
  function CreateSessionToken(st: AuthState, userId: string, random: Bytes): (r: (string, AuthState))
    requires |random| == RANDOM_SIZE
    ensures |r.0| == 32 && DecodeStrict(r.0) == Success(random)
    ensures r.1.challenges == st.challenges
    ensures r.1.sessions == st.sessions[r.0 := userId]
  {
    var token := Encode(random);
    DecodeStrictEncode(random);
    (token, st.(sessions := st.sessions[token := userId]))
  }

  /** `verify_session_token(user_id, token)`: the token is mapped to that
      very user id. */
  function VerifySessionToken(st: AuthState, userId: string, token: string): (ok: bool)
    ensures ok <==> token in st.sessions && st.sessions[token] == userId
  {
    token in st.sessions && st.sessions[token] == userId
  }

  const BEARER := "Bearer "

  /** `require_auth(authorization)`: the header must start with "Bearer ";
      the rest, stripped, is the token; an unknown token, or one mapped to
      an empty user id, is refused. Every refusal is a 401. */
  function RequireAuth(st: AuthState, authorization: string): (r: Result<string, HttpError>)
    ensures r.Failure? ==> r.error.status == 401
    ensures r.Success? <==>
      && |authorization| >= |BEARER| && authorization[..|BEARER|] == BEARER
      && Strip(authorization[|BEARER|..]) in st.sessions
      && st.sessions[Strip(authorization[|BEARER|..])] != ""
    ensures r.Success? ==> r.value == st.sessions[Strip(authorization[|BEARER|..])]
  {
    if !(|authorization| >= |BEARER| && authorization[..|BEARER|] == BEARER) then
      Failure(HttpError(401, "Invalid authorization header"))
    else
      var token := Strip(authorization[|BEARER|..]);
      if token !in st.sessions || st.sessions[token] == "" then Failure(HttpError(401, "Invalid or expired token"))
      else Success(st.sessions[token])
  }

  /** Expiry or eviction of one cache entry. */
  function ExpireChallenge(st: AuthState, userId: string): (st': AuthState)
    ensures userId !in st'.challenges && st'.sessions == st.sessions
    ensures forall u :: u != userId ==> GetChallenge(st', u) == GetChallenge(st, u)
  {
    st.(challenges := st.challenges - {userId})
  }

  function ExpireSession(st: AuthState, token: string): (st': AuthState)
    ensures token !in st'.sessions && st'.challenges == st.challenges
    ensures forall t, u :: t != token ==> VerifySessionToken(st', u, t) == VerifySessionToken(st, u, t)
  {
    st.(sessions := st.sessions - {token})
  }

  // ---------------------------------------------------------------------
  // Properties

  /** The challenge just generated is the one `get_challenge` returns; the
      challenges of other users are untouched. */
  lemma ChallengeThenGet(st: AuthState, u: string, v: string, random: Bytes, now: int)
    requires |random| == RANDOM_SIZE && 0 <= now < Pow256(STAMP_SIZE)
    ensures var (c, st') := GenerateChallenge(st, u, random, now).value;
      GetChallenge(st', u) == Some(c) && (v != u ==> GetChallenge(st', v) == GetChallenge(st, v))
  {
  }

  /** Generating again replaces the earlier challenge: only the latest is
      kept. */
  lemma RegenerateReplaces(st: AuthState, u: string, r1: Bytes, r2: Bytes, t1: int, t2: int)
    requires |r1| == RANDOM_SIZE && |r2| == RANDOM_SIZE
    requires 0 <= t1 < Pow256(STAMP_SIZE) && 0 <= t2 < Pow256(STAMP_SIZE)
    ensures var st1 := GenerateChallenge(st, u, r1, t1).value.1;
      var (c2, st2) := GenerateChallenge(st1, u, r2, t2).value;
      st2 == GenerateChallenge(st, u, r2, t2).value.1 && GetChallenge(st2, u) == Some(c2)
  {
    GenerateStores(st, u, r1, t1);
    var st1 := GenerateChallenge(st, u, r1, t1).value.1;
    GenerateStores(st1, u, r2, t2);
    GenerateStores(st, u, r2, t2);
    var c2 := Encode(r2 + Stamp(t2).value);
    assert st1.challenges[u := c2] == st.challenges[u := c2];
  }

  /** The challenge depends only on the random bytes and the clock, and
      it is stored under the user id. */
  lemma GenerateStores(st: AuthState, u: string, random: Bytes, now: int)
    requires |random| == RANDOM_SIZE && 0 <= now < Pow256(STAMP_SIZE)
    ensures Stamp(now).Success?
    ensures var c := Encode(random + Stamp(now).value);
      GenerateChallenge(st, u, random, now) == Success((c, st.(challenges := st.challenges[u := c])))
  {
  }

  /** A session token answers for the user it was created for and for
      no one else. */
  lemma SessionBelongsToCreator(st: AuthState, u: string, v: string, random: Bytes)
    requires |random| == RANDOM_SIZE
    ensures var (t, st') := CreateSessionToken(st, u, random);
      VerifySessionToken(st', u, t) && (v != u ==> !VerifySessionToken(st', v, t))
  {
  }

  /** Sessions are keyed by token: creating a new one leaves every other
      live token valid, so one user may hold several at once. */
  lemma SessionsAccumulate(st: AuthState, u: string, v: string, t0: string, random: Bytes)
    requires |random| == RANDOM_SIZE
    requires VerifySessionToken(st, v, t0)
    ensures var (t, st') := CreateSessionToken(st, u, random);
      t != t0 ==> VerifySessionToken(st', v, t0)
  {
  }

  lemma EncodedIsTrimmed(random: Bytes)
    requires |random| == RANDOM_SIZE
    ensures Strip(Encode(random)) == Encode(random)
  {
    var t := Encode(random);
    assert t == EncodeData(random);
    assert IsB64Char(t[0]) && IsB64Char(t[|t| - 1]);
    TrimmedIsFixed(t);
  }

  /** A freshly created token, sent as "Bearer <token>", authenticates
      its user. */
  lemma BearerOfNewToken(st: AuthState, u: string, random: Bytes)
    requires |random| == RANDOM_SIZE && u != ""
    ensures var (t, st') := CreateSessionToken(st, u, random);
      RequireAuth(st', BEARER + t) == Success(u)
  {
    var (t, st') := CreateSessionToken(st, u, random);
    EncodedIsTrimmed(random);
    assert (BEARER + t)[|BEARER|..] == t;
    assert (BEARER + t)[..|BEARER|] == BEARER;
  }

  /** `verify_session_token` and `require_auth` agree: a token verifies for
      a non-empty user id exactly when "Bearer " followed by the token
      authenticates that user. */
  lemma VerifyMatchesBearer(st: AuthState, u: string, token: string)
    requires u != "" && Strip(token) == token
    ensures VerifySessionToken(st, u, token) <==> RequireAuth(st, BEARER + token) == Success(u)
  {
    assert (BEARER + token)[|BEARER|..] == token;
    assert (BEARER + token)[..|BEARER|] == BEARER;
  }

  /** The scheme name is case-sensitive and needs its space: "bearer"
      and "Bearer" with no token separator are refused. */
  lemma SchemeIsExact(st: AuthState, token: string)
    ensures RequireAuth(st, "bearer " + token).Failure?
    ensures RequireAuth(st, "Bearer").Failure?
  {
    assert ("bearer " + token)[0] == 'b';
  }
}

=== FILE: auth_routes.dfy ===
/** api/routes/auth.py: the three login routes as decision procedures over
    the node's challenge, session and user stores. A route either answers
    (status and JSON body), refuses with an HTTPException, refuses the body
    at validation (FastAPI's 422) or lets an exception escape (a 500). */
module AuthRoutes {
  import opened Wrappers
  import opened Bytes
  import opened Base64
  import opened Json
  import opened Regex
  import opened Constants
  import opened Crypto
  import opened Iota
  import opened Events
  import opened Auth
  import opened Users
  import opened Schema
  import opened Requests

  /** The state the routes read and change: the challenge and session
      caches, and the user table with its read-through cache. */
  datatype Node = Node(auth: AuthState, users: UserStore)

  datatype Reply =
    | Ok(status: int, body: Json)
    | Refused(error: HttpError)
    /** The request body failed validation: FastAPI answers 422. */
    | Invalid(errors: Errors)
    /** An exception escaped the route: the server answers 500. */
    | Crashed(exception: PyError)

  /** One call of a route: the answer, the state after it, and what
      `publish_event` sent, if the route got that far. */
  datatype Step = Step(reply: Reply, node: Node, published: Option<Published>)

  function Status(r: Reply): int {
    match r
    case Ok(status, _) => status
    case Refused(e) => e.status
    case Invalid(_) => 422
    case Crashed(_) => 500
  }

  /** Python truthiness of a value read from the user table. */
  predicate Truthy(v: Json) {
    match v
    case Null => false
    case Bool(b) => b
    case Int(i) => i != 0
    case Str(s) => s != ""
    case Arr(items) => |items| > 0
    case Obj(ms) => |ms| > 0
  }

  /** `verify_signature(public_key, challenge, signature)` on the stored
      value: `b64decode` of anything but a str raises, which the function
      turns into false. */
  predicate SignatureValid(s: Suite, publicKey: Json, challenge: string, signature: string) {
    publicKey.Str? && VerifySignature(s, publicKey.s, challenge, signature)
  }

  // ---------------------------------------------------------------------
  // Routes

  /** POST /challenge: the body is validated, then handled. */
  function RequestChallenge(node: Node, body: Json, random: Bytes, now: int): (r: Step)
    requires |random| == RANDOM_SIZE
    ensures ParseChallenge(body).Failure? ==> r == Step(Invalid(ParseChallenge(body).error), node, None)
    ensures ParseChallenge(body).Success? ==> r == Challenge(node, ParseChallenge(body).value, random, now)
  {
    match ParseChallenge(body)
    case Failure(errs) => Step(Invalid(errs), node, None)
    case Success(req) => Challenge(node, req, random, now)
  }

  /** `request_challenge(payload)`. `random` is what `urandom(24)`
      returned and `now` what the clock read. */
  function Challenge(node: Node, req: ChallengeRequest, random: Bytes, now: int): (r: Step)
    requires |random| == RANDOM_SIZE
    ensures r.published.None?
    ensures r.node.users.rows == node.users.rows
    ensures !r.reply.Ok? ==> r.node.auth == node.auth
    ensures r.reply.Ok? ==>
      && UserExists(node.users, req.userId).0
      && r.reply.status == 200
      && r.reply.body.Obj?
      && r.node.auth.sessions == node.auth.sessions
      && r.node.auth.challenges.Keys == node.auth.challenges.Keys + {req.userId}
      && Get(r.reply.body.members, "challenge") == Some(Str(r.node.auth.challenges[req.userId]))
  {
    var (found, users) := UserExists(node.users, req.userId);
    if !found then Step(Refused(HttpError(404, "User not found")), node.(users := users), None)
    else
      match GenerateChallenge(node.auth, req.userId, random, now)
      case Failure(e) => Step(Crashed(e), node.(users := users), None)
      case Success((challenge, auth)) =>
        Step(Ok(200, Obj([Member("challenge", Str(challenge))])), Node(auth, users), None)
  }

  /** POST /register: the body is validated, then handled. */
  function Register(env: Env, node: Node, body: Json, build: Json -> Json, ledger: HttpResponse): (r: Step)
    ensures ParseRegister(env, body).Failure? ==> r == Step(Invalid(ParseRegister(env, body).error), node, None)
    ensures ParseRegister(env, body).Success? ==> r == RegisterNew(node, ParseRegister(env, body).value, build, ledger)
  {
    match ParseRegister(env, body)
    case Failure(errs) => Step(Invalid(errs), node, None)
    case Success(req) => RegisterNew(node, req, build, ledger)
  }

  /** `register(payload)`. `build` stands for `build_user_registered_event`,
      which the route imports but core/events.py does not define; `ledger`
      is the ledger's answer to the post. The user table is not written:
      the user is stored only when the event comes back to a node. */
  function RegisterNew(node: Node, req: RegisterRequest, build: Json -> Json, ledger: HttpResponse): (r: Step)
    ensures r.node.auth == node.auth && r.node.users.rows == node.users.rows
    ensures r.published.Some? <==> r.reply.Ok?
    ensures r.reply.Ok? ==>
      && !UserExists(node.users, req.userId).0
      && r.reply == Ok(201, Obj([Member("user_id", Str(req.userId))]))
      && r.published == Some(PublishEvent(build(RegisterDict(req)), ledger))
  {
    var (found, users) := UserExists(node.users, req.userId);
    if found then Step(Refused(HttpError(409, "User already exists")), node.(users := users), None)
    else
      var published := PublishEvent(build(RegisterDict(req)), ledger);
      Step(Ok(201, Obj([Member("user_id", Str(req.userId))])), node.(users := users), Some(published))
  }

  /** The audit payload of a login: the request as `.dict()` writes it,
      then the stored challenge and the stored public key. */
  function AuditPayload(req: VerifyRequest, challenge: string, publicKey: Json): (d: Json)
    ensures d.Obj? && Keys(d.members) == ["user_id", "signature", "challenge", "public_key"]
  {
    Obj(VerifyDict(req).members + [Member("challenge", Str(challenge)), Member("public_key", publicKey)])
  }

  /** POST /verify: the body is validated, then handled. */
  function Verify(env: Env, s: Suite, node: Node, body: Json, random: Bytes, build: Json -> Json, ledger: HttpResponse): (r: Step)
    requires |random| == RANDOM_SIZE
    ensures ParseVerify(env, body).Failure? ==> r == Step(Invalid(ParseVerify(env, body).error), node, None)
    ensures ParseVerify(env, body).Success? ==> r == Login(s, node, ParseVerify(env, body).value, random, build, ledger)
  {
    match ParseVerify(env, body)
    case Failure(errs) => Step(Invalid(errs), node, None)
    case Success(req) => Login(s, node, req, random, build, ledger)
  }

  /** `verify(payload)`. `random` is what `urandom(24)` returned for the
      token; `build` stands for `build_user_joined_node_event`, which
      core/events.py does not define. The challenge is read, never
      removed. */
  function Login(s: Suite, node: Node, req: VerifyRequest, random: Bytes, build: Json -> Json, ledger: HttpResponse): (r: Step)
    requires |random| == RANDOM_SIZE
    ensures r.node.users.rows == node.users.rows
    ensures r.node.auth.challenges == node.auth.challenges
    ensures !r.reply.Ok? ==> r.node.auth == node.auth && r.published.None?
    ensures r.reply.Ok? ==>
      && req.userId in node.auth.challenges
      && GetPublicKey(node.users, req.userId).0.Success?
      && SignatureValid(s, GetPublicKey(node.users, req.userId).0.value, node.auth.challenges[req.userId], req.signature)
      && r.reply.status == 200
      && TokenOf(r.reply).Some?
      && DecodeStrict(TokenOf(r.reply).value) == Success(random)
      && VerifySessionToken(r.node.auth, req.userId, TokenOf(r.reply).value)
      && r.node.auth.sessions == node.auth.sessions[TokenOf(r.reply).value := req.userId]
      && r.published == Some(PublishEvent(build(AuditPayload(req, node.auth.challenges[req.userId],
           GetPublicKey(node.users, req.userId).0.value)), ledger))
  {
    match GetChallenge(node.auth, req.userId)
    case None => Step(Refused(HttpError(400, "No challenge found or expired")), node, None)
    case Some(challenge) =>
      if challenge == "" then Step(Refused(HttpError(400, "No challenge found or expired")), node, None)
      else
        var (publicKey, users) := GetPublicKey(node.users, req.userId);
        match publicKey
        case Failure(e) => Step(Crashed(e), node.(users := users), None)
        case Success(key) =>
          if !Truthy(key) then Step(Refused(HttpError(404, "User not found")), node.(users := users), None)
          else if !SignatureValid(s, key, challenge, req.signature) then
            Step(Refused(HttpError(401, "Invalid signature")), node.(users := users), None)
          else
            var (token, auth) := CreateSessionToken(node.auth, req.userId, random);
            var published := PublishEvent(build(AuditPayload(req, challenge, key)), ledger);
            Step(Ok(200, Obj([Member("access_token", Str(token))])), Node(auth, users), Some(published))
  }

  /** The session token of a successful login's answer. */
  function TokenOf(reply: Reply): (t: Option<string>)
    ensures t.Some? ==> reply.Ok? && reply.body.Obj? && Get(reply.body.members, "access_token") == Some(Str(t.value))
  {
    if reply.Ok? && reply.body.Obj? then
      match Get(reply.body.members, "access_token")
      case Some(Str(t)) => Some(t)
      case _ => None
    else None
  }

  // ---------------------------------------------------------------------
  // Properties

  /** What every reachable node satisfies: the user cache agrees with the
      table, every row is keyed by its user id, and a challenge is held
      only by a stored user. */
  predicate Invariant(n: Node) {
    && Coherent(n.users) && KeyedRows(n.users)
    && forall u :: u in n.auth.challenges ==> u in n.users.rows
  }

  /** A challenge is issued only to a stored user, and then whenever the
      clock fits in eight bytes; an unknown user gets 404 and no challenge
      is stored. */
  lemma ChallengeOnlyForStored(node: Node, req: ChallengeRequest, random: Bytes, now: int)
    requires |random| == RANDOM_SIZE && Coherent(node.users)
    ensures var r := Challenge(node, req, random, now);
      && (r.reply.Ok? <==> req.userId in node.users.rows && 0 <= now < Pow256(STAMP_SIZE))
      && (req.userId !in node.users.rows ==> r.reply == Refused(HttpError(404, "User not found")) && r.node.auth == node.auth)
      && (req.userId in node.users.rows && !(0 <= now < Pow256(STAMP_SIZE)) ==> r.reply == Crashed(OverflowError))
  {
    ExistsIffStored(node.users, req.userId);
  }

  /** register answers 409 exactly for a stored user id and 201 for any
      other; it never writes the table. */
  lemma RegisterConflict(node: Node, req: RegisterRequest, build: Json -> Json, ledger: HttpResponse)
    requires Coherent(node.users)
    ensures var r := RegisterNew(node, req, build, ledger);
      && (req.userId in node.users.rows <==> r.reply == Refused(HttpError(409, "User already exists")))
      && (req.userId !in node.users.rows <==> r.reply.Ok?)
  {
    ExistsIffStored(node.users, req.userId);
  }

  /** verify decides in a fixed order: the stored challenge (400), then
      the stored public key (an unknown user raises, 500; a falsy key is
      404), then the signature (401). The first failing check decides. */
  lemma VerifyCheckOrder(s: Suite, node: Node, req: VerifyRequest, random: Bytes, build: Json -> Json, ledger: HttpResponse)
    requires |random| == RANDOM_SIZE
    ensures var r := Login(s, node, req, random, build, ledger);
      var u := req.userId;
      var challenged := u in node.auth.challenges && node.auth.challenges[u] != "";
      var key := GetPublicKey(node.users, u).0;
      && (Status(r.reply) == 400 <==> !challenged)
      && (Status(r.reply) == 500 <==> challenged && key.Failure?)
      && (Status(r.reply) == 404 <==> challenged && key.Success? && !Truthy(key.value))
      && (Status(r.reply) == 401 <==>
            challenged && key.Success? && Truthy(key.value) && !SignatureValid(s, key.value, node.auth.challenges[u], req.signature))
      && (r.reply.Ok? <==> challenged && key.Success? && SignatureValid(s, key.value, node.auth.challenges[u], req.signature))
  {
  }

  /** A token is issued only for a signature that the Ed25519 check
      accepts: over the UTF-8 bytes of the stored challenge, under the
      32-byte key the user table holds. */
  lemma TokenNeedsSignature(s: Suite, node: Node, req: VerifyRequest, random: Bytes, build: Json -> Json, ledger: HttpResponse)
    requires |random| == RANDOM_SIZE
    ensures var r := Login(s, node, req, random, build, ledger);
      r.reply.Ok? ==>
        var key := GetPublicKey(node.users, req.userId).0.value;
        && key.Str? && DecodeLenient(key.s).Success? && |DecodeLenient(key.s).value| == PUBLIC_KEY_SIZE
        && DecodeLenient(req.signature).Success?
        && s.verify(DecodeLenient(key.s).value, Utf8Encode(node.auth.challenges[req.userId]), DecodeLenient(req.signature).value)
  {
  }

  /** On a reachable node the unknown-user crash of verify cannot happen:
      whoever holds a challenge is stored. */
  lemma VerifyNeverCrashes(s: Suite, node: Node, req: VerifyRequest, random: Bytes, build: Json -> Json, ledger: HttpResponse)
    requires |random| == RANDOM_SIZE && Invariant(node)
    ensures !Login(s, node, req, random, build, ledger).reply.Crashed?
  {
    PublicKeyOfStored(node.users, req.userId);
  }

  /** Every route keeps the invariant. */
  lemma ChallengeKeepsInvariant(node: Node, req: ChallengeRequest, random: Bytes, now: int)
    requires |random| == RANDOM_SIZE && Invariant(node)
    ensures Invariant(Challenge(node, req, random, now).node)
  {
    GetReadsThrough(node.users, req.userId);
    ExistsIffStored(node.users, req.userId);
  }

  lemma RegisterKeepsInvariant(node: Node, req: RegisterRequest, build: Json -> Json, ledger: HttpResponse)
    requires Invariant(node)
    ensures Invariant(RegisterNew(node, req, build, ledger).node)
  {
    GetReadsThrough(node.users, req.userId);
  }

  lemma LoginKeepsInvariant(s: Suite, node: Node, req: VerifyRequest, random: Bytes, build: Json -> Json, ledger: HttpResponse)
    requires |random| == RANDOM_SIZE && Invariant(node)
    ensures Invariant(Login(s, node, req, random, build, ledger).node)
  {
    LoginUsers(s, node, req, random, build, ledger);
    GetReadsThrough(node.users, req.userId);
  }

  /** Login changes the user store at most by the read of the key. */
  lemma LoginUsers(s: Suite, node: Node, req: VerifyRequest, random: Bytes, build: Json -> Json, ledger: HttpResponse)
    requires |random| == RANDOM_SIZE
    ensures var users := Login(s, node, req, random, build, ledger).node.users;
      users == node.users || users == GetPublicKey(node.users, req.userId).1
  {
  }

  /** So do the expiry of a challenge or a session, the eviction of a
      cached user and the storing of a user from a registration event. */
  lemma BackgroundKeepsInvariant(node: Node, u: string, token: string, event: Json)
    requires Invariant(node)
    ensures Invariant(node.(auth := ExpireChallenge(node.auth, u)))
    ensures Invariant(node.(auth := ExpireSession(node.auth, token)))
    ensures Invariant(node.(users := EvictUser(node.users, u)))
    ensures RegisterUser(node.users, event).Success? ==> Invariant(node.(users := RegisterUser(node.users, event).value))
  {
    EvictKeepsCoherent(node.users, u);
  }

  /** verify does not consume the challenge: replaying the same request
      while the challenge lives yields another token, and both tokens stay
      valid for the user. */
  lemma ReplayGivesAnotherToken(s: Suite, node: Node, req: VerifyRequest, r1: Bytes, r2: Bytes,
                                build: Json -> Json, l1: HttpResponse, l2: HttpResponse)
    requires |r1| == RANDOM_SIZE && |r2| == RANDOM_SIZE && r1 != r2 && Invariant(node)
    requires Login(s, node, req, r1, build, l1).reply.Ok?
    ensures var first := Login(s, node, req, r1, build, l1);
      var second := Login(s, first.node, req, r2, build, l2);
      && second.reply.Ok?
      && TokenOf(first.reply) != TokenOf(second.reply)
      && VerifySessionToken(second.node.auth, req.userId, TokenOf(first.reply).value)
      && VerifySessionToken(second.node.auth, req.userId, TokenOf(second.reply).value)
  {
    var first := Login(s, node, req, r1, build, l1);
    LoginKeepsInvariant(s, node, req, r1, build, l1);
    PublicKeyOfStored(node.users, req.userId);
    PublicKeyOfStored(first.node.users, req.userId);
    SameDecisionAgain(s, node, first.node, req, r1, r2, build, l1, l2);
    var second := Login(s, first.node, req, r2, build, l2);
    var t1 := TokenOf(first.reply).value;
    var t2 := TokenOf(second.reply).value;
    assert DecodeStrict(t1) == Success(r1) && DecodeStrict(t2) == Success(r2);
    assert t1 != t2;
  }

  /** Two nodes holding the same challenge and the same stored key for a
      user decide a login request the same way. */
  lemma SameDecisionAgain(s: Suite, n1: Node, n2: Node, req: VerifyRequest, r1: Bytes, r2: Bytes,
                          build: Json -> Json, l1: HttpResponse, l2: HttpResponse)
    requires |r1| == RANDOM_SIZE && |r2| == RANDOM_SIZE
    requires n1.auth.challenges == n2.auth.challenges
    requires GetPublicKey(n1.users, req.userId).0 == GetPublicKey(n2.users, req.userId).0
    ensures Login(s, n1, req, r1, build, l1).reply.Ok? <==> Login(s, n2, req, r2, build, l2).reply.Ok?
  {
    VerifyCheckOrder(s, n1, req, r1, build, l1);
    VerifyCheckOrder(s, n2, req, r2, build, l2);
  }

  /** The request body that `.dict()` gives back validates to the same
      request. */
  lemma ChallengeBodyAccepted(u: string)
    requires ReMatch(RE_USER_ID, u)
    ensures ParseChallenge(ChallengeDict(ChallengeRequest(u))) == Success(ChallengeRequest(u))
  {
    var ms := ChallengeDict(ChallengeRequest(u)).members;
    assert Get(ms, "user_id") == Some(Str(u));
    assert Extras(ms, CHALLENGE_FIELDS) == {};
  }

  lemma VerifyBodyAccepted(env: Env, u: string, sig: Bytes)
    requires ReMatch(RE_USER_ID, u) && env.reBase64(Encode(sig))
    ensures ParseVerify(env, VerifyDict(VerifyRequest(u, Encode(sig)))) == Success(VerifyRequest(u, Encode(sig)))
  {
    var ms := VerifyDict(VerifyRequest(u, Encode(sig))).members;
    EncodeIsStrict(sig);
    assert Get(ms, "user_id") == Some(Str(u));
    assert Get(ms, "signature") == Some(Str(Encode(sig)));
    assert Extras(ms, VERIFY_FIELDS) == {};
  }

  /** A stored user whose table row holds the base64 Ed25519 public key of
      a seed logs in: the challenge is issued, and its UTF-8 bytes signed
      with that seed and sent back are accepted with a session token for
      that user. */
  lemma SignedChallengeLogsIn(env: Env, s: Suite, node: Node, u: string, seed: Bytes, r1: Bytes, now: int,
                              r2: Bytes, build: Json -> Json, ledger: HttpResponse)
    requires Invariant(node) && |r1| == RANDOM_SIZE && |r2| == RANDOM_SIZE && 0 <= now < Pow256(STAMP_SIZE)
    requires |seed| == SEED_SIZE && ReMatch(RE_USER_ID, u)
    requires u in node.users.rows && node.users.rows[u][4] == Str(Encode(s.publicKey(seed)))
    ensures var c := RequestChallenge(node, ChallengeDict(ChallengeRequest(u)), r1, now);
      && c.reply.Ok?
      && u in c.node.auth.challenges
      && var sig := Encode(s.sign(seed, Utf8Encode(c.node.auth.challenges[u])));
         env.reBase64(sig) ==>
           var v := Verify(env, s, c.node, VerifyDict(VerifyRequest(u, sig)), r2, build, ledger);
           && v.reply.Ok?
           && VerifySessionToken(v.node.auth, u, TokenOf(v.reply).value)
  {
    ChallengeBodyAccepted(u);
    var c := Challenge(node, ChallengeRequest(u), r1, now);
    ChallengeOnlyForStored(node, ChallengeRequest(u), r1, now);
    ChallengeKeepsInvariant(node, ChallengeRequest(u), r1, now);
    var challenge := c.node.auth.challenges[u];
    var raw := s.sign(seed, Utf8Encode(challenge));
    var sig := Encode(raw);
    if env.reBase64(sig) {
      VerifyBodyAccepted(env, u, raw);
      SignedChallengeAccepted(s, c.node, u, seed, challenge, r2, build, ledger);
    }
  }

  /** The login step of the above, once the request has validated. */
  lemma SignedChallengeAccepted(s: Suite, node: Node, u: string, seed: Bytes, challenge: string,
                                random: Bytes, build: Json -> Json, ledger: HttpResponse)
    requires Invariant(node) && |random| == RANDOM_SIZE && |seed| == SEED_SIZE
    requires u in node.users.rows && node.users.rows[u][4] == Str(Encode(s.publicKey(seed)))
    requires u in node.auth.challenges && node.auth.challenges[u] == challenge && challenge != ""
    ensures var sig := Encode(s.sign(seed, Utf8Encode(challenge)));
      var v := Login(s, node, VerifyRequest(u, sig), random, build, ledger);
      && v.reply.Ok?
      && VerifySessionToken(v.node.auth, u, TokenOf(v.reply).value)
  {
    var raw := s.sign(seed, Utf8Encode(challenge));
    PublicKeyOfStored(node.users, u);
    DecodeLenientEncode(s.publicKey(seed));
    DecodeLenientEncode(raw);
    assert SignatureValid(s, Str(Encode(s.publicKey(seed))), challenge, Encode(raw));
    LoginSucceeds(s, node, VerifyRequest(u, Encode(raw)), random, build, ledger);
  }

  /** Login answers 200 once the challenge is there, the key is stored and
      the signature checks. */
  lemma LoginSucceeds(s: Suite, node: Node, req: VerifyRequest, random: Bytes, build: Json -> Json, ledger: HttpResponse)
    requires |random| == RANDOM_SIZE
    requires req.userId in node.auth.challenges && node.auth.challenges[req.userId] != ""
    requires GetPublicKey(node.users, req.userId).0.Success?
    requires var key := GetPublicKey(node.users, req.userId).0.value;
      key.Str? && key.s != "" && SignatureValid(s, key, node.auth.challenges[req.userId], req.signature)
    ensures Login(s, node, req, random, build, ledger).reply.Ok?
  {
    assert GetChallenge(node.auth, req.userId) == Some(node.auth.challenges[req.userId]);
  }
}

=== FILE: base64.dfy ===
/** Standard base64 (RFC 4648 section 4) as Python's `base64` module
    applies it: `b64encode`, `b64decode(s, validate=True)` (binascii in
    strict mode) and plain `b64decode(s)` (binascii in lenient mode). */
module Base64 {
  import opened Wrappers
  import opened Bytes
  import opened Seqs

  // ---------------------------------------------------------------------
  // Alphabet

  predicate IsB64Char(c: char) {
    ('A' <= c <= 'Z') || ('a' <= c <= 'z') || ('0' <= c <= '9') || c == '+' || c == '/'
  }

  predicate AllB64(s: string) {
    forall k :: 0 <= k < |s| ==> IsB64Char(s[k])
  }

  type Sextet = v: int | 0 <= v < 64

  function SextetValue(c: char): Sextet
    requires IsB64Char(c)
  {
    if 'A' <= c <= 'Z' then c as int - 'A' as int
    else if 'a' <= c <= 'z' then c as int - 'a' as int + 26
    else if '0' <= c <= '9' then c as int - '0' as int + 52
    else if c == '+' then 62
    else 63
  }

  function SextetChar(v: Sextet): (c: char)
    ensures IsB64Char(c) && SextetValue(c) == v
  {
    if v < 26 then ('A' as int + v) as char
    else if v < 52 then ('a' as int + v - 26) as char
    else if v < 62 then ('0' as int + v - 52) as char
    else if v == 62 then '+'
    else '/'
  }

  function Values(s: string): (vs: seq<Sextet>)
    requires AllB64(s)
    ensures |vs| == |s|
    ensures forall k :: 0 <= k < |s| ==> vs[k] == SextetValue(s[k])
  {
    if |s| == 0 then [] else [SextetValue(s[0])] + Values(s[1..])
  }

  lemma ValuesAppend(a: string, b: string)
    requires AllB64(a) && AllB64(b)
    ensures AllB64(a + b) && Values(a + b) == Values(a) + Values(b)
  {
  }

  // ---------------------------------------------------------------------
  // Encoding

  /** The data characters of `b64encode(b)`, padding excluded: four for
      every full group of three bytes, and one more than the bytes of a
      final partial group. */
  function EncodeData(b: Bytes): (s: string)
    ensures AllB64(s)
    ensures |s| == 4 * (|b| / 3) + DataTail(|b| % 3)
    decreases |b|
  {
    if |b| == 0 then ""
    else if |b| == 1 then [SextetChar(b[0] / 4), SextetChar((b[0] % 4) * 16)]
    else if |b| == 2 then
      [SextetChar(b[0] / 4), SextetChar((b[0] % 4) * 16 + b[1] / 16), SextetChar((b[1] % 16) * 4)]
    else
      GroupStep(|b| - 3);
      Group(b[0], b[1], b[2]) + EncodeData(b[3..])
  }

  /** The four characters of a full group of three bytes. */
  function Group(x: byte, y: byte, z: byte): (g: string)
    ensures |g| == 4 && AllB64(g)
  {
    [SextetChar(x / 4), SextetChar((x % 4) * 16 + y / 16),
     SextetChar((y % 16) * 4 + z / 64), SextetChar(z % 64)]
  }

  /** The characters a final group of `r` bytes needs. */
  function DataTail(r: nat): nat {
    if r == 0 then 0 else r + 1
  }

  function Padding(n: nat): string {
    if n % 3 == 1 then "==" else if n % 3 == 2 then "=" else ""
  }

  /** `b64encode(b).decode()`: data characters, then "=" padding up to a
      multiple of four. */
  function Encode(b: Bytes): (s: string)
    ensures |s| == 4 * ((|b| + 2) / 3)
  {
    EncodeDataLength(b);
    EncodeData(b) + Padding(|b|)
  }

  lemma EncodeDataLength(b: Bytes)
    ensures |EncodeData(b)| + |Padding(|b|)| == 4 * ((|b| + 2) / 3)
    ensures |EncodeData(b)| % 4 == DataTail(|b| % 3)
  {
    var n := |b|;
    var q, r := n / 3, n % 3;
    assert n == 3 * q + r;
    if r == 0 {
      DivThree(n + 2, q, 2);
    } else {
      DivThree(n + 2, q + 1, r - 1);
    }
    DivFour(|EncodeData(b)|, q, DataTail(r));
  }

  lemma DivThree(a: nat, q: nat, r: nat)
    requires a == 3 * q + r && r < 3
    ensures a / 3 == q && a % 3 == r
  {
  }

  lemma DivFour(a: nat, q: nat, r: nat)
    requires a == 4 * q + r && r < 4
    ensures a / 4 == q && a % 4 == r
  {
  }

  /** Three more bytes are one more group with the same remainder. */
  lemma GroupStep(n: nat)
    ensures (n + 3) % 3 == n % 3 && (n + 3) / 3 == n / 3 + 1
  {
  }

  // ---------------------------------------------------------------------
  // Decoding state, shared by both binascii modes

  /** The decoder's position inside a four-character group, the bits of the
      last character not yet written out, and the bytes written so far. */
  datatype Quad = Quad(pos: nat, left: nat, out: Bytes)

  predicate QuadOk(q: Quad) {
    && q.pos < 4
    && (q.pos == 0 ==> q.left == 0)
    && (q.pos == 1 ==> q.left < 64)
    && (q.pos == 2 ==> q.left < 16)
    && (q.pos == 3 ==> q.left < 4)
  }

  const Start := Quad(0, 0, [])

  /** One data character into the group, as the binascii switch on
      `quad_pos` does it. */
  function Absorb(q: Quad, v: Sextet): (r: Quad)
    requires QuadOk(q)
    ensures QuadOk(r) && r.pos == (q.pos + 1) % 4
  {
    if q.pos == 0 then Quad(1, v, q.out)
    else if q.pos == 1 then Quad(2, v % 16, q.out + [q.left * 4 + v / 16])
    else if q.pos == 2 then Quad(3, v % 4, q.out + [q.left * 16 + v / 4])
    else Quad(0, 0, q.out + [q.left * 64 + v])
  }

  function Feed(q: Quad, vs: seq<Sextet>): (r: Quad)
    requires QuadOk(q)
    ensures QuadOk(r)
    decreases |vs|
  {
    if |vs| == 0 then q else Feed(Absorb(q, vs[0]), vs[1..])
  }

  /** Each data character advances the group position by one. */
  lemma {:induction false} FeedPos(q: Quad, vs: seq<Sextet>)
    requires QuadOk(q)
    ensures Feed(q, vs).pos == (q.pos + |vs|) % 4
    decreases |vs|
  {
    if |vs| > 0 {
      FeedPos(Absorb(q, vs[0]), vs[1..]);
    }
  }

  lemma {:induction false} FeedAppend(q: Quad, a: seq<Sextet>, b: seq<Sextet>)
    requires QuadOk(q)
    ensures Feed(q, a + b) == Feed(Feed(q, a), b)
    decreases |a|
  {
    if |a| > 0 {
      FeedAppend(Absorb(q, a[0]), a[1..], b);
      assert (a + b)[1..] == a[1..] + b;
    } else {
      assert a + b == b;
    }
  }

  lemma FeedOne(o: Bytes, x: byte)
    ensures Feed(Quad(0, 0, o), [x / 4, (x % 4) * 16]) == Quad(2, 0, o + [x])
  {
    var v0: Sextet := x / 4;
    var v1: Sextet := (x % 4) * 16;
    var q1 := Absorb(Quad(0, 0, o), v0);
    assert Feed(Quad(0, 0, o), [v0, v1]) == Feed(q1, [v1]);
    assert Feed(q1, [v1]) == Feed(Absorb(q1, v1), []);
  }

  lemma FeedTwo(o: Bytes, x: byte, y: byte)
    ensures Feed(Quad(0, 0, o), [x / 4, (x % 4) * 16 + y / 16, (y % 16) * 4])
         == Quad(3, 0, o + [x, y])
  {
    var v0: Sextet := x / 4;
    var v1: Sextet := (x % 4) * 16 + y / 16;
    var v2: Sextet := (y % 16) * 4;
    assert v0 * 4 + v1 / 16 == x;
    assert (v1 % 16) * 16 + v2 / 4 == y && v2 % 4 == 0;
    var q1 := Absorb(Quad(0, 0, o), v0);
    var q2 := Absorb(q1, v1);
    assert Feed(Quad(0, 0, o), [v0, v1, v2]) == Feed(q1, [v1, v2]);
    assert Feed(q1, [v1, v2]) == Feed(q2, [v2]);
    assert Feed(q2, [v2]) == Feed(Absorb(q2, v2), []);
  }

  lemma FeedThree(o: Bytes, x: byte, y: byte, z: byte)
    ensures Feed(Quad(0, 0, o), [x / 4, (x % 4) * 16 + y / 16, (y % 16) * 4 + z / 64, z % 64])
         == Quad(0, 0, o + [x, y, z])
  {
    var v0: Sextet := x / 4;
    var v1: Sextet := (x % 4) * 16 + y / 16;
    var v2: Sextet := (y % 16) * 4 + z / 64;
    var v3: Sextet := z % 64;
    assert v0 * 4 + v1 / 16 == x;
    assert (v1 % 16) * 16 + v2 / 4 == y;
    assert (v2 % 4) * 64 + v3 == z;
    var q1 := Absorb(Quad(0, 0, o), v0);
    var q2 := Absorb(q1, v1);
    var q3 := Absorb(q2, v2);
    assert Feed(Quad(0, 0, o), [v0, v1, v2, v3]) == Feed(q1, [v1, v2, v3]);
    assert Feed(q1, [v1, v2, v3]) == Feed(q2, [v2, v3]);
    assert Feed(q2, [v2, v3]) == Feed(q3, [v3]);
    assert Feed(q3, [v3]) == Feed(Absorb(q3, v3), []);
  }

  lemma ValuesOfTwo(v0: Sextet, v1: Sextet)
    ensures Values([SextetChar(v0), SextetChar(v1)]) == [v0, v1]
  {
  }

  lemma ValuesOfThree(v0: Sextet, v1: Sextet, v2: Sextet)
    ensures Values([SextetChar(v0), SextetChar(v1), SextetChar(v2)]) == [v0, v1, v2]
  {
  }

  lemma ValuesOfFour(v0: Sextet, v1: Sextet, v2: Sextet, v3: Sextet)
    ensures Values([SextetChar(v0), SextetChar(v1), SextetChar(v2), SextetChar(v3)]) == [v0, v1, v2, v3]
  {
  }

  lemma ValuesEncodeOne(b: Bytes)
    requires |b| == 1
    ensures Values(EncodeData(b)) == [b[0] / 4, (b[0] % 4) * 16]
  {
    ValuesOfTwo(b[0] / 4, (b[0] % 4) * 16);
  }

  lemma ValuesEncodeTwo(b: Bytes)
    requires |b| == 2
    ensures Values(EncodeData(b)) == [b[0] / 4, (b[0] % 4) * 16 + b[1] / 16, (b[1] % 16) * 4]
  {
    var x, y := b[0], b[1];
    var v0: Sextet := x / 4;
    var v1: Sextet := (x % 4) * 16 + y / 16;
    var v2: Sextet := (y % 16) * 4;
    assert EncodeData(b) == [SextetChar(v0), SextetChar(v1), SextetChar(v2)];
    ValuesOfThree(v0, v1, v2);
  }

  lemma FeedEncodeOne(o: Bytes, b: Bytes)
    requires |b| == 1
    ensures var q := Feed(Quad(0, 0, o), Values(EncodeData(b))); q.left == 0 && q.out == o + b
  {
    ValuesEncodeOne(b);
    FeedOne(o, b[0]);
    assert b == [b[0]];
  }

  lemma FeedEncodeTwo(o: Bytes, b: Bytes)
    requires |b| == 2
    ensures var q := Feed(Quad(0, 0, o), Values(EncodeData(b))); q.left == 0 && q.out == o + b
  {
    ValuesEncodeTwo(b);
    FeedTwo(o, b[0], b[1]);
    TwoBytes(b);
  }

  lemma TwoBytes(b: Bytes)
    requires |b| == 2
    ensures b == [b[0], b[1]]
  {
  }

  lemma ValuesOfGroup(x: byte, y: byte, z: byte)
    ensures Values(Group(x, y, z)) == [x / 4, (x % 4) * 16 + y / 16, (y % 16) * 4 + z / 64, z % 64]
  {
    ValuesOfFour(x / 4, (x % 4) * 16 + y / 16, (y % 16) * 4 + z / 64, z % 64);
  }

  lemma FeedGroup(o: Bytes, x: byte, y: byte, z: byte)
    ensures Feed(Quad(0, 0, o), Values(Group(x, y, z))) == Quad(0, 0, o + [x, y, z])
  {
    ValuesOfGroup(x, y, z);
    FeedThree(o, x, y, z);
  }

  lemma FeedEncodeGroup(o: Bytes, b: Bytes)
    requires |b| >= 3
    ensures Feed(Quad(0, 0, o), Values(EncodeData(b)))
         == Feed(Quad(0, 0, o + b[..3]), Values(EncodeData(b[3..])))
  {
    var g := Group(b[0], b[1], b[2]);
    assert EncodeData(b) == g + EncodeData(b[3..]);
    ValuesAppend(g, EncodeData(b[3..]));
    FeedAppend(Quad(0, 0, o), Values(g), Values(EncodeData(b[3..])));
    FeedGroup(o, b[0], b[1], b[2]);
    FirstThree(b);
  }

  lemma FirstThree(b: Bytes)
    requires |b| >= 3
    ensures b[..3] == [b[0], b[1], b[2]]
  {
  }

  /** Feeding the data characters of an encoding writes exactly the encoded
      bytes and leaves no stray bits behind. */
  lemma {:induction false} FeedEncodeData(o: Bytes, b: Bytes)
    ensures var q := Feed(Quad(0, 0, o), Values(EncodeData(b))); q.left == 0 && q.out == o + b
    decreases |b|
  {
    if |b| == 0 {
      FeedEncodeEmpty(o, b);
    } else if |b| == 1 {
      FeedEncodeOne(o, b);
    } else if |b| == 2 {
      FeedEncodeTwo(o, b);
    } else {
      FeedEncodeGroup(o, b);
      FeedEncodeData(o + b[..3], b[3..]);
      AppendSplit(o, b, 3);
    }
  }

  lemma FeedEncodeEmpty(o: Bytes, b: Bytes)
    requires |b| == 0
    ensures var q := Feed(Quad(0, 0, o), Values(EncodeData(b))); q.left == 0 && q.out == o + b
  {
    assert o + b == o;
  }

  // ---------------------------------------------------------------------
  // The strict form (validate=True)

  /** The number of leading alphabet characters of `s`. */
  function LeadingData(s: string): (k: nat)
    ensures k <= |s| && AllB64(s[..k])
    ensures k < |s| ==> !IsB64Char(s[k])
  {
    if |s| == 0 || !IsB64Char(s[0]) then 0
    else
      var k := 1 + LeadingData(s[1..]);
      assert s[..k] == [s[0]] + s[1..][..k - 1];
      k
  }

  lemma {:induction false} LeadingDataIs(s: string, k: nat)
    requires k <= |s| && AllB64(s[..k])
    requires k < |s| ==> !IsB64Char(s[k])
    ensures LeadingData(s) == k
  {
    if k > 0 {
      assert s[..k][0] == s[0];
      assert s[1..][..k - 1] == s[..k][1..];
      LeadingDataIs(s[1..], k - 1);
    }
  }

  /** The padding that completes a group holding `m` data characters. */
  function PadNeeded(m: nat): nat
    requires m < 4
  {
    if m == 0 then 0 else 4 - m
  }

  predicate AllPad(s: string) {
    forall j :: 0 <= j < |s| ==> s[j] == '='
  }

  /** What binascii accepts in strict mode: alphabet characters, then
      exactly the padding that completes the last group (none after a full
      group, "==" after two characters, "=" after three); one character
      alone in a group is never accepted. */
  predicate IsStrictB64(s: string) {
    var k := LeadingData(s);
    || (k % 4 == 0 && k == |s|)
    || (k % 4 == 2 && s[k..] == "==")
    || (k % 4 == 3 && s[k..] == "=")
  }

  /** The same condition, read as a shape: the data is followed by nothing
      but "=" characters, as many as the last group needs. */
  lemma StrictShape(s: string)
    ensures var k := LeadingData(s);
      IsStrictB64(s) <==> k % 4 != 1 && |s| - k == PadNeeded(k % 4) && AllPad(s[k..])
  {
    var k := LeadingData(s);
    var p := s[k..];
    if k % 4 != 1 && |p| == PadNeeded(k % 4) && AllPad(p) {
      if k % 4 == 2 { assert p == "=="; }
      if k % 4 == 3 { assert p == "="; }
    }
  }

  /** The decoder state after the first `i` characters of the data run. */
  function DecodePrefix(s: string, i: nat): (q: Quad)
    requires i <= LeadingData(s)
    ensures QuadOk(q) && q.pos == i % 4
  {
    if i == 0 then Start else Absorb(DecodePrefix(s, i - 1), SextetValue(s[i - 1]))
  }

  lemma {:induction false} DecodePrefixIsFeed(s: string, i: nat)
    requires i <= LeadingData(s)
    ensures DecodePrefix(s, i) == Feed(Start, Values(s[..i]))
  {
    if i > 0 {
      DecodePrefixIsFeed(s, i - 1);
      assert s[..i] == s[..i - 1] + [s[i - 1]];
      ValuesAppend(s[..i - 1], [s[i - 1]]);
      FeedAppend(Start, Values(s[..i - 1]), Values([s[i - 1]]));
    }
  }

  /** The bytes a well-formed string stands for. */
  function Decoded(s: string): Bytes {
    DecodePrefix(s, LeadingData(s)).out
  }

  /** `b64decode(s, validate=True)` as a value. */
  function DecodeStrict(s: string): (r: Result<Bytes, PyError>)
    ensures r.Success? <==> IsStrictB64(s)
  {
    if IsStrictB64(s) then Success(Decoded(s))
    else Failure(ValueError("Invalid base64-encoded string"))
  }

  lemma EncodeIsStrict(b: Bytes)
    ensures IsStrictB64(Encode(b))
    ensures LeadingData(Encode(b)) == |EncodeData(b)|
  {
    EncodeDataLength(b);
    StrictOfDataPad(EncodeData(b), Padding(|b|));
  }

  /** Data characters followed by the padding their last group needs are
      accepted, and the data run ends where the padding starts. */
  lemma StrictOfDataPad(d: string, p: string)
    requires AllB64(d)
    requires || (p == "" && |d| % 4 == 0)
             || (p == "==" && |d| % 4 == 2)
             || (p == "=" && |d| % 4 == 3)
    ensures IsStrictB64(d + p) && LeadingData(d + p) == |d|
  {
    var s := d + p;
    TakePrefix(d, p);
    DropPrefix(d, p);
    if |p| > 0 {
      assert s[|d|] == p[0];
    }
    LeadingDataIs(s, |d|);
  }

  /** Round trip: every standard encoding is accepted in strict mode and
      decodes to the bytes it encodes. */
  lemma DecodeStrictEncode(b: Bytes)
    ensures DecodeStrict(Encode(b)) == Success(b)
  {
    EncodeIsStrict(b);
    var s := Encode(b);
    var d := EncodeData(b);
    assert s[..LeadingData(s)] == d;
    DecodePrefixIsFeed(s, LeadingData(s));
    FeedEncodeData([], b);
    assert [] + b == b;
    assert Decoded(s) == b;
  }

  lemma NotStrictBadChar(s: string, j: nat)
    requires LeadingData(s) <= j < |s| && s[j] != '='
    ensures !IsStrictB64(s)
  {
    var k := LeadingData(s);
    assert s[k..][j - k] == s[j];
    StrictShape(s);
  }

  lemma NotStrictLength(s: string)
    requires var k := LeadingData(s); k % 4 == 1 || |s| - k != PadNeeded(k % 4)
    ensures !IsStrictB64(s)
  {
    StrictShape(s);
  }

  lemma StrictOfPadded(s: string)
    requires var k := LeadingData(s); (k % 4 == 2 || k % 4 == 3) && |s| - k == PadNeeded(k % 4)
    requires forall j :: LeadingData(s) <= j < |s| ==> s[j] == '='
    ensures IsStrictB64(s)
  {
    StrictShape(s);
  }

  /** The binascii strict-mode loop, character by character, with the
      error it raises at each point. binascii runs one loop over the input;
      in strict mode a data character after the first "=" is an error, so
      the loop is written here as the data run followed by `ScanPadding`.
      The result agrees with the declarative description above. */
  method ScanStrict(s: string) returns (r: Result<Bytes, PyError>)
    ensures r.Success? <==> IsStrictB64(s)
    ensures r.Success? ==> r.value == Decoded(s)
  {
    if !IsAscii(s) {
      NonAsciiNotStrict(s);
      return Failure(ValueError("string argument should contain only ASCII characters"));
    }
    if |s| > 0 && s[0] == '=' {
      LeadingDataIs(s, 0);
      NotStrictLength(s);
      return Failure(ValueError("Leading padding not allowed"));
    }
    var q := Start;
    var i := 0;
    while i < |s| && s[i] != '='
      invariant i <= LeadingData(s) && q == DecodePrefix(s, i)
    {
      if !IsB64Char(s[i]) {
        NotStrictBadChar(s, i);
        return Failure(ValueError("Only base64 data is allowed"));
      }
      q := Absorb(q, SextetValue(s[i]));
      i := i + 1;
    }
    r := ScanPadding(s, i, q);
  }

  /** The rest of the strict loop, from the first "=" (or the end of the
      input) on: count the padding, stop when it completes the group, and
      reject anything else. */
  method ScanPadding(s: string, k: nat, q: Quad) returns (r: Result<Bytes, PyError>)
    requires LeadingData(s) == k && q == DecodePrefix(s, k)
    requires k < |s| ==> s[k] == '='
    ensures r.Success? <==> IsStrictB64(s)
    ensures r.Success? ==> r.value == Decoded(s)
  {
    var pads := 0;
    var i := k;
    while i < |s|
      invariant k <= i <= |s|
      invariant forall j :: k <= j < i ==> s[j] == '='
      invariant i > k ==> q.pos == 1 || q.pos == 2
      invariant q.pos == 2 ==> pads == i - k && pads < 2
      invariant q.pos != 2 ==> pads == 0
    {
      if s[i] == '=' {
        if q.pos == 0 {
          NotStrictLength(s);
          return Failure(ValueError("Excess padding not allowed"));
        }
        if q.pos >= 2 {
          pads := pads + 1;
          if q.pos + pads >= 4 {
            if i + 1 < |s| {
              NotStrictLength(s);
              return Failure(ValueError("Excess data after padding"));
            }
            StrictOfPadded(s);
            return Success(q.out);
          }
        }
        i := i + 1;
      } else {
        NotStrictBadChar(s, i);
        if !IsB64Char(s[i]) {
          return Failure(ValueError("Only base64 data is allowed"));
        }
        return Failure(ValueError("Discontinuous padding not allowed"));
      }
    }
    if q.pos != 0 {
      NotStrictLength(s);
      return Failure(ValueError(if q.pos == 1
        then "number of data characters cannot be 1 more than a multiple of 4"
        else "Incorrect padding"));
    }
    return Success(q.out);
  }

  lemma NonAsciiNotStrict(s: string)
    requires !IsAscii(s)
    ensures !IsStrictB64(s)
  {
    var k := LeadingData(s);
    forall j | 0 <= j < k ensures s[j] as int < 0x80 {
      assert s[..k][j] == s[j];
    }
    var j :| 0 <= j < |s| && s[j] as int >= 0x80;
    assert s[k..][j - k] == s[j];
    StrictShape(s);
  }

  // ---------------------------------------------------------------------
  // The lenient form (plain b64decode)

  /** binascii in lenient mode: characters outside the alphabet are
      skipped, "=" ends the input once it completes a group of at least two
      data characters, and an unfinished group is an error. */
  function ScanLenient(s: string, q: Quad, pads: nat): (r: Result<Bytes, PyError>)
    requires QuadOk(q)
    ensures r.Failure? ==> r.error.ValueError?
  {
    if |s| == 0 then
      if q.pos != 0 then Failure(ValueError("Incorrect padding")) else Success(q.out)
    else if s[0] == '=' then
      if q.pos >= 2 && q.pos + pads + 1 >= 4 then Success(q.out)
      else ScanLenient(s[1..], q, if q.pos >= 2 then pads + 1 else pads)
    else if !IsB64Char(s[0]) then ScanLenient(s[1..], q, pads)
    else ScanLenient(s[1..], Absorb(q, SextetValue(s[0])), 0)
  }

  /** `b64decode(s)` on a `str`: non-ASCII text is a ValueError, the rest
      goes through the lenient scan. */
  function DecodeLenient(s: string): (r: Result<Bytes, PyError>)
    ensures r.Failure? ==> r.error.ValueError?
  {
    if !IsAscii(s) then Failure(ValueError("string argument should contain only ASCII characters"))
    else ScanLenient(s, Start, 0)
  }

  lemma {:induction false} ScanLenientData(d: string, p: string, q: Quad, pads: nat)
    requires QuadOk(q) && AllB64(d) && |d| > 0
    ensures ScanLenient(d + p, q, pads) == ScanLenient(p, Feed(q, Values(d)), 0)
    decreases |d|
  {
    assert (d + p)[0] == d[0] && (d + p)[1..] == d[1..] + p;
    if |d| == 1 {
      assert d[1..] + p == p;
    } else {
      ScanLenientData(d[1..], p, Absorb(q, SextetValue(d[0])), 0);
    }
  }

  /** On every string the strict mode accepts, the lenient mode returns the
      same bytes. */
  lemma LenientAgreesOnStrict(s: string)
    requires IsStrictB64(s)
    ensures DecodeLenient(s) == Success(Decoded(s))
  {
    var k := LeadingData(s);
    var d := s[..k];
    var p := s[k..];
    assert s == d + p;
    StrictShape(s);
    assert IsAscii(s) by {
      forall j | 0 <= j < |s| ensures s[j] as int < 0x80 {
        if j < k { assert d[j] == s[j]; } else { assert p[j - k] == s[j]; }
      }
    }
    var q := DecodePrefix(s, k);
    DecodePrefixIsFeed(s, k);
    if k > 0 {
      ScanLenientData(d, p, Start, 0);
    }
    assert ScanLenient(s, Start, 0) == ScanLenient(p, q, 0);
    if p == "==" {
      assert p[1..] == "=";
      assert ScanLenient(p, q, 0) == ScanLenient("=", q, 1);
    }
  }

  /** Plain `b64decode(b64encode(b)) == b`. */
  lemma DecodeLenientEncode(b: Bytes)
    ensures DecodeLenient(Encode(b)) == Success(b)
  {
    DecodeStrictEncode(b);
    EncodeIsStrict(b);
    LenientAgreesOnStrict(Encode(b));
  }
}

=== FILE: bytes.dfy ===
/** Byte strings and the two text codecs the node applies to them:
    lowercase hexadecimal (`bytes.hex()` / `bytes.fromhex()`, RFC 4648
    section 8) and UTF-8 (`str.encode()` / `bytes.decode()`, RFC 3629). */
module Bytes {
  import opened Wrappers

  type byte = b: int | 0 <= b < 256
  type Bytes = seq<byte>

  // ---------------------------------------------------------------------
  // Hexadecimal

  predicate IsHexChar(c: char) {
    ('0' <= c <= '9') || ('a' <= c <= 'f') || ('A' <= c <= 'F')
  }

  predicate IsLowerHexChar(c: char) {
    ('0' <= c <= '9') || ('a' <= c <= 'f')
  }

  predicate IsLowerHex(s: string) {
    forall k :: 0 <= k < |s| ==> IsLowerHexChar(s[k])
  }

  function HexValue(c: char): (d: nat)
    requires IsHexChar(c)
    ensures d < 16
  {
    if '0' <= c <= '9' then c as int - '0' as int
    else if 'a' <= c <= 'f' then c as int - 'a' as int + 10
    else c as int - 'A' as int + 10
  }

  function LowerHexDigit(d: nat): (c: char)
    requires d < 16
    ensures IsLowerHexChar(c) && HexValue(c) == d
  {
    if d < 10 then ('0' as int + d) as char else ('a' as int + d - 10) as char
  }

  /** `b.hex()`: two lowercase hex digits per byte, high nibble first. */
  function ToHex(b: Bytes): (s: string)
    ensures |s| == 2 * |b| && IsLowerHex(s)
  {
    if |b| == 0 then ""
    else [LowerHexDigit(b[0] / 16), LowerHexDigit(b[0] % 16)] + ToHex(b[1..])
  }

  /** The whitespace `bytes.fromhex` skips between byte pairs. */
  predicate IsAsciiSpace(c: char) {
    c == ' ' || c == '\t' || c == '\n' || c == '\r' || c as int == 0x0B || c as int == 0x0C
  }

  /** `bytes.fromhex(s)`: pairs of hex digits of either case, with ASCII
      whitespace allowed before any pair; a lone or non-hex digit raises
      ValueError. */
  function FromHex(s: string): (r: Result<Bytes, PyError>)
    ensures r.Success? ==> |r.value| <= |s| / 2
  {
    if |s| == 0 then Success([])
    else if IsAsciiSpace(s[0]) then FromHex(s[1..])
    else if |s| >= 2 && IsHexChar(s[0]) && IsHexChar(s[1]) then
      match FromHex(s[2..])
      case Success(rest) =>
        var v: byte := HexValue(s[0]) * 16 + HexValue(s[1]);
        Success([v] + rest)
      case Failure(e) => Failure(e)
    else Failure(ValueError("non-hexadecimal number found in fromhex() arg"))
  }

  /** Round trip: `bytes.fromhex(b.hex()) == b`. */
  lemma {:induction false} FromHexToHex(b: Bytes)
    ensures FromHex(ToHex(b)) == Success(b)
  {
    if |b| > 0 {
      var s := ToHex(b);
      FromHexToHex(b[1..]);
      assert s[2..] == ToHex(b[1..]);
      assert s[0] == LowerHexDigit(b[0] / 16) && s[1] == LowerHexDigit(b[0] % 16);
      assert HexValue(s[0]) * 16 + HexValue(s[1]) == b[0];
      assert b == [b[0]] + b[1..];
    }
  }

  /** A run of hex digits of odd length cannot be decoded. */
  lemma {:induction false} OddHexFails(s: string)
    requires forall k :: 0 <= k < |s| ==> IsHexChar(s[k])
    requires |s| % 2 == 1
    ensures FromHex(s).Failure?
  {
    if |s| >= 2 {
      OddHexFails(s[2..]);
    }
  }

  // ---------------------------------------------------------------------
  // UTF-8

  /** The UTF-8 encoding of one Unicode scalar value. */
  function Utf8Char(c: char): (b: Bytes)
    ensures 1 <= |b| <= 4
    ensures c as int < 0x80 <==> |b| == 1
  {
    var n := c as int;
    if n < 0x80 then [n]
    else if n < 0x800 then [0xC0 + n / 64, 0x80 + n % 64]
    else if n < 0x10000 then [0xE0 + n / 4096, 0x80 + (n / 64) % 64, 0x80 + n % 64]
    else [0xF0 + n / 262144, 0x80 + (n / 4096) % 64, 0x80 + (n / 64) % 64, 0x80 + n % 64]
  }

  /** `s.encode("utf-8")`. */
  function Utf8Encode(s: string): (b: Bytes)
    ensures |b| >= |s|
  {
    if |s| == 0 then [] else Utf8Char(s[0]) + Utf8Encode(s[1..])
  }

  predicate IsCont(b: byte) { 0x80 <= b < 0xC0 }

  predicate IsScalar(n: int) { (0 <= n < 0xD800) || (0xE000 <= n < 0x11_0000) }

  /** Decodes the first character of `b` under the strict rules of the
      Python codec: no overlong forms, no surrogates, nothing above
      U+10FFFF, no truncated sequence. Yields the character and the
      number of bytes it used. */
  function DecodeFirst(b: Bytes): (r: Option<(char, nat)>)
    requires |b| > 0
    ensures r.Some? ==> 1 <= r.value.1 <= |b|
  {
    var b0: int := b[0];
    var c1: int := if |b| > 1 then b[1] as int - 0x80 else -1;
    var c2: int := if |b| > 2 then b[2] as int - 0x80 else -1;
    var c3: int := if |b| > 3 then b[3] as int - 0x80 else -1;
    if b0 < 0x80 then Some((b0 as char, 1))
    else if 0xC2 <= b0 <= 0xDF && 0 <= c1 < 64 then
      var n := (b0 - 0xC0) * 64 + c1;
      Some((n as char, 2))
    else if 0xE0 <= b0 <= 0xEF && 0 <= c1 < 64 && 0 <= c2 < 64 then
      var n := (b0 - 0xE0) * 4096 + c1 * 64 + c2;
      if 0x800 <= n && IsScalar(n) then Some((n as char, 3)) else None
    else if 0xF0 <= b0 <= 0xF4 && 0 <= c1 < 64 && 0 <= c2 < 64 && 0 <= c3 < 64 then
      var n := (b0 - 0xF0) * 262144 + c1 * 4096 + c2 * 64 + c3;
      if 0x10000 <= n < 0x11_0000 then Some((n as char, 4)) else None
    else None
  }

  /** `b.decode("utf-8")`: invalid input raises a ValueError
      (UnicodeDecodeError). */
  function Utf8Decode(b: Bytes): Result<string, PyError>
    decreases |b|
  {
    if |b| == 0 then Success("")
    else match DecodeFirst(b)
      case None => Failure(ValueError("invalid utf-8"))
      case Some((c, len)) =>
        match Utf8Decode(b[len..])
        case Success(rest) => Success([c] + rest)
        case Failure(e) => Failure(e)
  }

  lemma DecodeFirstOfChar(c: char, rest: Bytes)
    ensures DecodeFirst(Utf8Char(c) + rest) == Some((c, |Utf8Char(c)|))
  {
    var n := c as int;
    if n < 0x80 {
    } else if n < 0x800 {
      DecodeFirstTwo(c, rest);
    } else if n < 0x10000 {
      DecodeFirstThree(c, rest);
    } else {
      DecodeFirstFour(c, rest);
    }
  }

  lemma DecodeFirstTwo(c: char, rest: Bytes)
    requires 0x80 <= c as int < 0x800
    ensures DecodeFirst(Utf8Char(c) + rest) == Some((c, 2))
  {
    var n := c as int;
    var b := Utf8Char(c) + rest;
    assert b[0] as int == 0xC0 + n / 64 && b[1] as int == 0x80 + n % 64;
  }

  lemma DecodeFirstThree(c: char, rest: Bytes)
    requires 0x800 <= c as int < 0x10000
    ensures DecodeFirst(Utf8Char(c) + rest) == Some((c, 3))
  {
    var n := c as int;
    var b := Utf8Char(c) + rest;
    assert b[0] as int == 0xE0 + n / 4096;
    assert b[1] as int == 0x80 + (n / 64) % 64 && b[2] as int == 0x80 + n % 64;
    Split3(n);
  }

  lemma DecodeFirstFour(c: char, rest: Bytes)
    requires 0x10000 <= c as int
    ensures DecodeFirst(Utf8Char(c) + rest) == Some((c, 4))
  {
    var n := c as int;
    var b := Utf8Char(c) + rest;
    assert b[0] as int == 0xF0 + n / 262144 && b[1] as int == 0x80 + (n / 4096) % 64;
    assert b[2] as int == 0x80 + (n / 64) % 64 && b[3] as int == 0x80 + n % 64;
    Split4(n);
  }

  lemma Split3(n: nat)
    ensures (n / 4096) * 4096 + ((n / 64) % 64) * 64 + n % 64 == n
  {
    var q := n / 64;
    assert q * 64 + n % 64 == n;
    assert (q / 64) * 64 + q % 64 == q;
    assert n / 4096 == q / 64;
  }

  lemma Split4(n: nat)
    ensures (n / 262144) * 262144 + ((n / 4096) % 64) * 4096 + ((n / 64) % 64) * 64 + n % 64 == n
  {
    var q := n / 64;
    var q2 := q / 64;
    assert q * 64 + n % 64 == n;
    assert q2 * 64 + q % 64 == q;
    assert (q2 / 64) * 64 + q2 % 64 == q2;
    assert n / 4096 == q2;
    assert n / 262144 == q2 / 64;
  }

  /** Round trip: decoding the UTF-8 encoding of any string gives it back. */
  lemma {:induction false} Utf8RoundTrip(s: string)
    ensures Utf8Decode(Utf8Encode(s)) == Success(s)
  {
    if |s| > 0 {
      var head := Utf8Char(s[0]);
      var tail := Utf8Encode(s[1..]);
      DecodeFirstOfChar(s[0], tail);
      assert (head + tail)[|head|..] == tail;
      Utf8RoundTrip(s[1..]);
      assert s == [s[0]] + s[1..];
    }
  }

  predicate IsAscii(s: string) {
    forall k :: 0 <= k < |s| ==> s[k] as int < 0x80
  }

  /** The bytes of an ASCII string are its character codes. */
  lemma {:induction false} Utf8OfAscii(s: string)
    requires IsAscii(s)
    ensures |Utf8Encode(s)| == |s|
    ensures forall k :: 0 <= k < |s| ==> Utf8Encode(s)[k] == s[k] as int
  {
    if |s| > 0 {
      Utf8OfAscii(s[1..]);
    }
  }

  lemma {:induction false} Utf8Append(a: string, b: string)
    ensures Utf8Encode(a + b) == Utf8Encode(a) + Utf8Encode(b)
  {
    if |a| > 0 {
      Utf8Append(a[1..], b);
      assert (a + b)[1..] == a[1..] + b;
    } else {
      assert a + b == b;
    }
  }
}

=== FILE: constants.dfy ===
/** core/constants.py: the event types, the version strings and the three
    regular expressions the node defines itself. */
module Constants {
  import opened Bytes
  import opened Regex

  const EV_USER_REGISTERED := "user_registered"
  const EV_USER_JOINED_NODE := "user_joined_node"
  const EV_NODE_REGISTERED := "node_registered"
  const EV_NODE_STATUS := "node_status"
  const EV_FILE_CREATED := "file_created"
  const EV_FILE_DELETED := "file_deleted"
  const EV_FILE_SHARED := "file_shared"
  const EV_FILE_COPIED := "file_copied"
  const EV_FILE_REPLICATED := "file_replicated"
  const EV_FILE_RENAMED := "file_renamed"
  const EV_FILE_ACCESSED := "file_accessed"

  /** The event types in force; the commented-out ones of the source are
      not members. */
  const VALID_EVENT_TYPES: set<string> := {
    EV_USER_REGISTERED, EV_USER_JOINED_NODE, EV_NODE_REGISTERED, EV_NODE_STATUS,
    EV_FILE_CREATED, EV_FILE_DELETED, EV_FILE_SHARED, EV_FILE_COPIED,
    EV_FILE_REPLICATED, EV_FILE_RENAMED, EV_FILE_ACCESSED
  }

  const SW_VERSION := "dfs3-node/0.1.0"
  const PROTOCOL := "dfs3/1.0"

  /** The eleven names are distinct, and the names the source has
      commented out are not valid. */
  lemma ValidEventTypes()
    ensures |VALID_EVENT_TYPES| == 11
    ensures "user_updated" !in VALID_EVENT_TYPES && "user_deleted" !in VALID_EVENT_TYPES
    ensures "node_unregistered" !in VALID_EVENT_TYPES && "node_updated" !in VALID_EVENT_TYPES
  {
    EventTypeCount();
    CommentedOutTypes();
  }

  lemma EventTypeCount()
    ensures |VALID_EVENT_TYPES| == 11
  {
    var users := {EV_USER_REGISTERED, EV_USER_JOINED_NODE};
    var nodes := {EV_NODE_REGISTERED, EV_NODE_STATUS};
    var files := {EV_FILE_CREATED, EV_FILE_DELETED, EV_FILE_SHARED, EV_FILE_COPIED,
      EV_FILE_REPLICATED, EV_FILE_RENAMED, EV_FILE_ACCESSED};
    assert |users| == 2 && |nodes| == 2 && |files| == 7;
    assert users !! nodes && (users + nodes) !! files;
    assert VALID_EVENT_TYPES == users + nodes + files;
  }

  lemma CommentedOutTypes()
    ensures "user_updated" !in VALID_EVENT_TYPES && "user_deleted" !in VALID_EVENT_TYPES
    ensures "node_unregistered" !in VALID_EVENT_TYPES && "node_updated" !in VALID_EVENT_TYPES
  {
  }

  // ---------------------------------------------------------------------
  // Regular expressions

  /** `[a-fA-F0-9]`. */
  const HEX_CLASS := CharClass([('a', 'f'), ('A', 'F'), ('0', '9')], [])
  /** `[a-f0-9]`. */
  const LOWER_HEX_CLASS := CharClass([('a', 'f'), ('0', '9')], [])
  /** `[a-z0-9_-]`. */
  const ALIAS_CLASS := CharClass([('a', 'z'), ('0', '9')], ['_', '-'])

  /** `^0x[a-fA-F0-9]{64}$`. */
  const SHA256_HEX_PATTERN: Pattern := [Lit('0'), Lit('x'), Piece(HEX_CLASS, 64, 64)]
  /** `^[a-f0-9]{64}$`. */
  const RE_USER_ID: Pattern := [Piece(LOWER_HEX_CLASS, 64, 64)]
  /** `^[a-z0-9_-]{3,20}$`. */
  const RE_ALIAS: Pattern := [Piece(ALIAS_CLASS, 3, 20)]

  lemma HexClassIs(s: string)
    ensures AllIn(HEX_CLASS, s) <==> forall k :: 0 <= k < |s| ==> IsHexChar(s[k])
  {
    forall k | 0 <= k < |s| ensures InClass(HEX_CLASS, s[k]) <==> IsHexChar(s[k]) {
      var c := s[k];
      if 'a' <= c <= 'f' { assert HEX_CLASS.ranges[0].0 <= c <= HEX_CLASS.ranges[0].1; }
      if 'A' <= c <= 'F' { assert HEX_CLASS.ranges[1].0 <= c <= HEX_CLASS.ranges[1].1; }
      if '0' <= c <= '9' { assert HEX_CLASS.ranges[2].0 <= c <= HEX_CLASS.ranges[2].1; }
    }
  }

  lemma LowerHexClassIs(s: string)
    ensures AllIn(LOWER_HEX_CLASS, s) <==> IsLowerHex(s)
  {
    forall k | 0 <= k < |s| ensures InClass(LOWER_HEX_CLASS, s[k]) <==> IsLowerHexChar(s[k]) {
      var c := s[k];
      if 'a' <= c <= 'f' { assert LOWER_HEX_CLASS.ranges[0].0 <= c <= LOWER_HEX_CLASS.ranges[0].1; }
      if '0' <= c <= '9' { assert LOWER_HEX_CLASS.ranges[1].0 <= c <= LOWER_HEX_CLASS.ranges[1].1; }
    }
  }

  predicate IsAliasChar(c: char) {
    ('a' <= c <= 'z') || ('0' <= c <= '9') || c == '_' || c == '-'
  }

  lemma AliasClassIs(s: string)
    ensures AllIn(ALIAS_CLASS, s) <==> forall k :: 0 <= k < |s| ==> IsAliasChar(s[k])
  {
    forall k | 0 <= k < |s| ensures InClass(ALIAS_CLASS, s[k]) <==> IsAliasChar(s[k]) {
      var c := s[k];
      if 'a' <= c <= 'z' { assert ALIAS_CLASS.ranges[0].0 <= c <= ALIAS_CLASS.ranges[0].1; }
      if '0' <= c <= '9' { assert ALIAS_CLASS.ranges[1].0 <= c <= ALIAS_CLASS.ranges[1].1; }
    }
  }

  /** "0x" followed by exactly 64 hex digits of either case. */
  predicate IsPrefixedHex64(s: string) {
    |s| == 66 && s[0] == '0' && s[1] == 'x' && forall k :: 2 <= k < 66 ==> IsHexChar(s[k])
  }

  lemma {:induction false} ShaMatchesAt(s: string, e: nat)
    requires e <= |s|
    ensures Matches(SHA256_HEX_PATTERN, s, 0, e) <==>
      e == 66 && s[0] == '0' && s[1] == 'x' && forall k :: 2 <= k < 66 ==> IsHexChar(s[k])
  {
    var tail := [Piece(HEX_CLASS, 64, 64)];
    assert SHA256_HEX_PATTERN == [Lit('0')] + ([Lit('x')] + tail);
    LitHead('0', [Lit('x')] + tail, s, 0, e);
    LitHead('x', tail, s, 1, e);
    if |s| >= 2 {
      RunOnly(HEX_CLASS, 64, 64, s, 2, e);
      if e == 66 {
        HexClassIs(s[2..66]);
        assert forall k :: 2 <= k < 66 ==> s[2..66][k - 2] == s[k];
      }
    }
  }

  /** `SHA256_HEX_PATTERN.match(s)` accepts "0x" and 64 hex digits of
      either case, and, because of `$`, the same followed by one newline. */
  lemma Sha256HexMatch(s: string)
    ensures ReMatch(SHA256_HEX_PATTERN, s) <==>
      IsPrefixedHex64(s) || (|s| == 67 && s[66] == '\n' && IsPrefixedHex64(s[..66]))
  {
    ShaMatchesAt(s, |s|);
    if |s| > 0 {
      ShaMatchesAt(s, |s| - 1);
    }
  }

  /** A concrete instance of the trailing-newline case. */
  lemma Sha256HexTrailingNewline(digits: string)
    requires |digits| == 64 && IsLowerHex(digits)
    ensures ReMatch(SHA256_HEX_PATTERN, "0x" + digits + "\n")
    ensures !ReMatch(SHA256_HEX_PATTERN, "0x" + digits + "\n\n")
  {
    var s := "0x" + digits + "\n";
    assert s[..66] == "0x" + digits;
    assert forall k :: 2 <= k < 66 ==> s[k] == digits[k - 2];
    Sha256HexMatch(s);
    Sha256HexMatch(s + "\n");
    assert "0x" + digits + "\n\n" == s + "\n";
  }

  lemma {:induction false} UserIdMatchesAt(s: string, e: nat)
    requires e <= |s|
    ensures Matches(RE_USER_ID, s, 0, e) <==> e == 64 && IsLowerHex(s[..64])
  {
    RunOnly(LOWER_HEX_CLASS, 64, 64, s, 0, e);
    if e == 64 {
      LowerHexClassIs(s[..64]);
    }
  }

  /** RE_USER_ID accepts exactly 64 lowercase hex digits, with no prefix
      (and, through `re.match`, one trailing newline). */
  lemma UserIdMatch(s: string)
    ensures ReMatch(RE_USER_ID, s) <==>
      (|s| == 64 && IsLowerHex(s)) || (|s| == 65 && s[64] == '\n' && IsLowerHex(s[..64]))
  {
    UserIdMatchesAt(s, |s|);
    if |s| > 0 {
      UserIdMatchesAt(s, |s| - 1);
    }
    if |s| == 64 { assert s[..64] == s; }
  }

  /** Every hex digest of 32 bytes is a valid user id. */
  lemma HexDigestIsUserId(digest: Bytes)
    requires |digest| == 32
    ensures ReMatch(RE_USER_ID, ToHex(digest))
  {
    UserIdMatch(ToHex(digest));
  }

  lemma {:induction false} AliasMatchesAt(s: string, e: nat)
    requires e <= |s|
    ensures Matches(RE_ALIAS, s, 0, e) <==> 3 <= e <= 20 && forall k :: 0 <= k < e ==> IsAliasChar(s[k])
  {
    RunOnly(ALIAS_CLASS, 3, 20, s, 0, e);
    AliasClassIs(s[..e]);
    assert forall k :: 0 <= k < e ==> s[..e][k] == s[k];
  }

  predicate IsAlias(s: string) {
    3 <= |s| <= 20 && forall k :: 0 <= k < |s| ==> IsAliasChar(s[k])
  }

  /** RE_ALIAS accepts 3 to 20 characters from a-z, 0-9, "_" and "-" (and
      one trailing newline). */
  lemma AliasMatch(s: string)
    ensures ReMatch(RE_ALIAS, s) <==> IsAlias(s) || (|s| > 0 && s[|s| - 1] == '\n' && IsAlias(s[..|s| - 1]))
  {
    AliasMatchesAt(s, |s|);
    if |s| > 0 {
      AliasMatchesAt(s, |s| - 1);
      assert forall k :: 0 <= k < |s| - 1 ==> s[..|s| - 1][k] == s[k];
    }
  }
}

=== FILE: crypto.dfy ===
/** The cryptography the node calls into (PyNaCl and hashlib), and the three
    helpers of utils/crypto.py built on it. The primitives themselves are
    not modelled: a `Suite` is any collection of functions that obeys the
    laws the code relies on (correctness of Ed25519 verification, of
    authenticated decryption, and the output sizes). */
module Crypto {
  import opened Wrappers
  import opened Bytes
  import opened Base64
  import opened Json
  import opened JsonWrite
  import opened JsonOrder
  import opened JsonRoundTrip

  /** `SecretBox.KEY_SIZE`, `argon2id.SALTBYTES`, `SecretBox.NONCE_SIZE`,
      the Ed25519 seed, public key and signature sizes, and the SHA-256
      digest size. */
  const KEY_SIZE := 32
  const SALT_SIZE := 16
  const NONCE_SIZE := 24
  const SEED_SIZE := 32
  const PUBLIC_KEY_SIZE := 32
  const SIGNATURE_SIZE := 64
  const DIGEST_SIZE := 32

  datatype Primitives = Primitives(
    /** `argon2id.kdf(size, password, salt)` at the moderate limits. */
    argon2id: (nat, Bytes, Bytes) -> Bytes,
    /** The Ed25519 public key of a 32-byte seed. */
    publicKey: Bytes -> Bytes,
    /** The detached Ed25519 signature of a message under a seed. */
    sign: (Bytes, Bytes) -> Bytes,
    /** Ed25519 verification of (public key, message, signature). */
    verify: (Bytes, Bytes, Bytes) -> bool,
    /** XSalsa20-Poly1305 under (key, nonce): ciphertext with its tag. */
    encrypt: (Bytes, Bytes, Bytes) -> Bytes,
    /** Authenticated decryption; `None` when the tag does not check. */
    decrypt: (Bytes, Bytes, Bytes) -> Option<Bytes>,
    sha256: Bytes -> Bytes)

  /** The laws the modelled code depends on (RFC 8032 section 5.1 and the
      NaCl secretbox construction), and nothing more. */
  ghost predicate Lawful(p: Primitives) {
    && (forall n, pw, salt :: |p.argon2id(n, pw, salt)| == n)
    && (forall seed :: |p.publicKey(seed)| == PUBLIC_KEY_SIZE)
    && (forall seed, m :: |p.sign(seed, m)| == SIGNATURE_SIZE)
    && (forall seed, m :: p.verify(p.publicKey(seed), m, p.sign(seed, m)))
    && (forall k, n, m :: p.decrypt(k, n, p.encrypt(k, n, m)) == Some(m))
    && (forall b :: |p.sha256(b)| == DIGEST_SIZE)
  }

  type Suite = p: Primitives | Lawful(p)
    witness Primitives(
      (n: nat, pw: Bytes, salt: Bytes) => seq(n, _ => 0),
      (seed: Bytes) => seq(PUBLIC_KEY_SIZE, _ => 0),
      (seed: Bytes, m: Bytes) => seq(SIGNATURE_SIZE, _ => 0),
      (pk: Bytes, m: Bytes, sig: Bytes) => true,
      (k: Bytes, n: Bytes, m: Bytes) => m,
      (k: Bytes, n: Bytes, c: Bytes) => Some(c),
      (b: Bytes) => seq(DIGEST_SIZE, _ => 0))

  // ---------------------------------------------------------------------
  // PyNaCl objects

  /** `argon2id.kdf(KEY_SIZE, passphrase.encode(), salt, ...)`: a salt of
      the wrong length is refused. */
  function Kdf(s: Suite, passphrase: string, salt: Bytes): (r: Result<Bytes, PyError>)
    ensures r.Success? <==> |salt| == SALT_SIZE
    ensures r.Success? ==> |r.value| == KEY_SIZE
  {
    if |salt| != SALT_SIZE then Failure(ValueError("The salt must be exactly 16 bytes long"))
    else Success(s.argon2id(KEY_SIZE, Utf8Encode(passphrase), salt))
  }

  /** `SecretBox(key).encrypt(plaintext)` with the random nonce made
      explicit: the nonce followed by the ciphertext. */
  function BoxEncrypt(s: Suite, key: Bytes, nonce: Bytes, plaintext: Bytes): (r: Bytes)
    requires |nonce| == NONCE_SIZE
    ensures |r| >= NONCE_SIZE && r[..NONCE_SIZE] == nonce
  {
    nonce + s.encrypt(key, nonce, plaintext)
  }

  /** `SecretBox(key).decrypt(combined)`: the first 24 bytes are the nonce;
      a shorter input is a ValueError and a failed tag check a CryptoError. */
  function BoxDecrypt(s: Suite, key: Bytes, combined: Bytes): (r: Result<Bytes, PyError>)
    ensures |combined| < NONCE_SIZE ==> r.Failure? && r.error.ValueError?
    ensures r.Failure? && |combined| >= NONCE_SIZE ==> r.error == CryptoError
  {
    if |combined| < NONCE_SIZE then Failure(ValueError("The nonce must be exactly 24 bytes long"))
    else
      match s.decrypt(key, combined[..NONCE_SIZE], combined[NONCE_SIZE..])
      case Some(m) => Success(m)
      case None => Failure(CryptoError)
  }

  /** Authenticated decryption undoes encryption under the same key. */
  lemma BoxRoundTrip(s: Suite, key: Bytes, nonce: Bytes, plaintext: Bytes)
    requires |nonce| == NONCE_SIZE
    ensures BoxDecrypt(s, key, BoxEncrypt(s, key, nonce, plaintext)) == Success(plaintext)
  {
    var c := BoxEncrypt(s, key, nonce, plaintext);
    assert c[NONCE_SIZE..] == s.encrypt(key, nonce, plaintext);
  }

  /** `b64decode(v)` on a value read from JSON: only a string can be
      decoded (a non-ASCII one is a ValueError); anything else is a
      TypeError. */
  function B64DecodeValue(v: Json): (r: Result<Bytes, PyError>)
    ensures !v.Str? ==> r == Failure(TypeError)
    ensures v.Str? ==> r == DecodeLenient(v.s)
  {
    match v
    case Str(text) => DecodeLenient(text)
    case _ => Failure(TypeError)
  }

  /** Reads `config["keys"][field]`. */
  function KeyField(config: Json, field: string): (r: Result<Json, PyError>)
    ensures r.Success? <==>
      (&& config.Obj? && "keys" in Keys(config.members)
       && Index(config, "keys").value.Obj? && field in Keys(Index(config, "keys").value.members))
  {
    var keys :- Index(config, "keys");
    Index(keys, field)
  }

  // ---------------------------------------------------------------------
  // utils/crypto.py

  /** `decrypt_private_key(config, passphrase)`: the box key comes from the
      passphrase and `keys.salt_encryption` only. */
  function DecryptPrivateKey(s: Suite, config: Json, passphrase: string): (r: Result<Bytes, PyError>)
    ensures r.Failure? ==> r.error.KeyError? || r.error == TypeError || r.error.ValueError? || r.error == CryptoError
  {
    var saltText :- KeyField(config, "salt_encryption");
    var boxText :- KeyField(config, "private_key_encrypted");
    OpenSealed(s, saltText, boxText, passphrase)
  }

  /** The decoding and decryption steps of `decrypt_private_key`, once the
      two fields have been read. */
  function OpenSealed(s: Suite, saltText: Json, boxText: Json, passphrase: string): (r: Result<Bytes, PyError>)
    ensures r.Failure? ==> r.error == TypeError || r.error.ValueError? || r.error == CryptoError
  {
    var salt :- B64DecodeValue(saltText);
    var combined :- B64DecodeValue(boxText);
    var key :- Kdf(s, passphrase, salt);
    BoxDecrypt(s, key, combined)
  }

  /** Two configs that agree on the encryption salt and the sealed key give
      the same result: nothing else in the config (in particular not
      `keys.salt_private_key`) is read. */
  lemma DecryptReadsOnly(s: Suite, c1: Json, c2: Json, passphrase: string)
    requires KeyField(c1, "salt_encryption") == KeyField(c2, "salt_encryption")
    requires KeyField(c1, "private_key_encrypted") == KeyField(c2, "private_key_encrypted")
    ensures DecryptPrivateKey(s, c1, passphrase) == DecryptPrivateKey(s, c2, passphrase)
  {
  }

  /** When the box does not open under the derived key (a wrong
      passphrase, a corrupted ciphertext) the result is a CryptoError, never
      bytes. */
  lemma DecryptRejects(s: Suite, config: Json, passphrase: string, salt: Bytes, combined: Bytes)
    requires KeyField(config, "salt_encryption") == Success(Str(Encode(salt)))
    requires KeyField(config, "private_key_encrypted") == Success(Str(Encode(combined)))
    requires |salt| == SALT_SIZE && |combined| >= NONCE_SIZE
    requires s.decrypt(Kdf(s, passphrase, salt).value, combined[..NONCE_SIZE], combined[NONCE_SIZE..]).None?
    ensures DecryptPrivateKey(s, config, passphrase) == Failure(CryptoError)
  {
    OpenRejects(s, salt, combined, passphrase);
  }

  lemma OpenRejects(s: Suite, salt: Bytes, combined: Bytes, passphrase: string)
    requires |salt| == SALT_SIZE && |combined| >= NONCE_SIZE
    requires s.decrypt(Kdf(s, passphrase, salt).value, combined[..NONCE_SIZE], combined[NONCE_SIZE..]).None?
    ensures OpenSealed(s, Str(Encode(salt)), Str(Encode(combined)), passphrase) == Failure(CryptoError)
  {
    DecodeLenientEncode(salt);
    DecodeLenientEncode(combined);
  }

  /** Opening what was sealed under the same passphrase and salt gives the
      plaintext back. */
  lemma OpenSealedRoundTrip(s: Suite, passphrase: string, salt: Bytes, nonce: Bytes, plaintext: Bytes)
    requires |salt| == SALT_SIZE && |nonce| == NONCE_SIZE
    ensures var box := BoxEncrypt(s, Kdf(s, passphrase, salt).value, nonce, plaintext);
      OpenSealed(s, Str(Encode(salt)), Str(Encode(box)), passphrase) == Success(plaintext)
  {
    var key := Kdf(s, passphrase, salt).value;
    var box := BoxEncrypt(s, key, nonce, plaintext);
    DecodeLenientEncode(salt);
    DecodeLenientEncode(box);
    BoxRoundTrip(s, key, nonce, plaintext);
  }

  /** The bytes `sign_event` signs: the canonical JSON text, UTF-8 encoded. */
  function SignedBytes(event: Json): (b: Bytes)
    ensures |b| == |Canon(event)|
  {
    Utf8OfAscii(Canon(event));
    Utf8Encode(Canon(event))
  }

  /** `sign_event(event, private_key)`: the base64 text of the Ed25519
      signature of the canonical JSON; a seed of the wrong size is a
      ValueError. */
  function SignEvent(s: Suite, event: Json, privateKey: Bytes): (r: Result<string, PyError>)
    ensures r.Success? <==> |privateKey| == SEED_SIZE
    ensures r.Success? ==> DecodeStrict(r.value) == Success(s.sign(privateKey, SignedBytes(event)))
  {
    if |privateKey| != SEED_SIZE then Failure(ValueError("The seed must be exactly 32 bytes long"))
    else
      var sig := s.sign(privateKey, SignedBytes(event));
      DecodeStrictEncode(sig);
      Success(Encode(sig))
  }

  /** `verify_signature(public_key, text, signature)`: a bool in every case.
      Undecodable base64, a key that is not 32 bytes, a signature that is
      not 64 bytes and a failed check all give false. */
  function VerifySignature(s: Suite, publicKey: string, text: string, signature: string): (ok: bool)
    ensures ok ==> DecodeLenient(publicKey).Success? && DecodeLenient(signature).Success?
    ensures ok ==> |DecodeLenient(publicKey).value| == PUBLIC_KEY_SIZE
    ensures ok ==> |DecodeLenient(signature).value| == SIGNATURE_SIZE
    ensures ok <==>
      && DecodeLenient(publicKey).Success? && |DecodeLenient(publicKey).value| == PUBLIC_KEY_SIZE
      && DecodeLenient(signature).Success? && |DecodeLenient(signature).value| == SIGNATURE_SIZE
      && s.verify(DecodeLenient(publicKey).value, Utf8Encode(text), DecodeLenient(signature).value)
  {
    match DecodeLenient(publicKey)
    case Failure(_) => false
    case Success(key) =>
      if |key| != PUBLIC_KEY_SIZE then false
      else
        match DecodeLenient(signature)
        case Failure(_) => false
        case Success(sig) =>
          |sig| == SIGNATURE_SIZE && s.verify(key, Utf8Encode(text), sig)
  }

  /** What a signature produced by `sign_event` checks against: the base64
      public key of the seed and the canonical text of the same event. */
  lemma SignThenVerify(s: Suite, event: Json, privateKey: Bytes)
    requires |privateKey| == SEED_SIZE
    ensures VerifySignature(s, Encode(s.publicKey(privateKey)), Canon(event), SignEvent(s, event, privateKey).value)
  {
    var pk := s.publicKey(privateKey);
    var sig := s.sign(privateKey, SignedBytes(event));
    DecodeLenientEncode(pk);
    DecodeLenientEncode(sig);
  }

  /** The signature of a dict does not depend on the order in which its
      keys were inserted. */
  lemma SignIgnoresOrder(s: Suite, a: seq<Member>, b: seq<Member>, privateKey: Bytes)
    requires DistinctKeys(a) && multiset(a) == multiset(b)
    ensures SignEvent(s, Obj(a), privateKey) == SignEvent(s, Obj(b), privateKey)
  {
    CanonIgnoresOrder(a, b);
  }

  /** Signing is deterministic (RFC 8032 section 5.1.6), so two events
      with the same normal form have the same signature, and the
      signature of an event is that of its normal form. */
  lemma SignNormal(s: Suite, a: Json, b: Json, privateKey: Bytes)
    requires WellFormed(a) && WellFormed(b) && Normal(a) == Normal(b)
    ensures SignEvent(s, a, privateKey) == SignEvent(s, b, privateKey)
  {
    CanonInjective(a, b);
  }

  /** `hashlib.sha256(b).hexdigest()`. */
  function HexDigest(s: Suite, b: Bytes): (h: string)
    ensures |h| == 2 * DIGEST_SIZE && IsLowerHex(h)
  {
    ToHex(s.sha256(b))
  }
}

=== FILE: db.dfy ===
/** utils/db.py: turning a database row into a dict keyed by column name.
    The cursor is reduced to its column names, the first element of each
    `cursor.description` entry. */
module Db {
  import opened Wrappers
  import opened Json

  function Min(a: nat, b: nat): nat {
    if a < b then a else b
  }

  /** `zip(col_names, row)`: pairs by position, up to the shorter of the
      two. */
  function Zip(columns: seq<string>, row: seq<Json>): (ps: seq<Member>)
    ensures |ps| == Min(|columns|, |row|)
  {
    var n := Min(|columns|, |row|);
    seq(n, i requires 0 <= i < n => Member(columns[i], row[i]))
  }

  /** `dict(pairs)`: each pair is assigned in turn, so a repeated key keeps
      its first position and takes its last value. */
  function DictOf(ps: seq<Member>): (ms: seq<Member>)
    ensures DistinctKeys(ms)
  {
    if |ps| == 0 then []
    else
      var d := DictOf(ps[..|ps| - 1]);
      var m := ps[|ps| - 1];
      PutDistinct(d, m.key, m.value);
      Put(d, m.key, m.value)
  }

  /** `row_to_dict(cursor, row)`: a missing or empty row is `{}`. */
  function RowToDict(columns: seq<string>, row: Option<seq<Json>>): (r: Json)
    ensures r.Obj? && DistinctKeys(r.members)
    ensures row == None || row == Some([]) ==> r == Obj([])
  {
    match row
    case None => Obj([])
    case Some(values) =>
      if |values| == 0 then Obj([]) else Obj(DictOf(Zip(columns, values)))
  }

  // ---------------------------------------------------------------------
  // Properties of dict(pairs)

  lemma {:induction false} DictOfLast(ps: seq<Member>, i: nat)
    requires i < |ps| && forall j :: i < j < |ps| ==> ps[j].key != ps[i].key
    ensures Get(DictOf(ps), ps[i].key) == Some(ps[i].value)
  {
    var last := ps[|ps| - 1];
    var front := ps[..|ps| - 1];
    PutGet(DictOf(front), last.key, last.value, ps[i].key);
    if i < |ps| - 1 {
      assert front[i] == ps[i];
      DictOfLast(front, i);
    }
  }

  lemma {:induction false} DictOfKeys(ps: seq<Member>, k: string)
    ensures k in Keys(DictOf(ps)) <==> k in Keys(ps)
  {
    if |ps| > 0 {
      var last := ps[|ps| - 1];
      var front := ps[..|ps| - 1];
      DictOfKeys(front, k);
      PutGet(DictOf(front), last.key, last.value, k);
      KeysOfFront(ps, k);
    }
  }

  /** A key of a non-empty list of pairs is a key of all but its last pair
      or the key of the last one. */
  lemma KeysOfFront(ps: seq<Member>, k: string)
    requires |ps| > 0
    ensures k in Keys(ps) <==> k in Keys(ps[..|ps| - 1]) || k == ps[|ps| - 1].key
  {
    var front, last := ps[..|ps| - 1], ps[|ps| - 1];
    assert ps == front + [last];
    KeysAppend(front, last);
  }

  lemma {:induction false} DictOfDistinct(ps: seq<Member>)
    requires DistinctKeys(ps)
    ensures DictOf(ps) == ps
  {
    if |ps| > 0 {
      var last := ps[|ps| - 1];
      var front := ps[..|ps| - 1];
      DictOfDistinct(front);
      assert last.key !in Keys(front);
      assert front + [last] == ps;
    }
  }

  // ---------------------------------------------------------------------
  // Properties of row_to_dict

  /** A column name is a key of the dict exactly when it names one of the
      paired columns: columns past the end of the row give no key. */
  lemma KeysArePairedColumns(columns: seq<string>, values: seq<Json>, k: string)
    requires |values| > 0
    ensures var r := RowToDict(columns, Some(values));
      k in Keys(r.members) <==> k in columns[..Min(|columns|, |values|)]
  {
    var ps := Zip(columns, values);
    DictOfKeys(ps, k);
    if k in Keys(ps) {
      var i :| 0 <= i < |ps| && Keys(ps)[i] == k;
      assert columns[..Min(|columns|, |values|)][i] == k;
    }
    if k in columns[..Min(|columns|, |values|)] {
      var i :| 0 <= i < Min(|columns|, |values|) && columns[..Min(|columns|, |values|)][i] == k;
      assert Keys(ps)[i] == k;
    }
  }

  /** When two paired columns share a name, the later value wins. */
  lemma LaterColumnWins(columns: seq<string>, values: seq<Json>, i: nat)
    requires i < |columns| && i < |values|
    requires forall j :: i < j < Min(|columns|, |values|) ==> columns[j] != columns[i]
    ensures Get(RowToDict(columns, Some(values)).members, columns[i]) == Some(values[i])
  {
    var ps := Zip(columns, values);
    DictOfLast(ps, i);
  }

  /** With distinct column names and a value for each, the dict holds the
      columns in order, each with its value. */
  lemma DistinctColumnsInOrder(columns: seq<string>, values: seq<Json>)
    requires |columns| == |values| > 0
    requires forall i, j :: 0 <= i < j < |columns| ==> columns[i] != columns[j]
    ensures var r := RowToDict(columns, Some(values));
      Keys(r.members) == columns && forall i :: 0 <= i < |columns| ==> r.members[i].value == values[i]
  {
    var ps := Zip(columns, values);
    ZipDistinct(columns, values);
    DictOfDistinct(ps);
  }

  lemma ZipDistinct(columns: seq<string>, values: seq<Json>)
    requires |columns| == |values|
    requires forall i, j :: 0 <= i < j < |columns| ==> columns[i] != columns[j]
    ensures DistinctKeys(Zip(columns, values)) && Keys(Zip(columns, values)) == columns
  {
    var ps := Zip(columns, values);
    assert forall i :: 0 <= i < |ps| ==> ps[i].key == columns[i];
  }
}

=== FILE: db_init.dfy ===
/** core/db_init.py: `create_db`, reduced to the names of the tables the
    database holds once it has run. The columns are not modelled. */
module DbInit {
  import opened Wrappers

  /** The tables `create_db` makes in a new database file. */
  const STARTUP_TABLES: set<string> := {"users", "nodes", "files", "entries"}

  /** `create_db()` as written: an existing database file (`existing`
      names its tables) is left as it is; otherwise the four startup
      tables are created, and `events` is not among them. */
  function CreateDbAsWritten(existing: Option<set<string>>): (tables: set<string>)
    ensures existing.Some? ==> tables == existing.value
    ensures existing.None? ==> tables == STARTUP_TABLES && "events" !in tables
  {
    if existing.Some? then existing.value else STARTUP_TABLES
  }

  /** `create_db()` with the evident intent: a new database also gets the
      `events` table that `save_event_to_db` writes to. */
  function CreateDb(existing: Option<set<string>>): (tables: set<string>)
    ensures existing.Some? ==> tables == existing.value
    ensures existing.None? ==> tables == CreateDbAsWritten(None) + {"events"} && "events" in tables
  {
    if existing.Some? then existing.value else STARTUP_TABLES + {"events"}
  }
}

=== FILE: event_handler.dfy ===
/** core/event_handler.py: the checks an event fetched from the ledger
    must pass, and what is done with it afterwards. The node table is the
    map of stored public keys; the handlers' own database writes are not
    modelled, only whether one runs and whether it raises. */
module EventHandler {
  import opened Wrappers
  import opened Bytes
  import opened Base64
  import opened Json
  import opened JsonWrite
  import opened Crypto
  import opened Constants
  import opened Regex
  import opened Nodes
  import opened Time
  import opened DbInit

  /** `required_fields.issubset(event.keys())`. */
  predicate HasRequired(ms: seq<Member>) {
    var ks := Keys(ms);
    "event_type" in ks && "timestamp" in ks && "node_id" in ks && "payload" in ks && "signature" in ks
  }

  /** What `validate_event` has established before it checks the
      signature. */
  predicate Structured(event: Json) {
    && event.Obj? && HasRequired(event.members)
    && Get(event.members, "event_type").value.Str?
    && Get(event.members, "event_type").value.s in VALID_EVENT_TYPES
    && Get(event.members, "node_id").value.Str?
  }

  function Field(event: Json, k: string): Json
    requires event.Obj? && k in Keys(event.members)
  {
    Get(event.members, k).value
  }

  /** The encoded key `verify_signature` checks with: for node_registered
      the one in the event's own payload, otherwise the stored one, which
      is None for an unknown node. */
  function KeyText(event: Json, table: NodeKeys): (r: Result<Json, PyError>)
    requires Structured(event)
    ensures Field(event, "event_type") != Str(EV_NODE_REGISTERED) ==>
      r == Success(GetNodePublicKey(table, Field(event, "node_id").s).GetOr(Null))
    ensures Field(event, "event_type") == Str(EV_NODE_REGISTERED) ==> r == Index(Field(event, "payload"), "public_key")
  {
    if Field(event, "event_type") == Str(EV_NODE_REGISTERED) then Index(Field(event, "payload"), "public_key")
    else Success(GetNodePublicKey(table, Field(event, "node_id").s).GetOr(Null))
  }

  /** `verify_signature(event)`: returns True or raises. The bytes checked
      are the canonical JSON of the event without its "signature" key. */
  function VerifyEvent(s: Suite, event: Json, table: NodeKeys): (r: Result<bool, PyError>)
    requires Structured(event)
    ensures r.Success? ==> r.value
    ensures r.Success? <==>
      && KeyText(event, table).Success?
      && B64DecodeValue(KeyText(event, table).value).Success?
      && B64DecodeValue(Field(event, "signature")).Success?
      && |B64DecodeValue(KeyText(event, table).value).value| == PUBLIC_KEY_SIZE
      && |B64DecodeValue(Field(event, "signature")).value| == SIGNATURE_SIZE
      && s.verify(B64DecodeValue(KeyText(event, table).value).value,
           SignedBytes(Obj(Delete(event.members, "signature"))),
           B64DecodeValue(Field(event, "signature")).value)
    ensures r.Failure? ==> r.error.KeyError? || r.error.ValueError? || r.error == TypeError || r.error == BadSignatureError
  {
    var keyText :- KeyText(event, table);
    var publicKey :- B64DecodeValue(keyText);
    var signature :- B64DecodeValue(Field(event, "signature"));
    var content := SignedBytes(Obj(Delete(event.members, "signature")));
    if |publicKey| != PUBLIC_KEY_SIZE then Failure(ValueError("The key must be exactly 32 bytes long"))
    else if |signature| != SIGNATURE_SIZE then Failure(ValueError("The signature must be exactly 64 bytes long"))
    else if !s.verify(publicKey, content, signature) then Failure(BadSignatureError)
    else Success(true)
  }

  /** `validate_event(event)`: structural checks first, then the
      signature. KeyError, ValueError and BadSignatureError give False;
      a TypeError (an unhashable event type, a node id that is not a
      string, a missing stored key) escapes. */
  function ValidateEvent(s: Suite, event: Json, table: NodeKeys): (r: Result<bool, PyError>)
    ensures !event.Obj? ==> r == Success(false)
    ensures event.Obj? && !HasRequired(event.members) ==> r == Success(false)
    ensures r == Success(true) ==> Structured(event) && VerifyEvent(s, event, table) == Success(true)
    ensures r == Success(true) ==> ReMatch(SHA256_HEX_PATTERN, "0x" + Field(event, "node_id").s)
    ensures r.Failure? ==> r.error == TypeError
  {
    if !event.Obj? || !HasRequired(event.members) then Success(false)
    else
      var eventType := Field(event, "event_type");
      if !Hashable(eventType) then Failure(TypeError)
      else if !(eventType.Str? && eventType.s in VALID_EVENT_TYPES) then Success(false)
      else
        var nodeId := Field(event, "node_id");
        if !nodeId.Str? then Failure(TypeError)
        else if !ReMatch(SHA256_HEX_PATTERN, "0x" + nodeId.s) then Success(false)
        else match VerifyEvent(s, event, table)
          case Success(_) => Success(true)
          case Failure(e) =>
            if e.KeyError? || e.ValueError? || e == BadSignatureError then Success(false)
            else Failure(e)
  }

  // ---------------------------------------------------------------------
  // Dispatch

  /** The keys of `EVENT_HANDLERS`. */
  const HANDLED_TYPES := {EV_NODE_REGISTERED, EV_NODE_STATUS, EV_USER_REGISTERED, EV_USER_JOINED_NODE, EV_FILE_CREATED}

  /** The handlers that may raise. `save_node` and `update_node` read the
      payload before their `try` (a missing key is a KeyError) and catch
      their own database errors; `register_user` has no `try` at all.
      `create_file` catches every Exception, and `handle_user_joined_node`
      is `pass`. */
  const RAISING_HANDLERS := {EV_NODE_REGISTERED, EV_NODE_STATUS, EV_USER_REGISTERED}

  /** The row `process_event` hands to `save_event_to_db`, which inserts
      it into the `events` table when that table exists. */
  datatype EventRow = EventRow(blockId: string, eventType: string, timestamp: int, nodeId: string)

  /** What `process_event` did: nothing for an invalid event, otherwise
      the handler it ran (if any) and the row it handed to
      `save_event_to_db`. */
  datatype Outcome = Rejected | Dispatched(handler: Option<string>, row: EventRow)

  /** `process_event(event, block_id)`. A handler's own work is not
      modelled: `handlerError` is the exception a handler that can raise
      raises, if any, which escapes before `save_event_to_db` is called. */
  function ProcessEvent(s: Suite, event: Json, blockId: string, table: NodeKeys, handlerError: Option<PyError>): (r: Result<Outcome, PyError>)
    ensures ValidateEvent(s, event, table) == Success(false) ==> r == Success(Rejected)
    ensures ValidateEvent(s, event, table).Failure? ==> r == Failure(ValidateEvent(s, event, table).error)
    ensures r.Success? && r.value.Dispatched? ==>
      && ValidateEvent(s, event, table) == Success(true)
      && Structured(event)
      && r.value.row.blockId == blockId
      && r.value.row.eventType == Field(event, "event_type").s
      && r.value.row.nodeId == Field(event, "node_id").s
      && (r.value.handler.Some? <==> r.value.row.eventType in HANDLED_TYPES)
      && (r.value.handler.Some? ==> r.value.handler.value == r.value.row.eventType)
    ensures r.Failure? && ValidateEvent(s, event, table).Success? ==>
      || (Field(event, "event_type").s in RAISING_HANDLERS && handlerError == Some(r.error))
      || IsoToEpoch(Field(event, "timestamp")).Failure?
  {
    var valid :- ValidateEvent(s, event, table);
    if !valid then Success(Rejected)
    else
      var eventType := Field(event, "event_type").s;
      var handler := if eventType in HANDLED_TYPES then Some(eventType) else None;
      if eventType in RAISING_HANDLERS && handlerError.Some? then Failure(handlerError.value)
      else
        var timestamp :- IsoToEpoch(Field(event, "timestamp"));
        Success(Dispatched(handler, EventRow(blockId, eventType, timestamp, Field(event, "node_id").s)))
  }

  // ---------------------------------------------------------------------
  // Properties

  /** Five of the eleven valid types have a handler; the other six still
      reach `save_event_to_db`, without one. */
  lemma HandledTypes()
    ensures HANDLED_TYPES <= VALID_EVENT_TYPES
    ensures EV_FILE_DELETED !in HANDLED_TYPES && EV_FILE_SHARED !in HANDLED_TYPES
    ensures EV_FILE_COPIED !in HANDLED_TYPES && EV_FILE_REPLICATED !in HANDLED_TYPES
    ensures EV_FILE_RENAMED !in HANDLED_TYPES && EV_FILE_ACCESSED !in HANDLED_TYPES
  {
  }

  /** A node_registered event is checked with the key in its own payload:
      the node table plays no part. */
  lemma RegisteredIgnoresTable(s: Suite, event: Json, t1: NodeKeys, t2: NodeKeys)
    requires Structured(event) && Field(event, "event_type") == Str(EV_NODE_REGISTERED)
    ensures VerifyEvent(s, event, t1) == VerifyEvent(s, event, t2)
  {
  }

  /** Every other type is checked with the stored key of its node only. */
  lemma OthersUseStoredKey(s: Suite, event: Json, t1: NodeKeys, t2: NodeKeys)
    requires Structured(event) && Field(event, "event_type") != Str(EV_NODE_REGISTERED)
    requires var id := Field(event, "node_id").s; (id in t1 <==> id in t2) && (id in t1 ==> t1[id] == t2[id])
    ensures VerifyEvent(s, event, t1) == VerifyEvent(s, event, t2)
  {
  }

  /** An event of another type from a node with no stored key makes
      `b64decode(None)` raise a TypeError, which `validate_event` does not
      catch. */
  lemma UnknownNodeEscapes(s: Suite, event: Json, table: NodeKeys)
    requires Structured(event) && Field(event, "event_type") != Str(EV_NODE_REGISTERED)
    requires ReMatch(SHA256_HEX_PATTERN, "0x" + Field(event, "node_id").s)
    requires Field(event, "node_id").s !in table
    ensures ValidateEvent(s, event, table) == Failure(TypeError)
  {
  }

  /** A registration whose payload has no public key is invalid, not an
      error. */
  lemma MissingPayloadKeyIsInvalid(s: Suite, event: Json, table: NodeKeys)
    requires Structured(event) && Field(event, "event_type") == Str(EV_NODE_REGISTERED)
    requires ReMatch(SHA256_HEX_PATTERN, "0x" + Field(event, "node_id").s)
    requires Field(event, "payload").Obj? && "public_key" !in Keys(Field(event, "payload").members)
    ensures ValidateEvent(s, event, table) == Success(false)
  {
  }

  /** Structural checks run before any key is looked up: an event of an
      unknown type is False whatever the node table and signature. */
  lemma UnknownTypeIsInvalid(s: Suite, event: Json, table: NodeKeys)
    requires event.Obj? && HasRequired(event.members)
    requires Field(event, "event_type").Str? && Field(event, "event_type").s !in VALID_EVENT_TYPES
    ensures ValidateEvent(s, event, table) == Success(false)
  {
  }

  /** A valid event whose type has no handler still reaches
      `save_event_to_db`, with       the timestamp converted by `iso_to_epoch`. */
  lemma UnhandledIsRecorded(s: Suite, event: Json, blockId: string, table: NodeKeys, handlerError: Option<PyError>)
    requires ValidateEvent(s, event, table) == Success(true)
    requires Field(event, "event_type").s !in HANDLED_TYPES
    requires IsoToEpoch(Field(event, "timestamp")).Success?
    ensures ProcessEvent(s, event, blockId, table, handlerError) == Success(Dispatched(None,
      EventRow(blockId, Field(event, "event_type").s, IsoToEpoch(Field(event, "timestamp")).value, Field(event, "node_id").s)))
  {
  }

  /** The handlers that may raise are the dispatched ones other than
      user_joined_node (`pass`) and file_created (which catches every
      Exception). */
  lemma RaisingAreHandled()
    ensures RAISING_HANDLERS == HANDLED_TYPES - {EV_USER_JOINED_NODE, EV_FILE_CREATED}
  {
  }

  /** `handle_user_joined_node` does nothing: a valid user_joined_node
      event reaches `save_event_to_db` whatever the other handlers would
      raise. */
  lemma JoinedNodeAlwaysRecorded(s: Suite, event: Json, blockId: string, table: NodeKeys, handlerError: Option<PyError>)
    requires ValidateEvent(s, event, table) == Success(true)
    requires Field(event, "event_type").s == EV_USER_JOINED_NODE
    requires IsoToEpoch(Field(event, "timestamp")).Success?
    ensures ProcessEvent(s, event, blockId, table, handlerError) == Success(Dispatched(Some(EV_USER_JOINED_NODE),
      EventRow(blockId, EV_USER_JOINED_NODE, IsoToEpoch(Field(event, "timestamp")).value, Field(event, "node_id").s)))
  {
    JoinedNodeCannotRaise();
  }

  lemma JoinedNodeCannotRaise()
    ensures EV_USER_JOINED_NODE in HANDLED_TYPES && EV_USER_JOINED_NODE !in RAISING_HANDLERS
  {
  }

  /** `create_file` catches every Exception: a valid file_created event
      reaches `save_event_to_db` whatever went wrong while storing its
      metadata. */
  lemma FileCreatedAlwaysRecorded(s: Suite, event: Json, blockId: string, table: NodeKeys, handlerError: Option<PyError>)
    requires ValidateEvent(s, event, table) == Success(true)
    requires Field(event, "event_type").s == EV_FILE_CREATED
    requires IsoToEpoch(Field(event, "timestamp")).Success?
    ensures ProcessEvent(s, event, blockId, table, handlerError) == Success(Dispatched(Some(EV_FILE_CREATED),
      EventRow(blockId, EV_FILE_CREATED, IsoToEpoch(Field(event, "timestamp")).value, Field(event, "node_id").s)))
  {
    FileCreatedCannotRaise();
  }

  lemma FileCreatedCannotRaise()
    ensures EV_FILE_CREATED in HANDLED_TYPES && EV_FILE_CREATED !in RAISING_HANDLERS
  {
  }

  /** A handler that raises stops `process_event` before
      `save_event_to_db` is called. */
  lemma FailingHandlerSkipsRecord(s: Suite, event: Json, blockId: string, table: NodeKeys, e: PyError)
    requires ValidateEvent(s, event, table) == Success(true)
    requires Field(event, "event_type").s in RAISING_HANDLERS
    ensures ProcessEvent(s, event, blockId, table, Some(e)) == Failure(e)
  {
  }

  // ---------------------------------------------------------------------
  // save_event_to_db

  /** The local database as `save_event_to_db` sees it: the names of its
      tables and the rows of `events`. */
  datatype EventStore = EventStore(tables: set<string>, events: seq<EventRow>)

  /** `save_event_to_db(block_id, event)` on the row `process_event` hands
      it: the INSERT adds the row when the `events` table exists;
      otherwise sqlite3 raises OperationalError, which the function logs
      and swallows, leaving the database as it was. */
  function SaveEvent(db: EventStore, row: EventRow): (r: EventStore)
    ensures r.tables == db.tables
    ensures "events" in db.tables ==> r.events == db.events + [row]
    ensures "events" !in db.tables ==> r == db
  {
    if "events" in db.tables then db.(events := db.events + [row]) else db
  }

  /** Rows saved one after the other. */
  function SaveAll(db: EventStore, rows: seq<EventRow>): (r: EventStore)
    decreases |rows|
  {
    if |rows| == 0 then db else SaveAll(SaveEvent(db, rows[0]), rows[1..])
  }

  /** With an `events` table every saved row is appended, in order. */
  lemma {:induction false} SaveAllAppends(db: EventStore, rows: seq<EventRow>)
    requires "events" in db.tables
    ensures SaveAll(db, rows).events == db.events + rows
    ensures SaveAll(db, rows).tables == db.tables
    decreases |rows|
  {
    if |rows| > 0 {
      var next := SaveEvent(db, rows[0]);
      SaveAllAppends(next, rows[1..]);
      assert rows == [rows[0]] + rows[1..];
      assert next.events + rows[1..] == db.events + rows;
    }
  }

  /** Without one the database never changes, whatever is saved. */
  lemma {:induction false} SaveAllDrops(db: EventStore, rows: seq<EventRow>)
    requires "events" !in db.tables
    ensures SaveAll(db, rows) == db
    decreases |rows|
  {
    if |rows| > 0 {
      SaveAllDrops(SaveEvent(db, rows[0]), rows[1..]);
    }
  }

  /** As written, a database that `create_db` made has no `events` table,
      so no event row is ever stored in it. */
  lemma StartupSchemaDropsEvents(rows: seq<EventRow>)
    ensures SaveAll(EventStore(CreateDbAsWritten(None), []), rows).events == []
  {
    SaveAllDrops(EventStore(CreateDbAsWritten(None), []), rows);
  }

  /** With the `events` table the corrected `create_db` adds, every row
      `process_event` hands over is stored, in the order of the events. */
  lemma IntendedSchemaKeepsEvents(rows: seq<EventRow>)
    ensures SaveAll(EventStore(CreateDb(None), []), rows).events == rows
  {
    SaveAllAppends(EventStore(CreateDb(None), []), rows);
  }
}

=== FILE: events.dfy ===
/** core/events.py: the two events a node builds about itself, and how an
    event is handed to the ledger and announced to the other nodes. The
    host probes (platform, uptime, disk space, address), the clock and the
    configured default port are inputs. */
module Events {
  import opened Wrappers
  import opened Bytes
  import opened Base64
  import opened Python
  import opened Json
  import opened JsonWrite
  import opened JsonRead
  import opened JsonRoundTrip
  import opened Crypto
  import opened Constants
  import opened Iota

  /** What `platform.platform()` and utils/system.py report about the host. */
  datatype Probe = Probe(platform: string, uptime: Json, totalSpace: Json, ip: Json)

  /** `int(v)` for the values a config can hold: an int is itself, a bool
      is 0 or 1, a string is parsed as a base-10 literal; None, a list and
      a dict are TypeErrors. */
  function IntOf(v: Json): (r: Result<int, PyError>)
    ensures r.Success? ==> v.Int? || v.Bool? || v.Str?
    ensures r.Failure? ==> r.error == TypeError || r.error.ValueError?
  {
    match v
    case Int(i) => Success(i)
    case Bool(b) => Success(if b then 1 else 0)
    case Str(t) =>
      (match IntOfString(t)
       case Success(n) => Success(n)
       case Failure(_) => Failure(ValueError("invalid literal for int() with base 10")))
    case _ => Failure(TypeError)
  }

  /** A port kept as its decimal text (as the `DFS3_PORT` environment
      variable provides it) converts back to the number. */
  lemma PortOfText(n: int)
    ensures IntOf(Str(IntToDecimal(n))) == Success(n)
  {
    IntOfDecimal(n);
  }

  /** The field names of an unsigned event, in the order the builders
      write them. */
  const ENVELOPE_KEYS := ["event_type", "timestamp", "node_id", "protocol", "payload"]

  /** The dict both builders fill before signing. */
  function Envelope(eventType: string, timestamp: string, nodeId: Json, payload: Json): (e: Json)
    ensures e.Obj? && Keys(e.members) == ENVELOPE_KEYS
  {
    Obj([
      Member("event_type", Str(eventType)),
      Member("timestamp", Str(timestamp)),
      Member("node_id", nodeId),
      Member("protocol", Str(PROTOCOL)),
      Member("payload", payload)])
  }

  /** `event["signature"] = sign_event(event, private_key)`: the signature
      is computed over the dict as it stands, then added under a new key. */
  function AttachSignature(s: Suite, event: Json, privateKey: Bytes): (r: Result<Json, PyError>)
    requires event.Obj? && "signature" !in Keys(event.members)
    ensures r.Success? <==> |privateKey| == SEED_SIZE
    ensures r.Success? ==> r.value.Obj? && Delete(r.value.members, "signature") == event.members
    ensures r.Success? ==> Keys(r.value.members) == Keys(event.members) + ["signature"]
    ensures r.Success? ==> Get(r.value.members, "signature") == Some(Str(SignEvent(s, event, privateKey).value))
  {
    var sig :- SignEvent(s, event, privateKey);
    var signed := Put(event.members, "signature", Str(sig));
    DeleteLast(event.members, "signature", Str(sig));
    KeysAppend(event.members, Member("signature", Str(sig)));
    PutGet(event.members, "signature", Str(sig), "signature");
    Success(Obj(signed))
  }

  /** The payload of `build_node_registered_event`, read from the node's
      config: alias falls back to "unnamed-node", port to the configured
      default and is converted with `int`, tags to an empty list. */
  function RegisteredPayload(config: Json, probe: Probe, portSetting: Json): (r: Result<Json, PyError>)
    ensures r.Success? ==> config.Obj? && r.value.Obj?
    ensures r.Success? ==> Keys(r.value.members) == REGISTERED_KEYS
    ensures !config.Obj? ==> r == Failure(AttributeError)
  {
    if !config.Obj? then Failure(AttributeError)
    else
      var alias := Get(config.members, "alias").GetOr(Str("unnamed-node"));
      var hostname :- Index(config, "hostname");
      var version :- Index(config, "version");
      var keys :- Index(config, "keys");
      var publicKey :- Index(keys, "public_key");
      var port :- IntOf(Get(config.members, "port").GetOr(portSetting));
      var tags := Get(config.members, "tags").GetOr(Arr([]));
      Success(Obj(RegisteredMembers(alias, hostname, version, publicKey, probe, port, tags)))
  }

  function RegisteredMembers(alias: Json, hostname: Json, version: Json, publicKey: Json, probe: Probe, port: int, tags: Json): (ms: seq<Member>)
    ensures Keys(ms) == REGISTERED_KEYS
  {
    [Member("alias", alias),
     Member("hostname", hostname),
     Member("version", version),
     Member("public_key", publicKey),
     Member("platform", Str(probe.platform)),
     Member("software_version", Str(SW_VERSION)),
     Member("uptime", probe.uptime),
     Member("total_space", probe.totalSpace),
     Member("ip", probe.ip),
     Member("port", Int(port)),
     Member("tags", tags)]
  }

  const REGISTERED_KEYS := ["alias", "hostname", "version", "public_key", "platform",
    "software_version", "uptime", "total_space", "ip", "port", "tags"]

  /** The payload of `build_node_status_event`. */
  function StatusPayload(config: Json, probe: Probe, portSetting: Json): (r: Result<Json, PyError>)
    ensures r.Success? ==> config.Obj? && r.value.Obj?
    ensures r.Success? ==> Keys(r.value.members) == ["ip", "port", "uptime", "total_space"]
    ensures !config.Obj? ==> r == Failure(AttributeError)
  {
    var portValue :- GetOr(config, "port", portSetting);
    var port :- IntOf(portValue);
    Success(Obj([
      Member("ip", probe.ip),
      Member("port", Int(port)),
      Member("uptime", probe.uptime),
      Member("total_space", probe.totalSpace)]))
  }

  /** `build_node_registered_event()`: the payload, then the envelope with
      the configured node id, then the signature. */
  function BuildNodeRegistered(s: Suite, config: Json, privateKey: Bytes, probe: Probe, timestamp: string, portSetting: Json): (r: Result<Json, PyError>)
    ensures r.Success? ==> |privateKey| == SEED_SIZE && config.Obj? && Index(config, "node_id").Success?
    ensures r.Success? ==> r.value.Obj? && Keys(r.value.members) == ENVELOPE_KEYS + ["signature"]
  {
    var payload :- RegisteredPayload(config, probe, portSetting);
    var nodeId :- Index(config, "node_id");
    Sign(s, EV_NODE_REGISTERED, timestamp, nodeId, payload, privateKey)
  }

  /** `build_node_status_event()`. */
  function BuildNodeStatus(s: Suite, config: Json, privateKey: Bytes, probe: Probe, timestamp: string, portSetting: Json): (r: Result<Json, PyError>)
    ensures r.Success? ==> |privateKey| == SEED_SIZE && config.Obj? && Index(config, "node_id").Success?
    ensures r.Success? ==> r.value.Obj? && Keys(r.value.members) == ENVELOPE_KEYS + ["signature"]
  {
    var payload :- StatusPayload(config, probe, portSetting);
    var nodeId :- Index(config, "node_id");
    Sign(s, EV_NODE_STATUS, timestamp, nodeId, payload, privateKey)
  }

  /** The envelope of either builder with its signature attached. */
  function Sign(s: Suite, eventType: string, timestamp: string, nodeId: Json, payload: Json, privateKey: Bytes): (r: Result<Json, PyError>)
    ensures r.Success? <==> |privateKey| == SEED_SIZE
    ensures r.Success? ==> r.value.Obj? && Keys(r.value.members) == ENVELOPE_KEYS + ["signature"]
  {
    var envelope := Envelope(eventType, timestamp, nodeId, payload);
    AttachSignature(s, envelope, privateKey)
  }

  // ---------------------------------------------------------------------
  // What a built event carries

  /** The signature is computed before the "signature" key is added, so
      the dict without that key is exactly the envelope that was signed,
      and its canonical text checks against the node's public key. */
  lemma SignedEventVerifies(s: Suite, eventType: string, timestamp: string, nodeId: Json, payload: Json, privateKey: Bytes)
    requires |privateKey| == SEED_SIZE
    ensures var event := Sign(s, eventType, timestamp, nodeId, payload, privateKey).value;
      && Delete(event.members, "signature") == Envelope(eventType, timestamp, nodeId, payload).members
      && Get(event.members, "signature").Some? && Get(event.members, "signature").value.Str?
      && VerifySignature(s, Encode(s.publicKey(privateKey)),
           Canon(Obj(Delete(event.members, "signature"))), Get(event.members, "signature").value.s)
  {
    SignThenVerify(s, Envelope(eventType, timestamp, nodeId, payload), privateKey);
  }

  /** A field other than the signature reads the same in the signed event
      as in the envelope. */
  lemma SignedKeepsField(s: Suite, eventType: string, timestamp: string, nodeId: Json, payload: Json, privateKey: Bytes, k: string)
    requires |privateKey| == SEED_SIZE && k != "signature"
    ensures Get(Sign(s, eventType, timestamp, nodeId, payload, privateKey).value.members, k)
      == Get(Envelope(eventType, timestamp, nodeId, payload).members, k)
  {
    var event := Sign(s, eventType, timestamp, nodeId, payload, privateKey).value;
    DeleteGet(event.members, "signature", k);
  }

  /** Both builders fix the event type to their own name, the protocol to
      PROTOCOL and the node id to the given one, and carry their payload. */
  lemma SignedFields(s: Suite, eventType: string, timestamp: string, nodeId: Json, payload: Json, privateKey: Bytes)
    requires |privateKey| == SEED_SIZE
    ensures var ms := Sign(s, eventType, timestamp, nodeId, payload, privateKey).value.members;
      && Get(ms, "event_type") == Some(Str(eventType))
      && Get(ms, "timestamp") == Some(Str(timestamp))
      && Get(ms, "node_id") == Some(nodeId)
      && Get(ms, "protocol") == Some(Str(PROTOCOL))
      && Get(ms, "payload") == Some(payload)
  {
    SignedKeepsField(s, eventType, timestamp, nodeId, payload, privateKey, "event_type");
    SignedKeepsField(s, eventType, timestamp, nodeId, payload, privateKey, "timestamp");
    SignedKeepsField(s, eventType, timestamp, nodeId, payload, privateKey, "node_id");
    SignedKeepsField(s, eventType, timestamp, nodeId, payload, privateKey, "protocol");
    SignedKeepsField(s, eventType, timestamp, nodeId, payload, privateKey, "payload");
    EnvelopeHeader(eventType, timestamp, nodeId, payload);
    EnvelopeBody(eventType, timestamp, nodeId, payload);
  }

  lemma EnvelopeHeader(eventType: string, timestamp: string, nodeId: Json, payload: Json)
    ensures var env := Envelope(eventType, timestamp, nodeId, payload).members;
      Get(env, "event_type") == Some(Str(eventType)) && Get(env, "timestamp") == Some(Str(timestamp))
  {
    var env := Envelope(eventType, timestamp, nodeId, payload).members;
    GetFirst(env, 0);
    GetFirst(env, 1);
  }

  lemma EnvelopeBody(eventType: string, timestamp: string, nodeId: Json, payload: Json)
    ensures var env := Envelope(eventType, timestamp, nodeId, payload).members;
      && Get(env, "node_id") == Some(nodeId)
      && Get(env, "protocol") == Some(Str(PROTOCOL))
      && Get(env, "payload") == Some(payload)
  {
    EnvelopeAt(eventType, timestamp, nodeId, payload, 2);
    EnvelopeAt(eventType, timestamp, nodeId, payload, 3);
    EnvelopeAt(eventType, timestamp, nodeId, payload, 4);
  }

  lemma EnvelopeAt(eventType: string, timestamp: string, nodeId: Json, payload: Json, i: nat)
    requires i < 5
    ensures var env := Envelope(eventType, timestamp, nodeId, payload).members;
      Get(env, env[i].key) == Some(env[i].value)
  {
    var env := Envelope(eventType, timestamp, nodeId, payload).members;
    assert forall j :: 0 <= j < i ==> env[j].key != env[i].key;
    GetFirst(env, i);
  }

  /** The node_registered event is of that type, names the configured
      node and carries the public key of the config's `keys` in its
      payload. */
  lemma RegisteredEventFields(s: Suite, config: Json, privateKey: Bytes, probe: Probe, timestamp: string, portSetting: Json)
    requires BuildNodeRegistered(s, config, privateKey, probe, timestamp, portSetting).Success?
    ensures var ms := BuildNodeRegistered(s, config, privateKey, probe, timestamp, portSetting).value.members;
      && Get(ms, "event_type") == Some(Str(EV_NODE_REGISTERED))
      && Get(ms, "node_id") == Some(Index(config, "node_id").value)
      && Get(ms, "protocol") == Some(Str(PROTOCOL))
      && Get(ms, "payload") == Some(RegisteredPayload(config, probe, portSetting).value)
  {
    var payload := RegisteredPayload(config, probe, portSetting).value;
    SignedFields(s, EV_NODE_REGISTERED, timestamp, Index(config, "node_id").value, payload, privateKey);
  }

  /** The node_status event likewise. */
  lemma StatusEventFields(s: Suite, config: Json, privateKey: Bytes, probe: Probe, timestamp: string, portSetting: Json)
    requires BuildNodeStatus(s, config, privateKey, probe, timestamp, portSetting).Success?
    ensures var ms := BuildNodeStatus(s, config, privateKey, probe, timestamp, portSetting).value.members;
      && Get(ms, "event_type") == Some(Str(EV_NODE_STATUS))
      && Get(ms, "node_id") == Some(Index(config, "node_id").value)
      && Get(ms, "protocol") == Some(Str(PROTOCOL))
      && Get(ms, "payload") == Some(StatusPayload(config, probe, portSetting).value)
  {
    var payload := StatusPayload(config, probe, portSetting).value;
    SignedFields(s, EV_NODE_STATUS, timestamp, Index(config, "node_id").value, payload, privateKey);
  }

  /** The registered payload: alias from the config or "unnamed-node",
      the public key of the config's keys, and the port as an int, from
      the config or the default setting. */
  lemma RegisteredPayloadFields(config: Json, probe: Probe, portSetting: Json)
    requires RegisteredPayload(config, probe, portSetting).Success?
    ensures var ms := RegisteredPayload(config, probe, portSetting).value.members;
      && Get(ms, "alias") == Some(Get(config.members, "alias").GetOr(Str("unnamed-node")))
      && Get(ms, "public_key") == Some(Index(Index(config, "keys").value, "public_key").value)
      && IntOf(Get(config.members, "port").GetOr(portSetting)).Success?
      && Get(ms, "port") == Some(Int(IntOf(Get(config.members, "port").GetOr(portSetting)).value))
  {
    var alias := Get(config.members, "alias").GetOr(Str("unnamed-node"));
    var keys := Index(config, "keys").value;
    var port := IntOf(Get(config.members, "port").GetOr(portSetting)).value;
    var tags := Get(config.members, "tags").GetOr(Arr([]));
    var ms := RegisteredMembers(alias, Index(config, "hostname").value, Index(config, "version").value,
      Index(keys, "public_key").value, probe, port, tags);
    assert RegisteredPayload(config, probe, portSetting).value.members == ms;
    RegisteredMembersAt(alias, Index(config, "hostname").value, Index(config, "version").value,
      Index(keys, "public_key").value, probe, port, tags);
  }

  lemma RegisteredMembersAt(alias: Json, hostname: Json, version: Json, publicKey: Json, probe: Probe, port: int, tags: Json)
    ensures var ms := RegisteredMembers(alias, hostname, version, publicKey, probe, port, tags);
      && Get(ms, "alias") == Some(alias)
      && Get(ms, "public_key") == Some(publicKey)
      && Get(ms, "port") == Some(Int(port))
  {
    GetFirst(RegisteredMembers(alias, hostname, version, publicKey, probe, port, tags), 0);
    RegisteredHasPublicKey(alias, hostname, version, publicKey, probe, port, tags);
    RegisteredHasPort(alias, hostname, version, publicKey, probe, port, tags);
  }

  lemma RegisteredHasPublicKey(alias: Json, hostname: Json, version: Json, publicKey: Json, probe: Probe, port: int, tags: Json)
    ensures Get(RegisteredMembers(alias, hostname, version, publicKey, probe, port, tags), "public_key") == Some(publicKey)
  {
    GetFirst(RegisteredMembers(alias, hostname, version, publicKey, probe, port, tags), 3);
  }

  lemma RegisteredHasPort(alias: Json, hostname: Json, version: Json, publicKey: Json, probe: Probe, port: int, tags: Json)
    ensures Get(RegisteredMembers(alias, hostname, version, publicKey, probe, port, tags), "port") == Some(Int(port))
  {
    GetFirst(RegisteredMembers(alias, hostname, version, publicKey, probe, port, tags), 9);
  }

  /** Without an alias in the config, the payload names the node
      "unnamed-node". */
  lemma RegisteredAliasDefault(config: Json, probe: Probe, portSetting: Json)
    requires RegisteredPayload(config, probe, portSetting).Success?
    requires "alias" !in Keys(config.members)
    ensures Get(RegisteredPayload(config, probe, portSetting).value.members, "alias") == Some(Str("unnamed-node"))
  {
    RegisteredPayloadFields(config, probe, portSetting);
  }

  // ---------------------------------------------------------------------
  // Publishing

  /** What `publish_event(event)` sends: the block posted to the ledger
      and the notification handed to the MQTT broker. The function itself
      returns None whatever happens; every exception is caught. */
  datatype Published = Published(block: Option<Json>, notification: Option<string>)

  /** The MQTT message of `mqtt.client.publish_event(block_id, event)`:
      the block id and three fields of the event, as `json.dumps` writes
      them. A missing field raises, and the message is not sent. */
  function Notification(blockId: Json, event: Json): (r: Result<string, PyError>)
    ensures r.Success? ==> event.Obj?
  {
    var eventType :- Index(event, "event_type");
    var timestamp :- Index(event, "timestamp");
    var nodeId :- Index(event, "node_id");
    Success(Dumps(NotificationMessage(blockId, eventType, timestamp, nodeId), Spaced, false))
  }

  function NotificationMessage(blockId: Json, eventType: Json, timestamp: Json, nodeId: Json): (m: Json)
    ensures m.Obj? && Keys(m.members) == ["block_id", "event_type", "timestamp", "node_id"]
  {
    Obj([
      Member("block_id", blockId),
      Member("event_type", eventType),
      Member("timestamp", timestamp),
      Member("node_id", nodeId)])
  }

  /** `core.events.publish_event(event)` given the ledger's answer to the
      post. A missing event type stops it before anything is sent; a
      refused post stops it before the notification. */
  function PublishEvent(event: Json, ledger: HttpResponse): (p: Published)
    ensures Index(event, "event_type").Failure? <==> p.block.None?
    ensures p.block.Some? ==> p.block == Some(PublishBlock(event, DEFAULT_TAG))
    ensures p.notification.Some? ==> p.block.Some? && (ledger.status == 201 || ledger.status == 202)
  {
    match Index(event, "event_type")
    case Failure(_) => Published(None, None)
    case Success(_) =>
      var block := PublishBlock(event, DEFAULT_TAG);
      match PublishResult(ledger)
      case Failure(_) => Published(Some(block), None)
      case Success(blockId) =>
        match Notification(blockId, event)
        case Failure(_) => Published(Some(block), None)
        case Success(text) => Published(Some(block), Some(text))
  }

  /** A notification is sent for every event carrying the three fields
      once the ledger accepts the block, and it reads back as the four
      fields with the block id the ledger returned. */
  lemma PublishNotifies(event: Json, ledger: HttpResponse, blockId: Json)
    requires WellFormed(event) && WellFormed(blockId)
    requires event.Obj? && "event_type" in Keys(event.members)
    requires "timestamp" in Keys(event.members) && "node_id" in Keys(event.members)
    requires PublishResult(ledger) == Success(blockId)
    ensures var p := PublishEvent(event, ledger);
      && p.notification.Some?
      && Loads(p.notification.value) == Success(NotificationMessage(blockId,
           Index(event, "event_type").value, Index(event, "timestamp").value, Index(event, "node_id").value))
  {
    var m := NotificationMessage(blockId,
      Index(event, "event_type").value, Index(event, "timestamp").value, Index(event, "node_id").value);
    NotificationWellFormed(event, blockId);
    StandardSeparators();
    LoadsDumps(m, Spaced, false);
  }

  lemma NotificationWellFormed(event: Json, blockId: Json)
    requires WellFormed(event) && WellFormed(blockId) && event.Obj?
    requires "event_type" in Keys(event.members)
    requires "timestamp" in Keys(event.members) && "node_id" in Keys(event.members)
    ensures WellFormed(NotificationMessage(blockId,
      Index(event, "event_type").value, Index(event, "timestamp").value, Index(event, "node_id").value))
  {
    FieldWellFormed(event, "event_type");
    FieldWellFormed(event, "timestamp");
    FieldWellFormed(event, "node_id");
    MessageWellFormed(blockId,
      Index(event, "event_type").value, Index(event, "timestamp").value, Index(event, "node_id").value);
  }

  lemma FieldWellFormed(event: Json, k: string)
    requires WellFormed(event) && event.Obj? && k in Keys(event.members)
    ensures WellFormed(Index(event, k).value)
  {
    MemberWellFormed(event.members, k);
  }

  lemma MessageWellFormed(blockId: Json, eventType: Json, timestamp: Json, nodeId: Json)
    requires WellFormed(blockId) && WellFormed(eventType) && WellFormed(timestamp) && WellFormed(nodeId)
    ensures WellFormed(NotificationMessage(blockId, eventType, timestamp, nodeId))
  {
    var m := NotificationMessage(blockId, eventType, timestamp, nodeId);
    assert DistinctKeys(m.members);
    forall k | 0 <= k < |m.members|
      ensures WellFormed(m.members[k].value)
    {
    }
  }

  lemma MemberWellFormed(ms: seq<Member>, k: string)
    requires forall i :: 0 <= i < |ms| ==> WellFormed(ms[i].value)
    requires Get(ms, k).Some?
    ensures WellFormed(Get(ms, k).value)
  {
  }
}

=== FILE: file_requests.dfy ===
/** api/models/files.py: the metadata of an upload, the entries that grant
    a user access to a file, and the share and rename requests. Every model
    is a `StrictBaseModel`. */
module FileRequests {
  import opened Wrappers
  import opened Json
  import opened Base64
  import opened Schema
  import opened Requests

  datatype AuthorizedUser = AuthorizedUser(userId: string, encryptedKey: string, iv: string)

  /** `tags` is `Optional[List[str]]`: None when the client sent null. */
  datatype UploadFileMetadata = UploadFileMetadata(
    filename: string, fileId: string, size: int, mimetype: string, sha256: string, iv: string,
    tags: Option<seq<string>>, authorizedUsers: seq<AuthorizedUser>)

  datatype ShareFileRequest = ShareFileRequest(filename: string, authorizedUsers: seq<AuthorizedUser>)

  datatype RenameFileRequest = RenameFileRequest(newName: string)

  const ENTRY_FIELDS := {"user_id", "encrypted_key", "iv"}
  const METADATA_FIELDS := {"filename", "file_id", "size", "mimetype", "sha256", "iv", "tags", "authorized_users"}
  const SHARE_FIELDS := {"filename", "authorized_users"}
  const RENAME_FIELDS := {"new_name"}

  // ---------------------------------------------------------------------
  // Authorized users

  /** `AuthorizedUserEntry`: the user id is checked against RE_FILE_ID
      (not RE_USER_ID); the key and the IV must match RE_BASE64 and decode
      as base64. */
  function ParseEntry(env: Env, v: Json): (r: Result<AuthorizedUser, Errors>)
    ensures r.Success? ==> AsDict(v).Success? && forall k :: k in Keys(AsDict(v).value) ==> k in ENTRY_FIELDS
    ensures r.Success? ==> EntryOk(env, r.value)
  {
    match AsDict(v)
    case Failure(_) => Failure({ROOT})
    case Success(ms) =>
      var u := Required(ms, "user_id", (x: Json) => ConStr(x, 0, None, env.reFileId));
      var k := Required(ms, "encrypted_key", (x: Json) => Base64Str(x, 0, None, env.reBase64, "encrypted_key"));
      var i := Required(ms, "iv", (x: Json) => Base64Str(x, 0, None, env.reBase64, "iv"));
      var errs := ErrorAt("user_id", u) + ErrorAt("encrypted_key", k) + ErrorAt("iv", i) + Extras(ms, ENTRY_FIELDS);
      if errs == {} then Success(AuthorizedUser(u.value, k.value, i.value)) else Failure(errs)
  }

  /** What an accepted entry satisfies. */
  predicate EntryOk(env: Env, e: AuthorizedUser) {
    && env.reFileId(e.userId)
    && env.reBase64(e.encryptedKey) && IsStrictB64(e.encryptedKey)
    && env.reBase64(e.iv) && IsStrictB64(e.iv)
  }

  /** `List[AuthorizedUserEntry]`: a list whose every element is an
      accepted entry. */
  function EntriesField(env: Env, v: Json): (r: Option<seq<AuthorizedUser>>)
    ensures r.Some? <==> v.Arr? && forall k :: 0 <= k < |v.items| ==> ParseEntry(env, v.items[k]).Success?
    ensures r.Some? ==>
      && |r.value| == |v.items|
      && forall k :: 0 <= k < |v.items| ==> r.value[k] == ParseEntry(env, v.items[k]).value
  {
    match v
    case Arr(items) =>
      if forall k :: 0 <= k < |items| ==> ParseEntry(env, items[k]).Success? then
        Some(seq(|items|, k requires 0 <= k < |items| => ParseEntry(env, items[k]).value))
      else None
    case _ => None
  }

  function UserIds(users: seq<AuthorizedUser>): (ids: seq<string>)
    ensures |ids| == |users| && forall k :: 0 <= k < |users| ==> ids[k] == users[k].userId
  {
    seq(|users|, k requires 0 <= k < |users| => users[k].userId)
  }

  /** No user id occurs twice. */
  predicate DistinctIds(users: seq<AuthorizedUser>) {
    forall i, j :: 0 <= i < j < |users| ==> users[i].userId != users[j].userId
  }

  /** The ids that occur more than once, each named once. */
  function Duplicates(ids: seq<string>): set<string> {
    set u | u in ids && multiset(ids)[u] > 1
  }

  /** `check_duplicate_user_ids`: the list is returned unchanged when
      every user id is distinct; otherwise the refusal carries the set of
      repeated ids. */
  function CheckDuplicateUserIds(users: seq<AuthorizedUser>): (r: Result<seq<AuthorizedUser>, set<string>>)
    ensures r.Success? <==> DistinctIds(users)
    ensures r.Success? ==> r.value == users
    ensures r.Failure? ==> r.error != {} && forall u :: u in r.error <==>
      exists i, j :: 0 <= i < j < |users| && users[i].userId == u && users[j].userId == u
  {
    var dups := Duplicates(UserIds(users));
    DuplicatesOf(users);
    if dups == {} then Success(users) else Failure(dups)
  }

  /** The repeated ids are those standing at two positions; there are none
      exactly when the ids are distinct. */
  lemma DuplicatesOf(users: seq<AuthorizedUser>)
    ensures Duplicates(UserIds(users)) == {} <==> DistinctIds(users)
    ensures forall u :: u in Duplicates(UserIds(users)) <==>
      exists i, j :: 0 <= i < j < |users| && users[i].userId == u && users[j].userId == u
  {
    var ids := UserIds(users);
    var dups := Duplicates(ids);
    DuplicatesAt(ids);
    if !DistinctIds(users) {
      var i, j :| 0 <= i < j < |users| && users[i].userId == users[j].userId;
      assert ids[i] == ids[j];
      assert ids[i] in dups;
    }
    if dups != {} {
      var u :| u in dups;
      var i, j :| 0 <= i < j < |ids| && ids[i] == u && ids[j] == u;
      assert users[i].userId == users[j].userId;
    }
  }

  /** The repeated values of a sequence are those at two positions. */
  lemma DuplicatesAt(ids: seq<string>)
    ensures forall u :: u in Duplicates(ids) <==> exists i, j :: 0 <= i < j < |ids| && ids[i] == u && ids[j] == u
  {
    forall u ensures u in Duplicates(ids) <==> exists i, j :: 0 <= i < j < |ids| && ids[i] == u && ids[j] == u {
      CountTwice(ids, u);
    }
  }

  /** A value occurs more than once exactly when it stands at two
      positions. */
  lemma CountTwice(ids: seq<string>, u: string)
    ensures multiset(ids)[u] > 1 <==> exists i, j :: 0 <= i < j < |ids| && ids[i] == u && ids[j] == u
  {
    if exists i, j :: 0 <= i < j < |ids| && ids[i] == u && ids[j] == u {
      var i, j :| 0 <= i < j < |ids| && ids[i] == u && ids[j] == u;
      TwiceCounted(ids, u, i, j);
    }
    if multiset(ids)[u] > 1 {
      CountedTwice(ids, u);
    }
  }

  /** A value at two positions is counted at least twice. */
  lemma TwiceCounted(ids: seq<string>, u: string, i: nat, j: nat)
    requires i < j < |ids| && ids[i] == u && ids[j] == u
    ensures multiset(ids)[u] > 1
  {
    assert ids == ids[..j] + ids[j..];
    assert ids[..j][i] == u && ids[j..][0] == u;
    assert u in multiset(ids[..j]) && u in multiset(ids[j..]);
  }

  /** A value counted twice stands at two positions. */
  lemma {:induction false} CountedTwice(ids: seq<string>, u: string)
    requires multiset(ids)[u] > 1
    ensures exists i, j :: 0 <= i < j < |ids| && ids[i] == u && ids[j] == u
  {
    var rest := ids[1..];
    assert ids == [ids[0]] + rest;
    assert multiset(ids)[u] == (if ids[0] == u then 1 else 0) + multiset(rest)[u];
    if ids[0] == u {
      assert u in multiset(rest);
      var j :| 0 <= j < |rest| && rest[j] == u;
      assert ids[0] == u && ids[j + 1] == u;
    } else {
      CountedTwice(rest, u);
      var i, j :| 0 <= i < j < |rest| && rest[i] == u && rest[j] == u;
      assert ids[i + 1] == u && ids[j + 1] == u;
    }
  }

  /** `authorized_users` of the upload: the list, then the duplicate
      check. */
  function UploadEntriesField(env: Env, v: Json): (r: Option<seq<AuthorizedUser>>)
    ensures r.Some? <==> EntriesField(env, v).Some? && DistinctIds(EntriesField(env, v).value)
    ensures r.Some? ==> r == EntriesField(env, v)
  {
    match EntriesField(env, v)
    case None => None
    case Some(users) =>
      match CheckDuplicateUserIds(users)
      case Success(us) => Some(us)
      case Failure(_) => None
  }

  // ---------------------------------------------------------------------
  // Upload metadata

  /** `mimetype`: the pattern, then membership of ALLOWED_MIMETYPES. */
  function MimetypeField(env: Env, v: Json): (r: Option<string>)
    ensures r.Some? ==> env.reMimetype(r.value) && r.value in env.allowedMimetypes
    ensures v.Str? ==> (r.Some? <==> env.reMimetype(v.s) && v.s in env.allowedMimetypes)
  {
    match ConStr(v, 0, None, env.reMimetype)
    case None => None
    case Some(m) => if m in env.allowedMimetypes then Some(m) else None
  }

  /** `tags: Optional[List[str]]` with the per-item RE_TAG check. */
  function TagList(env: Env, v: Json): (r: Option<seq<string>>)
    ensures r.Some? ==> forall k :: 0 <= k < |r.value| ==> env.reTagFull(r.value[k])
    ensures v.Arr? && (forall k :: 0 <= k < |v.items| ==> v.items[k].Str? && env.reTagFull(v.items[k].s)) ==>
      && r.Some? && |r.value| == |v.items|
      && forall k :: 0 <= k < |v.items| ==> r.value[k] == v.items[k].s
  {
    match v
    case Arr(items) =>
      if forall k :: 0 <= k < |items| ==> AsStr(items[k]).Some? && env.reTagFull(AsStr(items[k]).value) then
        Some(seq(|items|, k requires 0 <= k < |items| => AsStr(items[k]).value))
      else None
    case _ => None
  }

  /** A missing `tags` is the default `[]`; null is None. */
  function TagsField(env: Env, ms: seq<Member>): (r: Option<Option<seq<string>>>)
    ensures Get(ms, "tags").None? ==> r == Some(Some([]))
    ensures Get(ms, "tags") == Some(Null) ==> r == Some(None)
    ensures r.Some? && r.value.Some? ==> forall k :: 0 <= k < |r.value.value| ==> env.reTagFull(r.value.value[k])
  {
    if Get(ms, "tags").None? then Some(Some([])) else Optional(ms, "tags", (x: Json) => TagList(env, x))
  }

  /** `UploadFileMetadata`, validated from the parsed metadata. */
  function ParseMetadataFrom(env: Env, ms: seq<Member>): (r: Result<UploadFileMetadata, Errors>)
    ensures r.Success? ==> forall k :: k in Keys(ms) ==> k in METADATA_FIELDS
    ensures r.Success? ==> MetadataOk(env, r.value)
    ensures r.Failure? ==> r.error != {}
  {
    var f := Required(ms, "filename", (x: Json) => ConStr(x, 0, None, env.reFilename));
    var id := Required(ms, "file_id", (x: Json) => ConStr(x, 0, None, env.reFileId));
    var s := Required(ms, "size", (x: Json) => ConInt(x, 0, env.maxFileSize));
    var m := Required(ms, "mimetype", (x: Json) => MimetypeField(env, x));
    var h := Required(ms, "sha256", (x: Json) => ConStr(x, 0, None, env.reFileId));
    var i := Required(ms, "iv", (x: Json) => Base64Str(x, 0, None, env.reBase64, "iv"));
    var t := TagsField(env, ms);
    var a := AuthorizedUsersOf(env, ms);
    var errs := ErrorAt("filename", f) + ErrorAt("file_id", id) + ErrorAt("size", s) + ErrorAt("mimetype", m)
      + ErrorAt("sha256", h) + ErrorAt("iv", i) + ErrorAt("tags", t) + ErrorAt("authorized_users", a)
      + Extras(ms, METADATA_FIELDS);
    if errs == {} then
      Success(UploadFileMetadata(f.value, id.value, s.value, m.value, h.value, i.value, t.value, a.value))
    else Failure(errs)
  }

  /** The `authorized_users` field of upload metadata. */
  function AuthorizedUsersOf(env: Env, ms: seq<Member>): (r: Option<seq<AuthorizedUser>>)
    ensures r.Some? <==> Get(ms, "authorized_users").Some? && UploadEntriesField(env, Get(ms, "authorized_users").value).Some?
  {
    Required(ms, "authorized_users", (x: Json) => UploadEntriesField(env, x))
  }

  /** What accepted upload metadata satisfies. */
  predicate MetadataOk(env: Env, m: UploadFileMetadata) {
    && env.reFilename(m.filename) && env.reFileId(m.fileId) && env.reFileId(m.sha256)
    && 0 <= m.size <= env.maxFileSize
    && env.reMimetype(m.mimetype) && m.mimetype in env.allowedMimetypes
    && env.reBase64(m.iv) && IsStrictB64(m.iv)
    && (m.tags.Some? ==> forall k :: 0 <= k < |m.tags.value| ==> env.reTagFull(m.tags.value[k]))
    && (forall k :: 0 <= k < |m.authorizedUsers| ==> EntryOk(env, m.authorizedUsers[k]))
    && DistinctIds(m.authorizedUsers)
  }

  function ParseMetadata(env: Env, v: Json): (r: Result<UploadFileMetadata, Errors>)
    ensures r.Success? ==> AsDict(v).Success? && MetadataOk(env, r.value)
  {
    match AsDict(v)
    case Failure(_) => Failure({ROOT})
    case Success(ms) => ParseMetadataFrom(env, ms)
  }

  // ---------------------------------------------------------------------
  // Share and rename

  /** `ShareFileRequest`: the same entries, with no duplicate check. */
  function ParseShare(env: Env, v: Json): (r: Result<ShareFileRequest, Errors>)
    ensures r.Success? ==> AsDict(v).Success? && forall k :: k in Keys(AsDict(v).value) ==> k in SHARE_FIELDS
    ensures r.Success? ==> env.reFilename(r.value.filename)
    ensures r.Success? ==> forall k :: 0 <= k < |r.value.authorizedUsers| ==> EntryOk(env, r.value.authorizedUsers[k])
  {
    match AsDict(v)
    case Failure(_) => Failure({ROOT})
    case Success(ms) =>
      var f := Required(ms, "filename", (x: Json) => ConStr(x, 0, None, env.reFilename));
      var a := Required(ms, "authorized_users", (x: Json) => EntriesField(env, x));
      var errs := ErrorAt("filename", f) + ErrorAt("authorized_users", a) + Extras(ms, SHARE_FIELDS);
      if errs == {} then Success(ShareFileRequest(f.value, a.value)) else Failure(errs)
  }

  /** `RenameFileRequest`. */
  function ParseRename(env: Env, v: Json): (r: Result<RenameFileRequest, Errors>)
    ensures r.Success? ==> AsDict(v).Success? && forall k :: k in Keys(AsDict(v).value) ==> k in RENAME_FIELDS
    ensures r.Success? ==> env.reFilename(r.value.newName)
  {
    match AsDict(v)
    case Failure(_) => Failure({ROOT})
    case Success(ms) =>
      var n := Required(ms, "new_name", (x: Json) => ConStr(x, 0, None, env.reFilename));
      var errs := ErrorAt("new_name", n) + Extras(ms, RENAME_FIELDS);
      if errs == {} then Success(RenameFileRequest(n.value)) else Failure(errs)
  }

  // ---------------------------------------------------------------------
  // `.dict()`

  function EntryDict(e: AuthorizedUser): (d: Json)
    ensures d.Obj? && Keys(d.members) == ["user_id", "encrypted_key", "iv"]
  {
    Obj([Member("user_id", Str(e.userId)), Member("encrypted_key", Str(e.encryptedKey)), Member("iv", Str(e.iv))])
  }

  function MetadataDict(m: UploadFileMetadata): (d: Json)
    ensures d.Obj? && Keys(d.members) ==
      ["filename", "file_id", "size", "mimetype", "sha256", "iv", "tags", "authorized_users"]
  {
    Obj([
      Member("filename", Str(m.filename)),
      Member("file_id", Str(m.fileId)),
      Member("size", Int(m.size)),
      Member("mimetype", Str(m.mimetype)),
      Member("sha256", Str(m.sha256)),
      Member("iv", Str(m.iv)),
      Member("tags", match m.tags
                     case None => Null
                     case Some(ts) => Arr(seq(|ts|, k requires 0 <= k < |ts| => Str(ts[k])))),
      Member("authorized_users",
        Arr(seq(|m.authorizedUsers|, k requires 0 <= k < |m.authorizedUsers| => EntryDict(m.authorizedUsers[k]))))])
  }

  // ---------------------------------------------------------------------
  // Properties

  /** Upload metadata whose entries are accepted one by one but repeat a
      user id is refused at "authorized_users"; the share request takes
      the same list. */
  lemma DuplicateEntriesRefused(env: Env, ms: seq<Member>, i: nat, j: nat)
    requires Get(ms, "authorized_users").Some?
    requires EntriesField(env, Get(ms, "authorized_users").value).Some?
    requires var us := EntriesField(env, Get(ms, "authorized_users").value).value;
      i < j < |us| && us[i].userId == us[j].userId
    ensures ParseMetadata(env, Obj(ms)).Failure?
    ensures "authorized_users" in ParseMetadata(env, Obj(ms)).error
  {
    var us := EntriesField(env, Get(ms, "authorized_users").value).value;
    assert !DistinctIds(us);
    assert UploadEntriesField(env, Get(ms, "authorized_users").value).None?;
    UsersRefusedAt(env, ms);
  }

  /** A refused `authorized_users` refuses the metadata, at that field. */
  lemma UsersRefusedAt(env: Env, ms: seq<Member>)
    requires AuthorizedUsersOf(env, ms).None?
    ensures ParseMetadata(env, Obj(ms)).Failure?
    ensures "authorized_users" in ParseMetadata(env, Obj(ms)).error
  {
    assert AsDict(Obj(ms)) == Success(ms);
    assert "authorized_users" in ErrorAt("authorized_users", AuthorizedUsersOf(env, ms));
  }

  /** The share request does not check for repeated user ids: any list of
      accepted entries, one repeating a user id included, is kept as it
      is (the upload refuses the latter, as above). */
  lemma ShareKeepsDuplicates(env: Env, filename: string, list: Json)
    requires env.reFilename(filename) && EntriesField(env, list).Some?
    ensures var v := Obj([Member("filename", Str(filename)), Member("authorized_users", list)]);
      && ParseShare(env, v).Success?
      && ParseShare(env, v).value.authorizedUsers == EntriesField(env, list).value
  {
    var ms := [Member("filename", Str(filename)), Member("authorized_users", list)];
    assert Get(ms, "filename") == Some(Str(filename));
    assert Get(ms, "authorized_users") == Some(list);
    assert Extras(ms, SHARE_FIELDS) == {};
  }

  /** Metadata without `tags` gets the empty list. */
  lemma TagsDefaultEmpty(env: Env, ms: seq<Member>)
    requires "tags" !in Keys(ms) && ParseMetadata(env, Obj(ms)).Success?
    ensures ParseMetadata(env, Obj(ms)).value.tags == Some([])
  {
  }

  /** A mimetype outside ALLOWED_MIMETYPES is refused, whatever the
      pattern says. */
  lemma MimetypeNotAllowed(env: Env, ms: seq<Member>, m: string)
    requires Get(ms, "mimetype") == Some(Str(m)) && m !in env.allowedMimetypes
    ensures ParseMetadata(env, Obj(ms)).Failure? && "mimetype" in ParseMetadata(env, Obj(ms)).error
  {
  }
}

=== FILE: file_routes.dfy ===
/** api/routes/files.py: the upload route. The metadata arrives as a JSON
    text in a form field and the file body as bytes; the route validates
    the metadata, bounds the size, checks that the file id is the SHA-256
    of the bytes, stores them and publishes a file_created event. */
module FileRoutes {
  import opened Wrappers
  import opened Bytes
  import opened Json
  import opened JsonRead
  import opened Crypto
  import opened Iota
  import opened Events
  import opened Auth
  import opened Schema
  import opened FileRequests
  import opened AuthRoutes

  /** The storage directory: file name to contents. */
  type Storage = map<string, Bytes>

  /** One call of the upload route: the answer, the storage after it, and
      what `publish_event` sent, if the route got that far. */
  datatype Upload = Upload(reply: Reply, files: Storage, published: Option<Published>)

  /** Why `UploadFileMetadata.parse_raw` did not give metadata: pydantic
      turned the failure into a ValidationError (the route's 400), an
      exception escaped it, or the text holds a value outside this model's
      domain, such as the float 1.0 that `int_validator` would coerce to 1. */
  datatype RawError = ValidationError | Escaped(exception: PyError) | Unmodelled

  /** `UploadFileMetadata.parse_raw(metadata)` in pydantic version 1: the
      text goes through `json.loads` and the value through `parse_obj`,
      whose `dict()` conversion and field validation both become a
      ValidationError. A pair list keyed by a non-string makes `cls(**d)`
      raise a TypeError that pydantic does not catch. */
  function ParseRaw(env: Env, metadata: string): (r: Result<UploadFileMetadata, RawError>)
    ensures r.Success? ==> Loads(metadata).Success? && MetadataOk(env, r.value)
    ensures r.Success? <==> Loads(metadata).Success? && ParseMetadata(env, Loads(metadata).value).Success?
    ensures r.Success? ==> r.value == ParseMetadata(env, Loads(metadata).value).value
    ensures Loads(metadata).Failure? && Loads(metadata).error != OutOfModel ==> r == Failure(ValidationError)
    ensures Loads(metadata) == Failure(OutOfModel) <==> r == Failure(Unmodelled)
    ensures r.Failure? && r.error.Escaped? ==>
      && r.error.exception == TypeError
      && Loads(metadata).Success? && Loads(metadata).value.Arr?
  {
    match Loads(metadata)
    case Failure(OutOfModel) => Failure(Unmodelled)
    case Failure(_) => Failure(ValidationError)
    case Success(v) =>
      match AsDict(v)
      case Failure(NotConvertible) => Failure(ValidationError)
      case Failure(NonStringKey) => Failure(Escaped(TypeError))
      case Success(ms) =>
        match ParseMetadataFrom(env, ms)
        case Failure(_) => Failure(ValidationError)
        case Success(meta) => Success(meta)
  }

  /** The name the bytes are stored under. */
  function DataFile(fileId: string): string {
    fileId + ".dat"
  }

  const STORED := Obj([Member("status", Str("stored"))])

  /** A form field as FastAPI hands it to the route: a required `Form`
      field sent as the empty string counts as not sent. */
  function FormField(value: Option<string>): (v: Option<string>)
    ensures v.None? <==> value.None? || value.value == ""
    ensures v.Some? ==> v == value
  {
    if value == Some("") then None else value
  }

  /** The required form parts that are missing. */
  function Missing(data: Option<Bytes>, metadata: Option<string>): (e: Errors)
    ensures "data" in e <==> data.None?
    ensures "metadata" in e <==> metadata.None? || metadata.value == ""
    ensures e <= {"data", "metadata"}
  {
    (if data.None? then {"data"} else {}) + (if FormField(metadata).None? then {"metadata"} else {})
  }

  /** `upload_file`. A missing Authorization header, file part or metadata
      field, or a metadata field sent empty, is refused by FastAPI (422); `require_auth` runs first, as the
      dependency, and decides 401 when the header is there. `build` stands
      for `build_file_created_event`, which the route imports but
      core/events.py does not define. A Failure(OutOfModel) is an upload
      whose metadata this model does not decide. */
  function UploadFile(env: Env, s: Suite, auth: AuthState, files: Storage, authorization: Option<string>,
                      data: Option<Bytes>, metadata: Option<string>, build: Json -> Json, ledger: HttpResponse): (r: Result<Upload, PyError>)
    ensures authorization.None? ==> r.Success? && Status(r.value.reply) == 422 && r.value.files == files
    ensures authorization.Some? && RequireAuth(auth, authorization.value).Failure? ==>
      r.Success? && Status(r.value.reply) == 401 && r.value.files == files
    ensures authorization.Some? && RequireAuth(auth, authorization.value).Success? && FormField(metadata).None? ==>
      r.Success? && r.value.reply == Invalid(Missing(data, metadata)) && r.value.files == files
    ensures authorization.Some? && RequireAuth(auth, authorization.value).Success? && data.None? ==>
      r.Success? && r.value.reply == Invalid(Missing(data, metadata)) && r.value.files == files
    ensures r.Failure? ==> r.error == OutOfModel && metadata.Some? && Loads(metadata.value) == Failure(OutOfModel)
    ensures r.Success? && r.value.reply.Ok? ==>
      && authorization.Some? && RequireAuth(auth, authorization.value).Success?
      && data.Some? && metadata.Some? && metadata.value != ""
  {
    match authorization
    case None =>
      Success(Upload(Invalid({"authorization"} + Missing(data, metadata)), files, None))
    case Some(header) =>
      match RequireAuth(auth, header)
      case Failure(e) => Success(Upload(Refused(e), files, None))
      case Success(_) =>
        if data.None? || FormField(metadata).None? then Success(Upload(Invalid(Missing(data, metadata)), files, None))
        else Store(env, s, files, metadata.value, data.value, build, ledger)
  }

  /** The route body once the caller is authenticated: the user id
      `require_auth` returned plays no part in it. */
  function Store(env: Env, s: Suite, files: Storage, metadata: string, contents: Bytes,
                 build: Json -> Json, ledger: HttpResponse): (r: Result<Upload, PyError>)
    ensures ParseRaw(env, metadata) == Failure(ValidationError) ==>
      r == Success(Upload(Refused(HttpError(400, "Invalid metadata JSON")), files, None))
    ensures ParseRaw(env, metadata).Failure? && ParseRaw(env, metadata).error.Escaped? ==>
      r == Success(Upload(Crashed(ParseRaw(env, metadata).error.exception), files, None))
    ensures ParseRaw(env, metadata) == Failure(Unmodelled) <==> r == Failure(OutOfModel)
    ensures r.Failure? ==> r.error == OutOfModel
    ensures ParseRaw(env, metadata).Success? ==>
      r == Success(Accept(env, s, files, ParseRaw(env, metadata).value, contents, build, ledger))
  {
    match ParseRaw(env, metadata)
    case Failure(ValidationError) => Success(Upload(Refused(HttpError(400, "Invalid metadata JSON")), files, None))
    case Failure(Escaped(e)) => Success(Upload(Crashed(e), files, None))
    case Failure(Unmodelled) => Failure(OutOfModel)
    case Success(meta) => Success(Accept(env, s, files, meta, contents, build, ledger))
  }

  /** The acceptance rule for validated metadata: the size bound, then the
      digest; only then are the bytes written and the event published. */
  function Accept(env: Env, s: Suite, files: Storage, meta: UploadFileMetadata, contents: Bytes,
                  build: Json -> Json, ledger: HttpResponse): (r: Upload)
    ensures r.reply.Ok? <==> |contents| <= env.maxFileSize && meta.fileId == HexDigest(s, contents)
    ensures |contents| > env.maxFileSize ==> r.reply == Refused(HttpError(413, "File too large"))
    ensures |contents| <= env.maxFileSize && meta.fileId != HexDigest(s, contents) ==>
      r.reply == Refused(HttpError(400, "file_id does not match file content"))
    ensures !r.reply.Ok? ==> r.files == files && r.published.None?
    ensures r.reply.Ok? ==>
      && r.reply == Ok(201, STORED)
      && r.files.Keys == files.Keys + {DataFile(meta.fileId)}
      && r.files[DataFile(meta.fileId)] == contents
      && (forall f :: f in files && f != DataFile(meta.fileId) ==> r.files[f] == files[f])
      && r.published == Some(PublishEvent(build(MetadataDict(meta)), ledger))
  {
    if |contents| > env.maxFileSize then Upload(Refused(HttpError(413, "File too large")), files, None)
    else if meta.fileId != HexDigest(s, contents) then
      Upload(Refused(HttpError(400, "file_id does not match file content")), files, None)
    else
      var published := PublishEvent(build(MetadataDict(meta)), ledger);
      Upload(Ok(201, STORED), files[DataFile(meta.fileId) := contents], Some(published))
  }

  // ---------------------------------------------------------------------
  // Properties

  /** Stored exactly when every check passes: the caller is authenticated,
      the metadata validates, the bytes fit the bound and their digest is
      the file id. */
  lemma StoredIffChecksPass(env: Env, s: Suite, auth: AuthState, files: Storage, authorization: Option<string>,
                            data: Option<Bytes>, metadata: Option<string>, build: Json -> Json, ledger: HttpResponse)
    ensures var r := UploadFile(env, s, auth, files, authorization, data, metadata, build, ledger);
      r.Success? && r.value.reply.Ok? <==>
        && authorization.Some? && RequireAuth(auth, authorization.value).Success?
        && data.Some? && metadata.Some? && metadata.value != "" && ParseRaw(env, metadata.value).Success?
        && |data.value| <= env.maxFileSize
        && ParseRaw(env, metadata.value).value.fileId == HexDigest(s, data.value)
  {
    if authorization.Some? && RequireAuth(auth, authorization.value).Success? && data.Some? && FormField(metadata).Some? {
      assert UploadFile(env, s, auth, files, authorization, data, metadata, build, ledger)
        == Store(env, s, files, metadata.value, data.value, build, ledger);
    }
  }

  /** Whatever the digest, bytes over the bound get 413: the size check
      runs first. */
  lemma SizeBeforeDigest(env: Env, s: Suite, files: Storage, meta: UploadFileMetadata, contents: Bytes,
                         build: Json -> Json, ledger: HttpResponse)
    requires |contents| > env.maxFileSize
    ensures Accept(env, s, files, meta, contents, build, ledger).reply == Refused(HttpError(413, "File too large"))
    ensures Accept(env, s, files, meta.(fileId := HexDigest(s, contents)), contents, build, ledger).reply
      == Refused(HttpError(413, "File too large"))
  {
  }

  /** The declared size and sha256 are never compared with the bytes:
      changing them changes neither the decision nor the storage. */
  lemma DeclaredFieldsIgnored(env: Env, s: Suite, files: Storage, meta: UploadFileMetadata, contents: Bytes,
                              size: int, sha256: string, build: Json -> Json, ledger: HttpResponse)
    ensures var a := Accept(env, s, files, meta, contents, build, ledger);
      var b := Accept(env, s, files, meta.(size := size, sha256 := sha256), contents, build, ledger);
      a.reply == b.reply && a.files == b.files
  {
  }

  /** The authenticated user is not checked against the metadata: two
      callers with valid sessions get the same outcome for the same
      upload, whoever they are. */
  lemma OwnerNotChecked(env: Env, s: Suite, a1: AuthState, h1: string, a2: AuthState, h2: string, files: Storage,
                        metadata: string, contents: Bytes, build: Json -> Json, ledger: HttpResponse)
    requires RequireAuth(a1, h1).Success? && RequireAuth(a2, h2).Success?
    ensures UploadFile(env, s, a1, files, Some(h1), Some(contents), Some(metadata), build, ledger)
      == UploadFile(env, s, a2, files, Some(h2), Some(contents), Some(metadata), build, ledger)
  {
  }

  /** What is stored is addressed by its content: the name of every file
      an upload writes is the SHA-256 hex of its bytes plus ".dat". */
  lemma StoredIsAddressed(env: Env, s: Suite, auth: AuthState, files: Storage, authorization: Option<string>,
                          data: Option<Bytes>, metadata: Option<string>, build: Json -> Json, ledger: HttpResponse)
    ensures var r := UploadFile(env, s, auth, files, authorization, data, metadata, build, ledger);
      r.Success? ==> forall f :: f in r.value.files && (f !in files || r.value.files[f] != files[f]) ==>
        data.Some? && f == DataFile(HexDigest(s, data.value)) && r.value.files[f] == data.value
  {
    var r := UploadFile(env, s, auth, files, authorization, data, metadata, build, ledger);
    if r.Success? && r.value.files != files {
      var p := ParseRaw(env, metadata.value);
      assert p.Success? && r.value == Accept(env, s, files, p.value, data.value, build, ledger);
      AcceptAddressed(env, s, files, p.value, data.value, build, ledger);
    }
  }

  /** The acceptance rule writes at most the file named by the digest of
      the bytes, and writes the bytes there. */
  lemma AcceptAddressed(env: Env, s: Suite, files: Storage, meta: UploadFileMetadata, contents: Bytes,
                        build: Json -> Json, ledger: HttpResponse)
    ensures var r := Accept(env, s, files, meta, contents, build, ledger);
      forall f :: f in r.files && (f !in files || r.files[f] != files[f]) ==>
        f == DataFile(HexDigest(s, contents)) && r.files[f] == contents
  {
  }

  /** A text that is not JSON is refused with 400 and writes nothing, and a
      pair list keyed by a number is a 500; JSON holding a float is left
      undecided. */
  lemma MalformedMetadata(env: Env, s: Suite, files: Storage, metadata: string, contents: Bytes,
                          build: Json -> Json, ledger: HttpResponse)
    ensures Loads(metadata).Failure? && Loads(metadata).error != OutOfModel ==>
      Store(env, s, files, metadata, contents, build, ledger)
        == Success(Upload(Refused(HttpError(400, "Invalid metadata JSON")), files, None))
    ensures Loads(metadata) == Failure(OutOfModel) ==>
      Store(env, s, files, metadata, contents, build, ledger) == Failure(OutOfModel)
    ensures Loads(metadata) == Success(Arr([Arr([Int(1), Str("x")])])) ==>
      Store(env, s, files, metadata, contents, build, ledger) == Success(Upload(Crashed(TypeError), files, None))
  {
    if Loads(metadata).Failure? && Loads(metadata).error != OutOfModel {
      assert ParseRaw(env, metadata) == Failure(ValidationError);
    }
    if Loads(metadata) == Success(Arr([Arr([Int(1), Str("x")])])) {
      NumberKeyEscapes();
      assert ParseRaw(env, metadata) == Failure(Escaped(TypeError));
    }
  }

  /** An empty metadata field is a missing one: an authenticated upload
      with bytes but metadata "" is a 422 naming only "metadata", not the
      route's 400. */
  lemma EmptyMetadataIsMissing(env: Env, s: Suite, auth: AuthState, files: Storage, header: string,
                               contents: Bytes, build: Json -> Json, ledger: HttpResponse)
    requires RequireAuth(auth, header).Success?
    ensures UploadFile(env, s, auth, files, Some(header), Some(contents), Some(""), build, ledger)
      == Success(Upload(Invalid({"metadata"}), files, None))
  {
    assert Missing(Some(contents), Some("")) == {"metadata"};
  }

  /** A float in the metadata is outside the model's domain, so the upload
      is left undecided rather than refused. */
  lemma FloatUndecided(env: Env, s: Suite, files: Storage, contents: Bytes, build: Json -> Json, ledger: HttpResponse)
    ensures Store(env, s, files, "1.0", contents, build, ledger) == Failure(OutOfModel)
  {
    FloatIsUnmodelled();
  }

  /** `dict([[1, "x"]])` is `{1: "x"}`, which is no set of keyword
      arguments. */
  lemma NumberKeyEscapes()
    ensures AsDict(Arr([Arr([Int(1), Str("x")])])) == Failure(NonStringKey)
  {
    var item := Arr([Int(1), Str("x")]);
    assert IsPair(item) && !HasStrKey(item);
  }
}

=== FILE: iota.dfy ===
/** iota/client.py: how an event is framed as an IOTA tagged-data block and
    read back. The HTTP exchange is reduced to the response the node
    receives: a status code and the JSON body. */
module Iota {
  import opened Wrappers
  import opened Bytes
  import opened Json
  import opened JsonWrite
  import opened JsonRead
  import opened JsonRoundTrip

  datatype HttpResponse = HttpResponse(status: int, body: Json)

  const DEFAULT_TAG := "dfs3"
  /** The block format version and the TaggedData payload type. */
  const PROTOCOL_VERSION := 2
  const TAGGED_DATA := 5

  /** `"0x" + text.encode("utf-8").hex()`. */
  function HexText(text: string): (h: string)
    ensures |h| >= 2 && h[..2] == "0x" && IsLowerHex(h[2..])
  {
    "0x" + ToHex(Utf8Encode(text))
  }

  /** The block body `publish_event(event, tag)` posts: the event as
      `json.dumps` writes it by default (", " and ": ", keys in insertion
      order), framed as hex. */
  function PublishBlock(event: Json, tag: string): (block: Json)
    ensures block.Obj? && Keys(block.members) == ["protocolVersion", "payload"]
  {
    Obj([
      Member("protocolVersion", Int(PROTOCOL_VERSION)),
      Member("payload", Obj([
        Member("type", Int(TAGGED_DATA)),
        Member("tag", Str(HexText(tag))),
        Member("data", Str(HexText(Dumps(event, Spaced, false))))]))])
  }

  /** The answer to the post: the `blockId` of the body for 201 or 202,
      a RuntimeError for any other status. */
  function PublishResult(response: HttpResponse): (r: Result<Json, PyError>)
    ensures response.status != 201 && response.status != 202 ==> r.Failure? && r.error.RuntimeError?
    ensures r.Success? ==> Index(response.body, "blockId") == Success(r.value)
  {
    if response.status == 201 || response.status == 202 then Index(response.body, "blockId")
    else Failure(RuntimeError("Failed to publish event"))
  }

  /** The hex digits the data field carries after its optional prefix. */
  function DataDigits(text: string): string {
    if |text| >= 2 && text[..2] == "0x" then text[2..] else text
  }

  /** The decoding half of `fetch_event`, inside its `try`: an optional
      "0x" is dropped, then hex, UTF-8 and JSON decoding; any failure is
      re-raised as RuntimeError. A JSON value outside this model's domain
      (a float) stays OutOfModel. */
  function DecodeData(data: Json): (r: Result<Json, PyError>)
    ensures r.Failure? ==> r.error.RuntimeError? || r.error == OutOfModel
    ensures !data.Str? ==> r.Failure? && r.error.RuntimeError?
  {
    match data
    case Str(text) =>
      (match FromHex(DataDigits(text))
       case Failure(_) => Failure(RuntimeError("Failed to decode event data"))
       case Success(raw) =>
         match Utf8Decode(raw)
         case Failure(_) => Failure(RuntimeError("Failed to decode event data"))
         case Success(jsonText) =>
           match Loads(jsonText)
           case Success(v) => Success(v)
           case Failure(OutOfModel) => Failure(OutOfModel)
           case Failure(_) => Failure(RuntimeError("Failed to decode event data")))
    case _ => Failure(RuntimeError("Failed to decode event data"))
  }

  /** `fetch_event(block_id)` given the ledger's answer: a status other
      than 200 and a payload that is not TaggedData are RuntimeErrors; a
      body or payload that is not a dict has no `.get`. */
  function FetchEvent(response: HttpResponse): (r: Result<Json, PyError>)
    ensures response.status != 200 ==> r.Failure? && r.error.RuntimeError?
    ensures r.Success? ==> response.body.Obj? && WellFormed(r.value)
  {
    if response.status != 200 then Failure(RuntimeError("Error fetching block"))
    else
      var payload :- GetOr(response.body, "payload", Obj([]));
      var kind :- GetOr(payload, "type", Null);
      if kind != Int(TAGGED_DATA) then Failure(RuntimeError("Block does not contain TaggedDataPayload."))
      else
        DecodeData(Get(payload.members, "data").GetOr(Str("")))
  }

  lemma DigitsOfPrefixed(digits: string)
    ensures DataDigits("0x" + digits) == digits
  {
    assert ("0x" + digits)[..2] == "0x";
  }

  lemma DigitsOfBare(digits: string)
    requires IsLowerHex(digits)
    ensures DataDigits(digits) == digits
  {
    if |digits| >= 2 {
      assert IsLowerHexChar(digits[1]);
    }
  }

  lemma DecodeDataSteps(text: string, raw: Bytes, jsonText: string)
    requires FromHex(DataDigits(text)) == Success(raw)
    requires Utf8Decode(raw) == Success(jsonText)
    requires Loads(jsonText).Success?
    ensures DecodeData(Str(text)) == Loads(jsonText)
  {
  }

  lemma HexTextDecodes(text: string, prefixed: bool)
    requires Loads(text).Success?
    ensures var h := HexText(text);
      DecodeData(Str(if prefixed then h else h[2..])) == Loads(text)
  {
    var h := HexText(text);
    var raw := Utf8Encode(text);
    var digits := ToHex(raw);
    assert h == "0x" + digits && h[2..] == digits;
    if prefixed { DigitsOfPrefixed(digits); } else { DigitsOfBare(digits); }
    FromHexToHex(raw);
    Utf8RoundTrip(text);
    DecodeDataSteps(if prefixed then h else h[2..], raw, text);
  }

  /** Round trip of the data field: with or without the "0x" prefix, the
      data `publish_event` writes for an event decodes back to it. */
  lemma DecodePublishedData(event: Json, prefixed: bool)
    requires WellFormed(event)
    ensures var h := HexText(Dumps(event, Spaced, false));
      DecodeData(Str(if prefixed then h else h[2..])) == Success(event)
  {
    StandardSeparators();
    LoadsDumps(event, Spaced, false);
    HexTextDecodes(Dumps(event, Spaced, false), prefixed);
  }

  /** Round trip of the block: fetching the block that publishing posted
      gives back the event that was sent. */
  lemma FetchPublished(event: Json, tag: string)
    requires WellFormed(event)
    ensures FetchEvent(HttpResponse(200, PublishBlock(event, tag))) == Success(event)
  {
    var block := PublishBlock(event, tag);
    var payload := block.members[1].value;
    GetFirst(block.members, 1);
    GetFirst(payload.members, 0);
    GetFirst(payload.members, 2);
    FetchSteps(block, payload, payload.members[2].value);
    DecodePublishedData(event, true);
  }

  lemma FetchSteps(body: Json, payload: Json, data: Json)
    requires body.Obj? && Get(body.members, "payload") == Some(payload)
    requires payload.Obj? && Get(payload.members, "type") == Some(Int(TAGGED_DATA))
    requires Get(payload.members, "data") == Some(data)
    ensures FetchEvent(HttpResponse(200, body)) == DecodeData(data)
  {
  }

  /** A block whose payload is not TaggedData is refused. */
  lemma FetchRejectsOtherPayloads(body: Json, kind: Json)
    requires body.Obj? && Get(body.members, "payload") == Some(Obj([Member("type", kind)]))
    requires kind != Int(TAGGED_DATA)
    ensures FetchEvent(HttpResponse(200, body)) == Failure(RuntimeError("Block does not contain TaggedDataPayload."))
  {
  }

  /** An odd number of hex digits is a decoding failure, surfaced as a
      RuntimeError. */
  lemma OddHexData(digits: string)
    requires forall k :: 0 <= k < |digits| ==> IsHexChar(digits[k])
    requires |digits| % 2 == 1
    ensures DecodeData(Str("0x" + digits)) == Failure(RuntimeError("Failed to decode event data"))
  {
    var text := "0x" + digits;
    assert text[..2] == "0x" && text[2..] == digits;
    OddHexFails(digits);
  }
}

=== FILE: json.dfy ===
/** JSON values as Python's `json` module produces and consumes them: a
    `dict` is an ordered sequence of members (insertion order, no repeated
    key), a `list` a sequence of values. Numbers are integers only. */
module Json {
  import opened Wrappers

  datatype Json =
    | Null
    | Bool(b: bool)
    | Int(i: int)
    | Str(s: string)
    | Arr(items: seq<Json>)
    | Obj(members: seq<Member>)

  datatype Member = Member(key: string, value: Json)

  function Keys(ms: seq<Member>): (ks: seq<string>)
    ensures |ks| == |ms|
    ensures forall i :: 0 <= i < |ms| ==> ks[i] == ms[i].key
  {
    if |ms| == 0 then [] else [ms[0].key] + Keys(ms[1..])
  }

  lemma KeysAppend(ms: seq<Member>, m: Member)
    ensures Keys(ms + [m]) == Keys(ms) + [m.key]
  {
  }

  predicate DistinctKeys(ms: seq<Member>) {
    forall i, j :: 0 <= i < j < |ms| ==> ms[i].key != ms[j].key
  }

  /** Every object inside `j`, at any depth, has distinct keys: the shape
      of every value a Python program can hold as a dict. */
  predicate WellFormed(j: Json) {
    match j
    case Arr(items) => forall k :: 0 <= k < |items| ==> WellFormed(items[k])
    case Obj(ms) => DistinctKeys(ms) && forall k :: 0 <= k < |ms| ==> WellFormed(ms[k].value)
    case _ => true
  }

  // ---------------------------------------------------------------------
  // dict operations

  /** `d.get(k)`: the value stored under `k`, if any. */
  function Get(ms: seq<Member>, k: string): (r: Option<Json>)
    ensures r.Some? <==> k in Keys(ms)
    ensures r.Some? ==> exists i :: 0 <= i < |ms| && ms[i] == Member(k, r.value)
  {
    if |ms| == 0 then None
    else if ms[0].key == k then Some(ms[0].value)
    else
      var r := Get(ms[1..], k);
      assert r.Some? ==> var i :| 0 <= i < |ms[1..]| && ms[1..][i] == Member(k, r.value); ms[i + 1] == Member(k, r.value);
      r
  }

  lemma GetAt(ms: seq<Member>, i: nat)
    requires DistinctKeys(ms) && i < |ms|
    ensures Get(ms, ms[i].key) == Some(ms[i].value)
  {
    var r := Get(ms, ms[i].key);
    var j :| 0 <= j < |ms| && ms[j] == Member(ms[i].key, r.value);
  }

  /** The first member with a key is the one a lookup finds. */
  lemma {:induction false} GetFirst(ms: seq<Member>, i: nat)
    requires i < |ms| && forall j :: 0 <= j < i ==> ms[j].key != ms[i].key
    ensures Get(ms, ms[i].key) == Some(ms[i].value)
  {
    if i > 0 {
      GetFirst(ms[1..], i - 1);
    }
  }

  /** `d[k] = v`: an existing key keeps its position and takes the new
      value; a new key is appended. */
  function Put(ms: seq<Member>, k: string, v: Json): (r: seq<Member>)
    ensures k in Keys(ms) ==> Keys(r) == Keys(ms)
    ensures k !in Keys(ms) ==> r == ms + [Member(k, v)]
  {
    if |ms| == 0 then [Member(k, v)]
    else if ms[0].key == k then [Member(k, v)] + ms[1..]
    else [ms[0]] + Put(ms[1..], k, v)
  }

  lemma {:induction false} PutGet(ms: seq<Member>, k: string, v: Json, k2: string)
    ensures Get(Put(ms, k, v), k2) == if k2 == k then Some(v) else Get(ms, k2)
  {
    if |ms| > 0 && ms[0].key != k {
      PutGet(ms[1..], k, v, k2);
      assert Put(ms, k, v)[1..] == Put(ms[1..], k, v);
    }
  }

  lemma PutDistinct(ms: seq<Member>, k: string, v: Json)
    requires DistinctKeys(ms)
    ensures DistinctKeys(Put(ms, k, v))
  {
    var r := Put(ms, k, v);
    if k in Keys(ms) {
      assert forall i :: 0 <= i < |r| ==> r[i].key == Keys(r)[i];
    }
  }

  /** `del d[k]` for a present key, and the identity for an absent one. */
  function Delete(ms: seq<Member>, k: string): (r: seq<Member>)
    ensures |r| <= |ms|
  {
    if |ms| == 0 then []
    else if ms[0].key == k then Delete(ms[1..], k)
    else [ms[0]] + Delete(ms[1..], k)
  }

  lemma {:induction false} DeleteGet(ms: seq<Member>, k: string, k2: string)
    ensures Get(Delete(ms, k), k2) == if k2 == k then None else Get(ms, k2)
  {
    if |ms| > 0 {
      DeleteGet(ms[1..], k, k2);
    }
  }

  lemma {:induction false} DeleteKeys(ms: seq<Member>, k: string)
    ensures forall m :: m in Delete(ms, k) ==> m in ms && m.key != k
  {
    if |ms| > 0 {
      DeleteKeys(ms[1..], k);
    }
  }

  lemma {:induction false} DeleteAbsent(ms: seq<Member>, k: string)
    requires k !in Keys(ms)
    ensures Delete(ms, k) == ms
  {
    if |ms| > 0 {
      assert Keys(ms)[0] == ms[0].key;
      assert Keys(ms[1..]) == Keys(ms)[1..];
      DeleteAbsent(ms[1..], k);
    }
  }

  /** Deleting the last member of a dict gives back the dict it extended. */
  lemma DeleteLast(ms: seq<Member>, k: string, v: Json)
    requires k !in Keys(ms)
    ensures Delete(ms + [Member(k, v)], k) == ms
  {
    DeleteAppend(ms, [Member(k, v)], k);
    DeleteAbsent(ms, k);
  }

  lemma {:induction false} DeleteAppend(a: seq<Member>, b: seq<Member>, k: string)
    ensures Delete(a + b, k) == Delete(a, k) + Delete(b, k)
  {
    if |a| == 0 {
      assert a + b == b;
    } else {
      assert (a + b)[1..] == a[1..] + b;
      DeleteAppend(a[1..], b, k);
    }
  }

  lemma DeleteDistinct(ms: seq<Member>, k: string)
    requires DistinctKeys(ms)
    ensures DistinctKeys(Delete(ms, k))
  {
    DeleteSubsequence(ms, k);
  }

  lemma {:induction false} DeleteSubsequence(ms: seq<Member>, k: string)
    requires DistinctKeys(ms)
    ensures DistinctKeys(Delete(ms, k))
  {
    if |ms| > 0 {
      DeleteSubsequence(ms[1..], k);
      DeleteKeys(ms[1..], k);
      var d := Delete(ms[1..], k);
      if ms[0].key != k {
        forall j | 0 <= j < |d| ensures d[j].key != ms[0].key {
          assert d[j] in ms[1..];
        }
      }
    }
  }

  // ---------------------------------------------------------------------
  // Python access on an arbitrary value

  predicate IsDict(j: Json) { j.Obj? }

  /** `j[k]` with a string key: a missing key is a KeyError; indexing a
      list, string, number, boolean or None with a string is a TypeError. */
  function Index(j: Json, k: string): (r: Result<Json, PyError>)
    ensures r.Success? <==> j.Obj? && k in Keys(j.members)
    ensures r.Failure? && j.Obj? ==> r.error == KeyError(k)
    ensures r.Failure? && !j.Obj? ==> r.error == TypeError
  {
    match j
    case Obj(ms) =>
      (match Get(ms, k)
       case Some(v) => Success(v)
       case None => Failure(KeyError(k)))
    case _ => Failure(TypeError)
  }

  /** `j.get(k, default)`: only dicts have `.get`. */
  function GetOr(j: Json, k: string, default: Json): (r: Result<Json, PyError>)
    ensures r.Success? <==> j.Obj?
    ensures j.Obj? && k !in Keys(j.members) ==> r == Success(default)
    ensures r.Failure? ==> r.error == AttributeError
  {
    match j
    case Obj(ms) => Success(Get(ms, k).GetOr(default))
    case _ => Failure(AttributeError)
  }

  /** Python's hashability: a list or dict cannot be looked up in a set. */
  predicate Hashable(j: Json) { !j.Arr? && !j.Obj? }
}

=== FILE: json_order.dfy ===
/** Key order for `sort_keys=True`: Python compares `str` keys code point by
    code point, and `sorted(d.items())` puts the members of every object in
    that order. `Normal` is the value the encoder walks when keys are
    sorted. */
module JsonOrder {
  import opened Json
  import opened Seqs

  /** Python's `a < b` on `str`. */
  predicate LexLess(a: string, b: string)
    decreases |a|
  {
    |b| > 0 && (|a| == 0 || a[0] < b[0] || (a[0] == b[0] && LexLess(a[1..], b[1..])))
  }

  lemma {:induction false} LexIrreflexive(a: string)
    ensures !LexLess(a, a)
    decreases |a|
  {
    if |a| > 0 {
      LexIrreflexive(a[1..]);
    }
  }

  lemma {:induction false} LexAsymmetric(a: string, b: string)
    requires LexLess(a, b)
    ensures !LexLess(b, a)
    decreases |a|
  {
    if |a| > 0 && a[0] == b[0] {
      LexAsymmetric(a[1..], b[1..]);
    }
  }

  lemma {:induction false} LexTransitive(a: string, b: string, c: string)
    requires LexLess(a, b) && LexLess(b, c)
    ensures LexLess(a, c)
    decreases |a|
  {
    if |a| > 0 && a[0] == b[0] && b[0] == c[0] {
      LexTransitive(a[1..], b[1..], c[1..]);
    }
  }

  lemma {:induction false} LexTotal(a: string, b: string)
    requires a != b
    ensures LexLess(a, b) || LexLess(b, a)
    decreases |a|
  {
    if |a| > 0 && |b| > 0 && a[0] == b[0] {
      assert a == [a[0]] + a[1..] && b == [b[0]] + b[1..];
      LexTotal(a[1..], b[1..]);
    }
  }

  // ---------------------------------------------------------------------
  // Sorting the members of one object

  predicate StrictlySorted(ms: seq<Member>) {
    forall i, j :: 0 <= i < j < |ms| ==> LexLess(ms[i].key, ms[j].key)
  }

  lemma StrictlySortedDistinct(ms: seq<Member>)
    requires StrictlySorted(ms)
    ensures DistinctKeys(ms)
  {
    forall i, j | 0 <= i < j < |ms| ensures ms[i].key != ms[j].key {
      if ms[i].key == ms[j].key {
        LexIrreflexive(ms[i].key);
      }
    }
  }

  function Insert(m: Member, ms: seq<Member>): (r: seq<Member>)
    ensures multiset(r) == multiset(ms) + multiset{m}
  {
    if |ms| == 0 then [m]
    else if LexLess(ms[0].key, m.key) then
      assert ms == [ms[0]] + ms[1..];
      [ms[0]] + Insert(m, ms[1..])
    else [m] + ms
  }

  /** `sorted(d.items())` for a dict: the members ordered by key. */
  function SortMembers(ms: seq<Member>): (r: seq<Member>)
    ensures multiset(r) == multiset(ms)
  {
    if |ms| == 0 then []
    else
      assert ms == [ms[0]] + ms[1..];
      Insert(ms[0], SortMembers(ms[1..]))
  }

  lemma {:induction false} InsertSorted(m: Member, ms: seq<Member>)
    requires StrictlySorted(ms)
    requires forall i :: 0 <= i < |ms| ==> ms[i].key != m.key
    ensures StrictlySorted(Insert(m, ms))
  {
    if |ms| > 0 && LexLess(ms[0].key, m.key) {
      InsertSorted(m, ms[1..]);
      var r := Insert(m, ms);
      var t := Insert(m, ms[1..]);
      forall j | 0 < j < |r| ensures LexLess(ms[0].key, r[j].key) {
        assert r[j] == t[j - 1];
        assert r[j] in multiset(ms[1..]) + multiset{m};
        if r[j] != m {
          var k := IndexOf(ms[1..], r[j]);
          assert ms[k + 1] == r[j];
        }
      }
    } else if |ms| > 0 {
      LexTotal(ms[0].key, m.key);
      var r := Insert(m, ms);
      forall i, j | 0 <= i < j < |r| ensures LexLess(r[i].key, r[j].key) {
        if i == 0 && j > 1 {
          LexTransitive(m.key, ms[0].key, ms[j - 1].key);
        }
      }
    }
  }

  /** The sorted members of a dict are in strictly increasing key order and
      are exactly the dict's members. */
  lemma {:induction false} SortMembersSorted(ms: seq<Member>)
    requires DistinctKeys(ms)
    ensures StrictlySorted(SortMembers(ms))
  {
    if |ms| > 0 {
      SortMembersSorted(ms[1..]);
      var t := SortMembers(ms[1..]);
      forall i | 0 <= i < |t| ensures t[i].key != ms[0].key {
        assert t[i] in multiset(ms[1..]);
        var k := IndexOf(ms[1..], t[i]);
      }
      InsertSorted(ms[0], t);
    }
  }

  /** Two strictly sorted sequences with the same members are equal: the
      sorted order of a dict does not depend on its insertion order. */
  lemma {:induction false} SortedUnique(a: seq<Member>, b: seq<Member>)
    requires StrictlySorted(a) && StrictlySorted(b)
    requires multiset(a) == multiset(b)
    ensures a == b
    decreases |a|
  {
    if |a| > 0 {
      assert a[0] in multiset(b);
      assert b[0] in multiset(a);
      var k := IndexOf(b, a[0]);
      var l := IndexOf(a, b[0]);
      if k > 0 && l > 0 {
        LexAsymmetric(b[0].key, a[0].key);
      } else if k > 0 {
        LexIrreflexive(b[0].key);
      } else if l > 0 {
        LexIrreflexive(a[0].key);
      }
      assert a[0] == b[0];
      assert a == [a[0]] + a[1..] && b == [b[0]] + b[1..];
      assert multiset(a) == multiset([a[0]]) + multiset(a[1..]);
      assert multiset(b) == multiset([b[0]]) + multiset(b[1..]);
      assert multiset(a[1..]) == multiset(a) - multiset([a[0]]);
      assert multiset(b[1..]) == multiset(b) - multiset([b[0]]);
      SortedUnique(a[1..], b[1..]);
    } else {
      assert |b| == |multiset(b)|;
    }
  }

  // ---------------------------------------------------------------------
  // The normal form: every object at every depth in key order

  function NormalItems(items: seq<Json>): (r: seq<Json>)
    ensures |r| == |items|
  {
    if |items| == 0 then [] else [Normal(items[0])] + NormalItems(items[1..])
  }

  function NormalMembers(ms: seq<Member>): (r: seq<Member>)
    ensures Keys(r) == Keys(ms)
  {
    if |ms| == 0 then []
    else [Member(ms[0].key, Normal(ms[0].value))] + NormalMembers(ms[1..])
  }

  /** The value `json.dumps(j, sort_keys=True)` encodes: nested values
      normalised, then every object's members sorted by key. */
  function Normal(j: Json): Json {
    match j
    case Arr(items) => Arr(NormalItems(items))
    case Obj(ms) => Obj(SortMembers(NormalMembers(ms)))
    case _ => j
  }

  /** Every object at every depth is in strictly increasing key order. */
  predicate IsNormal(j: Json) {
    match j
    case Arr(items) => forall k :: 0 <= k < |items| ==> IsNormal(items[k])
    case Obj(ms) => StrictlySorted(ms) && forall k :: 0 <= k < |ms| ==> IsNormal(ms[k].value)
    case _ => true
  }

  lemma {:induction false} NormalItemsAt(items: seq<Json>, k: nat)
    requires k < |items|
    ensures NormalItems(items)[k] == Normal(items[k])
  {
    if k > 0 {
      NormalItemsAt(items[1..], k - 1);
    }
  }

  lemma {:induction false} NormalMembersAt(ms: seq<Member>, k: nat)
    requires k < |ms|
    ensures NormalMembers(ms)[k] == Member(ms[k].key, Normal(ms[k].value))
  {
    if k > 0 {
      NormalMembersAt(ms[1..], k - 1);
    }
  }

  lemma DistinctKeysOfKeys(a: seq<Member>, b: seq<Member>)
    requires Keys(a) == Keys(b) && DistinctKeys(a)
    ensures DistinctKeys(b)
  {
    forall i, j | 0 <= i < j < |b| ensures b[i].key != b[j].key {
      assert Keys(a)[i] == b[i].key && Keys(a)[j] == b[j].key;
    }
  }

  /** Normalising a dict keeps it a dict of distinct keys, puts it in
      normal form, and keeps every member (with its value normalised). */
  lemma {:induction false} NormalIsNormal(j: Json)
    requires WellFormed(j)
    ensures IsNormal(Normal(j)) && WellFormed(Normal(j))
  {
    match j
    case Arr(items) =>
      var r := NormalItems(items);
      forall k | 0 <= k < |r| ensures IsNormal(r[k]) && WellFormed(r[k]) {
        NormalItemsAt(items, k);
        NormalIsNormal(items[k]);
      }
    case Obj(ms) =>
      var n := NormalMembers(ms);
      DistinctKeysOfKeys(ms, n);
      SortMembersSorted(n);
      var r := SortMembers(n);
      StrictlySortedDistinct(r);
      forall k | 0 <= k < |r| ensures IsNormal(r[k].value) && WellFormed(r[k].value) {
        assert r[k] in multiset(n);
        var i := IndexOf(n, r[k]);
        NormalMembersAt(ms, i);
        NormalIsNormal(ms[i].value);
      }
    case _ =>
  }

  function NormalMember(m: Member): Member {
    Member(m.key, Normal(m.value))
  }

  /** Normalising the members of an object normalises each value in place. */
  lemma {:induction false} NormalMembersMap(ms: seq<Member>)
    ensures NormalMembers(ms) == Map(NormalMember, ms)
  {
    if |ms| > 0 {
      NormalMembersMap(ms[1..]);
    }
  }

  /** Normalising values member by member respects a reordering of the
      members. */
  lemma NormalMembersPermutation(a: seq<Member>, b: seq<Member>)
    requires multiset(a) == multiset(b)
    ensures multiset(NormalMembers(a)) == multiset(NormalMembers(b))
  {
    NormalMembersMap(a);
    NormalMembersMap(b);
    MapPermutation(NormalMember, a, b);
  }

  /** `sort_keys=True` makes the encoded object independent of the order in
      which its members were inserted. */
  lemma NormalIgnoresOrder(a: seq<Member>, b: seq<Member>)
    requires DistinctKeys(a) && multiset(a) == multiset(b)
    ensures Normal(Obj(a)) == Normal(Obj(b))
  {
    var na := NormalMembers(a);
    var nb := NormalMembers(b);
    NormalMembersPermutation(a, b);
    DistinctKeysOfKeys(a, na);
    DistinctOfPermutation(a, b);
    DistinctKeysOfKeys(b, nb);
    SortMembersSorted(na);
    SortMembersSorted(nb);
    SortedUnique(SortMembers(na), SortMembers(nb));
  }

  /** In a dict of distinct keys every member occurs once. */
  lemma DistinctCount(a: seq<Member>, i: nat)
    requires DistinctKeys(a) && i < |a|
    ensures multiset(a)[a[i]] == 1
  {
    assert a == a[..i] + [a[i]] + a[i + 1..];
    assert forall j :: 0 <= j < i ==> a[..i][j] != a[i];
    assert forall k :: i < k < |a| ==> a[k] != a[i];
    assert a[i] !in a[i + 1..];
    assert a[i] !in a[..i];
  }

  lemma DistinctOfPermutation(a: seq<Member>, b: seq<Member>)
    requires DistinctKeys(a) && multiset(a) == multiset(b)
    ensures DistinctKeys(b)
  {
    forall i, j | 0 <= i < j < |b| ensures b[i].key != b[j].key {
      assert b[i] in multiset(a) && b[j] in multiset(a);
      var i' := IndexOf(a, b[i]);
      var j' := IndexOf(a, b[j]);
      if b[i] == b[j] {
        CountTwo(b, i, j);
        DistinctCount(a, i');
      } else {
        assert i' != j';
      }
    }
  }

  lemma CountTwo(b: seq<Member>, i: nat, j: nat)
    requires i < j < |b| && b[i] == b[j]
    ensures multiset(b)[b[i]] >= 2
  {
    assert b == b[..j] + [b[j]] + b[j + 1..];
    assert b[..j][i] == b[i];
    assert multiset(b) == multiset(b[..j]) + multiset([b[j]]) + multiset(b[j + 1..]);
  }
}

=== FILE: json_read.dfy ===
/** `json.loads` as CPython's C scanner runs it (strict mode, no hooks).
    Whitespace is space, tab, newline and carriage return; a repeated key
    keeps its first position and takes the last value, as dict assignment
    does. Values outside the model's domain (floats, NaN, infinities,
    strings with a lone surrogate) give `OutOfModel`. */
module JsonRead {
  import opened Wrappers
  import opened Json
  import opened Python
  import opened Bytes
  import opened JsonWrite

  /** A value read from the front of a text, with the text after it. */
  type Parsed<T> = Result<(T, string), PyError>

  function SkipWs(s: string): (r: string)
    ensures |r| <= |s| && r == s[|s| - |r|..]
    ensures |r| > 0 ==> !IsWs(r[0])
    ensures AllWs(s[..|s| - |r|])
  {
    if |s| > 0 && IsWs(s[0]) then SkipWs(s[1..]) else s
  }

  // ---------------------------------------------------------------------
  // Strings

  /** Four hex digits of either case. */
  function HexQuad(s: string): (r: Option<nat>)
    requires |s| >= 4
    ensures r.Some? <==> IsHexChar(s[0]) && IsHexChar(s[1]) && IsHexChar(s[2]) && IsHexChar(s[3])
    ensures r.Some? ==> r.value < 0x1_0000
  {
    if IsHexChar(s[0]) && IsHexChar(s[1]) && IsHexChar(s[2]) && IsHexChar(s[3]) then
      Some(HexValue(s[0]) * 4096 + HexValue(s[1]) * 256 + HexValue(s[2]) * 16 + HexValue(s[3]))
    else None
  }

  predicate IsHighSurrogate(n: int) { 0xD800 <= n <= 0xDBFF }
  predicate IsLowSurrogate(n: int) { 0xDC00 <= n <= 0xDFFF }

  /** The character a backslash escape stands for; `t` is the text after the
      backslash. A `\u` escape needs four hex digits and at least one more
      character after them; a high surrogate followed by a `\u` escape of a
      low surrogate is joined into one character. */
  function ParseEscape(t: string): (r: Parsed<char>)
    ensures r.Success? ==> |r.value.1| < |t|
  {
    if |t| == 0 then Failure(JsonDecodeError)
    else if t[0] == 'u' then
      var u := t[1..];
      if |u| < 5 then Failure(JsonDecodeError)
      else match HexQuad(u)
        case None => Failure(JsonDecodeError)
        case Some(c) =>
          var after := u[4..];
          if IsHighSurrogate(c) && |after| > 6 && after[0] == '\\' && after[1] == 'u' then
            match HexQuad(after[2..])
            case None => Failure(JsonDecodeError)
            case Some(c2) =>
              if IsLowSurrogate(c2) then
                Success(((0x1_0000 + (c - 0xD800) * 1024 + (c2 - 0xDC00)) as char, after[6..]))
              else Failure(OutOfModel)
          else if 0xD800 <= c <= 0xDFFF then Failure(OutOfModel)
          else Success((c as char, after))
    else if t[0] == '"' || t[0] == '\\' || t[0] == '/' then Success((t[0], t[1..]))
    else if t[0] == 'b' then Success((0x08 as char, t[1..]))
    else if t[0] == 'f' then Success((0x0C as char, t[1..]))
    else if t[0] == 'n' then Success(('\n', t[1..]))
    else if t[0] == 'r' then Success(('\r', t[1..]))
    else if t[0] == 't' then Success(('\t', t[1..]))
    else Failure(JsonDecodeError)
  }

  /** The body of a string literal up to its closing quote; `t` is the text
      after the opening quote. A raw control character is an error. */
  function ParseString(t: string): (r: Parsed<string>)
    ensures r.Success? ==> |r.value.1| < |t|
  {
    if |t| == 0 then Failure(JsonDecodeError)
    else if t[0] == '"' then Success(("", t[1..]))
    else if t[0] == '\\' then
      match ParseEscape(t[1..])
      case Failure(e) => Failure(e)
      case Success((c, t')) =>
        match ParseString(t')
        case Failure(e) => Failure(e)
        case Success((s, rest)) => Success(([c] + s, rest))
    else if (t[0] as int) < 0x20 then Failure(JsonDecodeError)
    else
      match ParseString(t[1..])
      case Failure(e) => Failure(e)
      case Success((s, rest)) => Success(([t[0]] + s, rest))
  }

  // ---------------------------------------------------------------------
  // Numbers

  function DigitCount(s: string): (n: nat)
    ensures n <= |s| && forall k :: 0 <= k < n ==> IsDigit(s[k])
    ensures n < |s| ==> !IsDigit(s[n])
  {
    if |s| > 0 && IsDigit(s[0]) then 1 + DigitCount(s[1..]) else 0
  }

  /** The text after an integer's digits continues it as a float: a
      fraction `.d` or an exponent `e5`, `E+5`, `e-5`. */
  predicate FloatTail(s: string) {
    || (|s| >= 2 && s[0] == '.' && IsDigit(s[1]))
    || (|s| >= 2 && (s[0] == 'e' || s[0] == 'E') && IsDigit(s[1]))
    || (|s| >= 3 && (s[0] == 'e' || s[0] == 'E') && (s[1] == '+' || s[1] == '-') && IsDigit(s[2]))
  }

  /** The length of an integer's digits: one `0`, or a run of digits not
      starting with `0`. */
  function IntDigits(t: string): (n: nat)
    requires |t| > 0 && IsDigit(t[0])
    ensures 0 < n <= |t| && forall k :: 0 <= k < n ==> IsDigit(t[k])
  {
    if t[0] == '0' then 1 else DigitCount(t)
  }

  /** `0` or a digit run not starting with `0`, unless a fraction or an
      exponent makes it a float. */
  function ParseUnsigned(t: string): (r: Parsed<nat>)
    ensures r.Success? ==> |r.value.1| < |t|
  {
    if |t| == 0 || !IsDigit(t[0]) then Failure(JsonDecodeError)
    else
      var n := IntDigits(t);
      if FloatTail(t[n..]) then Failure(OutOfModel)
      else Success((DecimalValue(t[..n]), t[n..]))
  }

  /** An optional minus sign, then an unsigned integer. */
  function ParseNumber(s: string): (r: Parsed<Json>)
    ensures r.Success? ==> |r.value.1| < |s| && r.value.0.Int?
  {
    if |s| > 0 && s[0] == '-' then
      match ParseUnsigned(s[1..])
      case Success((v, rest)) => Success((Int(-(v as int)), rest))
      case Failure(e) => Failure(e)
    else
      match ParseUnsigned(s)
      case Success((v, rest)) => Success((Int(v), rest))
      case Failure(e) => Failure(e)
  }

  // ---------------------------------------------------------------------
  // Values

  /** Parses one value at the very front of `s` (the caller has skipped
      any whitespace before it), choosing by its first character; text
      that starts no string, container or named constant is read as a
      number. */
  function ParseValue(s: string): (r: Parsed<Json>)
    decreases |s|, 0
    ensures r.Success? ==> |r.value.1| < |s| && WellFormed(r.value.0)
  {
    if |s| == 0 then Failure(JsonDecodeError)
    else if s[0] == '"' then
      match ParseString(s[1..])
      case Failure(e) => Failure(e)
      case Success((str, rest)) => Success((Str(str), rest))
    else if s[0] == '{' then ParseObject(s[1..])
    else if s[0] == '[' then ParseArray(s[1..])
    else if s[0] == 'n' && "null" <= s then Success((Null, s[4..]))
    else if s[0] == 't' && "true" <= s then Success((Bool(true), s[4..]))
    else if s[0] == 'f' && "false" <= s then Success((Bool(false), s[5..]))
    else if s[0] == 'N' && "NaN" <= s then Failure(OutOfModel)
    else if s[0] == 'I' && "Infinity" <= s then Failure(OutOfModel)
    else if s[0] == '-' && "-Infinity" <= s then Failure(OutOfModel)
    else ParseNumber(s)
  }

  /** `s` is the text after `[`. */
  function ParseArray(s: string): (r: Parsed<Json>)
    decreases |s|, 2
    ensures r.Success? ==> |r.value.1| < |s| && WellFormed(r.value.0)
  {
    var t := SkipWs(s);
    if |t| > 0 && t[0] == ']' then Success((Arr([]), t[1..]))
    else ParseElements(t, [])
  }

  /** Items after the first `[` or after a `,`; `acc` holds the items read so
      far. */
  function ParseElements(s: string, acc: seq<Json>): (r: Parsed<Json>)
    requires forall k :: 0 <= k < |acc| ==> WellFormed(acc[k])
    decreases |s|, 1
    ensures r.Success? ==> |r.value.1| < |s| && WellFormed(r.value.0)
  {
    match ParseValue(s)
    case Failure(e) => Failure(e)
    case Success((v, rest)) =>
      var t := SkipWs(rest);
      var items := acc + [v];
      AppendWellFormed(acc, v);
      if |t| > 0 && t[0] == ']' then Success((Arr(items), t[1..]))
      else if |t| > 0 && t[0] == ',' then ParseElements(SkipWs(t[1..]), items)
      else Failure(JsonDecodeError)
  }

  lemma AppendWellFormed(acc: seq<Json>, v: Json)
    requires forall k :: 0 <= k < |acc| ==> WellFormed(acc[k])
    requires WellFormed(v)
    ensures forall k :: 0 <= k < |acc + [v]| ==> WellFormed((acc + [v])[k])
  {
  }

  /** `s` is the text after `{`. */
  function ParseObject(s: string): (r: Parsed<Json>)
    decreases |s|, 2
    ensures r.Success? ==> |r.value.1| < |s| && WellFormed(r.value.0)
  {
    var t := SkipWs(s);
    if |t| > 0 && t[0] == '}' then Success((Obj([]), t[1..]))
    else ParseMembers(t, [])
  }

  predicate WellFormedMembers(ms: seq<Member>) {
    DistinctKeys(ms) && forall k :: 0 <= k < |ms| ==> WellFormed(ms[k].value)
  }

  /** Members after the first `{` or after a `,`; `acc` is the dict built so
      far, and each member is stored with dict assignment. */
  function ParseMembers(s: string, acc: seq<Member>): (r: Parsed<Json>)
    requires WellFormedMembers(acc)
    decreases |s|, 1
    ensures r.Success? ==> |r.value.1| < |s| && WellFormed(r.value.0)
  {
    if |s| == 0 || s[0] != '"' then Failure(JsonDecodeError)
    else match ParseString(s[1..])
      case Failure(e) => Failure(e)
      case Success((k, r1)) =>
        var r2 := SkipWs(r1);
        if |r2| == 0 || r2[0] != ':' then Failure(JsonDecodeError)
        else
          match ParseValue(SkipWs(r2[1..]))
          case Failure(e) => Failure(e)
          case Success((v, r4)) =>
            PutWellFormed(acc, k, v);
            var ms := Put(acc, k, v);
            var r5 := SkipWs(r4);
            if |r5| > 0 && r5[0] == '}' then Success((Obj(ms), r5[1..]))
            else if |r5| > 0 && r5[0] == ',' then ParseMembers(SkipWs(r5[1..]), ms)
            else Failure(JsonDecodeError)
  }

  lemma {:induction false} PutWellFormed(ms: seq<Member>, k: string, v: Json)
    requires WellFormedMembers(ms) && WellFormed(v)
    ensures WellFormedMembers(Put(ms, k, v))
  {
    PutDistinct(ms, k, v);
    if |ms| > 0 && ms[0].key != k {
      PutWellFormed(ms[1..], k, v);
    }
  }

  /** `json.loads(s)` for a `str`: a leading byte-order mark is refused, and
      only whitespace may follow the value. Every dict it returns has
      distinct keys at every depth. */
  function Loads(s: string): (r: Result<Json, PyError>)
    ensures r.Success? ==> WellFormed(r.value)
    ensures |s| > 0 && s[0] == 0xFEFF as char ==> r == Failure(JsonDecodeError)
  {
    if |s| > 0 && s[0] == 0xFEFF as char then Failure(JsonDecodeError)
    else match ParseValue(SkipWs(s))
      case Failure(e) => Failure(e)
      case Success((v, rest)) => if |SkipWs(rest)| == 0 then Success(v) else Failure(JsonDecodeError)
  }

  /** A float such as `1.0`, which `json.loads` reads, is outside the
      model's domain. */
  lemma FloatIsUnmodelled()
    ensures Loads("1.0") == Failure(OutOfModel)
  {
    FloatNumber();
    assert SkipWs("1.0") == "1.0";
    assert ParseValue("1.0") == ParseNumber("1.0");
  }

  lemma FloatNumber()
    ensures ParseNumber("1.0") == Failure(OutOfModel)
  {
    assert DigitCount(".0") == 0;
    assert DigitCount("1.0") == 1;
    assert "1.0"[1..] == ".0";
    assert FloatTail(".0");
  }
}

=== FILE: json_roundtrip.dfy ===
/** What `json.loads` gives back for the text `json.dumps` wrote: the same
    value, for every dict with distinct keys and every pair of separators
    made of `,`/`:` with optional whitespace. It follows that the signed
    canonical text identifies a value up to the order of its dict keys. */
module JsonRoundTrip {
  import opened Wrappers
  import opened Json
  import opened JsonOrder
  import opened Python
  import opened Bytes
  import opened JsonWrite
  import opened JsonRead
  import opened Seqs

  /** What may follow a value's text inside a document: its end, whitespace,
      a separator or a closing bracket. */
  predicate Boundary(rest: string) {
    |rest| == 0 || IsWs(rest[0]) || rest[0] == ',' || rest[0] == ']' || rest[0] == '}'
  }

  // ---------------------------------------------------------------------
  // Whitespace and separators

  lemma {:induction false} SkipWsAppend(w: string, s: string)
    requires AllWs(w)
    ensures SkipWs(w + s) == SkipWs(s)
  {
    if |w| > 0 {
      assert (w + s)[1..] == w[1..] + s;
      SkipWsAppend(w[1..], s);
    } else {
      assert w + s == s;
    }
  }

  /** Reading a separator: skip the whitespace, find the punctuation, and
      the whitespace after it leads to the next value. */
  lemma SepSkip(sep: string, p: char, s: string)
    requires IsSep(sep, p) && |s| > 0 && !IsWs(s[0])
    ensures var t := SkipWs(sep + s); |t| > 0 && t[0] == p && SkipWs(t[1..]) == s
  {
    var i := WsPrefix(sep);
    var after := sep[i + 1..] + s;
    SplitAt(sep, i, s);
    SkipWsAppend(sep[..i], [p] + after);
    assert SkipWs([p] + after) == [p] + after;
    DropHead([p], after);
    SkipWsAppend(sep[i + 1..], s);
  }

  lemma SepBoundary(sep: string, p: char, s: string)
    requires IsSep(sep, p)
    ensures |sep + s| > 0 && (IsWs((sep + s)[0]) || (sep + s)[0] == p)
  {
    var i := WsPrefix(sep);
    if i > 0 {
      assert sep[..i][0] == sep[0];
    }
  }

  // ---------------------------------------------------------------------
  // Strings

  lemma HexQuadOfHex4(n: nat, u: string)
    requires n < 0x1_0000
    ensures HexQuad(Hex4(n) + u) == Some(n)
  {
    var h := Hex4(n) + u;
    assert h[0] == LowerHexDigit(n / 4096) && h[1] == LowerHexDigit((n / 256) % 16);
    assert h[2] == LowerHexDigit((n / 16) % 16) && h[3] == LowerHexDigit(n % 16);
    var q := n / 16;
    var q2 := q / 16;
    assert q * 16 + n % 16 == n;
    assert q2 * 16 + q % 16 == q;
    assert (q2 / 16) * 16 + q2 % 16 == q2;
    assert n / 256 == q2;
    assert n / 4096 == q2 / 16;
  }

  /** `r` with `c` put in front of the string it read. */
  function Cons(c: char, r: Parsed<string>): Parsed<string> {
    match r
    case Success((s, rest)) => Success(([c] + s, rest))
    case Failure(e) => Failure(e)
  }

  lemma ParseSurrogatePair(n: int, u: string)
    requires 0x1_0000 <= n < 0x11_0000 && |u| > 0
    ensures ParseEscape(PairEscape(n)[1..] + u) == Success((n as char, u))
  {
    var v := n - 0x1_0000;
    var hi, lo := 0xD800 + v / 1024, 0xDC00 + v % 1024;
    SurrogateSplit(n);
    assert 0x1_0000 + (hi - 0xD800) * 1024 + (lo - 0xDC00) == n;
    PairEscapeText(n, u);
    assert PairEscape(n)[1..] + u == "u" + Hex4(hi) + ("\\u" + Hex4(lo) + u);
    ParseHexPair(hi, lo, u);
  }

  /** The two halves of an astral character are a high and a low
      surrogate that join back into it. */
  lemma SurrogateSplit(n: int)
    requires 0x1_0000 <= n < 0x11_0000
    ensures var v := n - 0x1_0000;
      var hi, lo := 0xD800 + v / 1024, 0xDC00 + v % 1024;
      IsHighSurrogate(hi) && IsLowSurrogate(lo) && 0x1_0000 + (hi - 0xD800) * 1024 + (lo - 0xDC00) == n
  {
    var v := n - 0x1_0000;
    assert (v / 1024) * 1024 + v % 1024 == v;
  }

  /** The text of a surrogate pair escape after its first backslash. */
  lemma PairEscapeText(n: int, u: string)
    requires 0x1_0000 <= n < 0x11_0000
    ensures var v := n - 0x1_0000;
      PairEscape(n)[1..] + u == "u" + Hex4(0xD800 + v / 1024) + ("\\u" + Hex4(0xDC00 + v % 1024) + u)
  {
    var v := n - 0x1_0000;
    var a, b := Hex4(0xD800 + v / 1024), Hex4(0xDC00 + v % 1024);
    assert PairEscape(n) == "\\" + ("u" + a + "\\u" + b);
    DropHead("\\", "u" + a + "\\u" + b);
  }

  /** A `\u` escape of a high surrogate followed by one of a low surrogate
      reads as the character they encode. */
  lemma ParseHexPair(hi: int, lo: int, u: string)
    requires IsHighSurrogate(hi) && IsLowSurrogate(lo) && |u| > 0
    ensures ParseEscape("u" + Hex4(hi) + ("\\u" + Hex4(lo) + u))
      == Success(((0x1_0000 + (hi - 0xD800) * 1024 + (lo - 0xDC00)) as char, u))
  {
    var after := "\\u" + Hex4(lo) + u;
    var t := "u" + Hex4(hi) + after;
    Regroup3("u", Hex4(hi), after);
    DropPrefix("u", Hex4(hi) + after);
    DropPrefix(Hex4(hi), after);
    HexQuadOfHex4(hi, after);
    Regroup3("\\u", Hex4(lo), u);
    DropPrefix("\\u", Hex4(lo) + u);
    DropPrefix("\\u" + Hex4(lo), u);
    HexQuadOfHex4(lo, u);
  }

  lemma ParseUnicodeEscape(c: char, u: string)
    requires c as int < 0x1_0000 && |u| > 0
    ensures ParseEscape("u" + Hex4(c as int) + u) == Success((c, u))
  {
    var t := "u" + Hex4(c as int) + u;
    assert t[1..] == Hex4(c as int) + u;
    HexQuadOfHex4(c as int, u);
    assert t[1..][4..] == u;
  }

  /** A backslash escape inside a string literal reads back as `c`. */
  lemma ParseEscapeStep(c: char, e: string, u: string)
    requires |e| > 0 && ParseEscape(e + u) == Success((c, u))
    ensures ParseString("\\" + e + u) == Cons(c, ParseString(u))
  {
    assert "\\" + e + u == "\\" + (e + u);
    DropHead("\\", e + u);
  }

  lemma ParseSimpleEscape(c: char, x: char, u: string)
    requires ParseEscape([x] + u) == Success((c, u))
    ensures ParseString("\\" + [x] + u) == Cons(c, ParseString(u))
  {
    ParseEscapeStep(c, [x], u);
  }

  lemma ParsePlainChar(c: char, u: string)
    requires c != '"' && c != '\\' && c as int >= 0x20
    ensures ParseString([c] + u) == Cons(c, ParseString(u))
  {
    assert ([c] + u)[1..] == u;
  }

  lemma ParseShortEscape(c: char, u: string)
    requires IsShortEscaped(c)
    ensures ParseString(EscapeChar(c) + u) == Cons(c, ParseString(u))
  {
    var e := EscapeChar(c);
    assert |e| == 2 && e[0] == '\\';
    var x := e[1];
    assert e == "\\" + [x];
    assert ([x] + u)[1..] == u;
    ParseSimpleEscape(c, x, u);
  }

  predicate IsShortEscaped(c: char) {
    c == '"' || c == '\\' || c == '\n' || c == '\r' || c == '\t' || c as int == 0x08 || c as int == 0x0C
  }

  lemma ParsePrintable(c: char, u: string)
    requires !IsShortEscaped(c) && ' ' <= c <= '~'
    ensures ParseString(EscapeChar(c) + u) == Cons(c, ParseString(u))
  {
    assert EscapeChar(c) == [c];
    ParsePlainChar(c, u);
  }

  lemma ParseBmpEscape(c: char, u: string)
    requires !IsShortEscaped(c) && !(' ' <= c <= '~') && c as int < 0x1_0000 && |u| > 0
    ensures ParseString(EscapeChar(c) + u) == Cons(c, ParseString(u))
  {
    var e := "u" + Hex4(c as int);
    assert EscapeChar(c) == "\\" + e;
    ParseUnicodeEscape(c, u);
    ParseEscapeStep(c, e, u);
  }

  lemma ParseAstralEscape(c: char, u: string)
    requires c as int >= 0x1_0000 && |u| > 0
    ensures ParseString(EscapeChar(c) + u) == Cons(c, ParseString(u))
  {
    var e := PairEscape(c as int)[1..];
    EscapeAstral(c);
    ParseSurrogatePair(c as int, u);
    ParseEscapeStep(c, e, u);
  }

  /** A character above U+FFFF is written as its surrogate pair. */
  lemma EscapeAstral(c: char)
    requires c as int >= 0x1_0000
    ensures EscapeChar(c) == "\\" + PairEscape(c as int)[1..]
  {
    var p := PairEscape(c as int);
    assert p == [p[0]] + p[1..];
  }

  /** Reading back the escape of one character. */
  lemma ParseEscapedChar(c: char, u: string)
    requires |u| > 0
    ensures ParseString(EscapeChar(c) + u) == Cons(c, ParseString(u))
  {
    if IsShortEscaped(c) {
      ParseShortEscape(c, u);
    } else if ' ' <= c <= '~' {
      ParsePrintable(c, u);
    } else if c as int < 0x1_0000 {
      ParseBmpEscape(c, u);
    } else {
      ParseAstralEscape(c, u);
    }
  }

  /** A string literal reads back as the string: `json.loads(json.dumps(s))
      == s` for every string of Unicode scalar values. */
  lemma {:induction false} ParseQuoted(s: string, rest: string)
    ensures ParseString(Escape(s) + "\"" + rest) == Success((s, rest))
  {
    if |s| == 0 {
      assert Escape(s) + "\"" + rest == "\"" + rest;
      assert ("\"" + rest)[1..] == rest;
    } else {
      var u := Escape(s[1..]) + "\"" + rest;
      assert Escape(s) + "\"" + rest == EscapeChar(s[0]) + u;
      ParseEscapedChar(s[0], u);
      ParseQuoted(s[1..], rest);
      assert [s[0]] + s[1..] == s;
    }
  }

  // ---------------------------------------------------------------------
  // Numbers

  lemma {:induction false} DigitCountOfDigits(d: string, rest: string)
    requires forall k :: 0 <= k < |d| ==> IsDigit(d[k])
    requires |rest| == 0 || !IsDigit(rest[0])
    ensures DigitCount(d + rest) == |d|
  {
    if |d| > 0 {
      assert (d + rest)[1..] == d[1..] + rest;
      DigitCountOfDigits(d[1..], rest);
    } else {
      assert d + rest == rest;
    }
  }

  /** The digits of a natural number read back as that number when a
      boundary follows them. */
  lemma ParseDigits(m: nat, rest: string)
    requires Boundary(rest)
    ensures ParseUnsigned(NatToDecimal(m) + rest) == Success((m, rest))
  {
    var d := NatToDecimal(m);
    var t := d + rest;
    assert t[0] == d[0];
    if d[0] != '0' {
      DigitCountOfDigits(d, rest);
    }
    assert IntDigits(t) == |d|;
    assert t[..|d|] == d && t[|d|..] == rest;
    DecimalRoundTrip(m);
    assert !FloatTail(rest);
  }

  /** An integer's decimal text reads back as the integer. */
  lemma ParseInt(i: int, rest: string)
    requires Boundary(rest)
    ensures ParseNumber(IntToDecimal(i) + rest) == Success((Int(i), rest))
  {
    if i < 0 {
      ParseNegative(-i, rest);
    } else {
      ParseNonNegative(i, rest);
    }
  }

  lemma ParseNegative(m: nat, rest: string)
    requires Boundary(rest)
    ensures ParseNumber("-" + NatToDecimal(m) + rest) == Success((Int(-(m as int)), rest))
  {
    Regroup3("-", NatToDecimal(m), rest);
    DropHead("-", NatToDecimal(m) + rest);
    ParseDigits(m, rest);
  }

  lemma ParseNonNegative(m: nat, rest: string)
    requires Boundary(rest)
    ensures ParseNumber(NatToDecimal(m) + rest) == Success((Int(m), rest))
  {
    assert (NatToDecimal(m) + rest)[0] != '-';
    ParseDigits(m, rest);
  }

  // ---------------------------------------------------------------------
  // One step of the array and object readers

  lemma ElementsEnd(s: string, acc: seq<Json>, v: Json, after: string, rest: string)
    requires forall k :: 0 <= k < |acc| ==> WellFormed(acc[k])
    requires ParseValue(s) == Success((v, after)) && SkipWs(after) == "]" + rest
    ensures ParseElements(s, acc) == Success((Arr(acc + [v]), rest))
  {
    assert ("]" + rest)[1..] == rest;
  }

  lemma ElementsMore(s: string, acc: seq<Json>, v: Json, after: string)
    requires forall k :: 0 <= k < |acc| ==> WellFormed(acc[k])
    requires ParseValue(s) == Success((v, after))
    requires |SkipWs(after)| > 0 && SkipWs(after)[0] == ','
    ensures WellFormed(v)
    ensures ParseElements(s, acc) == ParseElements(SkipWs(SkipWs(after)[1..]), acc + [v])
  {
  }

  /** `s` starts with a key, a colon and a value, and `after` follows. */
  predicate KeyValueAt(s: string, k: string, v: Json, after: string) {
    && |s| > 0 && s[0] == '"'
    && ParseString(s[1..]).Success? && ParseString(s[1..]).value.0 == k
    && var r2 := SkipWs(ParseString(s[1..]).value.1);
    && |r2| > 0 && r2[0] == ':'
    && ParseValue(SkipWs(r2[1..])) == Success((v, after))
  }

  lemma MembersEnd(s: string, acc: seq<Member>, m: Member, after: string, rest: string)
    requires WellFormedMembers(acc) && m.key !in Keys(acc)
    requires KeyValueAt(s, m.key, m.value, after) && SkipWs(after) == "}" + rest
    ensures ParseMembers(s, acc) == Success((Obj(acc + [m]), rest))
  {
    assert ("}" + rest)[1..] == rest;
  }

  lemma MembersMore(s: string, acc: seq<Member>, m: Member, after: string)
    requires WellFormedMembers(acc) && m.key !in Keys(acc)
    requires KeyValueAt(s, m.key, m.value, after)
    requires |SkipWs(after)| > 0 && SkipWs(after)[0] == ','
    ensures WellFormedMembers(acc + [m])
    ensures ParseMembers(s, acc) == ParseMembers(SkipWs(SkipWs(after)[1..]), acc + [m])
  {
    PutWellFormed(acc, m.key, m.value);
  }

  lemma SkipWsClose(close: char, rest: string)
    requires !IsWs(close)
    ensures SkipWs([close] + rest) == [close] + rest
  {
  }

  // ---------------------------------------------------------------------
  // Values

  lemma ParseSerString(seps: Separators, str: string, rest: string)
    ensures ParseValue(Ser(seps, Str(str)) + rest) == Success((Str(str), rest))
  {
    var s := Ser(seps, Str(str)) + rest;
    assert s[1..] == Escape(str) + "\"" + rest;
    ParseQuoted(str, rest);
  }

  lemma ParseSerInt(seps: Separators, i: int, rest: string)
    requires Boundary(rest)
    ensures ParseValue(Ser(seps, Int(i)) + rest) == Success((Int(i), rest))
  {
    ParseInt(i, rest);
    var d := IntToDecimal(i);
    if i < 0 {
      assert d[1] == NatToDecimal(-i)[0];
    }
    ValueOfNumber(d + rest);
  }

  /** The reader takes text that starts with a digit, or with a minus sign
      and a digit, as a number. */
  lemma ValueOfNumber(s: string)
    requires |s| > 0 && (IsDigit(s[0]) || (s[0] == '-' && |s| > 1 && IsDigit(s[1])))
    ensures ParseValue(s) == ParseNumber(s)
  {
    assert s[0] != '"' && s[0] != '{' && s[0] != '[' && s[0] != 'n' && s[0] != 't';
    assert s[0] != 'f' && s[0] != 'N' && s[0] != 'I';
    if s[0] == '-' {
      NotPrefixAt("-Infinity", s, 1);
    }
  }

  lemma ParseSerLiteral(seps: Separators, j: Json, rest: string)
    requires j.Null? || j.Bool?
    ensures ParseValue(Ser(seps, j) + rest) == Success((j, rest))
  {
  }

  /** Parsing the text of a value, followed by anything that can follow a
      value, gives back the value and leaves the rest. */
  lemma {:induction false} ParseSer(seps: Separators, j: Json, rest: string)
    requires ValidSeparators(seps) && WellFormed(j) && Boundary(rest)
    ensures ParseValue(Ser(seps, j) + rest) == Success((j, rest))
    decreases j, 2
  {
    match j
    case Null => ParseSerLiteral(seps, j, rest);
    case Bool(_) => ParseSerLiteral(seps, j, rest);
    case Int(i) => ParseSerInt(seps, i, rest);
    case Str(str) => ParseSerString(seps, str, rest);
    case Arr(items) => ParseSerArr(seps, items, rest);
    case Obj(ms) => ParseSerObj(seps, ms, rest);
  }

  lemma {:induction false} ParseSerArr(seps: Separators, items: seq<Json>, rest: string)
    requires ValidSeparators(seps) && WellFormed(Arr(items))
    ensures ParseValue(Ser(seps, Arr(items)) + rest) == Success((Arr(items), rest))
    decreases items, 3
  {
    var body := SerItems(seps, items) + "]" + rest;
    ArrayText(seps, items, rest);
    if |items| == 0 {
      assert body == "]" + rest;
      ArrayEmpty(rest);
    } else {
      ParseSerArrItems(seps, items, rest);
    }
  }

  /** A list with items: its body, after the `[`, reads back as it. */
  lemma {:induction false} ParseSerArrItems(seps: Separators, items: seq<Json>, rest: string)
    requires ValidSeparators(seps) && WellFormed(Arr(items)) && |items| > 0
    ensures ParseArray(SerItems(seps, items) + "]" + rest) == Success((Arr(items), rest))
    decreases items, 2
  {
    var body := SerItems(seps, items) + "]" + rest;
    assert body[0] == SerItems(seps, items)[0];
    ArrayItems(body);
    assert [] + items == items;
    ParseSerItems(seps, items, [], rest);
  }

  /** The text of a list is read by the list reader after its `[`. */
  lemma ArrayText(seps: Separators, items: seq<Json>, rest: string)
    ensures ParseValue(Ser(seps, Arr(items)) + rest) == ParseArray(SerItems(seps, items) + "]" + rest)
  {
    var body := SerItems(seps, items) + "]" + rest;
    Regroup4("[", SerItems(seps, items), "]", rest);
    DropHead("[", body);
    ValueOfOpen(Ser(seps, Arr(items)) + rest);
  }

  lemma {:induction false} ParseSerObj(seps: Separators, ms: seq<Member>, rest: string)
    requires ValidSeparators(seps) && WellFormed(Obj(ms))
    ensures ParseValue(Ser(seps, Obj(ms)) + rest) == Success((Obj(ms), rest))
    decreases ms, 3
  {
    var body := SerMembers(seps, ms) + "}" + rest;
    ObjectText(seps, ms, rest);
    if |ms| == 0 {
      assert body == "}" + rest;
      ObjectEmpty(rest);
    } else {
      ParseSerObjMembers(seps, ms, rest);
    }
  }

  /** A dict with members: its body, after the `{`, reads back as it. */
  lemma {:induction false} ParseSerObjMembers(seps: Separators, ms: seq<Member>, rest: string)
    requires ValidSeparators(seps) && WellFormed(Obj(ms)) && |ms| > 0
    ensures ParseObject(SerMembers(seps, ms) + "}" + rest) == Success((Obj(ms), rest))
    decreases ms, 2
  {
    var body := SerMembers(seps, ms) + "}" + rest;
    assert body[0] == '"';
    ObjectMembers(body);
    assert [] + ms == ms;
    ParseSerMembers(seps, ms, [], rest);
  }

  /** The text of a dict is read by the dict reader after its `{`. */
  lemma ObjectText(seps: Separators, ms: seq<Member>, rest: string)
    ensures ParseValue(Ser(seps, Obj(ms)) + rest) == ParseObject(SerMembers(seps, ms) + "}" + rest)
  {
    var body := SerMembers(seps, ms) + "}" + rest;
    Regroup4("{", SerMembers(seps, ms), "}", rest);
    DropHead("{", body);
    ValueOfOpen(Ser(seps, Obj(ms)) + rest);
  }

  /** The reader dispatches on an opening bracket. */
  lemma ValueOfOpen(s: string)
    requires |s| > 0 && (s[0] == '[' || s[0] == '{')
    ensures s[0] == '[' ==> ParseValue(s) == ParseArray(s[1..])
    ensures s[0] == '{' ==> ParseValue(s) == ParseObject(s[1..])
  {
  }

  lemma ArrayEmpty(rest: string)
    ensures ParseArray("]" + rest) == Success((Arr([]), rest))
  {
    SkipWsClose(']', rest);
    DropHead("]", rest);
  }

  lemma ArrayItems(t: string)
    requires |t| > 0 && !IsWs(t[0]) && t[0] != ']'
    ensures ParseArray(t) == ParseElements(t, [])
  {
  }

  lemma ObjectEmpty(rest: string)
    ensures ParseObject("}" + rest) == Success((Obj([]), rest))
  {
    SkipWsClose('}', rest);
    DropHead("}", rest);
  }

  lemma ObjectMembers(t: string)
    requires |t| > 0 && !IsWs(t[0]) && t[0] != '}'
    ensures ParseObject(t) == ParseMembers(t, [])
  {
  }

  lemma SerItemsSplit(seps: Separators, items: seq<Json>, rest: string)
    requires |items| > 0
    ensures |items| == 1 ==> SerItems(seps, items) + "]" + rest == Ser(seps, items[0]) + ("]" + rest)
    ensures |items| > 1 ==>
      SerItems(seps, items) + "]" + rest == Ser(seps, items[0]) + (seps.item + (SerItems(seps, items[1..]) + "]" + rest))
  {
    var a := Ser(seps, items[0]);
    if |items| > 1 {
      var c := SerItems(seps, items[1..]);
      assert SerItems(seps, items) == a + seps.item + c;
      Regroup(a, seps.item, c, "]", rest);
    }
  }

  lemma SerMembersSplit(seps: Separators, ms: seq<Member>, rest: string)
    requires |ms| > 0
    ensures |ms| == 1 ==> SerMembers(seps, ms) + "}" + rest == SerMember(seps, ms[0]) + ("}" + rest)
    ensures |ms| > 1 ==>
      SerMembers(seps, ms) + "}" + rest == SerMember(seps, ms[0]) + (seps.item + (SerMembers(seps, ms[1..]) + "}" + rest))
  {
    var a := SerMember(seps, ms[0]);
    if |ms| > 1 {
      var c := SerMembers(seps, ms[1..]);
      assert SerMembers(seps, ms) == a + seps.item + c;
      Regroup(a, seps.item, c, "}", rest);
    }
  }

  lemma {:induction false} ParseSerItems(seps: Separators, items: seq<Json>, acc: seq<Json>, rest: string)
    requires ValidSeparators(seps) && |items| > 0
    requires forall k :: 0 <= k < |items| ==> WellFormed(items[k])
    requires forall k :: 0 <= k < |acc| ==> WellFormed(acc[k])
    ensures ParseElements(SerItems(seps, items) + "]" + rest, acc) == Success((Arr(acc + items), rest))
    decreases items, 1
  {
    SerItemsSplit(seps, items, rest);
    ConsAppend(acc, items);
    if |items| == 1 {
      ParseSer(seps, items[0], "]" + rest);
      SkipWsClose(']', rest);
      ElementsEnd(SerItems(seps, items) + "]" + rest, acc, items[0], "]" + rest, rest);
    } else {
      ParseSerItemsMore(seps, items, acc, rest);
    }
  }

  /** The first of several items, then its separator, then the others. */
  lemma {:induction false} ParseSerItemsMore(seps: Separators, items: seq<Json>, acc: seq<Json>, rest: string)
    requires ValidSeparators(seps) && |items| > 1
    requires forall k :: 0 <= k < |items| ==> WellFormed(items[k])
    requires forall k :: 0 <= k < |acc| ==> WellFormed(acc[k])
    ensures ParseElements(SerItems(seps, items) + "]" + rest, acc) == Success((Arr(acc + items), rest))
    decreases items, 0
  {
    var x := items[0];
    var tail := SerItems(seps, items[1..]) + "]" + rest;
    SerItemsSplit(seps, items, rest);
    ParseItemThen(seps, x, acc, tail);
    WellFormedShift(acc, items);
    ParseSerItems(seps, items[1..], acc + [x], rest);
    ConsAppend(acc, items);
  }

  /** An item's text and an item separator, in front of the text of
      further items, read as that item followed by those items. */
  lemma {:induction false} ParseItemThen(seps: Separators, x: Json, acc: seq<Json>, tail: string)
    requires ValidSeparators(seps) && WellFormed(x)
    requires forall k :: 0 <= k < |acc| ==> WellFormed(acc[k])
    requires |tail| > 0 && !IsWs(tail[0])
    ensures ParseElements(Ser(seps, x) + (seps.item + tail), acc) == ParseElements(tail, acc + [x])
    decreases x, 3
  {
    SepBoundary(seps.item, ',', tail);
    ParseSer(seps, x, seps.item + tail);
    SepSkip(seps.item, ',', tail);
    ElementsMore(Ser(seps, x) + (seps.item + tail), acc, x, seps.item + tail);
  }

  /** Moving the first pending item onto the list read so far. */
  lemma WellFormedShift(acc: seq<Json>, items: seq<Json>)
    requires |items| > 0
    requires forall k :: 0 <= k < |items| ==> WellFormed(items[k])
    requires forall k :: 0 <= k < |acc| ==> WellFormed(acc[k])
    ensures forall k :: 0 <= k < |items[1..]| ==> WellFormed(items[1..][k])
    ensures forall k :: 0 <= k < |acc + [items[0]]| ==> WellFormed((acc + [items[0]])[k])
  {
  }

  lemma {:induction false} ParseSerMember(seps: Separators, m: Member, tail: string)
    requires ValidSeparators(seps) && WellFormed(m.value) && Boundary(tail)
    ensures KeyValueAt(SerMember(seps, m) + tail, m.key, m.value, tail)
    decreases m, 0
  {
    ParseSer(seps, m.value, tail);
    KeyValueOf(seps, m, tail);
  }

  /** A member's text is its key, the key separator and its value's text. */
  lemma KeyValueOf(seps: Separators, m: Member, tail: string)
    requires ValidSeparators(seps)
    requires ParseValue(Ser(seps, m.value) + tail) == Success((m.value, tail))
    ensures KeyValueAt(SerMember(seps, m) + tail, m.key, m.value, tail)
  {
    var v := Ser(seps, m.value) + tail;
    SerMemberSplit(seps, m, tail);
    ParseQuoted(m.key, seps.key + v);
    SepSkip(seps.key, ':', v);
  }

  lemma SerMemberSplit(seps: Separators, m: Member, tail: string)
    ensures var s := SerMember(seps, m) + tail;
      s[0] == '"' && s[1..] == Escape(m.key) + "\"" + (seps.key + (Ser(seps, m.value) + tail))
  {
    var v := Ser(seps, m.value) + tail;
    Regroup6("\"", Escape(m.key), "\"", seps.key, Ser(seps, m.value), tail);
    DropHead("\"", Escape(m.key) + "\"" + (seps.key + v));
  }

  lemma KeyNotEarlier(acc: seq<Member>, ms: seq<Member>)
    requires |ms| > 0 && DistinctKeys(acc + ms)
    ensures ms[0].key !in Keys(acc) && DistinctKeys(acc + [ms[0]] + ms[1..])
  {
    assert (acc + ms)[|acc|] == ms[0];
    forall i | 0 <= i < |acc| ensures Keys(acc)[i] != ms[0].key {
      assert (acc + ms)[i] == acc[i];
    }
    assert acc + [ms[0]] + ms[1..] == acc + ms;
  }

  lemma {:induction false} ParseSerMembers(seps: Separators, ms: seq<Member>, acc: seq<Member>, rest: string)
    requires ValidSeparators(seps) && |ms| > 0
    requires WellFormedMembers(acc) && DistinctKeys(acc + ms)
    requires forall k :: 0 <= k < |ms| ==> WellFormed(ms[k].value)
    ensures ParseMembers(SerMembers(seps, ms) + "}" + rest, acc) == Success((Obj(acc + ms), rest))
    decreases ms, 1
  {
    if |ms| == 1 {
      KeyNotEarlier(acc, ms);
      SerMembersSplit(seps, ms, rest);
      ConsAppend(acc, ms);
      ParseSerMember(seps, ms[0], "}" + rest);
      SkipWsClose('}', rest);
      MembersEnd(SerMembers(seps, ms) + "}" + rest, acc, ms[0], "}" + rest, rest);
    } else {
      ParseSerMembersMore(seps, ms, acc, rest);
    }
  }

  /** The first of several members, then its separator, then the others. */
  lemma {:induction false} ParseSerMembersMore(seps: Separators, ms: seq<Member>, acc: seq<Member>, rest: string)
    requires ValidSeparators(seps) && |ms| > 1
    requires WellFormedMembers(acc) && DistinctKeys(acc + ms)
    requires forall k :: 0 <= k < |ms| ==> WellFormed(ms[k].value)
    ensures ParseMembers(SerMembers(seps, ms) + "}" + rest, acc) == Success((Obj(acc + ms), rest))
    decreases ms, 0
  {
    var m := ms[0];
    var tail := SerMembers(seps, ms[1..]) + "}" + rest;
    KeyNotEarlier(acc, ms);
    SerMembersSplit(seps, ms, rest);
    ParseMemberThen(seps, m, acc, tail);
    ParseSerMembers(seps, ms[1..], acc + [m], rest);
    ConsAppend(acc, ms);
  }

  /** A member's text and an item separator, in front of the text of
      further members, read as that member followed by those members. */
  lemma {:induction false} ParseMemberThen(seps: Separators, m: Member, acc: seq<Member>, tail: string)
    requires ValidSeparators(seps) && WellFormed(m.value)
    requires WellFormedMembers(acc) && m.key !in Keys(acc)
    requires |tail| > 0 && !IsWs(tail[0])
    ensures WellFormedMembers(acc + [m])
    ensures ParseMembers(SerMember(seps, m) + (seps.item + tail), acc) == ParseMembers(tail, acc + [m])
    decreases m, 1
  {
    SepBoundary(seps.item, ',', tail);
    ParseSerMember(seps, m, seps.item + tail);
    SepSkip(seps.item, ',', tail);
    MembersMore(SerMember(seps, m) + (seps.item + tail), acc, m, seps.item + tail);
  }

  // ---------------------------------------------------------------------
  // Whole documents

  /** `json.loads(json.dumps(j, separators=seps, sort_keys=sortKeys))` gives
      back `j`, or its key-sorted normal form when the keys were sorted. */
  lemma LoadsDumps(j: Json, seps: Separators, sortKeys: bool)
    requires ValidSeparators(seps) && WellFormed(j)
    ensures Loads(Dumps(j, seps, sortKeys)) == Success(if sortKeys then Normal(j) else j)
  {
    var v := if sortKeys then Normal(j) else j;
    if sortKeys {
      NormalIsNormal(j);
    }
    var s := Ser(seps, v);
    ParseSer(seps, v, "");
    AppendEmpty(s);
    StartsNoBlank(s[0]);
    LoadsWhole(s, v);
  }

  /** A value's first character is neither whitespace nor a byte-order
      mark. */
  lemma StartsNoBlank(c: char)
    requires StartsValue(c)
    ensures !IsWs(c) && c != 0xFEFF as char
  {
  }

  /** A document that is one value's text and nothing more. */
  lemma LoadsWhole(s: string, v: Json)
    requires |s| > 0 && !IsWs(s[0]) && s[0] != 0xFEFF as char
    requires ParseValue(s) == Success((v, ""))
    ensures Loads(s) == Success(v)
  {
    assert SkipWs(s) == s;
    assert ParseValue(SkipWs(s)) == Success((v, ""));
  }

  /** The canonical text reads back as the normal form of the value. */
  lemma LoadsCanon(j: Json)
    requires WellFormed(j)
    ensures Loads(Canon(j)) == Success(Normal(j))
  {
    StandardSeparators();
    LoadsDumps(j, Compact, true);
  }

  /** Two values have the same canonical text exactly when they have the
      same normal form: the text signed for an event pins down its contents
      up to the order of dict keys. */
  lemma CanonInjective(a: Json, b: Json)
    requires WellFormed(a) && WellFormed(b)
    ensures Canon(a) == Canon(b) <==> Normal(a) == Normal(b)
  {
    LoadsCanon(a);
    LoadsCanon(b);
  }

  /** The canonical text of a dict does not depend on the order in which
      its keys were inserted. */
  lemma CanonIgnoresOrder(a: seq<Member>, b: seq<Member>)
    requires DistinctKeys(a) && multiset(a) == multiset(b)
    ensures Canon(Obj(a)) == Canon(Obj(b))
  {
    NormalIgnoresOrder(a, b);
  }
}

=== FILE: json_write.dfy ===
/** `json.dumps` with its default `ensure_ascii=True`: every non-ASCII or
    control character is written as a `\uXXXX` escape (a surrogate pair
    above U+FFFF), so the text is pure ASCII. */
module JsonWrite {
  import opened Json
  import opened JsonOrder
  import opened Python
  import opened Bytes

  /** The `separators` argument: between items, and between a key and its
      value. */
  datatype Separators = Separators(item: string, key: string)

  /** `separators=(",", ":")`, used for signing. */
  const Compact := Separators(",", ":")

  /** The default when `indent` is None: `(", ", ": ")`. */
  const Spaced := Separators(", ", ": ")

  /** The whitespace `json.loads` skips between tokens. */
  predicate IsWs(c: char) { c == ' ' || c == '\t' || c == '\n' || c == '\r' }

  predicate AllWs(s: string) { forall k :: 0 <= k < |s| ==> IsWs(s[k]) }

  /** The length of the leading whitespace of `s`. */
  function WsPrefix(s: string): (n: nat)
    ensures n <= |s| && AllWs(s[..n])
    ensures n < |s| ==> !IsWs(s[n])
  {
    if |s| > 0 && IsWs(s[0]) then 1 + WsPrefix(s[1..]) else 0
  }

  /** A separator `json.loads` reads back: the punctuation with optional
      whitespace around it. */
  predicate IsSep(s: string, punct: char) {
    var i := WsPrefix(s);
    i < |s| && s[i] == punct && AllWs(s[i + 1..])
  }

  predicate ValidSeparators(seps: Separators) {
    IsSep(seps.item, ',') && IsSep(seps.key, ':')
  }

  lemma StandardSeparators()
    ensures ValidSeparators(Compact) && ValidSeparators(Spaced)
  {
    assert WsPrefix(Compact.item) == 0 && WsPrefix(Compact.key) == 0;
    assert WsPrefix(Spaced.item) == 0 && WsPrefix(Spaced.key) == 0;
    assert Spaced.item[1..] == " " && Spaced.key[1..] == " ";
  }

  // ---------------------------------------------------------------------
  // Strings

  /** Four lowercase hex digits, as `'{0:04x}'.format(n)`. */
  function Hex4(n: nat): (s: string)
    requires n < 0x1_0000
    ensures |s| == 4 && IsLowerHex(s)
  {
    [LowerHexDigit(n / 4096), LowerHexDigit((n / 256) % 16), LowerHexDigit((n / 16) % 16), LowerHexDigit(n % 16)]
  }

  /** The escape of one character under `ensure_ascii`. */
  function EscapeChar(c: char): (r: string)
    ensures |r| > 0 && IsAscii(r)
    ensures r[0] != '"' && (r[0] == '\\' || ' ' <= r[0] <= '~')
  {
    var n := c as int;
    if c == '"' then "\\\""
    else if c == '\\' then "\\\\"
    else if c == '\n' then "\\n"
    else if c == '\r' then "\\r"
    else if c == '\t' then "\\t"
    else if n == 0x08 then "\\b"
    else if n == 0x0C then "\\f"
    else if ' ' <= c <= '~' then [c]
    else if n < 0x1_0000 then "\\u" + Hex4(n)
    else PairEscape(n)
  }

  /** A character above U+FFFF as the `\u` escapes of its UTF-16
      surrogate pair. */
  function PairEscape(n: int): (r: string)
    requires 0x1_0000 <= n < 0x11_0000
    ensures |r| == 12 && IsAscii(r) && r[0] == '\\'
  {
    var v := n - 0x1_0000;
    "\\u" + Hex4(0xD800 + v / 1024) + "\\u" + Hex4(0xDC00 + v % 1024)
  }

  function Escape(s: string): (r: string)
    ensures IsAscii(r) && |r| >= |s|
  {
    if |s| == 0 then "" else EscapeChar(s[0]) + Escape(s[1..])
  }

  /** A string literal: the escaped text between double quotes. */
  function Quote(s: string): (r: string)
    ensures |r| >= 2 && r[0] == '"' && r[|r| - 1] == '"' && IsAscii(r)
  {
    "\"" + Escape(s) + "\""
  }

  // ---------------------------------------------------------------------
  // Values

  /** The characters a value's text can start with. */
  predicate StartsValue(c: char) {
    c == '"' || c == '[' || c == '{' || c == 'n' || c == 't' || c == 'f' || c == '-' || IsDigit(c)
  }

  predicate IsAsciiSeps(seps: Separators) { IsAscii(seps.item) && IsAscii(seps.key) }

  /** `json.dumps(j, separators=seps)`: members in their dict order. The text
      starts with a token character, never whitespace, and is ASCII whenever
      the separators are. */
  function Ser(seps: Separators, j: Json): (r: string)
    ensures |r| > 0 && StartsValue(r[0])
    ensures IsAsciiSeps(seps) ==> IsAscii(r)
  {
    match j
    case Null => "null"
    case Bool(b) => if b then "true" else "false"
    case Int(i) => IntToDecimal(i)
    case Str(s) => Quote(s)
    case Arr(items) => "[" + SerItems(seps, items) + "]"
    case Obj(ms) => "{" + SerMembers(seps, ms) + "}"
  }

  function SerItems(seps: Separators, items: seq<Json>): (r: string)
    ensures |items| > 0 ==> |r| > 0 && StartsValue(r[0])
    ensures IsAsciiSeps(seps) ==> IsAscii(r)
  {
    if |items| == 0 then ""
    else if |items| == 1 then Ser(seps, items[0])
    else Ser(seps, items[0]) + seps.item + SerItems(seps, items[1..])
  }

  function SerMember(seps: Separators, m: Member): (r: string)
    ensures IsAsciiSeps(seps) ==> IsAscii(r)
  {
    Quote(m.key) + seps.key + Ser(seps, m.value)
  }

  function SerMembers(seps: Separators, ms: seq<Member>): (r: string)
    ensures |ms| > 0 ==> |r| > 0 && r[0] == '"'
    ensures IsAsciiSeps(seps) ==> IsAscii(r)
  {
    if |ms| == 0 then ""
    else if |ms| == 1 then SerMember(seps, ms[0])
    else SerMember(seps, ms[0]) + seps.item + SerMembers(seps, ms[1..])
  }

  /** `json.dumps(j, separators=seps, sort_keys=sortKeys)`. */
  function Dumps(j: Json, seps: Separators, sortKeys: bool): (r: string)
    ensures IsAsciiSeps(seps) ==> IsAscii(r)
  {
    Ser(seps, if sortKeys then Normal(j) else j)
  }

  /** The canonical text that is signed:
      `json.dumps(j, sort_keys=True, separators=(",", ":"))`. */
  function Canon(j: Json): (r: string)
    ensures IsAscii(r)
  {
    Dumps(j, Compact, true)
  }
}

=== FILE: listener.dfy ===
/** mqtt/listener.py: the notifications other nodes send over MQTT, and
    what the node does on receiving one. The broker connection is not
    modelled; the ledger is a function from block id to its answer. */
module Listener {
  import opened Wrappers
  import opened Bytes
  import opened Json
  import opened JsonRead
  import opened Crypto
  import opened Constants
  import opened Regex
  import opened Nodes
  import opened Iota
  import opened EventHandler

  /** `required_fields.issubset(data.keys())`. */
  predicate HasNotificationFields(ms: seq<Member>) {
    var ks := Keys(ms);
    "block_id" in ks && "event_type" in ks && "timestamp" in ks && "node_id" in ks
  }

  /** The notifications the listener accepts: the four fields present, a
      valid event type, a block id of "0x" and 64 hex digits, and a bare
      64-digit node id. */
  predicate NotificationOk(data: Json) {
    && data.Obj? && HasNotificationFields(data.members)
    && Field(data, "event_type").Str? && Field(data, "event_type").s in VALID_EVENT_TYPES
    && Field(data, "block_id").Str? && ReMatch(SHA256_HEX_PATTERN, Field(data, "block_id").s)
    && Field(data, "node_id").Str? && ReMatch(SHA256_HEX_PATTERN, "0x" + Field(data, "node_id").s)
  }

  /** `validate_event(data)` of the listener: `block_id` is matched as it
      stands, `node_id` after "0x" is put in front. The timestamp and any
      other keys are not looked at. A value of the wrong type raises. */
  function ValidateNotification(data: Json): (r: Result<bool, PyError>)
    ensures !data.Obj? ==> r == Success(false)
    ensures data.Obj? && !HasNotificationFields(data.members) ==> r == Success(false)
    ensures r == Success(true) <==> NotificationOk(data)
    ensures r.Failure? ==> r.error == TypeError
  {
    if !data.Obj? || !HasNotificationFields(data.members) then Success(false)
    else
      var eventType := Field(data, "event_type");
      if !Hashable(eventType) then Failure(TypeError)
      else if !(eventType.Str? && eventType.s in VALID_EVENT_TYPES) then Success(false)
      else
        var blockId := Field(data, "block_id");
        if !blockId.Str? then Failure(TypeError)
        else if !ReMatch(SHA256_HEX_PATTERN, blockId.s) then Success(false)
        else
          var nodeId := Field(data, "node_id");
          if !nodeId.Str? then Failure(TypeError)
          else Success(ReMatch(SHA256_HEX_PATTERN, "0x" + nodeId.s))
  }

  /** What receiving one message led to: nothing, or a fetch of the named
      block and what processing it gave (`None` when an exception was
      raised and swallowed). */
  datatype Delivery = Ignored | Fetched(blockId: string, outcome: Option<Outcome>)

  /** `on_message`: decode, parse, validate, then fetch and process. Every
      exception is caught, so the only failure left is a value outside the
      model's domain. */
  function OnMessage(s: Suite, payload: Bytes, ledger: string -> HttpResponse, table: NodeKeys, handlerError: Option<PyError>): (r: Result<Delivery, PyError>)
    ensures r.Failure? ==> r.error == OutOfModel
    ensures r.Success? && r.value.Fetched? ==>
      && Utf8Decode(payload).Success? && Loads(Utf8Decode(payload).value).Success?
      && ValidateNotification(Loads(Utf8Decode(payload).value).value) == Success(true)
      && r.value.blockId == Field(Loads(Utf8Decode(payload).value).value, "block_id").s
  {
    match Utf8Decode(payload)
    case Failure(_) => Success(Ignored)
    case Success(text) =>
      match Loads(text)
      case Failure(OutOfModel) => Failure(OutOfModel)
      case Failure(_) => Success(Ignored)
      case Success(data) =>
        match ValidateNotification(data)
        case Failure(_) => Success(Ignored)
        case Success(valid) =>
          if !valid then Success(Ignored)
          else
            var blockId := Field(data, "block_id").s;
            match FetchEvent(ledger(blockId))
            case Failure(OutOfModel) => Failure(OutOfModel)
            case Failure(_) => Success(Fetched(blockId, None))
            case Success(event) =>
              match ProcessEvent(s, event, blockId, table, handlerError)
              case Failure(OutOfModel) => Failure(OutOfModel)
              case Failure(_) => Success(Fetched(blockId, None))
              case Success(outcome) => Success(Fetched(blockId, Some(outcome)))
  }

  /** The block id is checked with the prefix it carries, the node id
      with one added: a node id written with its own "0x" is refused. */
  lemma PrefixedNodeIdRefused(data: Json, digits: string)
    requires data.Obj? && HasNotificationFields(data.members)
    requires Field(data, "node_id") == Str("0x" + digits)
    ensures ValidateNotification(data) != Success(true)
  {
    DoublePrefixRefused(digits);
    NodeIdRefutes(data);
  }

  /** A node id that does not match once "0x" is put in front makes the
      notification invalid. */
  lemma NodeIdRefutes(data: Json)
    requires data.Obj? && HasNotificationFields(data.members) && Field(data, "node_id").Str?
    requires !ReMatch(SHA256_HEX_PATTERN, "0x" + Field(data, "node_id").s)
    ensures !NotificationOk(data)
  {
  }

  lemma DoublePrefixRefused(digits: string)
    ensures !ReMatch(SHA256_HEX_PATTERN, "0x" + ("0x" + digits))
  {
    var s := "0x" + ("0x" + digits);
    Sha256HexMatch(s);
    if |s| == 66 { assert !IsHexChar(s[3]); }
    if |s| == 67 { assert s[..66][3] == 'x'; }
  }

  /** An invalid notification is never fetched: the ledger is not asked. */
  lemma InvalidNotFetched(s: Suite, payload: Bytes, ledger: string -> HttpResponse, table: NodeKeys, handlerError: Option<PyError>)
    requires Utf8Decode(payload).Success? && Loads(Utf8Decode(payload).value).Success?
    requires ValidateNotification(Loads(Utf8Decode(payload).value).value) != Success(true)
    ensures OnMessage(s, payload, ledger, table, handlerError) == Success(Ignored)
  {
  }
}

=== FILE: nodes.dfy ===
/** core/nodes.py: the node identity (an Ed25519 seed derived from the
    passphrase, its public key and node id, the seed sealed under a second
    derived key), the parsing of the tag prompt, the load path of
    `init_or_load_node`, and the public-key lookup. */
module Nodes {
  import opened Wrappers
  import opened Bytes
  import opened Base64
  import opened Python
  import opened Json
  import opened Crypto
  import opened Constants
  import opened Regex
  import Seqs

  // ---------------------------------------------------------------------
  // Key derivation and identity

  /** `derive_key_from_passphrase(passphrase)` with its random salt made
      an input: the SecretBox-sized key and the salt it came from. */
  function DeriveKey(s: Suite, passphrase: string, salt: Bytes): (r: (Bytes, Bytes))
    requires |salt| == SALT_SIZE
    ensures |r.0| == KEY_SIZE && r.1 == salt
    ensures Kdf(s, passphrase, r.1) == Success(r.0)
  {
    (Kdf(s, passphrase, salt).value, salt)
  }

  /** What the host supplies: `os.uname().nodename`, the creation time as
      `isoformat()` text, and the `PORT` setting (an int by default, the
      environment's string otherwise). */
  datatype Host = Host(hostname: string, creationDate: string, port: Json)

  /** The random inputs: the two 16-byte salts and the SecretBox nonce. */
  datatype Randomness = Randomness(saltPrivateKey: Bytes, saltEncryption: Bytes, nonce: Bytes)

  predicate RandomnessOk(rnd: Randomness) {
    |rnd.saltPrivateKey| == SALT_SIZE && |rnd.saltEncryption| == SALT_SIZE && |rnd.nonce| == NONCE_SIZE
  }

  datatype Identity = Identity(config: Json, privateKey: Bytes)

  function TagValues(tags: seq<string>): (r: seq<Json>)
    ensures |r| == |tags|
  {
    Seqs.Map((t: string) => Str(t), tags)
  }

  /** The `keys` member of config.json. */
  function KeysObject(saltPrivateKey: Bytes, saltEncryption: Bytes, publicKey: Bytes, sealed: Bytes): Json {
    Obj([
      Member("salt_private_key", Str(Encode(saltPrivateKey))),
      Member("salt_encryption", Str(Encode(saltEncryption))),
      Member("public_key", Str(Encode(publicKey))),
      Member("private_key_encrypted", Str(Encode(sealed)))])
  }

  /** config.json as `generate_node_identity` lays it out, members in the
      source's order. */
  function NodeConfig(host: Host, alias: string, tags: seq<string>, nodeId: string, keys: Json): (c: Json)
    ensures c.Obj? && |c.members| == 8
  {
    Obj([
      Member("hostname", Str(host.hostname)),
      Member("alias", Str(alias)),
      Member("creation_date", Str(host.creationDate)),
      Member("version", Str(SW_VERSION)),
      Member("node_id", Str(nodeId)),
      Member("port", host.port),
      Member("tags", Arr(TagValues(tags))),
      Member("keys", keys)])
  }

  /** The members of a config read back by key. */
  lemma NodeConfigFields(host: Host, alias: string, tags: seq<string>, nodeId: string, keys: Json)
    ensures var c := NodeConfig(host, alias, tags, nodeId, keys);
      && Index(c, "alias") == Success(Str(alias))
      && Index(c, "node_id") == Success(Str(nodeId))
      && Index(c, "port") == Success(host.port)
      && Index(c, "keys") == Success(keys)
  {
    ConfigHasAlias(host, alias, tags, nodeId, keys);
    ConfigHasNodeId(host, alias, tags, nodeId, keys);
    ConfigHasPort(host, alias, tags, nodeId, keys);
    ConfigHasKeys(host, alias, tags, nodeId, keys);
  }

  lemma ConfigHasAlias(host: Host, alias: string, tags: seq<string>, nodeId: string, keys: Json)
    ensures Index(NodeConfig(host, alias, tags, nodeId, keys), "alias") == Success(Str(alias))
  {
    ConfigField(NodeConfig(host, alias, tags, nodeId, keys).members, 1);
  }

  lemma ConfigHasNodeId(host: Host, alias: string, tags: seq<string>, nodeId: string, keys: Json)
    ensures Index(NodeConfig(host, alias, tags, nodeId, keys), "node_id") == Success(Str(nodeId))
  {
    ConfigField(NodeConfig(host, alias, tags, nodeId, keys).members, 4);
  }

  lemma ConfigHasPort(host: Host, alias: string, tags: seq<string>, nodeId: string, keys: Json)
    ensures Index(NodeConfig(host, alias, tags, nodeId, keys), "port") == Success(host.port)
  {
    ConfigField(NodeConfig(host, alias, tags, nodeId, keys).members, 5);
  }

  lemma ConfigHasKeys(host: Host, alias: string, tags: seq<string>, nodeId: string, keys: Json)
    ensures Index(NodeConfig(host, alias, tags, nodeId, keys), "keys") == Success(keys)
  {
    ConfigField(NodeConfig(host, alias, tags, nodeId, keys).members, 7);
  }

  lemma ConfigField(ms: seq<Member>, i: nat)
    requires i < |ms| && forall j :: 0 <= j < i ==> ms[j].key != ms[i].key
    ensures Index(Obj(ms), ms[i].key) == Success(ms[i].value)
  {
    GetFirst(ms, i);
  }

  /** The members of the `keys` object read back by key. */
  lemma KeysObjectFields(saltPrivateKey: Bytes, saltEncryption: Bytes, publicKey: Bytes, sealed: Bytes)
    ensures var k := KeysObject(saltPrivateKey, saltEncryption, publicKey, sealed);
      && Index(k, "salt_private_key") == Success(Str(Encode(saltPrivateKey)))
      && Index(k, "salt_encryption") == Success(Str(Encode(saltEncryption)))
      && Index(k, "public_key") == Success(Str(Encode(publicKey)))
      && Index(k, "private_key_encrypted") == Success(Str(Encode(sealed)))
  {
    KeysHasSaltPrivateKey(saltPrivateKey, saltEncryption, publicKey, sealed);
    KeysHasSaltEncryption(saltPrivateKey, saltEncryption, publicKey, sealed);
    KeysHasPublicKey(saltPrivateKey, saltEncryption, publicKey, sealed);
    KeysHasSealed(saltPrivateKey, saltEncryption, publicKey, sealed);
  }

  lemma KeysHasSaltPrivateKey(saltPrivateKey: Bytes, saltEncryption: Bytes, publicKey: Bytes, sealed: Bytes)
    ensures Index(KeysObject(saltPrivateKey, saltEncryption, publicKey, sealed), "salt_private_key") == Success(Str(Encode(saltPrivateKey)))
  {
    ConfigField(KeysObject(saltPrivateKey, saltEncryption, publicKey, sealed).members, 0);
  }

  lemma KeysHasSaltEncryption(saltPrivateKey: Bytes, saltEncryption: Bytes, publicKey: Bytes, sealed: Bytes)
    ensures Index(KeysObject(saltPrivateKey, saltEncryption, publicKey, sealed), "salt_encryption") == Success(Str(Encode(saltEncryption)))
  {
    ConfigField(KeysObject(saltPrivateKey, saltEncryption, publicKey, sealed).members, 1);
  }

  lemma KeysHasPublicKey(saltPrivateKey: Bytes, saltEncryption: Bytes, publicKey: Bytes, sealed: Bytes)
    ensures Index(KeysObject(saltPrivateKey, saltEncryption, publicKey, sealed), "public_key") == Success(Str(Encode(publicKey)))
  {
    ConfigField(KeysObject(saltPrivateKey, saltEncryption, publicKey, sealed).members, 2);
  }

  lemma KeysHasSealed(saltPrivateKey: Bytes, saltEncryption: Bytes, publicKey: Bytes, sealed: Bytes)
    ensures Index(KeysObject(saltPrivateKey, saltEncryption, publicKey, sealed), "private_key_encrypted") == Success(Str(Encode(sealed)))
  {
    ConfigField(KeysObject(saltPrivateKey, saltEncryption, publicKey, sealed).members, 3);
  }

  /** `generate_node_identity(passphrase, alias, tags)`: the config dict
      and the raw signing key. The seed is the first Argon2id output
      itself; the box key is a second, separate derivation with its own
      salt; the node id is the hex SHA-256 of the raw public key. */
  function GenerateNodeIdentity(s: Suite, passphrase: string, alias: string, tags: seq<string>, host: Host, rnd: Randomness): (r: Identity)
    requires RandomnessOk(rnd)
    ensures |r.privateKey| == SEED_SIZE
    ensures Kdf(s, passphrase, rnd.saltPrivateKey) == Success(r.privateKey)
  {
    var (seed, saltPrivateKey) := DeriveKey(s, passphrase, rnd.saltPrivateKey);
    var publicKey := s.publicKey(seed);
    var nodeId := HexDigest(s, publicKey);
    var (secretKey, saltEncryption) := DeriveKey(s, passphrase, rnd.saltEncryption);
    var sealed := BoxEncrypt(s, secretKey, rnd.nonce, seed);
    Identity(NodeConfig(host, alias, tags, nodeId, KeysObject(saltPrivateKey, saltEncryption, publicKey, sealed)), seed)
  }

  /** The fields of a generated config, read back the way the rest of the
      node reads them: the node id and public key are those of the
      returned key, and both salts are recorded. */
  lemma GeneratedFields(s: Suite, passphrase: string, alias: string, tags: seq<string>, host: Host, rnd: Randomness)
    requires RandomnessOk(rnd)
    ensures var id := GenerateNodeIdentity(s, passphrase, alias, tags, host, rnd);
      var secretKey := Kdf(s, passphrase, rnd.saltEncryption).value;
      && Index(id.config, "node_id") == Success(Str(HexDigest(s, s.publicKey(id.privateKey))))
      && KeyField(id.config, "public_key") == Success(Str(Encode(s.publicKey(id.privateKey))))
      && KeyField(id.config, "salt_private_key") == Success(Str(Encode(rnd.saltPrivateKey)))
      && KeyField(id.config, "salt_encryption") == Success(Str(Encode(rnd.saltEncryption)))
      && KeyField(id.config, "private_key_encrypted") == Success(Str(Encode(BoxEncrypt(s, secretKey, rnd.nonce, id.privateKey))))
      && Index(id.config, "alias") == Success(Str(alias))
      && Index(id.config, "port") == Success(host.port)
  {
    var id := GenerateNodeIdentity(s, passphrase, alias, tags, host, rnd);
    var pk := s.publicKey(id.privateKey);
    var sealed := BoxEncrypt(s, Kdf(s, passphrase, rnd.saltEncryption).value, rnd.nonce, id.privateKey);
    var keys := KeysObject(rnd.saltPrivateKey, rnd.saltEncryption, pk, sealed);
    NodeConfigFields(host, alias, tags, HexDigest(s, pk), keys);
    KeysObjectFields(rnd.saltPrivateKey, rnd.saltEncryption, pk, sealed);
  }

  /** Round trip: `decrypt_private_key` on a generated config, with the
      same passphrase, returns exactly the key `generate_node_identity`
      returned. */
  lemma GeneratedKeyDecrypts(s: Suite, passphrase: string, alias: string, tags: seq<string>, host: Host, rnd: Randomness)
    requires RandomnessOk(rnd)
    ensures var id := GenerateNodeIdentity(s, passphrase, alias, tags, host, rnd);
      DecryptPrivateKey(s, id.config, passphrase) == Success(id.privateKey)
  {
    var id := GenerateNodeIdentity(s, passphrase, alias, tags, host, rnd);
    GeneratedFields(s, passphrase, alias, tags, host, rnd);
    OpenSealedRoundTrip(s, passphrase, rnd.saltEncryption, rnd.nonce, id.privateKey);
  }

  /** The signing key can be re-derived from the passphrase and the
      recorded `keys.salt_private_key`; the recorded public key decodes to
      the key's own public key; and the node id, with "0x" prepended, is
      what the event validators accept. */
  lemma GeneratedRederives(s: Suite, passphrase: string, alias: string, tags: seq<string>, host: Host, rnd: Randomness)
    requires RandomnessOk(rnd)
    ensures var id := GenerateNodeIdentity(s, passphrase, alias, tags, host, rnd);
      var saltField := KeyField(id.config, "salt_private_key");
      var keyField := KeyField(id.config, "public_key");
      var idField := Index(id.config, "node_id");
      && saltField.Success? && B64DecodeValue(saltField.value) == Success(rnd.saltPrivateKey)
      && Kdf(s, passphrase, rnd.saltPrivateKey) == Success(id.privateKey)
      && keyField.Success? && B64DecodeValue(keyField.value) == Success(s.publicKey(id.privateKey))
      && idField.Success? && idField.value.Str? && ReMatch(SHA256_HEX_PATTERN, "0x" + idField.value.s)
  {
    var id := GenerateNodeIdentity(s, passphrase, alias, tags, host, rnd);
    GeneratedFields(s, passphrase, alias, tags, host, rnd);
    DecodeLenientEncode(rnd.saltPrivateKey);
    DecodeLenientEncode(s.publicKey(id.privateKey));
    NodeIdMatches(HexDigest(s, s.publicKey(id.privateKey)));
  }

  /** "0x" and a hex digest is what SHA256_HEX_PATTERN accepts. */
  lemma NodeIdMatches(digest: string)
    requires |digest| == 64 && IsLowerHex(digest)
    ensures ReMatch(SHA256_HEX_PATTERN, "0x" + digest)
  {
    var s := "0x" + digest;
    assert forall k :: 2 <= k < 66 ==> s[k] == digest[k - 2];
    Sha256HexMatch(s);
  }

  // ---------------------------------------------------------------------
  // The tag prompt

  /** A tag as the prompt produces it: non-empty, no surrounding
      whitespace, no comma. */
  predicate AreTags(ts: seq<string>) {
    forall k :: 0 <= k < |ts| ==>
      |ts[k]| > 0 && !IsSpace(ts[k][0]) && !IsSpace(ts[k][|ts[k]| - 1]) && ',' !in ts[k]
  }

  lemma StripKeeps(p: string, c: char)
    requires c !in p
    ensures c !in Strip(p)
  {
    var r := Strip(p);
    var i := LeadingSpace(p);
    assert forall j :: 0 <= j < |r| ==> r[j] == p[i + j];
  }

  /** `[t.strip() for t in pieces if t.strip()]`. */
  function KeepTags(pieces: seq<string>): (tags: seq<string>)
    requires forall k :: 0 <= k < |pieces| ==> ',' !in pieces[k]
    ensures |tags| <= |pieces|
    ensures AreTags(tags)
  {
    if |pieces| == 0 then []
    else
      var t := Strip(pieces[0]);
      StripKeeps(pieces[0], ',');
      if t == "" then KeepTags(pieces[1..]) else [t] + KeepTags(pieces[1..])
  }

  /** The tag prompt of `init_or_load_node`: the input, trimmed, split on
      commas, each piece trimmed, empty pieces dropped, order kept. */
  function ParseTags(input: string): (tags: seq<string>)
    ensures AreTags(tags)
  {
    KeepTags(Split(Strip(input), ','))
  }

  lemma {:induction false} KeepTagsOfTags(tags: seq<string>)
    requires AreTags(tags)
    ensures KeepTags(tags) == tags
  {
    if |tags| > 0 {
      TrimmedIsFixed(tags[0]);
      KeepTagsOfTags(tags[1..]);
    }
  }

  lemma {:induction false} JoinEnds(pieces: seq<string>, sep: char)
    requires |pieces| >= 1 && forall k :: 0 <= k < |pieces| ==> |pieces[k]| > 0
    ensures var j := Join(pieces, sep);
      |j| > 0 && j[0] == pieces[0][0] && j[|j| - 1] == pieces[|pieces| - 1][|pieces[|pieces| - 1]| - 1]
  {
    if |pieces| > 1 {
      JoinEnds(pieces[1..], sep);
    }
  }

  /** Round trip: tags joined with commas are parsed back unchanged. */
  lemma ParseJoinedTags(tags: seq<string>)
    requires |tags| >= 1 && AreTags(tags)
    ensures ParseTags(Join(tags, ',')) == tags
  {
    JoinEnds(tags, ',');
    TrimmedIsFixed(Join(tags, ','));
    SplitJoin(tags, ',');
    KeepTagsOfTags(tags);
  }

  /** Blank input gives no tags. */
  lemma ParseTagsBlank(input: string)
    requires forall k :: 0 <= k < |input| ==> IsSpace(input[k])
    ensures ParseTags(input) == []
  {
    assert |Strip(input)| == 0;
  }

  // ---------------------------------------------------------------------
  // init_or_load_node

  /** The load path of `init_or_load_node` as written: a decryption
      failure is logged and swallowed, and the `return` then reads the
      unbound `private_key`, so the caller gets an UnboundLocalError
      instead of the original error. */
  function LoadNodeAsWritten(s: Suite, config: Json, passphrase: string): (r: Result<(Json, Bytes, bool), PyError>)
    ensures r.Success? <==> DecryptPrivateKey(s, config, passphrase).Success?
    ensures r.Failure? ==> r.error == UnboundLocalError
  {
    match DecryptPrivateKey(s, config, passphrase)
    case Success(privateKey) => Success((config, privateKey, false))
    case Failure(_) => Failure(UnboundLocalError)
  }

  /** The load path with the evident intent: the decryption error reaches
      the caller as it was raised. */
  function LoadNode(s: Suite, config: Json, passphrase: string): (r: Result<(Json, Bytes, bool), PyError>)
    ensures r.Success? <==> DecryptPrivateKey(s, config, passphrase).Success?
    ensures r.Success? ==> r.value.0 == config && !r.value.2
    ensures r.Failure? ==> r.error == DecryptPrivateKey(s, config, passphrase).error
  {
    var privateKey :- DecryptPrivateKey(s, config, passphrase);
    Success((config, privateKey, false))
  }

  /** A wrong passphrase (one under which the box does not open) surfaces
      as the unbound-variable error in the code as written, and as the
      CryptoError itself in the corrected load path. */
  lemma WrongPassphraseOnLoad(s: Suite, config: Json, passphrase: string, salt: Bytes, combined: Bytes)
    requires KeyField(config, "salt_encryption") == Success(Str(Encode(salt)))
    requires KeyField(config, "private_key_encrypted") == Success(Str(Encode(combined)))
    requires |salt| == SALT_SIZE && |combined| >= NONCE_SIZE
    requires s.decrypt(Kdf(s, passphrase, salt).value, combined[..NONCE_SIZE], combined[NONCE_SIZE..]).None?
    ensures LoadNodeAsWritten(s, config, passphrase) == Failure(UnboundLocalError)
    ensures LoadNode(s, config, passphrase) == Failure(CryptoError)
  {
    DecryptRejects(s, config, passphrase, salt, combined);
  }

  /** `init_or_load_node`: an existing config is loaded with the
      passphrase, through the corrected load path (it agrees with the code
      as written whenever decryption succeeds); otherwise a new identity is generated from the trimmed
      alias and the parsed tags, and reported as new. The passphrase
      confirmation prompt and the file write are not modelled. */
  function InitOrLoadNode(s: Suite, stored: Option<Json>, passphrase: string, aliasInput: string, tagsInput: string, host: Host, rnd: Randomness): (r: Result<(Json, Bytes, bool), PyError>)
    requires RandomnessOk(rnd)
    ensures stored.None? ==> r.Success? && r.value.2 && |r.value.1| == SEED_SIZE
    ensures stored.Some? ==> r == LoadNode(s, stored.value, passphrase)
    ensures stored.Some? && DecryptPrivateKey(s, stored.value, passphrase).Success? ==>
      r == LoadNodeAsWritten(s, stored.value, passphrase)
  {
    match stored
    case Some(config) => LoadNode(s, config, passphrase)
    case None =>
      var id := GenerateNodeIdentity(s, passphrase, Strip(aliasInput), ParseTags(tagsInput), host, rnd);
      Success((id.config, id.privateKey, true))
  }

  /** Creating a node and later loading its config with the same
      passphrase gives back the same private key. */
  lemma InitThenLoad(s: Suite, passphrase: string, aliasInput: string, tagsInput: string, host: Host, rnd: Randomness)
    requires RandomnessOk(rnd)
    ensures var created := InitOrLoadNode(s, None, passphrase, aliasInput, tagsInput, host, rnd).value;
      InitOrLoadNode(s, Some(created.0), passphrase, aliasInput, tagsInput, host, rnd) == Success((created.0, created.1, false))
  {
    GeneratedKeyDecrypts(s, passphrase, Strip(aliasInput), ParseTags(tagsInput), host, rnd);
  }

  // ---------------------------------------------------------------------
  // get_node_public_key

  /** The `nodes` table, reduced to the column read here: node id to the
      stored `public_key` value. */
  type NodeKeys = map<string, Json>

  /** `get_node_public_key(node_id)`: the stored value, or None when no row
      matches (indexing the missing row raises, and the handler logs and
      falls through to an implicit None). */
  function GetNodePublicKey(table: NodeKeys, nodeId: string): (r: Option<Json>)
    ensures r.None? <==> nodeId !in table
    ensures r.Some? ==> r.value == table[nodeId]
  {
    if nodeId in table then Some(table[nodeId]) else None
  }
}

=== FILE: python.dfy ===
/** The few Python built-ins the modelled code leans on: `str.isspace`,
    `str.strip`, `str.split(sep)`, `str(int)` and `int(str)`. */
module Python {
  import opened Wrappers

  /** `str.isspace()` for one character: the characters CPython treats as
      whitespace (bidirectional class WS, B or S, or category Zs). */
  predicate IsSpace(c: char) {
    var n := c as int;
    || (0x09 <= n <= 0x0D) || (0x1C <= n <= 0x20)
    || n == 0x85 || n == 0xA0 || n == 0x1680
    || (0x2000 <= n <= 0x200A)
    || n == 0x2028 || n == 0x2029 || n == 0x202F || n == 0x205F || n == 0x3000
  }

  /** The number of whitespace characters `s` starts with. */
  function LeadingSpace(s: string): (n: nat)
    ensures n <= |s|
    ensures forall k :: 0 <= k < n ==> IsSpace(s[k])
    ensures n < |s| ==> !IsSpace(s[n])
    decreases |s|
  {
    if |s| > 0 && IsSpace(s[0]) then
      var n := 1 + LeadingSpace(s[1..]);
      assert forall k :: 1 <= k < n ==> s[k] == s[1..][k - 1];
      n
    else 0
  }

  /** Where `s[..e]` ends once its trailing whitespace after `lo` is cut. */
  function TrailingEnd(s: string, lo: nat, e: nat): (r: nat)
    requires lo <= e <= |s|
    ensures lo <= r <= e
    ensures forall k :: r <= k < e ==> IsSpace(s[k])
    ensures r > lo ==> !IsSpace(s[r - 1])
    decreases e
  {
    if e > lo && IsSpace(s[e - 1]) then TrailingEnd(s, lo, e - 1) else e
  }

  /** `str.strip()` with no argument: the result is the slice of the input
      that starts at its first non-whitespace character and ends at its last
      one; everything cut off is whitespace. */
  function Strip(s: string): (r: string)
    ensures var i := LeadingSpace(s);
      && i + |r| <= |s| && r == s[i..i + |r|]
      && (forall k :: 0 <= k < i ==> IsSpace(s[k]))
      && (forall k :: i + |r| <= k < |s| ==> IsSpace(s[k]))
    ensures |r| > 0 ==> !IsSpace(r[0]) && !IsSpace(r[|r| - 1])
  {
    var i := LeadingSpace(s);
    s[i..TrailingEnd(s, i, |s|)]
  }

  /** `s.split(sep)` for a one-character separator: every occurrence
      separates two (possibly empty) pieces. */
  function Split(s: string, sep: char): (r: seq<string>)
    ensures |r| >= 1
    ensures forall k :: 0 <= k < |r| ==> sep !in r[k]
  {
    if |s| == 0 then [""]
    else if s[0] == sep then [""] + Split(s[1..], sep)
    else
      var rest := Split(s[1..], sep);
      [[s[0]] + rest[0]] + rest[1..]
  }

  /** `sep.join(pieces)`. */
  function Join(pieces: seq<string>, sep: char): string
    requires |pieces| >= 1
  {
    if |pieces| == 1 then pieces[0] else pieces[0] + [sep] + Join(pieces[1..], sep)
  }

  lemma {:induction false} JoinSplit(s: string, sep: char)
    ensures Join(Split(s, sep), sep) == s
  {
    if |s| == 0 {
    } else if s[0] == sep {
      JoinSplit(s[1..], sep);
      assert s == [sep] + s[1..];
    } else {
      JoinSplit(s[1..], sep);
      var rest := Split(s[1..], sep);
      if |rest| == 1 {
      } else {
        assert Join(rest, sep) == rest[0] + [sep] + Join(rest[1..], sep);
        assert s == [s[0]] + s[1..];
      }
    }
  }

  lemma {:induction false} SplitJoin(pieces: seq<string>, sep: char)
    requires |pieces| >= 1
    requires forall k :: 0 <= k < |pieces| ==> sep !in pieces[k]
    ensures Split(Join(pieces, sep), sep) == pieces
  {
    if |pieces| == 1 {
      SplitNoSep(pieces[0], sep);
    } else {
      SplitJoin(pieces[1..], sep);
      SplitPrefix(pieces[0], Join(pieces[1..], sep), sep);
      assert Join(pieces, sep) == pieces[0] + ([sep] + Join(pieces[1..], sep));
      assert pieces == [pieces[0]] + pieces[1..];
    }
  }

  lemma {:induction false} SplitNoSep(s: string, sep: char)
    requires sep !in s
    ensures Split(s, sep) == [s]
  {
    if |s| > 0 {
      SplitNoSep(s[1..], sep);
      assert s == [s[0]] + s[1..];
    }
  }

  lemma {:induction false} SplitPrefix(a: string, b: string, sep: char)
    requires sep !in a
    ensures Split(a + [sep] + b, sep) == [a] + Split(b, sep)
  {
    if |a| == 0 {
      assert a + [sep] + b == [sep] + b;
      assert ([sep] + b)[1..] == b;
    } else {
      SplitPrefix(a[1..], b, sep);
      assert (a + [sep] + b)[1..] == a[1..] + [sep] + b;
      assert a == [a[0]] + a[1..];
    }
  }

  // ---------------------------------------------------------------------
  // Decimal integers: `str(n)` and `int(s)`

  predicate IsDigit(c: char) { '0' <= c <= '9' }

  function DigitChar(d: nat): (c: char)
    requires d < 10
    ensures IsDigit(c) && c as int - '0' as int == d
  {
    ('0' as int + d) as char
  }

  function DigitValue(c: char): (d: nat)
    requires IsDigit(c)
    ensures d < 10
  {
    c as int - '0' as int
  }

  /** Decimal digits of a natural number, most significant first, with no
      leading zero. */
  function NatToDecimal(n: nat): (s: string)
    ensures |s| >= 1 && forall k :: 0 <= k < |s| ==> IsDigit(s[k])
    ensures |s| > 1 ==> s[0] != '0'
  {
    if n < 10 then [DigitChar(n)] else NatToDecimal(n / 10) + [DigitChar(n % 10)]
  }

  /** The value of a string of decimal digits. */
  function DecimalValue(s: string): nat
    requires forall k :: 0 <= k < |s| ==> IsDigit(s[k])
  {
    if |s| == 0 then 0 else DecimalValue(s[..|s| - 1]) * 10 + DigitValue(s[|s| - 1])
  }

  lemma {:induction false} DecimalRoundTrip(n: nat)
    ensures DecimalValue(NatToDecimal(n)) == n
  {
    if n >= 10 {
      DecimalRoundTrip(n / 10);
      var s := NatToDecimal(n);
      assert s[..|s| - 1] == NatToDecimal(n / 10);
    }
  }

  /** `str(n)` for a Python int. */
  function IntToDecimal(n: int): (s: string)
    ensures |s| >= 1
    ensures n >= 0 <==> s[0] != '-'
  {
    if n < 0 then "-" + NatToDecimal(-n) else NatToDecimal(n)
  }

  /** Digit groups separated by single underscores, as `int()` accepts. */
  predicate IsDigitRun(s: string) {
    && |s| > 0
    && IsDigit(s[0]) && IsDigit(s[|s| - 1])
    && (forall k :: 0 <= k < |s| ==> IsDigit(s[k]) || s[k] == '_')
    && (forall k :: 0 <= k < |s| - 1 ==> !(s[k] == '_' && s[k + 1] == '_'))
  }

  function RemoveUnderscores(s: string): (r: string)
    requires forall k :: 0 <= k < |s| ==> IsDigit(s[k]) || s[k] == '_'
    ensures forall k :: 0 <= k < |r| ==> IsDigit(r[k])
  {
    if |s| == 0 then ""
    else (if s[0] == '_' then "" else [s[0]]) + RemoveUnderscores(s[1..])
  }

  /** `int(s)` for a string argument in base 10: surrounding whitespace,
      an optional sign, then digits that may be grouped with single
      underscores. Anything else raises ValueError. */
  function IntOfString(s: string): (r: Result<int, PyError>)
    ensures r.Success? ==> var t := Strip(s);
      IsDigitRun(t) || (|t| > 1 && (t[0] == '+' || t[0] == '-') && IsDigitRun(t[1..]))
  {
    IntOfTrimmed(Strip(s))
  }

  /** `int()` once the surrounding whitespace is gone. */
  function IntOfTrimmed(t: string): (r: Result<int, PyError>)
    ensures r.Success? ==> IsDigitRun(t) || (|t| > 1 && (t[0] == '+' || t[0] == '-') && IsDigitRun(t[1..]))
  {
    if |t| > 0 && (t[0] == '+' || t[0] == '-') then
      var body := t[1..];
      if IsDigitRun(body) then
        var v: int := DecimalValue(RemoveUnderscores(body));
        Success(if t[0] == '-' then -v else v)
      else Failure(ValueError("invalid literal for int() with base 10"))
    else if IsDigitRun(t) then Success(DecimalValue(RemoveUnderscores(t)))
    else Failure(ValueError("invalid literal for int() with base 10"))
  }

  lemma {:induction false} RemoveUnderscoresDigits(s: string)
    requires forall k :: 0 <= k < |s| ==> IsDigit(s[k])
    ensures RemoveUnderscores(s) == s
  {
    if |s| > 0 {
      RemoveUnderscoresDigits(s[1..]);
      assert s == [s[0]] + s[1..];
    }
  }

  lemma TrimmedIsFixed(s: string)
    requires |s| > 0 && !IsSpace(s[0]) && !IsSpace(s[|s| - 1])
    ensures Strip(s) == s
  {
    assert LeadingSpace(s) == 0;
    assert TrailingEnd(s, 0, |s|) == |s|;
  }

  lemma DigitsAreRun(d: string)
    requires |d| > 0 && forall k :: 0 <= k < |d| ==> IsDigit(d[k])
    ensures IsDigitRun(d)
  {
  }

  lemma NonNegativeOfDecimal(n: nat)
    ensures IntOfString(NatToDecimal(n)) == Success(n)
  {
    var d := NatToDecimal(n);
    TrimmedIsFixed(d);
    DigitsAreRun(d);
    RemoveUnderscoresDigits(d);
    DecimalRoundTrip(n);
  }

  lemma NegativeOfDecimal(n: nat)
    requires n > 0
    ensures IntOfString("-" + NatToDecimal(n)) == Success(-(n as int))
  {
    var d := NatToDecimal(n);
    var t := "-" + d;
    assert t[1..] == d && t[|t| - 1] == d[|d| - 1];
    TrimmedIsFixed(t);
    NegatedDigits(t);
    DecimalRoundTrip(n);
  }

  /** A "-" followed by digits is the negated value of the digits. */
  lemma NegatedDigits(t: string)
    requires |t| > 1 && t[0] == '-' && forall k :: 1 <= k < |t| ==> IsDigit(t[k])
    ensures IntOfTrimmed(t) == Success(-(DecimalValue(t[1..]) as int))
  {
    DigitsAreRun(t[1..]);
    RemoveUnderscoresDigits(t[1..]);
  }

  /** `int(str(n)) == n` for every Python int. */
  lemma IntOfDecimal(n: int)
    ensures IntOfString(IntToDecimal(n)) == Success(n)
  {
    if n < 0 {
      NegativeOfDecimal(-n);
    } else {
      NonNegativeOfDecimal(n);
    }
  }
}

=== FILE: records.dfy ===
/** models/base.py: the record models shared by the API. Every one is a
    `StrictBaseModel`, so an unknown field is refused. */
module Records {
  import opened Wrappers
  import opened Json
  import opened Regex
  import opened Constants
  import opened Base64
  import opened Schema
  import opened Requests

  datatype FileEntry = FileEntry(fileId: string, name: string, size: int, mimetype: string, creationDate: string)

  datatype UserEntry = UserEntry(userId: string, alias: string, publicKey: string)

  datatype NodeEntry = NodeEntry(nodeId: string, alias: string, publicKey: string)

  /** The timestamp is kept as the value pydantic's datetime parsing
      accepted. */
  datatype EventEntry = EventEntry(timestamp: Json, blockId: string, eventType: string, nodeId: string)

  const FILE_ENTRY_FIELDS := {"file_id", "name", "size", "mimetype", "creation_date"}
  const USER_ENTRY_FIELDS := {"user_id", "alias", "public_key"}
  const NODE_ENTRY_FIELDS := {"node_id", "alias", "public_key"}
  const EVENT_ENTRY_FIELDS := {"timestamp", "block_id", "event_type", "node_id"}

  /** `conint(ge=0, le=MAX_FILE_SIZE)`. */
  function SizeField(env: Env, v: Json): (r: Option<int>)
    ensures r.Some? ==> 0 <= r.value <= env.maxFileSize
    ensures v.Int? ==> (r.Some? <==> 0 <= v.i <= env.maxFileSize)
    ensures r.Some? && v.Int? ==> r.value == v.i
  {
    ConInt(v, 0, env.maxFileSize)
  }

  /** `Literal[*VALID_EVENT_TYPES]`: the value is looked up among the
      literal strings; no coercion applies. */
  function EventTypeField(v: Json): (r: Option<string>)
    ensures r.Some? <==> v.Str? && v.s in VALID_EVENT_TYPES
    ensures r.Some? ==> r.value == v.s
  {
    if v.Str? && v.s in VALID_EVENT_TYPES then Some(v.s) else None
  }

  /** The timestamp field as pydantic's datetime parsing decides it. */
  function DatetimeField(env: Env, v: Json): Option<Json> {
    if env.datetime(v) then Some(v) else None
  }

  /** The fields of `FileEntry` that carry a constraint. */
  function FileIdOf(env: Env, ms: seq<Member>): Option<string> {
    Required(ms, "file_id", (x: Json) => ConStr(x, 0, None, env.reFileId))
  }

  function NameOf(env: Env, ms: seq<Member>): Option<string> {
    Required(ms, "name", (x: Json) => ConStr(x, 0, None, env.reFilename))
  }

  function SizeOf(env: Env, ms: seq<Member>): Option<int> {
    Required(ms, "size", (x: Json) => SizeField(env, x))
  }

  function MimetypeOf(env: Env, ms: seq<Member>): Option<string> {
    Required(ms, "mimetype", (x: Json) => ConStr(x, 0, None, env.reMimetype))
  }

  function ParseFileEntry(env: Env, v: Json): (r: Result<FileEntry, Errors>)
    ensures r.Success? ==> AsDict(v).Success? && forall k :: k in Keys(AsDict(v).value) ==> k in FILE_ENTRY_FIELDS
    ensures r.Success? ==> 0 <= r.value.size <= env.maxFileSize
    ensures r.Success? ==> env.reFileId(r.value.fileId) && env.reFilename(r.value.name) && env.reMimetype(r.value.mimetype)
  {
    match AsDict(v)
    case Failure(_) => Failure({ROOT})
    case Success(ms) =>
      var f := FileIdOf(env, ms);
      var n := NameOf(env, ms);
      var s := SizeOf(env, ms);
      var m := MimetypeOf(env, ms);
      var c := Required(ms, "creation_date", AsStr);
      var errs := ErrorAt("file_id", f) + ErrorAt("name", n) + ErrorAt("size", s)
        + ErrorAt("mimetype", m) + ErrorAt("creation_date", c) + Extras(ms, FILE_ENTRY_FIELDS);
      if errs == {} then Success(FileEntry(f.value, n.value, s.value, m.value, c.value)) else Failure(errs)
  }

  function ParseUserEntry(env: Env, v: Json): (r: Result<UserEntry, Errors>)
    ensures r.Success? ==> AsDict(v).Success? && forall k :: k in Keys(AsDict(v).value) ==> k in USER_ENTRY_FIELDS
    ensures r.Success? ==> ReMatch(RE_USER_ID, r.value.userId) && ReMatch(RE_ALIAS, r.value.alias)
    ensures r.Success? ==>
      && PUBLIC_KEY_MIN <= |r.value.publicKey| <= PUBLIC_KEY_MAX
      && env.reBase64(r.value.publicKey) && IsStrictB64(r.value.publicKey)
  {
    match AsDict(v)
    case Failure(_) => Failure({ROOT})
    case Success(ms) =>
      var u := Required(ms, "user_id", UserIdField);
      var a := Required(ms, "alias", AliasField);
      var k := Required(ms, "public_key", (x: Json) => PublicKeyField(env, x));
      var errs := ErrorAt("user_id", u) + ErrorAt("alias", a) + ErrorAt("public_key", k)
        + Extras(ms, USER_ENTRY_FIELDS);
      if errs == {} then Success(UserEntry(u.value, a.value, k.value)) else Failure(errs)
  }

  function ParseNodeEntry(env: Env, v: Json): (r: Result<NodeEntry, Errors>)
    ensures r.Success? ==> AsDict(v).Success? && forall k :: k in Keys(AsDict(v).value) ==> k in NODE_ENTRY_FIELDS
    ensures r.Success? ==> env.reNodeId(r.value.nodeId) && ReMatch(RE_ALIAS, r.value.alias)
    ensures r.Success? ==>
      && PUBLIC_KEY_MIN <= |r.value.publicKey| <= PUBLIC_KEY_MAX
      && env.reBase64(r.value.publicKey) && IsStrictB64(r.value.publicKey)
  {
    match AsDict(v)
    case Failure(_) => Failure({ROOT})
    case Success(ms) =>
      var n := Required(ms, "node_id", (x: Json) => ConStr(x, 0, None, env.reNodeId));
      var a := Required(ms, "alias", AliasField);
      var k := Required(ms, "public_key", (x: Json) => PublicKeyField(env, x));
      var errs := ErrorAt("node_id", n) + ErrorAt("alias", a) + ErrorAt("public_key", k)
        + Extras(ms, NODE_ENTRY_FIELDS);
      if errs == {} then Success(NodeEntry(n.value, a.value, k.value)) else Failure(errs)
  }

  function ParseEventEntry(env: Env, v: Json): (r: Result<EventEntry, Errors>)
    ensures r.Success? ==> AsDict(v).Success? && forall k :: k in Keys(AsDict(v).value) ==> k in EVENT_ENTRY_FIELDS
    ensures r.Success? ==> r.value.eventType in VALID_EVENT_TYPES
    ensures r.Success? ==> env.reBlockId(r.value.blockId) && env.reNodeId(r.value.nodeId) && env.datetime(r.value.timestamp)
  {
    match AsDict(v)
    case Failure(_) => Failure({ROOT})
    case Success(ms) =>
      var t := Required(ms, "timestamp", (x: Json) => DatetimeField(env, x));
      var b := Required(ms, "block_id", (x: Json) => ConStr(x, 0, None, env.reBlockId));
      var e := Required(ms, "event_type", EventTypeField);
      var n := Required(ms, "node_id", (x: Json) => ConStr(x, 0, None, env.reNodeId));
      var errs := ErrorAt("timestamp", t) + ErrorAt("block_id", b) + ErrorAt("event_type", e)
        + ErrorAt("node_id", n) + Extras(ms, EVENT_ENTRY_FIELDS);
      if errs == {} then Success(EventEntry(t.value, b.value, e.value, n.value)) else Failure(errs)
  }

  // ---------------------------------------------------------------------
  // Properties

  /** `StrictBaseModel` refuses an unknown field in every record, and the
      error names it. */
  lemma StrictRefusesUnknown(env: Env, ms: seq<Member>, k: string)
    requires k in Keys(ms)
    requires k !in FILE_ENTRY_FIELDS + USER_ENTRY_FIELDS + NODE_ENTRY_FIELDS + EVENT_ENTRY_FIELDS
    ensures ParseFileEntry(env, Obj(ms)).Failure? && k in ParseFileEntry(env, Obj(ms)).error
    ensures ParseUserEntry(env, Obj(ms)).Failure? && k in ParseUserEntry(env, Obj(ms)).error
    ensures ParseNodeEntry(env, Obj(ms)).Failure? && k in ParseNodeEntry(env, Obj(ms)).error
    ensures ParseEventEntry(env, Obj(ms)).Failure? && k in ParseEventEntry(env, Obj(ms)).error
  {
    UnknownFileField(env, ms, k);
    UnknownUserField(env, ms, k);
    UnknownNodeField(env, ms, k);
    UnknownEventField(env, ms, k);
  }

  lemma UnknownFileField(env: Env, ms: seq<Member>, k: string)
    requires k in Keys(ms) && k !in FILE_ENTRY_FIELDS
    ensures ParseFileEntry(env, Obj(ms)).Failure? && k in ParseFileEntry(env, Obj(ms)).error
  {
    assert k in Extras(ms, FILE_ENTRY_FIELDS);
  }

  lemma UnknownUserField(env: Env, ms: seq<Member>, k: string)
    requires k in Keys(ms) && k !in USER_ENTRY_FIELDS
    ensures ParseUserEntry(env, Obj(ms)).Failure? && k in ParseUserEntry(env, Obj(ms)).error
  {
    assert k in Extras(ms, USER_ENTRY_FIELDS);
  }

  lemma UnknownNodeField(env: Env, ms: seq<Member>, k: string)
    requires k in Keys(ms) && k !in NODE_ENTRY_FIELDS
    ensures ParseNodeEntry(env, Obj(ms)).Failure? && k in ParseNodeEntry(env, Obj(ms)).error
  {
    assert k in Extras(ms, NODE_ENTRY_FIELDS);
  }

  lemma UnknownEventField(env: Env, ms: seq<Member>, k: string)
    requires k in Keys(ms) && k !in EVENT_ENTRY_FIELDS
    ensures ParseEventEntry(env, Obj(ms)).Failure? && k in ParseEventEntry(env, Obj(ms)).error
  {
    assert k in Extras(ms, EVENT_ENTRY_FIELDS);
  }

  /** A size outside 0..MAX_FILE_SIZE is refused at "size". */
  lemma SizeOutOfRangeRefused(env: Env, ms: seq<Member>, n: int)
    requires Get(ms, "size") == Some(Int(n))
    requires n < 0 || n > env.maxFileSize
    ensures ParseFileEntry(env, Obj(ms)).Failure? && "size" in ParseFileEntry(env, Obj(ms)).error
  {
  }

  /** An event type outside VALID_EVENT_TYPES is refused at
      "event_type". */
  lemma UnknownEventTypeRefused(env: Env, ms: seq<Member>, t: string)
    requires Get(ms, "event_type") == Some(Str(t)) && t !in VALID_EVENT_TYPES
    ensures ParseEventEntry(env, Obj(ms)).Failure? && "event_type" in ParseEventEntry(env, Obj(ms)).error
  {
  }

  /** creation_date is an unconstrained string: replacing it in an
      accepted record by any text is accepted and keeps the new text. */
  lemma CreationDateUnconstrained(env: Env, ms: seq<Member>, c: string)
    requires ParseFileEntry(env, Obj(ms)).Success?
    ensures ParseFileEntry(env, Obj(Put(ms, "creation_date", Str(c))))
      == Success(ParseFileEntry(env, Obj(ms)).value.(creationDate := c))
  {
    assert "creation_date" in Keys(ms);
    ExtrasOfPut(ms, "creation_date", Str(c), FILE_ENTRY_FIELDS);
    PutCreationDate(env, ms, c);
  }

  /** Replacing creation_date leaves the constrained fields as they were. */
  lemma PutCreationDate(env: Env, ms: seq<Member>, c: string)
    ensures var ms2 := Put(ms, "creation_date", Str(c));
      && FileIdOf(env, ms2) == FileIdOf(env, ms) && NameOf(env, ms2) == NameOf(env, ms)
      && SizeOf(env, ms2) == SizeOf(env, ms) && MimetypeOf(env, ms2) == MimetypeOf(env, ms)
      && Required(ms2, "creation_date", AsStr) == Some(c)
  {
    PutGet(ms, "creation_date", Str(c), "file_id");
    PutGet(ms, "creation_date", Str(c), "name");
    PutGet(ms, "creation_date", Str(c), "size");
    PutGet(ms, "creation_date", Str(c), "mimetype");
    PutGet(ms, "creation_date", Str(c), "creation_date");
  }
}

=== FILE: regex.dfy ===
/** The fragment of Python's `re` the node's patterns use: a pattern
    anchored by `^` and `$`, made of character classes each repeated
    between a lower and an upper bound (a literal character is a class of
    one, repeated once). Matching is defined as the existence of a split of
    the text, which is what a backtracking matcher decides. */
module Regex {
  /** `[...]`: inclusive ranges and single characters. */
  datatype CharClass = CharClass(ranges: seq<(char, char)>, singles: seq<char>)

  /** `class{min,max}`. */
  datatype Piece = Piece(cls: CharClass, min: nat, max: nat)

  type Pattern = seq<Piece>

  predicate InClass(cc: CharClass, c: char) {
    || (exists k :: 0 <= k < |cc.ranges| && cc.ranges[k].0 <= c <= cc.ranges[k].1)
    || c in cc.singles
  }

  /** A literal character. */
  function Lit(c: char): (p: Piece)
    ensures p.min == 1 && p.max == 1
    ensures forall d :: InClass(p.cls, d) <==> d == c
  {
    Piece(CharClass([], [c]), 1, 1)
  }

  predicate AllIn(cc: CharClass, s: string) {
    forall k :: 0 <= k < |s| ==> InClass(cc, s[k])
  }

  /** `ps` can consume exactly `s[i..e]`. */
  predicate Matches(ps: Pattern, s: string, i: nat, e: nat)
    decreases |ps|, 1, 0
  {
    if |ps| == 0 then i == e
    else Run(ps[0].cls, ps[0].min, ps[0].max, ps[1..], s, i, e)
  }

  /** At least `min` and at most `max` more characters of class `cc`,
      then `rest`, consume exactly `s[i..e]`. */
  predicate Run(cc: CharClass, min: nat, max: nat, rest: Pattern, s: string, i: nat, e: nat)
    decreases |rest| + 1, 0, max
  {
    || (min == 0 && Matches(rest, s, i, e))
    || (max > 0 && i < |s| && InClass(cc, s[i])
        && Run(cc, if min == 0 then 0 else min - 1, max - 1, rest, s, i + 1, e))
  }

  /** `re.match("^P$", s)`: outside MULTILINE mode `$` matches at the end
      of the text and also just before one final newline. */
  predicate ReMatch(ps: Pattern, s: string) {
    || Matches(ps, s, 0, |s|)
    || (|s| > 0 && s[|s| - 1] == '\n' && Matches(ps, s, 0, |s| - 1))
  }

  /** `re.fullmatch("^P$", s)`: the match must reach the end of the text. */
  predicate ReFullMatch(ps: Pattern, s: string) {
    Matches(ps, s, 0, |s|)
  }

  /** `n` characters of class `cc` from `i`, after which `rest` consumes
      up to `e`. */
  predicate RunSplit(cc: CharClass, rest: Pattern, s: string, i: nat, e: nat, n: nat) {
    i + n <= |s| && AllIn(cc, s[i..i + n]) && Matches(rest, s, i + n, e)
  }

  /** Every way a repeated class followed by `rest` matches is a run of
      class characters of admissible length, then a match of `rest`. */
  lemma {:induction false} RunWitness(cc: CharClass, min: nat, max: nat, rest: Pattern, s: string, i: nat, e: nat)
    returns (n: nat)
    requires i <= |s| && Run(cc, min, max, rest, s, i, e)
    ensures min <= n <= max && RunSplit(cc, rest, s, i, e, n)
    decreases max
  {
    if min == 0 && Matches(rest, s, i, e) {
      n := 0;
      assert AllIn(cc, s[i..i]);
    } else {
      var m := RunWitness(cc, if min == 0 then 0 else min - 1, max - 1, rest, s, i + 1, e);
      n := m + 1;
      assert s[i..i + n] == [s[i]] + s[i + 1..i + 1 + m];
      assert AllIn(cc, s[i..i + n]);
    }
  }

  /** Conversely, any such split is a match. */
  lemma {:induction false} RunOfSplit(cc: CharClass, min: nat, max: nat, rest: Pattern, s: string, i: nat, e: nat, n: nat)
    requires min <= n <= max && RunSplit(cc, rest, s, i, e, n)
    ensures Run(cc, min, max, rest, s, i, e)
    decreases n
  {
    if n > 0 {
      assert s[i..i + n][0] == s[i];
      assert s[i + 1..i + 1 + (n - 1)] == s[i..i + n][1..];
      RunOfSplit(cc, if min == 0 then 0 else min - 1, max - 1, rest, s, i + 1, e, n - 1);
    }
  }

  /** A literal at the head of a pattern consumes exactly that character. */
  lemma LitHead(c: char, rest: Pattern, s: string, i: nat, e: nat)
    ensures Matches([Lit(c)] + rest, s, i, e) <==> i < |s| && s[i] == c && Matches(rest, s, i + 1, e)
  {
    var ps := [Lit(c)] + rest;
    assert ps[0] == Lit(c) && ps[1..] == rest;
    if Matches(ps, s, i, e) {
      assert Run(Lit(c).cls, 1, 1, rest, s, i, e);
      assert i < |s|;
      var n := RunWitness(Lit(c).cls, 1, 1, rest, s, i, e);
      assert s[i..i + n][0] == s[i];
    }
    if i < |s| && s[i] == c && Matches(rest, s, i + 1, e) {
      assert AllIn(Lit(c).cls, s[i..i + 1]);
      RunOfSplit(Lit(c).cls, 1, 1, rest, s, i, e, 1);
    }
  }

  /** A pattern that is one repeated class consumes exactly a run of class
      characters of admissible length. */
  lemma RunOnly(cc: CharClass, min: nat, max: nat, s: string, i: nat, e: nat)
    requires min <= max && i <= |s|
    ensures Matches([Piece(cc, min, max)], s, i, e) <==>
      i + min <= e <= i + max && e <= |s| && AllIn(cc, s[i..e])
  {
    var ps := [Piece(cc, min, max)];
    assert ps[1..] == [];
    if Matches(ps, s, i, e) {
      var n := RunWitness(cc, min, max, [], s, i, e);
    }
    if i + min <= e <= i + max && e <= |s| && AllIn(cc, s[i..e]) {
      RunOfSplit(cc, min, max, [], s, i, e, e - i);
    }
  }
}

=== FILE: requests.dfy ===
/** api/models/auth.py: the bodies of the three login requests. Each is
    validated from the JSON value FastAPI read from the request; every
    request refuses unknown fields. */
module Requests {
  import opened Wrappers
  import opened Bytes
  import opened Json
  import opened Regex
  import opened Constants
  import opened Base64
  import opened Schema

  /** The length bounds of a base64 public key. */
  const PUBLIC_KEY_MIN := 44
  const PUBLIC_KEY_MAX := 512

  /** The location of a failure that is not about one field. */
  const ROOT := "__root__"

  datatype RegisterRequest = RegisterRequest(
    userId: string, alias: string, name: Option<string>, email: Option<string>, publicKey: string)

  datatype ChallengeRequest = ChallengeRequest(userId: string)

  datatype VerifyRequest = VerifyRequest(userId: string, signature: string)

  const REGISTER_FIELDS := {"user_id", "alias", "name", "email", "public_key"}
  const CHALLENGE_FIELDS := {"user_id"}
  const VERIFY_FIELDS := {"user_id", "signature"}

  // ---------------------------------------------------------------------
  // Field types

  /** `constr(regex=RE_USER_ID)`. */
  function UserIdField(v: Json): (r: Option<string>)
    ensures r.Some? ==> ReMatch(RE_USER_ID, r.value)
    ensures v.Str? ==> (r.Some? <==> ReMatch(RE_USER_ID, v.s))
  {
    ConStr(v, 0, None, s => ReMatch(RE_USER_ID, s))
  }

  /** `constr(regex=RE_ALIAS)`. */
  function AliasField(v: Json): (r: Option<string>)
    ensures r.Some? ==> ReMatch(RE_ALIAS, r.value)
    ensures v.Str? ==> (r.Some? <==> ReMatch(RE_ALIAS, v.s))
  {
    ConStr(v, 0, None, s => ReMatch(RE_ALIAS, s))
  }

  /** `constr(min_length=44, max_length=512, regex=RE_BASE64)` and then
      `validate_base64`. */
  function PublicKeyField(env: Env, v: Json): (r: Option<string>)
    ensures r.Some? ==>
      PUBLIC_KEY_MIN <= |r.value| <= PUBLIC_KEY_MAX && env.reBase64(r.value) && IsStrictB64(r.value)
    ensures v.Str? ==> (r.Some? <==>
      PUBLIC_KEY_MIN <= |v.s| <= PUBLIC_KEY_MAX && env.reBase64(v.s) && IsStrictB64(v.s))
    ensures r.Some? ==> AsStr(v) == r
  {
    Base64Str(v, PUBLIC_KEY_MIN, Some(PUBLIC_KEY_MAX), env.reBase64, "public_key")
  }

  /** `constr(regex=RE_BASE64)` and then `validate_base64`. */
  function SignatureField(env: Env, v: Json): (r: Option<string>)
    ensures r.Some? ==> env.reBase64(r.value) && IsStrictB64(r.value)
    ensures v.Str? ==> (r.Some? <==> env.reBase64(v.s) && IsStrictB64(v.s))
    ensures r.Some? ==> AsStr(v) == r
  {
    Base64Str(v, 0, None, env.reBase64, "signature")
  }

  /** `Optional[EmailStr]` for a value that is not null. */
  function EmailField(env: Env, v: Json): Option<string> {
    match AsStr(v)
    case None => None
    case Some(s) => env.email(s)
  }

  // ---------------------------------------------------------------------
  // Models

  /** `RegisterRequest`. */
  function ParseRegister(env: Env, v: Json): (r: Result<RegisterRequest, Errors>)
    ensures r.Success? ==> AsDict(v).Success? && forall k :: k in Keys(AsDict(v).value) ==> k in REGISTER_FIELDS
    ensures r.Success? ==> ReMatch(RE_USER_ID, r.value.userId) && ReMatch(RE_ALIAS, r.value.alias)
    ensures r.Success? ==>
      && PUBLIC_KEY_MIN <= |r.value.publicKey| <= PUBLIC_KEY_MAX
      && env.reBase64(r.value.publicKey) && IsStrictB64(r.value.publicKey)
    ensures r.Failure? && AsDict(v).Success? ==>
      forall k :: k in Keys(AsDict(v).value) && k !in REGISTER_FIELDS ==> k in r.error
  {
    match AsDict(v)
    case Failure(_) => Failure({ROOT})
    case Success(ms) =>
      var u := Required(ms, "user_id", UserIdField);
      var a := Required(ms, "alias", AliasField);
      var n := Optional(ms, "name", AsStr);
      var e := EmailOf(env, ms);
      var k := PublicKeyOf(env, ms);
      var errs := ErrorAt("user_id", u) + ErrorAt("alias", a) + ErrorAt("name", n)
        + ErrorAt("email", e) + ErrorAt("public_key", k) + Extras(ms, REGISTER_FIELDS);
      if errs == {} then Success(RegisterRequest(u.value, a.value, n.value, e.value, k.value))
      else Failure(errs)
  }

  /** The `email` field of a dict: optional, validated as `EmailStr`. */
  function EmailOf(env: Env, ms: seq<Member>): (r: Option<Option<string>>)
    ensures Get(ms, "email").None? ==> r == Some(None)
  {
    Optional(ms, "email", (x: Json) => EmailField(env, x))
  }

  /** The `public_key` field of a dict: required. */
  function PublicKeyOf(env: Env, ms: seq<Member>): (r: Option<string>)
    ensures Get(ms, "public_key").Some? ==> r == PublicKeyField(env, Get(ms, "public_key").value)
    ensures Get(ms, "public_key").None? ==> r.None?
  {
    Required(ms, "public_key", (x: Json) => PublicKeyField(env, x))
  }

  /** `ChallengeRequest`. */
  function ParseChallenge(v: Json): (r: Result<ChallengeRequest, Errors>)
    ensures r.Success? ==> AsDict(v).Success? && forall k :: k in Keys(AsDict(v).value) ==> k in CHALLENGE_FIELDS
    ensures r.Success? ==> ReMatch(RE_USER_ID, r.value.userId)
    ensures r.Failure? && AsDict(v).Success? ==>
      forall k :: k in Keys(AsDict(v).value) && k !in CHALLENGE_FIELDS ==> k in r.error
  {
    match AsDict(v)
    case Failure(_) => Failure({ROOT})
    case Success(ms) =>
      var u := Required(ms, "user_id", UserIdField);
      var errs := ErrorAt("user_id", u) + Extras(ms, CHALLENGE_FIELDS);
      if errs == {} then Success(ChallengeRequest(u.value)) else Failure(errs)
  }

  /** `VerifyRequest`. */
  function ParseVerify(env: Env, v: Json): (r: Result<VerifyRequest, Errors>)
    ensures r.Success? ==> AsDict(v).Success? && forall k :: k in Keys(AsDict(v).value) ==> k in VERIFY_FIELDS
    ensures r.Success? ==> ReMatch(RE_USER_ID, r.value.userId)
    ensures r.Success? ==> env.reBase64(r.value.signature) && IsStrictB64(r.value.signature)
    ensures r.Failure? && AsDict(v).Success? ==>
      forall k :: k in Keys(AsDict(v).value) && k !in VERIFY_FIELDS ==> k in r.error
  {
    match AsDict(v)
    case Failure(_) => Failure({ROOT})
    case Success(ms) =>
      var u := Required(ms, "user_id", UserIdField);
      var s := Required(ms, "signature", (x: Json) => SignatureField(env, x));
      var errs := ErrorAt("user_id", u) + ErrorAt("signature", s) + Extras(ms, VERIFY_FIELDS);
      if errs == {} then Success(VerifyRequest(u.value, s.value)) else Failure(errs)
  }

  // ---------------------------------------------------------------------
  // `.dict()`

  function RegisterDict(r: RegisterRequest): (d: Json)
    ensures d.Obj? && Keys(d.members) == ["user_id", "alias", "name", "email", "public_key"]
  {
    Obj([Member("user_id", Str(r.userId)), Member("alias", Str(r.alias)),
         Member("name", OptStrJson(r.name)), Member("email", OptStrJson(r.email)),
         Member("public_key", Str(r.publicKey))])
  }

  function ChallengeDict(r: ChallengeRequest): (d: Json)
    ensures d.Obj? && Keys(d.members) == ["user_id"]
  {
    Obj([Member("user_id", Str(r.userId))])
  }

  function VerifyDict(r: VerifyRequest): (d: Json)
    ensures d.Obj? && Keys(d.members) == ["user_id", "signature"]
  {
    Obj([Member("user_id", Str(r.userId)), Member("signature", Str(r.signature))])
  }

  // ---------------------------------------------------------------------
  // Properties

  /** In every request the user id is 64 lowercase hex digits (a single
      trailing newline also passes, through `re.match` and `$`). */
  lemma UserIdIsHex(u: string)
    requires ReMatch(RE_USER_ID, u)
    ensures |u| == 64 || (|u| == 65 && u[64] == '\n')
    ensures IsLowerHex(u[..64])
  {
    UserIdMatch(u);
    if |u| == 64 { assert u[..64] == u; }
  }

  /** A request naming a field the model does not declare is refused,
      and the error names that field. */
  lemma UnknownFieldRefused(env: Env, ms: seq<Member>, k: string)
    requires k in Keys(ms) && k !in REGISTER_FIELDS && k !in VERIFY_FIELDS
    ensures ParseRegister(env, Obj(ms)).Failure? && k in ParseRegister(env, Obj(ms)).error
    ensures ParseChallenge(Obj(ms)).Failure? && k in ParseChallenge(Obj(ms)).error
    ensures ParseVerify(env, Obj(ms)).Failure? && k in ParseVerify(env, Obj(ms)).error
  {
    assert k in Extras(ms, REGISTER_FIELDS) && k in Extras(ms, CHALLENGE_FIELDS) && k in Extras(ms, VERIFY_FIELDS);
  }

  /** The body a client sends to register: a user id, an alias and a
      public key, nothing else. */
  function RegisterBody(u: string, alias: string, key: string): Json {
    Obj([Member("user_id", Str(u)), Member("alias", Str(alias)), Member("public_key", Str(key))])
  }

  /** A well-formed registration is accepted as it is, and the optional
      name and email default to None. Together with the ensures of
      `ParseRegister` this characterises the accepted bodies of this
      shape in both directions. */
  lemma RegisterAccepts(env: Env, u: string, alias: string, key: Bytes)
    requires |u| == 64 && IsLowerHex(u) && IsAlias(alias)
    requires PUBLIC_KEY_MIN <= |Encode(key)| <= PUBLIC_KEY_MAX && env.reBase64(Encode(key))
    ensures ParseRegister(env, RegisterBody(u, alias, Encode(key)))
      == Success(RegisterRequest(u, alias, None, None, Encode(key)))
  {
    var ms := RegisterBody(u, alias, Encode(key)).members;
    RegisterFieldsAccept(env, u, alias, key);
    RegisterBodyFields(u, alias, Encode(key));
    assert PublicKeyOf(env, ms) == Some(Encode(key));
    assert EmailOf(env, ms) == Some(None);
  }

  /** The fields of a registration body, read back. */
  lemma RegisterBodyFields(u: string, alias: string, key: string)
    ensures var ms := RegisterBody(u, alias, key).members;
      && Get(ms, "user_id") == Some(Str(u)) && Get(ms, "alias") == Some(Str(alias))
      && Get(ms, "name") == None && Get(ms, "email") == None
      && Get(ms, "public_key") == Some(Str(key))
      && Extras(ms, REGISTER_FIELDS) == {}
  {
    var ms := RegisterBody(u, alias, key).members;
    assert Keys(ms) == ["user_id", "alias", "public_key"];
  }

  lemma RegisterFieldsAccept(env: Env, u: string, alias: string, key: Bytes)
    requires |u| == 64 && IsLowerHex(u) && IsAlias(alias)
    requires PUBLIC_KEY_MIN <= |Encode(key)| <= PUBLIC_KEY_MAX && env.reBase64(Encode(key))
    ensures UserIdField(Str(u)) == Some(u) && AliasField(Str(alias)) == Some(alias)
    ensures PublicKeyField(env, Str(Encode(key))) == Some(Encode(key))
  {
    UserIdMatch(u);
    AliasMatch(alias);
    EncodeIsStrict(key);
  }

  /** A public key that is too short is refused even when it is valid
      base64. */
  lemma ShortPublicKeyRefused(env: Env, u: string, alias: string, key: string)
    requires |key| < PUBLIC_KEY_MIN
    ensures ParseRegister(env, RegisterBody(u, alias, key)).Failure?
    ensures "public_key" in ParseRegister(env, RegisterBody(u, alias, key)).error
  {
    var ms := RegisterBody(u, alias, key).members;
    assert Get(ms, "public_key") == Some(Str(key));
  }

  /** What `.dict()` writes validates back to the same request. */
  lemma VerifyDictRoundTrip(env: Env, v: Json)
    requires ParseVerify(env, v).Success?
    ensures ParseVerify(env, VerifyDict(ParseVerify(env, v).value)) == ParseVerify(env, v)
  {
    var r := ParseVerify(env, v).value;
    var ms := VerifyDict(r).members;
    assert Get(ms, "user_id") == Some(Str(r.userId));
    assert Get(ms, "signature") == Some(Str(r.signature));
    UserIdStable(r.userId);
    assert Extras(ms, VERIFY_FIELDS) == {};
  }

  lemma ChallengeDictRoundTrip(v: Json)
    requires ParseChallenge(v).Success?
    ensures ParseChallenge(ChallengeDict(ParseChallenge(v).value)) == ParseChallenge(v)
  {
    var r := ParseChallenge(v).value;
    var ms := ChallengeDict(r).members;
    assert Get(ms, "user_id") == Some(Str(r.userId));
    assert Extras(ms, CHALLENGE_FIELDS) == {};
  }

  lemma UserIdStable(u: string)
    requires ReMatch(RE_USER_ID, u)
    ensures UserIdField(Str(u)) == Some(u)
  {
  }
}

=== FILE: schema.dfy ===
/** The part of pydantic (version 1) that the request and record models
    rely on: coercion of a field value to `str` or `int`, constrained
    strings and integers, `dict()` applied to a value that is not a dict,
    and `extra = "forbid"`. A validation failure is the set of top-level
    field locations that failed (pydantic reports unknown fields from a set,
    so no order is kept). */
module Schema {
  import opened Wrappers
  import opened Json
  import opened Python
  import opened Validators
  import opened Base64

  /** The names the models import from core/constants.py that it does not
      define, and two checks that belong to libraries, as parameters.
      Each `re*` field is `re.match` of the pattern of that name, except
      `reTagFull`, which is `re.fullmatch(RE_TAG, ...)`. */
  datatype Env = Env(
    reFileId: string -> bool,
    reBase64: string -> bool,
    reTagFull: string -> bool,
    reMimetype: string -> bool,
    reFilename: string -> bool,
    reNodeId: string -> bool,
    reBlockId: string -> bool,
    allowedMimetypes: set<string>,
    maxFileSize: int,
    /** `EmailStr`: the normalised address, or a refusal. */
    email: string -> Option<string>,
    /** pydantic's `datetime` parsing accepts the value. */
    datetime: Json -> bool)

  /** The field locations that failed. */
  type Errors = set<string>

  // ---------------------------------------------------------------------
  // Coercion

  /** pydantic's `str_validator`: a str is kept; an int (a bool is one in
      Python) becomes `str(v)`; None, a list or a dict is refused. */
  function AsStr(v: Json): (r: Option<string>)
    ensures v.Str? ==> r == Some(v.s)
    ensures v.Null? || v.Arr? || v.Obj? ==> r.None?
    ensures v.Int? ==> r == Some(IntToDecimal(v.i))
  {
    match v
    case Str(s) => Some(s)
    case Int(i) => Some(IntToDecimal(i))
    case Bool(b) => Some(if b then "True" else "False")
    case _ => None
  }

  /** pydantic refuses a str longer than this before calling `int()`. */
  const MAX_STR_INT := 4300

  /** pydantic's `int_validator`: an int is kept, a bool is 0 or 1, a str
      goes through `int()`; anything else is refused. */
  function AsInt(v: Json): (r: Option<int>)
    ensures v.Int? ==> r == Some(v.i)
    ensures v.Null? || v.Arr? || v.Obj? ==> r.None?
    ensures v.Str? && |v.s| > MAX_STR_INT ==> r.None?
  {
    match v
    case Int(i) => Some(i)
    case Bool(b) => Some(if b then 1 else 0)
    case Str(s) =>
      if |s| > MAX_STR_INT then None
      else (match IntOfString(s)
            case Success(i) => Some(i)
            case Failure(_) => None)
    case _ => None
  }

  /** `constr(min_length=lo, max_length=hi, regex=re)`: the coerced text,
      its length (when bounded) and then the pattern. */
  function ConStr(v: Json, lo: nat, hi: Option<nat>, re: string -> bool): (r: Option<string>)
    ensures r.Some? <==> AsStr(v).Some? && lo <= |AsStr(v).value| && (hi.Some? ==> |AsStr(v).value| <= hi.value) && re(AsStr(v).value)
    ensures r.Some? ==> r == AsStr(v)
  {
    match AsStr(v)
    case None => None
    case Some(s) =>
      if lo <= |s| && (hi.Some? ==> |s| <= hi.value) && re(s) then Some(s) else None
  }

  /** `conint(ge=lo, le=hi)`. */
  function ConInt(v: Json, lo: int, hi: int): (r: Option<int>)
    ensures r.Some? <==> AsInt(v).Some? && lo <= AsInt(v).value <= hi
    ensures r.Some? ==> r == AsInt(v)
  {
    match AsInt(v)
    case None => None
    case Some(n) => if lo <= n <= hi then Some(n) else None
  }

  /** A constrained string followed by the `validate_base64` validator. */
  function Base64Str(v: Json, lo: nat, hi: Option<nat>, re: string -> bool, field: string): (r: Option<string>)
    ensures r.Some? <==> ConStr(v, lo, hi, re).Some? && IsStrictB64(ConStr(v, lo, hi, re).value)
    ensures r.Some? ==> r == ConStr(v, lo, hi, re)
  {
    match ConStr(v, lo, hi, re)
    case None => None
    case Some(s) =>
      match ValidateBase64(s, field)
      case Success(t) => Some(t)
      case Failure(_) => None
  }

  // ---------------------------------------------------------------------
  // dict()

  /** Why `dict(v)` followed by `cls(**d)` fails: `dict()` itself refuses
      the value, or a key is not a str (a keyword argument must be). */
  datatype DictError = NotConvertible | NonStringKey

  /** A hashable value that is not a str: a valid dict key that is not a
      valid keyword. */
  predicate IsOtherKey(k: Json) {
    k.Null? || k.Bool? || k.Int?
  }

  /** An element `dict()` accepts as a key/value pair: a two-element list,
      a two-character str, or a dict with two keys (iterating a dict gives
      its keys); the key must be hashable. */
  predicate IsPair(item: Json) {
    match item
    case Arr(p) => |p| == 2 && (p[0].Str? || IsOtherKey(p[0]))
    case Str(s) => |s| == 2
    case Obj(ms) => |ms| == 2
    case _ => false
  }

  /** The pair is keyed by a str. */
  predicate HasStrKey(item: Json)
    requires IsPair(item)
  {
    !(item.Arr? && IsOtherKey(item.items[0]))
  }

  function PairKey(item: Json): string
    requires IsPair(item) && HasStrKey(item)
  {
    match item
    case Arr(p) => p[0].s
    case Str(s) => [s[0]]
    case Obj(ms) => ms[0].key
  }

  function PairValue(item: Json): Json
    requires IsPair(item)
  {
    match item
    case Arr(p) => p[1]
    case Str(s) => Str([s[1]])
    case Obj(ms) => Str(ms[1].key)
  }

  /** The dict built from the pairs in order: a later key replaces the value
      of an earlier one and keeps its position. */
  function Pairs(acc: seq<Member>, items: seq<Json>): (r: seq<Member>)
    requires forall k :: 0 <= k < |items| ==> IsPair(items[k]) && HasStrKey(items[k])
    requires DistinctKeys(acc)
    ensures DistinctKeys(r)
    decreases |items|
  {
    if |items| == 0 then acc
    else
      PutDistinct(acc, PairKey(items[0]), PairValue(items[0]));
      Pairs(Put(acc, PairKey(items[0]), PairValue(items[0])), items[1..])
  }

  /** `dict(v)` then the keyword check of `cls(**d)`, for a value a model
      is validated from. A dict is used as it is; the empty str is the
      empty dict; a list is read as pairs; anything else is refused. */
  function AsDict(v: Json): (r: Result<seq<Member>, DictError>)
    ensures v.Obj? ==> r == Success(v.members)
    ensures v.Null? || v.Bool? || v.Int? ==> r == Failure(NotConvertible)
    ensures v.Str? ==> (r.Success? <==> v.s == "")
    ensures r.Success? && v.Arr? ==> DistinctKeys(r.value)
  {
    match v
    case Obj(ms) => Success(ms)
    case Str(s) => if s == "" then Success([]) else Failure(NotConvertible)
    case Arr(items) =>
      if !(forall k :: 0 <= k < |items| ==> IsPair(items[k])) then Failure(NotConvertible)
      else if !(forall k :: 0 <= k < |items| ==> HasStrKey(items[k])) then Failure(NonStringKey)
      else Success(Pairs([], items))
    case _ => Failure(NotConvertible)
  }

  // ---------------------------------------------------------------------
  // Fields

  /** The unknown fields `extra = "forbid"` reports. */
  function Extras(ms: seq<Member>, fields: set<string>): (e: Errors)
    ensures forall k :: k in e <==> k in Keys(ms) && k !in fields
  {
    set k | k in Keys(ms) && k !in fields
  }

  /** Replacing the value of a present key changes no unknown field. */
  lemma ExtrasOfPut(ms: seq<Member>, k: string, v: Json, fields: set<string>)
    requires k in Keys(ms)
    ensures Extras(Put(ms, k, v), fields) == Extras(ms, fields)
  {
    assert Keys(Put(ms, k, v)) == Keys(ms);
  }

  /** The location of a failed field, if it failed. */
  function ErrorAt<T>(field: string, r: Option<T>): (e: Errors)
    ensures field in e <==> r.None?
    ensures e <= {field}
  {
    if r.None? then {field} else {}
  }

  /** A required field checked by `check`: a missing one fails. */
  function Required<T>(ms: seq<Member>, field: string, check: Json -> Option<T>): (r: Option<T>)
    ensures Get(ms, field).None? ==> r.None?
    ensures Get(ms, field).Some? ==> r == check(Get(ms, field).value)
  {
    match Get(ms, field)
    case None => None
    case Some(v) => check(v)
  }

  /** `Optional[T] = None`: a missing field or null is None; any other
      value is checked by `check`. */
  function Optional<T>(ms: seq<Member>, field: string, check: Json -> Option<T>): (r: Option<Option<T>>)
    ensures Get(ms, field).None? || Get(ms, field) == Some(Null) ==> r == Some(None)
    ensures Get(ms, field).Some? && Get(ms, field) != Some(Null) ==>
      (r.Some? <==> check(Get(ms, field).value).Some?)
    ensures r.Some? && r.value.Some? ==> check(Get(ms, field).value) == r.value
  {
    match Get(ms, field)
    case None => Some(None)
    case Some(Null) => Some(None)
    case Some(v) =>
      match check(v)
      case None => None
      case Some(x) => Some(Some(x))
  }

  /** `Optional[T]` as the value `.dict()` writes: null for None. */
  function OptStrJson(v: Option<string>): Json {
    match v
    case None => Null
    case Some(s) => Str(s)
  }
}

=== FILE: seqs.dfy ===
/** Generic facts about sequences: mapping a function over one, and how
    reordering interacts with it. */
module Seqs {
  /** `[f(x) for x in s]`. */
  function Map<T, U>(f: T -> U, s: seq<T>): (r: seq<U>)
    ensures |r| == |s|
  {
    if |s| == 0 then [] else [f(s[0])] + Map(f, s[1..])
  }

  lemma {:induction false} MapAppend<T, U>(f: T -> U, a: seq<T>, b: seq<T>)
    ensures Map(f, a + b) == Map(f, a) + Map(f, b)
  {
    if |a| == 0 {
      assert a + b == b;
    } else {
      assert (a + b)[1..] == a[1..] + b;
      MapAppend(f, a[1..], b);
    }
  }

  /** Removing the element at position `k` removes one occurrence of it. */
  lemma RemoveAt<T>(b: seq<T>, k: nat)
    requires k < |b|
    ensures multiset(b[..k] + b[k + 1..]) == multiset(b) - multiset{b[k]}
    ensures k == 0 ==> b[..k] + b[k + 1..] == b[1..]
  {
    assert b == b[..k] + [b[k]] + b[k + 1..];
    assert multiset(b) == multiset(b[..k]) + multiset{b[k]} + multiset(b[k + 1..]);
  }

  lemma MapRemoveAt<T, U>(f: T -> U, b: seq<T>, k: nat)
    requires k < |b|
    ensures multiset(Map(f, b)) == multiset(Map(f, b[..k] + b[k + 1..])) + multiset{f(b[k])}
    ensures k == 0 ==> b[..k] + b[k + 1..] == b[1..]
  {
    var p, q := b[..k], b[k + 1..];
    assert b == p + [b[k]] + q;
    MapSplit(f, p, b[k], q);
  }

  lemma MapSplit<T, U>(f: T -> U, p: seq<T>, x: T, q: seq<T>)
    ensures multiset(Map(f, p + [x] + q)) == multiset(Map(f, p + q)) + multiset{f(x)}
  {
    MapAppend(f, p + [x], q);
    MapAppend(f, p, [x]);
    MapAppend(f, p, q);
    var u, v := Map(f, p), Map(f, q);
    assert Map(f, [x]) == [f(x)];
    assert multiset(u + [f(x)] + v) == multiset(u) + multiset{f(x)} + multiset(v);
  }

  /** Mapping a function over two reorderings of the same elements gives
      two reorderings of the same results. */
  lemma {:induction false} MapPermutation<T, U>(f: T -> U, a: seq<T>, b: seq<T>)
    requires multiset(a) == multiset(b)
    ensures multiset(Map(f, a)) == multiset(Map(f, b))
    decreases |a|
  {
    if |a| == 0 {
      assert |b| == |multiset(b)| == 0;
    } else {
      var k := IndexOf(b, a[0]);
      RemoveAt(b, k);
      RemoveAt(a, 0);
      MapPermutation(f, a[1..], b[..k] + b[k + 1..]);
      MapRemoveAt(f, b, k);
      MapRemoveAt(f, a, 0);
    }
  }

  lemma IndexOf<T>(b: seq<T>, x: T) returns (k: nat)
    requires x in multiset(b)
    ensures k < |b| && b[k] == x
  {
    k :| 0 <= k < |b| && b[k] == x;
  }

  // A step of JsonRoundTrip.ParseSerItems, JsonRoundTrip.ParseSerItemsMore, JsonRoundTrip.ParseSerMembers and 1 more, kept apart so each proof stays small.
  lemma ConsAppend<T>(acc: seq<T>, s: seq<T>)
    requires |s| > 0
    ensures acc + [s[0]] + s[1..] == acc + s
    ensures |s| == 1 ==> acc + [s[0]] == acc + s
  {
  }

  /** Regrouping `a + b + c + d + e` to the right. */
  // A step of JsonRoundTrip.SerItemsSplit and JsonRoundTrip.SerMembersSplit, kept apart so each proof stays small.
  lemma Regroup<T>(a: seq<T>, b: seq<T>, c: seq<T>, d: seq<T>, e: seq<T>)
    ensures a + b + c + d + e == a + (b + (c + d + e))
  {
  }

  // A step of JsonRoundTrip.ParseHexPair and JsonRoundTrip.ParseNegative, kept apart so each proof stays small.
  lemma Regroup3<T>(a: seq<T>, b: seq<T>, c: seq<T>)
    ensures a + b + c == a + (b + c)
  {
  }

  // A step of JsonRoundTrip.ArrayText and JsonRoundTrip.ObjectText, kept apart so each proof stays small.
  lemma Regroup4<T>(a: seq<T>, b: seq<T>, c: seq<T>, d: seq<T>)
    ensures a + b + c + d == a + (b + c + d)
  {
  }

  // A step of JsonRoundTrip.SerMemberSplit, kept apart so each proof stays small.
  lemma Regroup6<T>(a: seq<T>, b: seq<T>, c: seq<T>, d: seq<T>, e: seq<T>, f: seq<T>)
    ensures a + b + c + d + e + f == a + (b + c + (d + (e + f)))
  {
  }

  /** Dropping a one-element head. */
  // A step of JsonRoundTrip.SepSkip, JsonRoundTrip.PairEscapeText, JsonRoundTrip.ParseEscapeStep and 6 more, kept apart so each proof stays small.
  lemma DropHead<T>(a: seq<T>, t: seq<T>)
    requires |a| == 1
    ensures (a + t)[0] == a[0] && (a + t)[1..] == t
  {
  }

  // A step of JsonRoundTrip.LoadsDumps, kept apart so each proof stays small.
  lemma AppendEmpty<T>(s: seq<T>)
    ensures s + [] == s
  {
  }

  /** A sequence that differs from `p` at a position both have does not
      start with `p`. */
  lemma NotPrefixAt<T>(p: seq<T>, s: seq<T>, i: nat)
    requires i < |p| && i < |s| && p[i] != s[i]
    ensures !(p <= s)
  {
  }

  /** Cutting `a + c` around the element of `a` at `i`. */
  lemma SplitAt<T>(a: seq<T>, i: nat, c: seq<T>)
    requires i < |a|
    ensures a + c == a[..i] + ([a[i]] + (a[i + 1..] + c))
  {
    assert a == a[..i] + [a[i]] + a[i + 1..];
  }

  /** What is left of `a + b` after `|a|` elements. */
  // A step of Base64.StrictOfDataPad, kept apart so each proof stays small.
  lemma TakePrefix<T>(a: seq<T>, b: seq<T>)
    ensures (a + b)[..|a|] == a
  {
  }

  lemma AppendSplit<T>(a: seq<T>, b: seq<T>, i: nat)
    requires i <= |b|
    ensures a + b[..i] + b[i..] == a + b
  {
    assert b[..i] + b[i..] == b;
  }

  // A step of Base64.StrictOfDataPad and JsonRoundTrip.ParseHexPair, kept apart so each proof stays small.
  lemma DropPrefix<T>(a: seq<T>, b: seq<T>)
    ensures (a + b)[|a|..] == b
  {
  }
}

=== FILE: time.dfy ===
/** utils/time.py: `iso_to_epoch`, the conversion of an event's ISO 8601
    timestamp to whole seconds since 1970-01-01T00:00:00 UTC. The date
    arithmetic is that of CPython's datetime module (proleptic Gregorian
    ordinals); the accepted text is the extended form with an explicit UTC
    offset, `YYYY-MM-DD?HH:MM:SS[.fff|.ffffff]+HH:MM`, as `iso_now` and
    section 5.6 of RFC 3339 write it. */
module Time {
  import opened Wrappers
  import opened Python
  import opened Json

  // ---------------------------------------------------------------------
  // Calendar

  predicate IsLeap(y: int) {
    y % 4 == 0 && (y % 100 != 0 || y % 400 == 0)
  }

  function DaysInMonth(y: int, m: int): (n: nat)
    requires 1 <= m <= 12
    ensures 28 <= n <= 31
  {
    if m == 2 then (if IsLeap(y) then 29 else 28)
    else if m == 4 || m == 6 || m == 9 || m == 11 then 30
    else 31
  }

  /** Days in the months of year `y` before month `m`. */
  function DaysBeforeMonth(y: int, m: int): nat
    requires 1 <= m <= 12
  {
    [0, 31, 59, 90, 120, 151, 181, 212, 243, 273, 304, 334][m - 1]
      + (if m > 2 && IsLeap(y) then 1 else 0)
  }

  /** Days in the years before year `y`, counted from year 1. */
  function DaysBeforeYear(y: int): nat
    requires y >= 1
  {
    var p := y - 1;
    p * 365 + p / 4 - p / 100 + p / 400
  }

  /** `date(y, m, d).toordinal()`: 1 for 0001-01-01. */
  function Ordinal(y: int, m: int, d: int): int
    requires y >= 1 && 1 <= m <= 12
  {
    DaysBeforeYear(y) + DaysBeforeMonth(y, m) + d
  }

  /** The ordinal of 1970-01-01. */
  const EPOCH_ORDINAL := 719163

  lemma EpochOrdinal()
    ensures Ordinal(1970, 1, 1) == EPOCH_ORDINAL
  {
  }

  /** The last day of a month is followed by the first of the next. */
  lemma NextMonth(y: int, m: int)
    requires y >= 1 && 1 <= m < 12
    ensures Ordinal(y, m + 1, 1) == Ordinal(y, m, DaysInMonth(y, m)) + 1
  {
  }

  lemma QuarterStep(p: nat)
    ensures (p + 1) / 4 == p / 4 + (if (p + 1) % 4 == 0 then 1 else 0)
  {
  }

  lemma CenturyStep(p: nat)
    ensures (p + 1) / 100 == p / 100 + (if (p + 1) % 100 == 0 then 1 else 0)
  {
  }

  lemma QuadricentennialStep(p: nat)
    ensures (p + 1) / 400 == p / 400 + (if (p + 1) % 400 == 0 then 1 else 0)
  {
  }

  /** Every fourth century year is a century year, and every century year
      is a fourth year. */
  lemma DivisorChain(n: int)
    ensures n % 100 == 0 ==> n % 4 == 0
    ensures n % 400 == 0 ==> n % 100 == 0
  {
    if n % 100 == 0 {
      assert n == 4 * (25 * (n / 100));
    }
    if n % 400 == 0 {
      assert n == 100 * (4 * (n / 400));
    }
  }

  /** A year has 366 days when it is a leap year and 365 otherwise. */
  lemma YearLength(y: int)
    requires y >= 1
    ensures DaysBeforeYear(y + 1) == DaysBeforeYear(y) + (if IsLeap(y) then 366 else 365)
  {
    var p := y - 1;
    DivisorChain(y);
    QuarterStep(p);
    CenturyStep(p);
    QuadricentennialStep(p);
  }

  /** December 31 is followed by January 1 of the next year. */
  lemma NextYear(y: int)
    requires y >= 1
    ensures Ordinal(y + 1, 1, 1) == Ordinal(y, 12, 31) + 1
  {
    YearLength(y);
  }

  /** The ordinal counts days: the calendar day after (y, m, d) has the
      next ordinal. */
  lemma NextDay(y: int, m: int, d: int)
    requires y >= 1 && 1 <= m <= 12 && 1 <= d <= DaysInMonth(y, m)
    ensures d < DaysInMonth(y, m) ==> Ordinal(y, m, d + 1) == Ordinal(y, m, d) + 1
    ensures d == DaysInMonth(y, m) && m < 12 ==> Ordinal(y, m + 1, 1) == Ordinal(y, m, d) + 1
    ensures d == DaysInMonth(y, m) && m == 12 ==> Ordinal(y + 1, 1, 1) == Ordinal(y, m, d) + 1
  {
    if d == DaysInMonth(y, m) {
      if m < 12 { NextMonth(y, m); } else { NextYear(y); }
    }
  }

  // ---------------------------------------------------------------------
  // Timestamps

  /** The fields of a timestamp with an offset of sign * (hours:minutes). */
  datatype Stamp = Stamp(
    year: nat, month: nat, day: nat,
    hour: nat, minute: nat, second: nat, micro: nat,
    sign: int, offsetHour: nat, offsetMinute: nat)

  /** The ranges `datetime` and `timezone` enforce. */
  predicate InRange(st: Stamp) {
    && 1 <= st.year <= 9999 && 1 <= st.month <= 12 && 1 <= st.day <= DaysInMonth(st.year, st.month)
    && st.hour < 24 && st.minute < 60 && st.second < 60 && st.micro < 1000000
    && (st.sign == 1 || st.sign == -1) && st.offsetHour < 24 && st.offsetMinute < 60
  }

  /** Microseconds since the epoch of the instant the stamp denotes: the
      wall-clock time minus its offset. */
  function InstantMicros(st: Stamp): int
    requires InRange(st)
  {
    var days := Ordinal(st.year, st.month, st.day) - EPOCH_ORDINAL;
    var local := days * 86400 + st.hour * 3600 + st.minute * 60 + st.second;
    var offset := st.sign * (st.offsetHour * 3600 + st.offsetMinute * 60);
    (local - offset) * 1000000 + st.micro
  }

  /** The exact quotient a / b cut toward zero: what `int()` would give if
      the division were carried out on real numbers. */
  function TruncDiv(a: int, b: int): (q: int)
    requires b > 0
    ensures a >= 0 ==> q == a / b
    ensures a < 0 ==> q <= 0 && -q == (-a) / b
  {
    if a >= 0 then a / b else -((-a) / b)
  }

  // ---------------------------------------------------------------------
  // Rounding to a double

  function Pow2(e: nat): (p: nat)
    ensures p >= 1
  {
    if e == 0 then 1 else 2 * Pow2(e - 1)
  }

  lemma {:induction false} Pow2Add(a: nat, b: nat)
    ensures Pow2(a + b) == Pow2(a) * Pow2(b)
    decreases b
  {
    if b > 0 {
      Pow2Add(a, b - 1);
    }
  }

  /** A larger exponent gives at least twice the power. */
  lemma {:induction false} Pow2Grows(a: nat, b: nat)
    requires a < b
    ensures 2 * Pow2(a) <= Pow2(b)
    decreases b
  {
    if b > a + 1 {
      Pow2Grows(a, b - 1);
    }
  }

  const TWO_33 := 0x2_0000_0000
  const TWO_34 := 0x4_0000_0000
  const TWO_53 := 0x20_0000_0000_0000

  lemma Pow2Values()
    ensures Pow2(33) == TWO_33 && Pow2(34) == TWO_34
    ensures Pow2(35) == 0x8_0000_0000 && Pow2(37) == 0x20_0000_0000
  {
    assert Pow2(4) == 16;
    Pow2Add(4, 4);
    Pow2Add(8, 8);
    Pow2Add(16, 16);
    Pow2Add(32, 1);
    Pow2Add(32, 2);
    Pow2Add(32, 3);
    Pow2Add(32, 5);
  }

  /** The binade of n: 2^e <= n < 2^(e+1). */
  function Log2(n: nat): (e: nat)
    requires n >= 1
    ensures Pow2(e) <= n < 2 * Pow2(e)
  {
    if n == 1 then 0 else Log2(n / 2) + 1
  }

  /** Only one exponent brackets n. */
  lemma Log2Is(n: nat, e: nat)
    requires Pow2(e) <= n < 2 * Pow2(e)
    ensures Log2(n) == e
  {
    var f := Log2(n);
    if f < e {
      Pow2Grows(f, e);
    } else if f > e {
      Pow2Grows(e, f);
    }
  }

  const MICROS := 1000000

  /** Whether the double nearest to n - d / 10^6 is n itself, for an
      integer 1 <= n < 2^52 and 0 < d < 10^6. With 2^e <= n < 2^(e+1), the
      doubles just below n are 2^(e-52) apart, or 2^(e-53) when n is 2^e
      and its predecessor lies in the binade below. A value within half a
      gap of n rounds to n, and so does a tie, because n's last significant
      bit is 0 (round half to even). Both sides are multiplied by
      10^6 * 2^53 to compare integers. */
  predicate RoundsOnto(n: nat, d: nat)
    requires n >= 1
  {
    var p := Pow2(Log2(n));
    d * TWO_53 * (if n == p then 2 else 1) <= p * MICROS
  }

  /** `int(m / 10**6)` for m >= 0 microseconds as Python computes it: the
      true division of two ints rounds to the nearest double, and `int()`
      cuts that toward zero. The result is the exact quotient, or one more
      when the remainder lies close enough below the next whole second for
      the division to land on it. */
  function DoubleSeconds(m: nat): (s: nat)
    ensures s == m / MICROS || (m % MICROS != 0 && s == m / MICROS + 1)
  {
    var q, r := m / MICROS, m % MICROS;
    if r != 0 && RoundsOnto(q + 1, MICROS - r) then q + 1 else q
  }

  /** `int(dt.timestamp())` for an aware datetime: `timestamp()` is
      `(dt - epoch).total_seconds()`, the microseconds divided by 10**6
      and rounded to the nearest double. Rounding to nearest and `int()`
      are both symmetric about zero. Every datetime lies within 2^52
      seconds of the epoch, where `RoundsOnto` holds. */
  function Epoch(st: Stamp): int
    requires InRange(st)
  {
    var m := InstantMicros(st);
    if m >= 0 then DoubleSeconds(m) as int else -(DoubleSeconds(-m) as int)
  }

  /** Within 2^34 seconds of the epoch (from the year 1425 to 2514) the
      rounding never reaches the next second: the division is as good as
      exact. */
  lemma ExactNearEpoch(m: nat)
    requires m < TWO_34 * MICROS
    ensures DoubleSeconds(m) == m / MICROS
  {
    var q, r := m / MICROS, m % MICROS;
    assert q < TWO_34;
    if r != 0 {
      var n := q + 1;
      var e := Log2(n);
      var p := Pow2(e);
      Pow2Values();
      if n != p {
        if e >= 34 {
          if e > 34 {
            Pow2Grows(34, e);
          }
          assert false;
        }
        if e < 33 {
          Pow2Grows(e, 33);
        }
        assert p * MICROS <= TWO_33 * MICROS < TWO_53;
      }
    }
  }

  /** So near the epoch `int(dt.timestamp())` is the instant's microseconds
      cut toward zero. */
  lemma EpochNearEpoch(st: Stamp)
    requires InRange(st) && -TWO_34 * MICROS < InstantMicros(st) < TWO_34 * MICROS
    ensures Epoch(st) == TruncDiv(InstantMicros(st), MICROS)
  {
    var m := InstantMicros(st);
    if m >= 0 {
      ExactNearEpoch(m);
    } else {
      ExactNearEpoch(-m);
    }
  }

  // ---------------------------------------------------------------------
  // Reading the text

  predicate DigitsAt(t: string, i: nat, n: nat) {
    i + n <= |t| && forall k :: i <= k < i + n ==> IsDigit(t[k])
  }

  /** The value of the `n` digits at `i`. */
  function NumberAt(t: string, i: nat, n: nat): nat
    requires DigitsAt(t, i, n)
  {
    if n == 0 then 0 else NumberAt(t, i, n - 1) * 10 + DigitValue(t[i + n - 1])
  }

  /** The fields of a text of the modelled form, before any range check:
      date, one separator character of any kind, time, an optional
      fraction of three or six digits, and a `+HH:MM` or `-HH:MM` offset. */
  function Shape(t: string): Option<Stamp> {
    if |t| != 25 && |t| != 29 && |t| != 32 then None
    else if !(DigitsAt(t, 0, 4) && t[4] == '-' && DigitsAt(t, 5, 2) && t[7] == '-' && DigitsAt(t, 8, 2)) then None
    else if !(DigitsAt(t, 11, 2) && t[13] == ':' && DigitsAt(t, 14, 2) && t[16] == ':' && DigitsAt(t, 17, 2)) then None
    else
      var fraction := |t| - 25;
      if fraction > 0 && !(t[19] == '.' && DigitsAt(t, 20, fraction - 1)) then None
      else
        var o := 19 + fraction;
        if !((t[o] == '+' || t[o] == '-') && DigitsAt(t, o + 1, 2) && t[o + 3] == ':' && DigitsAt(t, o + 4, 2)) then None
        else
          var micro := if fraction == 0 then 0
            else if fraction == 4 then NumberAt(t, 20, 3) * 1000
            else NumberAt(t, 20, 6);
          Some(Stamp(NumberAt(t, 0, 4), NumberAt(t, 5, 2), NumberAt(t, 8, 2),
            NumberAt(t, 11, 2), NumberAt(t, 14, 2), NumberAt(t, 17, 2), micro,
            if t[o] == '+' then 1 else -1, NumberAt(t, o + 1, 2), NumberAt(t, o + 4, 2)))
  }

  /** What `datetime.fromisoformat` makes of a text: a datetime, a
      ValueError, or a form this model does not cover (basic and week
      formats, reduced precision, other fraction lengths, offsets without
      minutes or with seconds, naive times, hour 24). */
  datatype Reading = Parsed(stamp: Stamp) | Invalid | Unmodelled

  function FromIsoFormat(t: string): (r: Reading)
    ensures r.Parsed? ==> InRange(r.stamp)
    ensures t == "" ==> r == Invalid
  {
    if t == "" then Invalid
    else match Shape(t)
      case None => Unmodelled
      case Some(st) =>
        if st.hour == 24 || st.offsetMinute >= 60 then Unmodelled
        else if InRange(st) then Parsed(st)
        else Invalid
  }

  /** `s.replace("Z", "+00:00")`. */
  function ReplaceZ(s: string): (r: string)
    ensures forall k :: 0 <= k < |r| ==> r[k] != 'Z'
    ensures (forall k :: 0 <= k < |s| ==> s[k] != 'Z') ==> r == s
  {
    if |s| == 0 then []
    else (if s[0] == 'Z' then "+00:00" else [s[0]]) + ReplaceZ(s[1..])
  }

  lemma {:induction false} ReplaceZAppend(a: string, b: string)
    ensures ReplaceZ(a + b) == ReplaceZ(a) + ReplaceZ(b)
  {
    if |a| > 0 {
      assert (a + b)[1..] == a[1..] + b;
      ReplaceZAppend(a[1..], b);
    } else {
      assert a + b == b;
    }
  }

  /** `iso_to_epoch(value)`: a text ending in "Z" has every "Z" rewritten
      to "+00:00"; the result is the whole seconds of the parsed instant,
      and any exception gives 0. In the model a non-string (it has no
      `endswith`), the empty text, and a text of the modelled shape with a
      field out of range give 0; any other text is `OutOfModel`. */
  function IsoToEpoch(value: Json): (r: Result<int, PyError>)
    ensures !value.Str? ==> r == Success(0)
    ensures r.Failure? ==> r.error == OutOfModel
  {
    match value
    case Str(t) =>
      var text := if |t| > 0 && t[|t| - 1] == 'Z' then ReplaceZ(t) else t;
      (match FromIsoFormat(text)
       case Parsed(st) => Success(Epoch(st))
       case Invalid => Success(0)
       case Unmodelled => Failure(OutOfModel))
    case _ => Success(0)
  }

  // ---------------------------------------------------------------------
  // Properties

  /** A trailing "Z" means UTC: it reads as "+00:00". */
  lemma ZIsUtc(prefix: string)
    requires forall k :: 0 <= k < |prefix| ==> prefix[k] != 'Z'
    ensures IsoToEpoch(Str(prefix + "Z")) == IsoToEpoch(Str(prefix + "+00:00"))
  {
    ReplaceZAppend(prefix, "Z");
    assert ReplaceZ("Z") == "+00:00";
  }

  /** Every "Z" of such a text is rewritten, not only the last: the text
      that reaches the parser has none left. */
  lemma EveryZRewritten(t: string)
    requires |t| > 0 && t[|t| - 1] == 'Z'
    ensures IsoToEpoch(Str(t)) == match FromIsoFormat(ReplaceZ(t))
      case Parsed(st) => Success(Epoch(st))
      case Invalid => Success(0)
      case Unmodelled => Failure(OutOfModel)
    ensures forall k :: 0 <= k < |ReplaceZ(t)| ==> ReplaceZ(t)[k] != 'Z'
  {
  }

  /** A text that does not end in "Z" reaches the parser unchanged. */
  lemma OffsetKept(t: string)
    requires |t| > 0 && t[|t| - 1] != 'Z'
    ensures IsoToEpoch(Str(t)) == match FromIsoFormat(t)
      case Parsed(st) => Success(Epoch(st))
      case Invalid => Success(0)
      case Unmodelled => Failure(OutOfModel)
  {
  }

  /** With two "Z"s, both are rewritten: a "Z" used as the date-time
      separator (which `fromisoformat` would accept) is turned into an
      offset too. */
  lemma TwoZRewritten(a: string, b: string)
    requires forall k :: 0 <= k < |a| ==> a[k] != 'Z'
    requires forall k :: 0 <= k < |b| ==> b[k] != 'Z'
    ensures ReplaceZ(a + "Z" + b + "Z") == a + "+00:00" + b + "+00:00"
  {
    ReplaceZAppend(a + "Z" + b, "Z");
    ReplaceZAppend(a + "Z", b);
    ReplaceZAppend(a, "Z");
    assert ReplaceZ("Z") == "+00:00";
  }

  /** Moving the wall-clock time and the offset by the same hour denotes
      the same instant. */
  lemma ShiftHour(st: Stamp)
    requires InRange(st) && st.sign == 1 && st.hour < 23 && st.offsetHour < 23
    ensures InRange(st.(hour := st.hour + 1, offsetHour := st.offsetHour + 1))
    ensures Epoch(st.(hour := st.hour + 1, offsetHour := st.offsetHour + 1)) == Epoch(st)
  {
    assert InstantMicros(st.(hour := st.hour + 1, offsetHour := st.offsetHour + 1)) == InstantMicros(st);
  }

  /** Crossing midnight: 23:mm:ss at +00:00 and 00:mm:ss of the next day
      at +01:00 are the same instant. */
  lemma ShiftAcrossMidnight(st: Stamp)
    requires InRange(st) && st.hour == 23 && st.sign == 1 && st.offsetHour == 0 && st.offsetMinute == 0
    requires st.day < DaysInMonth(st.year, st.month)
    ensures var next := st.(day := st.day + 1, hour := 0, offsetHour := 1);
      InRange(next) && Epoch(next) == Epoch(st)
  {
    NextDay(st.year, st.month, st.day);
  }

  /** The ordinals of the days the examples use. */
  // A step of TruncatesTowardZero, HalfAfterEpoch, OneAndHalfBeforeEpoch and 2 more, kept apart so each proof stays small.
  lemma ExampleOrdinals()
    ensures Ordinal(1969, 12, 31) == 719162 && Ordinal(1970, 1, 1) == 719163
    ensures Ordinal(2025, 4, 30) == 739371 && Ordinal(2025, 5, 1) == 739372
  {
    assert DaysBeforeYear(1969) == 718797;
    assert DaysBeforeYear(1970) == 719162;
    assert DaysBeforeYear(2025) == 739251;
  }

  /** Fractional seconds are cut toward zero: half a second before the
      epoch is 0, not -1. */
  lemma TruncatesTowardZero()
    ensures Epoch(Stamp(1969, 12, 31, 23, 59, 59, 500000, 1, 0, 0)) == 0
  {
    ExampleOrdinals();
    var st := Stamp(1969, 12, 31, 23, 59, 59, 500000, 1, 0, 0);
    assert InstantMicros(st) == -500000;
    EpochIs(st, -500000, 0);
  }

  /** Half a second after the epoch is 0 as well. */
  lemma HalfAfterEpoch()
    ensures Epoch(Stamp(1970, 1, 1, 0, 0, 0, 500000, 1, 0, 0)) == 0
  {
    ExampleOrdinals();
    var st := Stamp(1970, 1, 1, 0, 0, 0, 500000, 1, 0, 0);
    assert InstantMicros(st) == 500000;
    EpochIs(st, 500000, 0);
  }

  /** One and a half seconds before the epoch is -1, not -2. */
  lemma OneAndHalfBeforeEpoch()
    ensures Epoch(Stamp(1969, 12, 31, 23, 59, 58, 500000, 1, 0, 0)) == -1
  {
    ExampleOrdinals();
    var st := Stamp(1969, 12, 31, 23, 59, 58, 500000, 1, 0, 0);
    assert InstantMicros(st) == -1500000;
    EpochIs(st, -1500000, -1);
  }

  /** The seconds of a stamp near the epoch whose microseconds are known. */
  lemma EpochIs(st: Stamp, m: int, s: int)
    requires InRange(st) && InstantMicros(st) == m && -TWO_34 * MICROS < m < TWO_34 * MICROS
    requires TruncDiv(m, MICROS) == s
    ensures Epoch(st) == s
  {
    EpochNearEpoch(st);
  }

  /** When the remainder lies within half a gap below the next second, the
      division lands on it. */
  lemma RoundsUp(m: nat, q: nat, r: nat, e: nat)
    requires m == q * MICROS + r && 0 < r < MICROS
    requires Pow2(e) < q + 1 < 2 * Pow2(e) && (MICROS - r) * TWO_53 <= Pow2(e) * MICROS
    ensures DoubleSeconds(m) == q + 1
  {
    assert m / MICROS == q && m % MICROS == r;
    Log2Is(q + 1, e);
  }

  /** A stamp after the epoch whose microseconds lie within half a gap
      below a whole second: its seconds are that second, one more than the
      exact quotient cut toward zero. */
  lemma EpochRoundsUpAfter(st: Stamp, q: nat, r: nat, e: nat)
    requires InRange(st) && InstantMicros(st) == q * MICROS + r && 0 < r < MICROS
    requires Pow2(e) < q + 1 < 2 * Pow2(e) && (MICROS - r) * TWO_53 <= Pow2(e) * MICROS
    ensures Epoch(st) == q + 1 && TruncDiv(InstantMicros(st), MICROS) == q
  {
    RoundsUp(q * MICROS + r, q, r, e);
  }

  /** The same before the epoch, rounding away from zero. */
  lemma EpochRoundsUpBefore(st: Stamp, q: nat, r: nat, e: nat)
    requires InRange(st) && InstantMicros(st) == -((q * MICROS + r) as int) && 0 < r < MICROS
    requires Pow2(e) < q + 1 < 2 * Pow2(e) && (MICROS - r) * TWO_53 <= Pow2(e) * MICROS
    ensures Epoch(st) == -(q as int + 1) && TruncDiv(InstantMicros(st), MICROS) == -(q as int)
  {
    RoundsUp(q * MICROS + r, q, r, e);
  }

  /** The last microsecond a datetime can hold, 9999-12-31T23:59:59.999999
      at UTC, and the first after 0001-01-01T00:00:00 UTC. */
  const LAST_STAMP := Stamp(9999, 12, 31, 23, 59, 59, 999999, 1, 0, 0)
  const FIRST_STAMP := Stamp(1, 1, 1, 0, 0, 0, 1, 1, 0, 0)

  lemma OrdinalOfYear9999()
    ensures Ordinal(9999, 12, 31) == 3652059
  {
    assert DaysBeforeYear(9999) == 3651694;
  }

  lemma MicrosInYear9999()
    ensures InRange(LAST_STAMP)
    ensures InstantMicros(LAST_STAMP) == 253402300799999999
  {
    OrdinalOfYear9999();
  }

  lemma MicrosInYearOne()
    ensures InRange(FIRST_STAMP)
    ensures InstantMicros(FIRST_STAMP) == -62135596799999999
  {
  }

  /** At the last microsecond a datetime can hold, the division rounds up
      onto 253402300800, one second more than the microseconds cut toward
      zero. */
  lemma RoundsUpInYear9999()
    ensures InRange(LAST_STAMP)
    ensures Epoch(LAST_STAMP) == 253402300800
    ensures TruncDiv(InstantMicros(LAST_STAMP), MICROS) == 253402300799
  {
    MicrosInYear9999();
    Pow2Values();
    EpochRoundsUpAfter(LAST_STAMP, 253402300799, 999999, 37);
  }

  /** At the first microsecond after year one began, before the epoch, the
      division rounds away from zero onto -62135596800, one second
      below the microseconds cut toward zero. */
  lemma RoundsUpInYearOne()
    ensures InRange(FIRST_STAMP)
    ensures Epoch(FIRST_STAMP) == -62135596800
    ensures TruncDiv(InstantMicros(FIRST_STAMP), MICROS) == -62135596799
  {
    MicrosInYearOne();
    Pow2Values();
    EpochRoundsUpBefore(FIRST_STAMP, 62135596799, 999999, 35);
  }

  /** A failed parse cannot be told apart from the epoch itself. */
  lemma FailureIsZero(value: Json)
    requires !value.Str? || value == Str("")
    ensures IsoToEpoch(value) == Success(0)
  {
  }

  /** A concrete reading: the instant of 2025-05-01T12:34:56 UTC, written
      at three offsets. */
  lemma ExampleStamp()
    ensures Epoch(Stamp(2025, 5, 1, 12, 34, 56, 0, 1, 0, 0)) == 1746102896
    ensures Epoch(Stamp(2025, 5, 1, 14, 34, 56, 0, 1, 2, 0)) == 1746102896
    ensures Epoch(Stamp(2025, 4, 30, 23, 34, 56, 0, -1, 13, 0)) == 1746102896
  {
    ExampleOrdinals();
    ExampleAtUtc();
    ExampleAtPlusTwo();
    ExampleAtMinusThirteen();
  }

  lemma ExampleAtUtc()
    requires Ordinal(2025, 5, 1) == 739372
    ensures Epoch(Stamp(2025, 5, 1, 12, 34, 56, 0, 1, 0, 0)) == 1746102896
  {
    assert InstantMicros(Stamp(2025, 5, 1, 12, 34, 56, 0, 1, 0, 0)) == 1746102896000000;
  }

  lemma ExampleAtPlusTwo()
    requires Ordinal(2025, 5, 1) == 739372
    ensures Epoch(Stamp(2025, 5, 1, 14, 34, 56, 0, 1, 2, 0)) == 1746102896
  {
    assert InstantMicros(Stamp(2025, 5, 1, 14, 34, 56, 0, 1, 2, 0)) == 1746102896000000;
  }

  lemma ExampleAtMinusThirteen()
    requires Ordinal(2025, 4, 30) == 739371
    ensures Epoch(Stamp(2025, 4, 30, 23, 34, 56, 0, -1, 13, 0)) == 1746102896
  {
    assert InstantMicros(Stamp(2025, 4, 30, 23, 34, 56, 0, -1, 13, 0)) == 1746102896000000;
  }

  const EXAMPLE_CLOCK := "2025-05-01T12:34:56"

  const EXAMPLE := "2025-05-01T12:34:56+00:00"

  /** The example is its clock time followed by the UTC offset. */
  // A step of ExampleUtc, kept apart so each proof stays small.
  lemma ExampleSplit()
    ensures EXAMPLE_CLOCK + "+00:00" == EXAMPLE
  {
    var a := EXAMPLE_CLOCK + "+00:00";
    assert |a| == |EXAMPLE|;
    forall k | 0 <= k < |a|
      ensures a[k] == EXAMPLE[k]
    {
    }
  }

  // A step of ExampleReading, kept apart so each proof stays small.
  lemma ExampleDigits()
    ensures DigitsAt(EXAMPLE, 0, 4) && DigitsAt(EXAMPLE, 5, 2) && DigitsAt(EXAMPLE, 8, 2)
    ensures DigitsAt(EXAMPLE, 11, 2) && DigitsAt(EXAMPLE, 14, 2) && DigitsAt(EXAMPLE, 17, 2)
    ensures DigitsAt(EXAMPLE, 20, 2) && DigitsAt(EXAMPLE, 23, 2)
  {
  }

  // A step of ExampleReading, kept apart so each proof stays small.
  lemma ExampleDate()
    requires DigitsAt(EXAMPLE, 0, 4) && DigitsAt(EXAMPLE, 5, 2) && DigitsAt(EXAMPLE, 8, 2)
    ensures NumberAt(EXAMPLE, 0, 4) == 2025 && NumberAt(EXAMPLE, 5, 2) == 5 && NumberAt(EXAMPLE, 8, 2) == 1
  {
    ExampleYear();
    ExampleMonthDay();
  }

  // A step of ExampleDate, kept apart so each proof stays small.
  lemma ExampleYear()
    requires DigitsAt(EXAMPLE, 0, 4)
    ensures NumberAt(EXAMPLE, 0, 4) == 2025
  {
    assert NumberAt(EXAMPLE, 0, 2) == 20;
  }

  // A step of ExampleDate, kept apart so each proof stays small.
  lemma ExampleMonthDay()
    requires DigitsAt(EXAMPLE, 5, 2) && DigitsAt(EXAMPLE, 8, 2)
    ensures NumberAt(EXAMPLE, 5, 2) == 5 && NumberAt(EXAMPLE, 8, 2) == 1
  {
  }

  // A step of ExampleReading, kept apart so each proof stays small.
  lemma ExampleClock()
    requires DigitsAt(EXAMPLE, 11, 2) && DigitsAt(EXAMPLE, 14, 2) && DigitsAt(EXAMPLE, 17, 2)
    requires DigitsAt(EXAMPLE, 20, 2) && DigitsAt(EXAMPLE, 23, 2)
    ensures NumberAt(EXAMPLE, 11, 2) == 12 && NumberAt(EXAMPLE, 14, 2) == 34 && NumberAt(EXAMPLE, 17, 2) == 56
    ensures NumberAt(EXAMPLE, 20, 2) == 0 && NumberAt(EXAMPLE, 23, 2) == 0
  {
  }

  /** The text `iso_now` writes for that instant reads back as it. */
  // A step of ExampleOffset, kept apart so each proof stays small.
  lemma ExampleReading()
    ensures FromIsoFormat(EXAMPLE) == Parsed(Stamp(2025, 5, 1, 12, 34, 56, 0, 1, 0, 0))
  {
    ExampleDigits();
    ExampleDate();
    ExampleClock();
  }

  /** The offset form of the example is its instant. */
  // A step of ExampleUtc, kept apart so each proof stays small.
  lemma ExampleOffset()
    ensures IsoToEpoch(Str(EXAMPLE)) == Success(1746102896)
  {
    OffsetKept(EXAMPLE);
    ExampleReading();
    ExampleOrdinals();
    ExampleAtUtc();
  }

  /** "2025-05-01T12:34:56Z", the form the source documents, is
      1746102896. */
  lemma ExampleUtc()
    ensures IsoToEpoch(Str(EXAMPLE_CLOCK + "Z")) == Success(1746102896)
  {
    ZIsUtc(EXAMPLE_CLOCK);
    ExampleSplit();
    ExampleOffset();
  }
}

=== FILE: users.dfy ===
/** core/users.py: the user table and the read-through cache in front of
    it. The table is a map from user id to the stored row (in column order);
    the cache maps user ids to the dicts `row_to_dict` made of those rows.
    Both are threaded through explicitly; TTL expiry and capacity eviction
    appear only as the explicit removal `EvictUser`. */
module Users {
  import opened Wrappers
  import opened Python
  import opened Json
  import opened Db
  import opened Time

  /** The columns of the `users` table, in declaration order
      (core/db_init.py), which is the order of `SELECT *`. */
  const USER_COLUMNS := ["user_id", "alias", "name", "email", "public_key", "tags", "version"]

  datatype UserStore = UserStore(rows: map<string, seq<Json>>, cache: map<string, Json>)

  /** Every stored row is keyed by its own user id and has one value per
      column. */
  predicate KeyedRows(st: UserStore) {
    forall u :: u in st.rows ==> |st.rows[u]| == |USER_COLUMNS| && st.rows[u][0] == Str(u)
  }

  /** The dict `get` builds for a stored row. */
  function UserDict(row: seq<Json>): (d: Json)
    ensures d.Obj?
  {
    RowToDict(USER_COLUMNS, Some(row))
  }

  /** The cache only ever holds the dict of the stored row. */
  predicate Coherent(st: UserStore) {
    forall u :: u in st.cache ==> u in st.rows && st.cache[u] == UserDict(st.rows[u])
  }

  // ---------------------------------------------------------------------
  // Reads

  /** `get(user_id)`: a cached record is returned as it is; otherwise the
      stored row, if any, is turned into a dict, cached and returned; a
      missing row gives None and caches nothing. */
  function GetUser(st: UserStore, userId: string): (r: (Option<Json>, UserStore))
    ensures r.1.rows == st.rows
    ensures userId in st.cache ==> r == (Some(st.cache[userId]), st)
    ensures userId !in st.cache && userId !in st.rows ==> r == (None, st)
    ensures userId !in st.cache && userId in st.rows ==>
      r.0 == Some(UserDict(st.rows[userId])) && r.1.cache == st.cache[userId := r.0.value]
  {
    if userId in st.cache then (Some(st.cache[userId]), st)
    else if userId in st.rows then
      var d := UserDict(st.rows[userId]);
      (Some(d), st.(cache := st.cache[userId := d]))
    else (None, st)
  }

  /** `exists(user_id)`: `get(user_id) is not None`, with the caching that
      `get` does. */
  function UserExists(st: UserStore, userId: string): (r: (bool, UserStore))
    ensures r.1 == GetUser(st, userId).1
    ensures r.0 <==> GetUser(st, userId).0.Some?
  {
    var (d, st') := GetUser(st, userId);
    (d.Some?, st')
  }

  /** `get_public_key(user_id)`: `.get('public_key', None)` on what `get`
      returned, so an unknown user is an AttributeError (None has no
      `.get`), not None. */
  function GetPublicKey(st: UserStore, userId: string): (r: (Result<Json, PyError>, UserStore))
    ensures r.1 == GetUser(st, userId).1
    ensures GetUser(st, userId).0 == None ==> r.0 == Failure(AttributeError)
    ensures GetUser(st, userId).0.Some? && GetUser(st, userId).0.value.Obj? ==>
      r.0 == Success(Get(GetUser(st, userId).0.value.members, "public_key").GetOr(Null))
  {
    var (d, st') := GetUser(st, userId);
    match d
    case None => (Failure(AttributeError), st')
    case Some(v) => (GetOr(v, "public_key", Null), st')
  }

  /** Expiry or eviction of one cached record. */
  function EvictUser(st: UserStore, userId: string): (st': UserStore)
    ensures st'.rows == st.rows && userId !in st'.cache
    ensures forall u :: u in st'.cache <==> u in st.cache && u != userId
  {
    st.(cache := st.cache - {userId})
  }

  // ---------------------------------------------------------------------
  // Registration

  /** `",".join(tags)` succeeds: a list of strings, a string (its
      characters) or a dict (its keys). Anything else is a TypeError. */
  predicate Joinable(tags: Json) {
    match tags
    case Arr(items) => forall k :: 0 <= k < |items| ==> items[k].Str?
    case Str(_) => true
    case Obj(_) => true
    case _ => false
  }

  const MIN_SQLITE_INTEGER := -0x8000_0000_0000_0000
  const MAX_SQLITE_INTEGER := 0x7FFF_FFFF_FFFF_FFFF

  /** A parameter bound to a TEXT column: None stays NULL, a string stays
      text, an int (or bool, an int in Python) is stored as its decimal
      text. An int outside 64 bits cannot be bound (OverflowError); a list
      or a dict cannot be bound at all. */
  function BindText(v: Json): (r: Result<Json, PyError>)
    ensures r.Success? ==> r.value.Null? || r.value.Str?
    ensures v.Str? || v.Null? ==> r == Success(v)
    ensures v.Arr? || v.Obj? ==> r == Failure(UnsupportedParameter)
  {
    match v
    case Null => Success(Null)
    case Str(s) => Success(Str(s))
    case Bool(b) => Success(Str(if b then "1" else "0"))
    case Int(i) =>
      if MIN_SQLITE_INTEGER <= i <= MAX_SQLITE_INTEGER then Success(Str(IntToDecimal(i)))
      else Failure(OverflowError)
    case _ => Failure(UnsupportedParameter)
  }

  /** The row the INSERT writes: the five given columns, then the table
      defaults for tags ('[]') and version (1). */
  function NewRow(userId: string, alias: Json, name: Json, email: Json, publicKey: Json): (row: seq<Json>)
    ensures |row| == |USER_COLUMNS| && row[0] == Str(userId)
  {
    [Str(userId), alias, name, email, publicKey, Str("[]"), Int(1)]
  }

  /** `INSERT INTO users (user_id, alias, name, email, public_key)`:
      alias and public_key are NOT NULL and user_id is the primary key. A
      row whose user_id is NULL (which SQLite accepts) cannot be reached
      by any lookup on a user id, so it leaves the keyed table as it was. */
  function Insert(st: UserStore, userId: Json, alias: Json, name: Json, email: Json, publicKey: Json): (r: Result<UserStore, PyError>)
    requires userId.Null? || userId.Str?
    ensures r.Failure? ==> r.error == IntegrityError
    ensures r.Success? ==> r.value.cache == st.cache
    ensures userId.Str? && userId.s in st.rows ==> r == Failure(IntegrityError)
    ensures r.Success? && userId.Str? ==> r.value.rows == st.rows[userId.s := NewRow(userId.s, alias, name, email, publicKey)]
    ensures r.Success? && userId.Null? ==> r.value == st
    ensures r.Success? && Coherent(st) ==> Coherent(r.value)
    ensures r.Success? && KeyedRows(st) ==> KeyedRows(r.value)
  {
    if alias.Null? || publicKey.Null? then Failure(IntegrityError)
    else if userId.Null? then Success(st)
    else if userId.s in st.rows then Failure(IntegrityError)
    else Success(st.(rows := st.rows[userId.s := NewRow(userId.s, alias, name, email, publicKey)]))
  }

  /** `register(event)`: the fields are read in the source's order (any
      missing one is a KeyError, a non-dict event or payload a TypeError);
      name and email default to ""; version is read and ignored; the tags
      are joined (and the result ignored); the timestamp is converted (and
      the result ignored); then the row is inserted. The cache is not
      touched. */
  function RegisterUser(st: UserStore, event: Json): (r: Result<UserStore, PyError>)
    ensures r.Success? ==> r.value.cache == st.cache
    ensures r.Success? ==> forall u :: u in st.rows ==> u in r.value.rows && r.value.rows[u] == st.rows[u]
    ensures r.Success? && Coherent(st) ==> Coherent(r.value)
    ensures r.Success? && KeyedRows(st) ==> KeyedRows(r.value)
  {
    var _ :- Index(event, "node_id");
    var payload :- Index(event, "payload");
    var userId :- Index(payload, "user_id");
    var alias :- Index(payload, "alias");
    var name := Get(payload.members, "name").GetOr(Str(""));
    var email := Get(payload.members, "email").GetOr(Str(""));
    var publicKey :- Index(payload, "public_key");
    var tags := Get(payload.members, "tags").GetOr(Arr([]));
    if !Joinable(tags) then Failure(TypeError)
    else
      var timestamp :- Index(event, "timestamp");
      var _ :- IsoToEpoch(timestamp);
      var u :- BindText(userId);
      var a :- BindText(alias);
      var n :- BindText(name);
      var e :- BindText(email);
      var k :- BindText(publicKey);
      Insert(st, u, a, n, e, k)
  }

  // ---------------------------------------------------------------------
  // Properties

  /** The dict of a stored row has the row's public key under
      "public_key". */
  lemma UserDictKey(row: seq<Json>)
    requires |row| == |USER_COLUMNS|
    ensures Get(UserDict(row).members, "public_key") == Some(row[4])
  {
    assert USER_COLUMNS[4] == "public_key" && USER_COLUMNS[5] != "public_key" && USER_COLUMNS[6] != "public_key";
    LaterColumnWins(USER_COLUMNS, row, 4);
  }

  /** The read-through cache is transparent: on a coherent store `get`
      answers exactly what the table holds, and keeps the store
      coherent. */
  lemma GetReadsThrough(st: UserStore, u: string)
    requires Coherent(st)
    ensures var (d, st') := GetUser(st, u);
      && Coherent(st')
      && (d.Some? <==> u in st.rows)
      && (d.Some? ==> d.value == UserDict(st.rows[u]))
  {
  }

  /** A cached record is returned without consulting the table: two
      stores with the same cache agree on it, whatever their rows. */
  lemma CachedIgnoresTable(st1: UserStore, st2: UserStore, u: string)
    requires st1.cache == st2.cache && u in st1.cache
    ensures GetUser(st1, u).0 == GetUser(st2, u).0 == Some(st1.cache[u])
  {
  }

  /** `exists` is membership in the table. */
  lemma ExistsIffStored(st: UserStore, u: string)
    requires Coherent(st)
    ensures UserExists(st, u).0 <==> u in st.rows
  {
    GetReadsThrough(st, u);
  }

  /** On a coherent store, `get_public_key` gives the stored public key
      of a known user and raises for an unknown one. */
  lemma PublicKeyOfStored(st: UserStore, u: string)
    requires Coherent(st) && KeyedRows(st)
    ensures u in st.rows ==> GetPublicKey(st, u).0 == Success(st.rows[u][4])
    ensures u !in st.rows ==> GetPublicKey(st, u).0 == Failure(AttributeError)
  {
    GetReadsThrough(st, u);
    if u in st.rows {
      UserDictKey(st.rows[u]);
    }
  }

  /** Evicting a cached record keeps the store coherent. */
  lemma EvictKeepsCoherent(st: UserStore, u: string)
    requires Coherent(st)
    ensures Coherent(EvictUser(st, u))
  {
  }

  /** The fields `register` reads, for an event that carries a user id,
      an alias and a public key as strings and no name, email or tags. */
  predicate Registration(event: Json, payload: Json, u: string, alias: string, key: string, ts: string) {
    && event.Obj? && payload.Obj?
    && Get(event.members, "node_id").Some?
    && Get(event.members, "payload") == Some(payload)
    && Get(event.members, "timestamp") == Some(Str(ts))
    && Get(payload.members, "user_id") == Some(Str(u))
    && Get(payload.members, "alias") == Some(Str(alias))
    && Get(payload.members, "public_key") == Some(Str(key))
    && Get(payload.members, "name") == None
    && Get(payload.members, "email") == None
    && Get(payload.members, "tags") == None
  }

  /** An event whose user id is already stored is refused by the primary
      key, once every field has been read. */
  lemma DuplicateIsIntegrityError(st: UserStore, event: Json, payload: Json, u: string, alias: string, key: string, ts: string)
    requires Registration(event, payload, u, alias, key, ts)
    requires IsoToEpoch(Str(ts)).Success?
    requires u in st.rows
    ensures RegisterUser(st, event) == Failure(IntegrityError)
  {
  }

  /** A new user is stored with the given fields, "" for the missing name
      and email, and the table defaults for tags and version. */
  lemma RegisterStoresDefaults(st: UserStore, event: Json, payload: Json, u: string, alias: string, key: string, ts: string)
    requires Registration(event, payload, u, alias, key, ts)
    requires IsoToEpoch(Str(ts)).Success?
    requires u !in st.rows
    ensures RegisterUser(st, event) ==
      Success(st.(rows := st.rows[u := [Str(u), Str(alias), Str(""), Str(""), Str(key), Str("[]"), Int(1)]]))
  {
  }
}

=== FILE: validators.dfy ===
/** core/validators.py: the base64 field check shared by the request and
    record schemas. */
module Validators {
  import opened Wrappers
  import opened Bytes
  import opened Base64

  /** The message of the ValueError raised for field `field`. */
  function Base64Message(field: string): string {
    field + " must be a valid base64-encoded string"
  }

  /** `validate_base64(value, field_name)`: strict decoding
      (`validate=True`); the value itself is returned when it decodes, and
      any decoding error becomes a ValueError naming the field. */
  function ValidateBase64(value: string, field: string): (r: Result<string, PyError>)
    ensures r.Success? <==> IsStrictB64(value)
    ensures r.Success? ==> r.value == value
    ensures r.Failure? ==> r.error == ValueError(Base64Message(field))
  {
    match DecodeStrict(value)
    case Success(_) => Success(value)
    case Failure(_) => Failure(ValueError(Base64Message(field)))
  }

  /** Every standard encoding of a byte string is accepted. */
  lemma ValidateEncoded(b: Bytes, field: string)
    ensures ValidateBase64(Encode(b), field) == Success(Encode(b))
  {
    EncodeIsStrict(b);
  }

  /** The empty string is the encoding of no bytes, so it is accepted. */
  lemma ValidateEmpty(field: string)
    ensures ValidateBase64("", field) == Success("")
  {
    ValidateEncoded([], field);
  }

  /** A character outside the alphabet and "=" is refused wherever it
      stands. */
  lemma ValidateRejectsForeign(value: string, field: string, j: nat)
    requires j < |value| && !IsB64Char(value[j]) && value[j] != '='
    ensures ValidateBase64(value, field) == Failure(ValueError(Base64Message(field)))
  {
    NotStrictBadChar(value, j);
  }

  /** A final group without the padding it needs is refused: "abc" is not
      accepted, only "abc=". */
  lemma ValidateRejectsUnpadded(field: string)
    ensures ValidateBase64("abc", field).Failure?
    ensures ValidateBase64("abc=", field) == Success("abc=")
  {
    LeadingDataIs("abc", 3);
    NotStrictLength("abc");
    LeadingDataIs("abc=", 3);
  }

  /** More than the needed padding is refused too. */
  lemma ValidateRejectsExtraPadding(field: string)
    ensures ValidateBase64("ab===", field).Failure?
  {
    LeadingDataIs("ab===", 2);
    NotStrictLength("ab===");
  }
}

=== FILE: wrappers.dfy ===
/** Failure-compatible wrappers used across the model, and the Python
    exception kinds the modelled code can raise. */
module Wrappers {

  datatype Option<+T> = None | Some(value: T) {
    predicate IsFailure() { None? }

    function PropagateFailure<U>(): Option<U>
      requires None?
    {
      None
    }

    function Extract(): T
      requires Some?
    {
      value
    }

    function GetOr(default: T): T {
      match this
      case Some(v) => v
      case None => default
    }
  }

  datatype Result<+R, +E> = Success(value: R) | Failure(error: E) {
    predicate IsFailure() { Failure? }

    function PropagateFailure<U>(): Result<U, E>
      requires Failure?
    {
      Failure(error)
    }

    function Extract(): R
      requires Success?
    {
      value
    }
  }

  /** The Python exceptions that matter to the modelled control flow. Only
      the class is kept, plus the detail the source puts in the message
      where a property is about that message. */
  datatype PyError =
    | KeyError(key: string)
    | TypeError
    | ValueError(message: string)
    | AttributeError
    | BadSignatureError
    | CryptoError
    | OverflowError
    | UnboundLocalError
    | RuntimeError(reason: string)
    | JsonDecodeError
    /** sqlite3 refusing a row: a NOT NULL or PRIMARY KEY constraint. */
    | IntegrityError
    /** sqlite3 refusing a parameter of a type it cannot store (a list
        or a dict). */
    | UnsupportedParameter
    /** A value Python can hold but this model's domain cannot: a float, a
        NaN or an infinity, or a string with a lone surrogate. */
    | OutOfModel
}
